=== FILE: README.md ===
# Schema compiler front end and isolate tools, modelled in Dafny

This project models two families of build tools.

The first is the front end of the JSON schema compiler (`tools/json_schema_compiler`):
- `model.py` builds the typed model — namespaces, types, functions, callbacks and properties — from a schema dictionary. It classifies each property, enforces the structural rules and raises `ParseException` with the hierarchy of the entity at fault. It also derives unix_names and freezes a unix_name once it is used.
- `cpp_util.py` holds the naming and type-mapping helpers of the C++ generator.
- `idl_schema.py` translates the node tree of an IDL file into the same dictionaries.
- The `Populate`, `ToValue`, `Params::Create` and `Result::Create` marshalling that the generated code performs for the arrays, enums and choices test schemas. It is stated as the tests state it, between a tagged value tree and typed records.

The second is the isolate tooling (`tools/isolate`):
- From `isolate.py`:
  - `<(VAR)` substitution;
  - the `normpath`/`relpath` wrappers that keep a trailing slash;
  - validation and expansion of the dependency list;
  - inference of the root directory from leading `../`;
  - the per-file manifest (normalised mode, size, time stamp, sha-1 reuse);
  - the table of information levels.
- From `trace_inputs.py`:
  - the strace log reader, which tracks the working directory of each process, joins interrupted and resumed calls, and splits the touched files into existing and missing;
  - `relevant_files` and `fix_python_path`;
  - the blacklist, `cleanuppath` and `fix` steps of `trace_inputs`;
  - the tracked/untracked split;
  - the gyp-style `pretty_print`.

Python's builtins that the code relies on have their own modules:
- `Text`: `str` methods and string order;
- `Sorting`: `sorted`, with and without a key;
- `Paths`: `posixpath`;
- `Json`: dictionaries and lists.

Where the code has an evident mistake, the model has both variants:
- the code as written, with a lemma that exhibits the input;
- the corrected code, which the rest of the model uses.

See "## Findings".

`SchemaModel.ParseProperty`, `SchemaModel.ParseNamespace` and the rest of the model build on the corrected `SchemaModel.ParseType`. In the code as written, a memberless type raises AttributeError about `parent` instead of ParseException. So does an array type whose `items` fails to parse: the item property is built (model.py:76-78) before `self.parent` is set, and the hierarchy of its error walks up through the unfinished type. That variant is `SchemaErrors.ParseTypeAsWritten`, and nothing else is built on it (see the `Type.__init__` row under "## Findings").

## Model

| member | source | states |
|---|---|---|
| SchemaModel.Hierarchy | tools/json_schema_compiler/model.py:315-325 | the labels run from the root down to the entity, the last one its own name (its repr when it has none); it is AttributeError('parent') exactly when some ancestor's parent is not yet assigned |
| SchemaModel.Raise | tools/json_schema_compiler/model.py:9-16 | a ParseException raised at a rooted entity carries that entity's hierarchy and the message; at an entity whose parent is unassigned, computing the hierarchy raises AttributeError instead |
| SchemaModel.ChildHierarchy | tools/json_schema_compiler/model.py:315-325 | the hierarchy of an entity whose parent is set is its parent's hierarchy followed by its own name |
| SchemaModel.FirstClassKey | tools/json_schema_compiler/model.py:185-249 | the key that decides a property's kind is present, no key the constructor tests earlier ($ref, enum, type, choices, value) is present, and there is none only when all five are absent |
| SchemaModel.ParseProperty | tools/json_schema_compiler/model.py:167-249 | a built property keeps its name, an unused unix_name derived from the name, 'optional' defaulting to false, and the type of the first classifying key present, ADDITIONAL_PROPERTIES when flagged as such |
| SchemaModel.PropertyKind | tools/json_schema_compiler/model.py:185-249 | the kind has the type the first classifying key names, and the choices of a choices property are keyed by their types, optional and without unix_name |
| SchemaModel.TypedKind | tools/json_schema_compiler/model.py:195-222 | a property with 'type' gets the type its string names among the seven known ones |
| SchemaModel.TypeKind | tools/json_schema_compiler/model.py:196-220 | 'array' builds an item property named name + "Element", 'object' an object kind, the other five names a simple type |
| SchemaModel.ItemProperty | tools/json_schema_compiler/model.py:208-210 | the item property of an array is named name + "Element" |
| SchemaModel.ChoicesKind | tools/json_schema_compiler/model.py:223-237 | a choices property maps each choice's type to that choice, made optional and with its unix_name cleared |
| SchemaModel.ValueKind | tools/json_schema_compiler/model.py:238-246 | a 'value' is accepted exactly when it is a Python int (64-bit), giving INTEGER; anything else raises naming its Python type |
| SchemaModel.ParseChoices | tools/json_schema_compiler/model.py:228-237 | the loop over the choices keeps every choice keyed by its type, optional and with a cleared unix_name, and loses none of the earlier keys |
| SchemaModel.ParseType | tools/json_schema_compiler/model.py:73-101 | a type keeps its name; it is an array exactly when 'type' is 'array', then with an item named name + "Element"; otherwise it is an object with properties, additionalProperties or functions; a truthy additionalProperties becomes an ADDITIONAL_PROPERTIES property |
| SchemaModel.TypeItem | tools/json_schema_compiler/model.py:74-85 | an item type exists exactly for type 'array'; a non-array type that passes has members |
| SchemaModel.AddAdditional | tools/json_schema_compiler/model.py:94-101 | a falsy or missing additionalProperties leaves the properties as they are; a truthy one adds exactly the key 'additionalProperties' with type ADDITIONAL_PROPERTIES and keeps every other property |
| SchemaModel.AddProperties | tools/json_schema_compiler/model.py:343-364 | the properties are keyed by their own names, and the keys are exactly the names of the entries that are not function-typed |
| SchemaModel.AddFunctions | tools/json_schema_compiler/model.py:335-341 | each function is keyed by its own name, and the keys are exactly the string names listed under 'functions' |
| SchemaModel.ParseFunctions | tools/json_schema_compiler/model.py:339-341 | the loop adds one function per remaining entry, keyed by its name: the keys are the earlier ones plus exactly the names of the entries from the current one on |
| SchemaModel.ParseFunction | tools/json_schema_compiler/model.py:135-148 | a function is named by its 'name' entry; its parameters are the entries that are not function-typed, in order and named by their 'name'; it has a callback exactly when one entry is function-typed, and two such entries raise |
| SchemaModel.ParseParams | tools/json_schema_compiler/model.py:141-148 | the parameter loop collects the plain parameters in order, takes the first function-typed entry as the callback and fails at a second |
| SchemaModel.NamedProperty | tools/json_schema_compiler/model.py:147-148 | a parameter property is named by its 'name' entry |
| SchemaModel.ParseCallback | tools/json_schema_compiler/model.py:109-122 | a callback has as many parameters as its 'parameters' list, and at most one |
| SchemaModel.GetUnixName | tools/json_schema_compiler/model.py:251-257 | reading succeeds exactly when a non-empty unix_name is set, returns it and marks it used; otherwise AttributeError naming the property |
| SchemaModel.SetUnixName | tools/json_schema_compiler/model.py:259-270 | setting the current name changes nothing; another name is refused with AttributeError once the current one has been used, and otherwise replaces it and nothing else |
| SchemaModel.Copy | tools/json_schema_compiler/model.py:272-278 | a copy has the same unix_name, is not marked used and is otherwise the same property |
| SchemaModel.ConstructedUnixName | tools/json_schema_compiler/model.py:177-179 | a freshly built property's unix_name is _UnixName of its name, not yet used |
| SchemaModel.FrozenAfterGet | tools/json_schema_compiler/model.py:251-270 | after a read, setting succeeds exactly for the name read, and then changes nothing |
| SchemaModel.SetThenGet | tools/json_schema_compiler/model.py:251-270 | before any read, any non-empty name can be set and is read back |
| SchemaModel.CopyUnfreezes | tools/json_schema_compiler/model.py:259-278 | a used property refuses a new name while its copy accepts it |
| SchemaNamespace.AddTypes | tools/json_schema_compiler/model.py:327-333 | the types are keyed by their own names, exactly the ids listed under 'types' |
| SchemaNamespace.ParseNamespace | tools/json_schema_compiler/model.py:47-55 | a namespace is named by its 'namespace' entry with _UnixName of it as unix_name, keeps the source file split into directory and slash-free file name, and files its types, functions and properties under their own names |
| SchemaNamespace.AddNamespace | tools/json_schema_compiler/model.py:27-32 | adding succeeds exactly when the namespace builds; it is filed under its name, replacing an earlier one of that name, and every other namespace is kept |
| SchemaErrors.PropertyWithoutKind | tools/json_schema_compiler/model.py:247-249 | a property without $ref, enum, type, choices or value raises the ParseException located at the property |
| SchemaErrors.UnknownTypeRaises | tools/json_schema_compiler/model.py:221-222 | a 'type' string outside the seven known ones raises "type T not recognized" |
| SchemaErrors.EmptyChoicesRaise | tools/json_schema_compiler/model.py:224-225 | an empty 'choices' list raises "Choices has no choices" |
| SchemaErrors.NonIntValueRaises | tools/json_schema_compiler/model.py:241-246 | a 'value' that is not a Python int raises, naming its type |
| SchemaErrors.RefNeverRaises | tools/json_schema_compiler/model.py:187-189 | $ref wins over every later key and never raises once the nested properties build |
| SchemaErrors.AdditionalNeverRaises | tools/json_schema_compiler/model.py:185-186 | the additional-properties flag wins over every key and never raises once the nested properties build |
| SchemaErrors.CallbackWithManyParams | tools/json_schema_compiler/model.py:119-122 | a callback with two or more parameters raises, located at the callback reported by its repr |
| SchemaErrors.SecondCallbackRaises | tools/json_schema_compiler/model.py:142-144 | a second function-typed parameter raises "NAME has more than one callback" |
| SchemaErrors.TypeWithoutMembers | tools/json_schema_compiler/model.py:80-84 | in the corrected constructor a memberless non-array type raises the ParseException located at the type |
| SchemaErrors.ParseTypeAsWritten | tools/json_schema_compiler/model.py:73-92 | the constructor as written: a memberless non-array type raises AttributeError('parent') because name and parent are assigned only after the check |
| SchemaErrors.MemberlessTypeReports | tools/json_schema_compiler/model.py:73-86 | the written and corrected constructors disagree on every memberless non-array type under a rooted parent |
| UnixName.UnixNameIsUnix | tools/json_schema_compiler/model.py:305-313 | the result is lower-case and free of dots |
| UnixName.ToUnixName | tools/json_schema_compiler/model.py:305-313 | every unix_name is lower-case and free of dots |
| UnixName.UnixNameByCuts | tools/json_schema_compiler/model.py:305-313 | the two substitutions equal the reference that inserts '_' at every lower/Upper boundary and before the last letter of an upper-case run followed by a lower-case letter, then replaces '.' and lower-cases |
| UnixName.SubAcronymIsInsert | tools/json_schema_compiler/model.py:311 | the scan of the second substitution agrees with the reference insertion everywhere |
| UnixName.SubLowerUpperIsInsert | tools/json_schema_compiler/model.py:309 | the scan of the first substitution agrees with the reference insertion |
| UnixName.UnixNameFixpoint | tools/json_schema_compiler/model.py:305-313 | a name is returned unchanged exactly when it already is lower-case and dot-free |
| UnixName.UnixNameIdempotent | tools/json_schema_compiler/model.py:305-313 | applying _UnixName twice gives what applying it once gives |
| UnixName.UnixNameAcronymExample | tools/json_schema_compiler/model.py:310-311 | an acronym run followed by a capitalised word is split before the run's last letter: "ABc" becomes "a_bc" |
| CppUtil.Classname | tools/json_schema_compiler/cpp_util.py:25-32 | succeeds exactly when no dot-separated segment is empty (otherwise IndexError), and the result is the segments, each with its first character upper-cased, joined with '_' |
| CppUtil.CapitalizeAll | tools/json_schema_compiler/cpp_util.py:32 | the comprehension succeeds exactly when no segment is empty and upper-cases the first character of each |
| CppUtil.ClassnameBySegments | tools/json_schema_compiler/cpp_util.py:32 | splitting at dots, capitalising and joining with '_' yields the classname, and fails exactly on an empty segment |
| CppUtil.GetValueType | tools/json_schema_compiler/cpp_util.py:48-59 | the seven listed types map to their Value::TYPE_ names; any other raises KeyError |
| CppUtil.ValueTypesShared | tools/json_schema_compiler/cpp_util.py:48-59 | only ENUM and STRING share a value type |
| CppUtil.GetAsFundamentalValue | tools/json_schema_compiler/cpp_util.py:34-46 | only the four fundamental types succeed, giving src->GetAsX(dst); others raise KeyError |
| CppUtil.GetParameterDeclaration | tools/json_schema_compiler/cpp_util.py:61-73 | succeeds exactly when the unix_name can be read, which freezes it; the declaration is the C++ type, '&' for REF/OBJECT/ARRAY/STRING or ' ' otherwise, then a blank and the unix_name |
| CppUtil.GenerateIfndefName | tools/json_schema_compiler/cpp_util.py:75-81 | each character of path_filename_H__ is upper-cased and each '/' becomes '_' |
| CppUtil.IfndefNameUpper | tools/json_schema_compiler/cpp_util.py:75-81 | the define name holds no lower-case letter |
| CppUtil.IfndefNameKeepsDots | tools/json_schema_compiler/cpp_util.py:75-81 | a dot in the file name survives: "gen", "file.h" gives GEN_FILE.H_H__, unlike the docstring's example |
| SchemaNamespace.ParseTypes | tools/json_schema_compiler/model.py:327-333 | the types loop keys every type by its id, adding to those already there |
| IdlComment.ProcessComment | tools/json_schema_compiler/idl_schema.py:26-47 | the parent comment and each parameter comment hold no newline and are stripped; the parameter names are exactly the bar-delimited names the pattern finds, none holding a bar |
| IdlComment.ParamMap | tools/json_schema_compiler/idl_schema.py:44-46 | each found name maps to the cleaned text of its last match, names found nowhere keep their earlier value, and no other name appears |
| IdlComment.FindParams | tools/json_schema_compiler/idl_schema.py:39 | every match of the parameter pattern has a name without '\|' and a text without newline |
| IdlComment.ParamAt | tools/json_schema_compiler/idl_schema.py:39 | a match starts at a newline and yields a bar-free name and a single-line text |
| IdlComment.DropBarLines | tools/json_schema_compiler/idl_schema.py:41 | deleting the bar lines never lengthens the comment |
| IdlComment.Clean | tools/json_schema_compiler/idl_schema.py:42 | the cleaned text holds no newline and has no leading or trailing whitespace |
| IdlComment.NoBarNoParams | tools/json_schema_compiler/idl_schema.py:39-41 | without a '\|' the pattern finds nothing and no line is deleted |
| IdlComment.PlainComment | tools/json_schema_compiler/idl_schema.py:26-47 | a comment without '\|' is just cleaned, with no parameter comments |
| IdlSchema.PrimitivesAreModelTypes | tools/json_schema_compiler/idl_schema.py:160-167 | the IDL primitives translate to type names the model recognises as fundamental or any |
| IdlSchema.SetType | tools/json_schema_compiler/idl_schema.py:161-177 | writing 'type' sets it and keeps every other key |
| IdlSchema.WithExtra | tools/json_schema_compiler/idl_schema.py:170-171 | an additionalProperties entry already present is kept as it is; otherwise an empty dict is added, and nothing else changes |
| IdlSchema.ExtraAny | tools/json_schema_compiler/idl_schema.py:172 | succeeds exactly when additionalProperties is a dict, whose 'type' becomes 'any'; item assignment on anything else raises TypeError |
| IdlSchema.WithInstanceOf | tools/json_schema_compiler/idl_schema.py:173-175 | isInstanceOf is added exactly when the parent's instanceOf is truthy, and nothing else changes |
| IdlSchema.ObjectType | tools/json_schema_compiler/idl_schema.py:168-175 | the object branch never fails on a dict without additionalProperties and writes the object description |
| IdlSchema.Inline | tools/json_schema_compiler/idl_schema.py:179-180 | a callback type inlines the callback's entries over the properties |
| IdlSchema.RefTo | tools/json_schema_compiler/idl_schema.py:181-182 | any other type name becomes a $ref and nothing else changes |
| IdlSchema.WriteType | tools/json_schema_compiler/idl_schema.py:160-184 | the type chain writes the description the TYPEREF calls for and fails only on an additionalProperties that is not a dict |
| IdlSchema.ArraySibling | tools/json_schema_compiler/idl_schema.py:153-154 | true exactly when some child is an Array node of the parent's own name |
| IdlSchema.WithOptional | tools/json_schema_compiler/idl_schema.py:148-149 | 'optional' is set to true exactly when the parent is OPTIONAL, and every other key is kept |
| IdlSchema.ArrayOf | tools/json_schema_compiler/idl_schema.py:155-157 | the array branch writes type 'array' and the items and keeps every other key |
| IdlSchema.Typeref | tools/json_schema_compiler/idl_schema.py:144-184 | with a same-named Array child the result is an array whose items describe the type; otherwise the type is written into the (optional-marked) base |
| IdlSchema.ParamProcess | tools/json_schema_compiler/idl_schema.py:75-78 | a parameter is a one-name entry with its type written in, and its translation never fails |
| IdlSchema.WithDescription | tools/json_schema_compiler/idl_schema.py:62-63 | a parameter named in the comments gets that comment as description; otherwise it is unchanged, and no other key changes |
| IdlSchema.CallspecProcess | tools/json_schema_compiler/idl_schema.py:58-65 | the function's name and one parameter per child, in child order, each described from the comments |
| IdlSchema.ReadComments | tools/json_schema_compiler/idl_schema.py:116-119 | the last Comment child decides the description and the parameter comments; without one nothing changes |
| IdlSchema.ReadCallspecs | tools/json_schema_compiler/idl_schema.py:120-124 | the member is a function exactly when some Callspec child exists, and the last one decides name and parameters |
| IdlSchema.Flags | tools/json_schema_compiler/idl_schema.py:110-113 | 'optional' and 'nodoc' are true exactly for the truthy properties, and no other key is written |
| IdlSchema.HeadDescription | tools/json_schema_compiler/idl_schema.py:116-119 | the member's description comes from its last Comment child |
| IdlSchema.HeadParameters | tools/json_schema_compiler/idl_schema.py:120-124 | the parameters come from the last Callspec child, described by the last Comment child |
| IdlSchema.HeadOptional | tools/json_schema_compiler/idl_schema.py:110-111 | an OPTIONAL member is marked optional, and only then |
| IdlSchema.HeadNodoc | tools/json_schema_compiler/idl_schema.py:112-113 | a member with a truthy nodoc property is marked nodoc, and only then |
| IdlSchema.HeadOnlyKeys | tools/json_schema_compiler/idl_schema.py:107-125 | before the type is written a member holds no key but optional, nodoc, description, parameters and name |
| IdlSchema.HeadHasNoExtra | tools/json_schema_compiler/idl_schema.py:107-125 | the member head has no additionalProperties, so writing its type cannot fail |
| IdlSchema.MemberProcess | tools/json_schema_compiler/idl_schema.py:107-131 | a member with a Callspec child is typed 'function'; any other gets the type its TYPEREF names written into its head |
| IdlNamespace.DictionaryPropertiesGet | tools/json_schema_compiler/idl_schema.py:89-93 | for each name, the last Member child reporting it wins; names no Member reports keep their earlier value |
| IdlNamespace.DictionaryProcess | tools/json_schema_compiler/idl_schema.py:88-96 | a dictionary becomes an object type with the node's name as id and its Member children as properties |
| IdlNamespace.DictionaryMembers | tools/json_schema_compiler/idl_schema.py:88-96 | the dictionary's properties hold, for each name, the last Member child reporting it, and nothing else |
| IdlNamespace.InterfaceMembers | tools/json_schema_compiler/idl_schema.py:221-227 | one entry per Member child, in order |
| IdlNamespace.AddDictionary | tools/json_schema_compiler/idl_schema.py:203-204 | a Dictionary node appends its object type and registers no callback |
| IdlNamespace.AddCallback | tools/json_schema_compiler/idl_schema.py:205-207 | a Callback node registers its entry under the name it reports, for the nodes after it |
| IdlNamespace.NamespaceStep | tools/json_schema_compiler/idl_schema.py:201-213 | a step succeeds exactly on the four handled node kinds, otherwise exits naming the node; only a Callback adds a callback and only a Dictionary adds a type |
| IdlNamespace.NamespaceLoop | tools/json_schema_compiler/idl_schema.py:200-213 | the loop succeeds exactly when every node is handled, otherwise exits at the first one that is not |
| IdlNamespace.LoopCallbacks | tools/json_schema_compiler/idl_schema.py:205-207 | after the loop the callbacks are exactly those of the Callback nodes |
| IdlNamespace.LoopTypes | tools/json_schema_compiler/idl_schema.py:203-204 | one type per Dictionary node, in order, each named by its node |
| IdlNamespace.NamespaceProcess | tools/json_schema_compiler/idl_schema.py:200-219 | succeeds exactly when every child is handled; the result names the namespace and carries its nodoc flag |
| IdlNamespace.NamespaceTypes | tools/json_schema_compiler/idl_schema.py:215-219 | the namespace's types are one object type per Dictionary child, in order, named by the child |
| IdlNamespace.SchemaNode | tools/json_schema_compiler/idl_schema.py:240-256 | a Namespace contributes its dictionary, Copyright, Comment and ExtAttribute nothing, and any other node exits |
| IdlNamespace.SchemaLoop | tools/json_schema_compiler/idl_schema.py:238-257 | the corrected loop succeeds exactly when every top-level node is handled and gives one dictionary per namespace |
| IdlNamespace.SchemaProcess | tools/json_schema_compiler/idl_schema.py:238-257 | the corrected schema gives one dictionary per namespace, or exits at the first node it does not handle |
| IdlNamespace.SchemaNamespaceAt | tools/json_schema_compiler/idl_schema.py:238-257 | the namespace at position j is the result at its count, with its name and the flag in force before it |
| IdlNamespace.SchemaNodoc | tools/json_schema_compiler/idl_schema.py:241-252 | in the corrected loop each namespace is nodoc exactly when a truthy [nodoc] attribute comes after the previous namespace and before it |
| IdlNamespace.SchemaLoopAsWritten | tools/json_schema_compiler/idl_schema.py:238-257 | the loop as written, resetting nodoc at the top of every iteration: same success and count as the corrected one |
| IdlNamespace.AsWrittenNeverNodoc | tools/json_schema_compiler/idl_schema.py:240-245 | as written every namespace comes out with nodoc false |
| IdlNamespace.SchemaLoopsAgree | tools/json_schema_compiler/idl_schema.py:238-257 | without a truthy [nodoc] attribute the written and corrected loops agree |
| IdlNamespace.NodocDropped | tools/json_schema_compiler/idl_schema.py:241-252 | [nodoc] followed by a namespace gives nodoc false as written and true as corrected |
| IdlExamples.PrimitiveParam | tools/json_schema_compiler/idl_schema_test.py:31-33 | a primitive parameter comes out as its name and its type and no other key |
| IdlExamples.CallbackParam | tools/json_schema_compiler/idl_schema_test.py:26-37 | a parameter of a callback type is the callback's own entry, name included |
| IdlExamples.ArrayOfTypeParam | tools/json_schema_compiler/idl_schema_test.py:39-44 | an array of a named type comes out as name, type 'array' and items {'$ref': T} only |
| IdlExamples.ArrayOfCallbackParam | tools/json_schema_compiler/idl_schema_test.py:47-52 | an array of callbacks has the callback's own entry as items |
| IdlNamespace.NamespaceDict | tools/json_schema_compiler/idl_schema.py:214-219 | the returned dictionary names the namespace, carries its nodoc flag, and holds the types, functions and events lists |
| Values.DecodeAll | tools/json_schema_compiler/test/arrays_unittest.cc:45-52 | a list decodes exactly when every element does, element by element and in order |
| Values.DecodeList | tools/json_schema_compiler/test/arrays_unittest.cc:54-77 | a list value decodes exactly when it is a list whose elements all decode |
| Values.EncodeAll | tools/json_schema_compiler/test/arrays_unittest.cc:126-139 | encoding keeps the length and encodes each element in place |
| Values.DecodeEncodeAll | tools/json_schema_compiler/test/arrays_unittest.cc:45-52 | decoding what was encoded gives the elements back |
| Values.DecodeEncodeList | tools/json_schema_compiler/test/arrays_unittest.cc:45-52 | decoding an encoded list value gives the elements back |
| Values.EncodeDecodeAll | tools/json_schema_compiler/test/arrays_unittest.cc:45-52 | encoding what was decoded gives the original list back when the element encoding inverts the decoding |
| Values.Required | tools/json_schema_compiler/test/choices_unittest.cc:45-77 | a required field succeeds exactly when present and decodable |
| Values.Optional | tools/json_schema_compiler/test/enums_unittest.cc:28-50 | an absent optional field is a successful None; a present one must decode |
| Values.PutOptional | tools/json_schema_compiler/test/enums_unittest.cc:28-44 | an optional field is written back exactly when set |
| Values.RequiredArg | tools/json_schema_compiler/test/enums_unittest.cc:52-68 | a required positional argument must be there and decode |
| Values.OptionalArg | tools/json_schema_compiler/test/enums_unittest.cc:70-93 | an optional argument left off the end is None; one given must decode |
| ArraysApi.ItemPopulate | tools/json_schema_compiler/test/arrays_unittest.cc:37-42 | an item is a dictionary whose 'val' is an integer |
| ArraysApi.ItemToValue | tools/json_schema_compiler/test/arrays_unittest.cc:37-42 | an item writes only 'val' and populates back to itself |
| ArraysApi.ItemBack | tools/json_schema_compiler/test/arrays_unittest.cc:37-42 | a dictionary holding only an integer 'val' is the value of the item it populates |
| ArraysApi.BasicArrayTypePopulate | tools/json_schema_compiler/test/arrays_unittest.cc:14-52 | populating succeeds exactly when all four lists are present with elements of their types, keeping each list's length |
| ArraysApi.BasicArrayRoundTrip | tools/json_schema_compiler/test/arrays_unittest.cc:45-52 | populating from ToValue gives the record back |
| ArraysApi.BasicArrayBack | tools/json_schema_compiler/test/arrays_unittest.cc:45-52 | ToValue after Populate reproduces a dictionary with exactly the four keys, the test's Equals check |
| ArraysApi.RefArrayTypePopulate | tools/json_schema_compiler/test/arrays_unittest.cc:54-78 | refs must be a list of items, decoded in order; one element that is not an item fails the record |
| ArraysApi.RefArrayRoundTrip | tools/json_schema_compiler/test/arrays_unittest.cc:54-78 | populating from ToValue gives the record back |
| ArraysApi.IntegerArrayCreate | tools/json_schema_compiler/test/arrays_unittest.cc:80-94 | the parameters are created exactly from one list of integers, kept in order |
| ArraysApi.AnyArrayCreate | tools/json_schema_compiler/test/arrays_unittest.cc:96-110 | one list is taken whatever its elements, unchanged |
| ArraysApi.RefArrayCreate | tools/json_schema_compiler/test/arrays_unittest.cc:112-124 | the parameters are created exactly from one list of item dictionaries, in order |
| ArraysApi.ReturnIntegerArrayResult | tools/json_schema_compiler/test/arrays_unittest.cc:126-139 | the result is a list that decodes back to the integers |
| ArraysApi.ReturnRefArrayResult | tools/json_schema_compiler/test/arrays_unittest.cc:141-159 | the result is a list of each item's dictionary, in order, decoding back to the items |
| ArraysApi.IntegerArrayFromResult | tools/json_schema_compiler/test/arrays_unittest.cc:80-139 | a result list is read back by Create into the same parameters |
| ArraysApi.RefArrayFromResult | tools/json_schema_compiler/test/arrays_unittest.cc:112-159 | a result list of items is read back by Create into the same parameters |
| ArraysApi.RefArrayTypeCase | tools/json_schema_compiler/test/arrays_unittest.cc:54-68 | three item dictionaries populate three items in order |
| ArraysApi.NotRefArrayCase | tools/json_schema_compiler/test/arrays_unittest.cc:70-77 | an integer among the items fails the record |
| ArraysApi.IntegerArrayCase | tools/json_schema_compiler/test/arrays_unittest.cc:80-94 | [2, 4, 8] creates nums 2, 4, 8 |
| ArraysApi.AnyArrayCase | tools/json_schema_compiler/test/arrays_unittest.cc:96-110 | an integer, a string and a dictionary are all kept, the first being 1 |
| ArraysApi.RefArrayParamsCase | tools/json_schema_compiler/test/arrays_unittest.cc:112-124 | two item dictionaries create refs 1 and 2 |
| EnumsApi.TypeFromString | tools/json_schema_compiler/test/enums_unittest.cc:11-26 | a string names an enum member exactly when it is that member's string |
| EnumsApi.TypeOf | tools/json_schema_compiler/test/enums_unittest.cc:11-26 | a value decodes to an enum member exactly when it is that member's string |
| EnumsApi.EnumTypePopulate | tools/json_schema_compiler/test/enums_unittest.cc:11-26 | 'type' must be present and one of the enum's strings |
| EnumsApi.EnumTypeToValue | tools/json_schema_compiler/test/enums_unittest.cc:11-19 | only 'type' is written, and it populates back to the record |
| EnumsApi.EnumTypeBack | tools/json_schema_compiler/test/enums_unittest.cc:11-19 | a dictionary with only a valid 'type' comes back unchanged through Populate and ToValue |
| EnumsApi.OptionalEnumTypePopulate | tools/json_schema_compiler/test/enums_unittest.cc:28-50 | an absent 'type' is NONE, a present one must be valid |
| EnumsApi.OptionalEnumTypeToValue | tools/json_schema_compiler/test/enums_unittest.cc:28-44 | NONE writes no key, a member writes its string, and the record populates back |
| EnumsApi.OptionalEnumTypeBack | tools/json_schema_compiler/test/enums_unittest.cc:28-44 | a dictionary with at most a valid 'type' comes back unchanged |
| EnumsApi.TakesEnumCreate | tools/json_schema_compiler/test/enums_unittest.cc:52-68 | created exactly from one valid state, which is read back as its string |
| EnumsApi.TakesOptionalEnumCreate | tools/json_schema_compiler/test/enums_unittest.cc:70-93 | no argument is NONE, one argument must be a valid state |
| EnumsApi.TakesMultipleOptionalEnumsCreate | tools/json_schema_compiler/test/enums_unittest.cc:95-131 | missing trailing arguments are NONE; every argument given must be valid, else nothing is created |
| EnumsApi.MultipleRoundTrip | tools/json_schema_compiler/test/enums_unittest.cc:95-131 | parameters without a set one after an unset one survive the trip through their argument list |
| EnumsApi.EnumTypeCases | tools/json_schema_compiler/test/enums_unittest.cc:11-26 | "one" populates TYPE_ONE, "invalid" fails |
| EnumsApi.OptionalEnumTypeCases | tools/json_schema_compiler/test/enums_unittest.cc:28-50 | "two" populates TYPE_TWO, an empty dictionary NONE and back, "invalid" fails |
| EnumsApi.TakesEnumCases | tools/json_schema_compiler/test/enums_unittest.cc:52-93 | "baz" creates STATE_BAZ, "invalid" fails, no argument gives NONE for the optional form |
| EnumsApi.TakesMultipleOptionalEnumsCases | tools/json_schema_compiler/test/enums_unittest.cc:95-131 | the four argument lists of the test create or fail as it expects |
| ChoicesApi.IntegersOf | tools/json_schema_compiler/test/choices_unittest.cc:11-43 | an integers choice is an integer or a list of integers, remembering which |
| ChoicesApi.IntegersRoundTrip | tools/json_schema_compiler/test/choices_unittest.cc:11-43 | decoding the value of a choice gives the choice back |
| ChoicesApi.StringsOf | tools/json_schema_compiler/test/choices_unittest.cc:45-77 | a strings choice is a string or a list of strings, remembering which |
| ChoicesApi.StringsRoundTrip | tools/json_schema_compiler/test/choices_unittest.cc:45-77 | decoding the value of a choice gives the choice back |
| ChoicesApi.TakesIntegersCreate | tools/json_schema_compiler/test/choices_unittest.cc:11-43 | created exactly from one integer or list of integers; a boolean fails |
| ChoicesApi.StringInfoOf | tools/json_schema_compiler/test/choices_unittest.cc:45-77 | 'strings' is required and 'integers' optional, each decoded as its choice |
| ChoicesApi.ObjectWithChoicesCreate | tools/json_schema_compiler/test/choices_unittest.cc:45-112 | created exactly from one valid string_info object |
| ChoicesApi.StringInfoRoundTrip | tools/json_schema_compiler/test/choices_unittest.cc:45-77 | a string_info object decodes to what it was built from, also through Create |
| ChoicesApi.ReturnChoicesResult | tools/json_schema_compiler/test/choices_unittest.cc:114-136 | a vector gives a list of its integers, a scalar a bare integer, each decoding back |
| ChoicesApi.TakesIntegersCases | tools/json_schema_compiler/test/choices_unittest.cc:11-43 | a boolean fails, 6 and [6, 8] create the integer and the array |
| ChoicesApi.ObjectWithChoicesCases | tools/json_schema_compiler/test/choices_unittest.cc:45-77 | strings alone, and strings with integers, create the expected objects |
| ChoicesApi.ObjectWithChoicesFailures | tools/json_schema_compiler/test/choices_unittest.cc:79-112 | a wrong strings type, a wrong integers type and missing strings each fail |
| ArraysApi.BasicArrayTypeToValue | tools/json_schema_compiler/test/arrays_unittest.cc:45-52 | the dictionary written holds exactly the four array keys |
| ArraysApi.RefArrayTypeToValue | tools/json_schema_compiler/test/arrays_unittest.cc:54-68 | the dictionary written holds exactly 'refs' |
| EnumsApi.StateOf | tools/json_schema_compiler/test/enums_unittest.cc:52-68 | a value is read as a state exactly when it is one of the state strings |
| EnumsApi.KindOf | tools/json_schema_compiler/test/enums_unittest.cc:95-131 | a value is read as a kind exactly when it is one of the kind strings |
| ChoicesApi.StringInfoValue | tools/json_schema_compiler/test/choices_unittest.cc:45-77 | the object passed holds 'strings', and 'integers' exactly when that choice is given |
| Values.AsInt | tools/json_schema_compiler/test/choices_unittest.cc:11-43 | a value is read as an integer exactly when it is an integer value, which it then equals |
| Json.Lookup | tools/json_schema_compiler/model.py:74 | a key's value is the value of one of the dictionary's entries with that key; a missing key has no entry |
| Json.Keys | tools/json_schema_compiler/model.py:81-83 | a key is among a dictionary's keys exactly when it has a value |
| Json.Get | tools/json_schema_compiler/model.py:87 | `get` finds a value exactly when the key is present, and the value is part of the dictionary |
| Json.GetOr | tools/json_schema_compiler/model.py:180 | `get` with a default gives the stored value when the key is present and the default otherwise |
| Json.Index | tools/json_schema_compiler/model.py:141 | indexing succeeds exactly when the key is present; a missing key raises KeyError naming it |
| Json.Set | tools/json_schema_compiler/idl_schema.py:111-125 | after an assignment the key holds the new value and every other key keeps its old one |
| Json.Update | tools/json_schema_compiler/model.py:219 | `update` sets every key of the other dictionary to its value there and leaves the other keys alone |
| Json.Elements | tools/json_schema_compiler/model.py:192 | iterating visits the list's elements, the string's characters or the dictionary's keys, and fails on anything else |
| Json.AsString | tools/json_schema_compiler/model.py:195-196 | a value is used as a string exactly when it is one |
| Paths.PathJoin | tools/isolate/isolate.py:83 | `os.path.join`: an absolute second part wins, otherwise the parts are joined by one '/' |
| Paths.SplitPath | tools/json_schema_compiler/model.py:51 | `os.path.split`: the tail holds no '/', the head is the part before it without trailing slashes |
| Paths.NormPath | tools/isolate/isolate.py:55 | `os.path.normpath` never gives an empty path |
| Paths.NormPathIdempotent | tools/isolate/isolate.py:53-58 | normalising twice is normalising once |
| Paths.NormPathTrailing | tools/isolate/isolate.py:53-58 | a trailing slash changes nothing in `normpath`, which is why the wrapper adds one back |
| Paths.NormPathSlashEnd | tools/isolate/isolate.py:53-58 | a normalised path ends with a slash only when it is the root |
| Paths.NormPathShape | tools/isolate/isolate.py:55 | a normalised path is its leading slashes followed by its normal components |
| Paths.AbsPath | tools/isolate/isolate.py:221 | `os.path.abspath` never gives an empty path |
| Paths.AbsComps | tools/isolate/isolate.py:221 | an absolute path's components contain no '.', '..' or empty one |
| Paths.CommonPrefixLen | tools/isolate/isolate.py:44 | the common prefix `relpath` finds is the longest one the two paths share |
| Paths.RelPath | tools/isolate/isolate.py:44 | `os.path.relpath` fails exactly for an empty path |
| Paths.RelPathJoined | tools/isolate/isolate.py:44 | the relative path is non-empty components joined by '/', never absolute |
| Paths.RelPathRoundTrip | tools/isolate/isolate.py:42-50 | joining the relative path onto the start and normalising leads back to the path |
| Text.Lower | tools/json_schema_compiler/model.py:313 | `lower` keeps the length and lowers each character |
| Text.Upper | tools/json_schema_compiler/cpp_util.py:32 | `upper` keeps the length and raises each character |
| Text.Replace | tools/json_schema_compiler/model.py:313 | replacing a character removes it when the replacement does not hold it, and changes nothing when it is absent |
| Text.Remove | tools/json_schema_compiler/idl_schema.py:42 | removing a character keeps exactly the other characters |
| Text.Strip | tools/json_schema_compiler/idl_schema.py:42 | `strip` leaves no whitespace at either end, removes nothing from a string without whitespace, and adds nothing |
| Text.RStripChar | tools/isolate/trace_inputs.py:1281 | `rstrip` removes exactly the run of that character at the end |
| Text.Split | tools/json_schema_compiler/cpp_util.py:32 | `split` gives at least one part and no part holds the separator |
| Text.JoinSplit | tools/json_schema_compiler/cpp_util.py:32 | joining the parts of a split gives the string back |
| Text.SplitJoin | tools/json_schema_compiler/cpp_util.py:32 | splitting a join of separator-free parts gives the parts back |
| Text.LessTotal | tools/isolate/trace_inputs.py:1102 | any two different strings are ordered one way or the other |
| Text.LessTransitive | tools/isolate/trace_inputs.py:1102 | string order is transitive |
| Sorting.Insert | tools/isolate/trace_inputs.py:1102 | inserting into a strictly increasing list keeps it strictly increasing and adds just the new string |
| Sorting.SortedSet | tools/isolate/trace_inputs.py:1102 | `sorted(set(xs))` is strictly increasing and holds exactly the strings of xs |
| Sorting.SortedUnique | tools/isolate/trace_inputs.py:1102 | the result depends only on the set of strings |
| Sorting.SortBy | tools/isolate/trace_inputs.py:1169 | `sorted` with a key orders by key and is a permutation of its input |
| Sorting.SortByStable | tools/isolate/trace_inputs.py:1169 | elements with equal keys keep their relative order |
| IsolateVariables.Token | tools/isolate/isolate.py:114 | a token is '<(' followed by a run of capitals and underscores and ')', and is recognised only then |
| IsolateVariables.TokenExact | tools/isolate/isolate.py:114 | every text that starts with a variable token is recognised as that variable's |
| IsolateVariables.EvalVariables | tools/isolate/isolate.py:113-122 | a failure is a KeyError naming a variable that is not defined; a text with no token is returned unchanged |
| IsolateVariables.EvalFailsIff | tools/isolate/isolate.py:113-122 | the substitution fails exactly when some token names an unknown variable |
| IsolateVariables.PiecesJoin | tools/isolate/isolate.py:122 | splitting on the tokens and joining the pieces gives the text back |
| IsolateVariables.EvalRenders | tools/isolate/isolate.py:120-122 | the result is the text with each token replaced by its value and all else kept, in order |
| IsolateVariables.EvalCases | tools/isolate/isolate.py:113-117 | a lone token gives its variable's value, or KeyError when it is undefined |
| IsolateInputs.NormPathKeep | tools/isolate/isolate.py:53-58 | the normalised path ends with a slash exactly when the input did, or when it is the root |
| IsolateInputs.NormPathKeepNormal | tools/isolate/isolate.py:53-58 | keeping the slash does not change where the path leads, and keeping it twice is keeping it once |
| IsolateInputs.RelPathKeep | tools/isolate/isolate.py:42-50 | the relative path fails only for an empty path and ends with a slash exactly when the path did |
| IsolateInputs.RelPathEnd | tools/isolate/isolate.py:44 | without the kept slash the relative path is non-empty, relative and has no trailing slash |
| IsolateInputs.RelPathKeepRoundTrip | tools/isolate/isolate.py:42-50 | the relative path with its kept slash still leads from the root to the path |
| IsolateInputs.Climb | tools/isolate/isolate.py:496-499 | a dependency climbs only when it starts with '../'; climbing to an absolute path fails the assertion |
| IsolateInputs.Raise | tools/isolate/isolate.py:499 | taking the directory name repeatedly gives a prefix of the path |
| IsolateInputs.RaisePrefix | tools/isolate/isolate.py:496-501 | climbing further gives a prefix of what a shorter climb gives |
| IsolateInputs.RootLoop | tools/isolate/isolate.py:492-501 | the loop over the dependencies fails exactly when some climb fails, with that climb's error |
| IsolateInputs.InferRootDir | tools/isolate/isolate.py:492-502 | the root directory is found exactly when no climb fails |
| IsolateInputs.MaxClimb | tools/isolate/isolate.py:496-499 | the farthest climb bounds every dependency's climb and is reached by one |
| IsolateInputs.RootDirIsFarthest | tools/isolate/isolate.py:490-502 | the root directory is the `.isolate` file's directory raised by the farthest climb of any dependency |
| IsolateInputs.CandidateFarther | tools/isolate/isolate.py:500-501 | a candidate replaces the root exactly when it climbs farther |
| IsolateInputs.RebaseInfiles | tools/isolate/isolate.py:514 | each dependency is joined onto the relative directory and normalised with its slash kept, in order |
| IsolateInputs.AddedFiles | tools/isolate/isolate.py:94-96 | the files added from one directory are its files joined onto its relative path, minus the blacklisted ones |
| IsolateInputs.KeepDirs | tools/isolate/isolate.py:97-100 | the corrected pruning keeps exactly the subdirectories the blacklist spares, in order |
| IsolateInputs.KeepDirsAsWritten | tools/isolate/isolate.py:97-100 | the pruning as written keeps only subdirectories that were there |
| IsolateInputs.Walk | tools/isolate/isolate.py:92-100 | no walked file that the directory walk lists is blacklisted |
| IsolateInputs.WalkDirs | tools/isolate/isolate.py:92-100 | no file listed from the kept subdirectories is blacklisted |
| IsolateInputs.DefaultBlacklist | tools/isolate/isolate.py:275 | a path is blacklisted exactly when it ends in '.svn' or '.pyc', optionally followed by one newline, with no newline before that ending, as `re.match` reads `.*\.(svn|pyc)$` |
| IsolateInputs.ExpandOne | tools/isolate/isolate.py:79-109 | one dependency is accepted exactly when it is relative, stays inside indir, and is an existing directory with a trailing slash or an existing file without one; a file is listed as given, a directory's files are never blacklisted; the absolute-path error is raised exactly for an absolute path |
| IsolateInputs.Expand | tools/isolate/isolate.py:79-110 | the expansion succeeds exactly when every dependency is accepted, and otherwise fails with one dependency's error |
| IsolateInputs.ExpandOutputs | tools/isolate/isolate.py:96-109 | the output holds every file named directly, and anything else in it is not blacklisted |
| IsolateInputs.ExpandDirectories | tools/isolate/isolate.py:75-110 | with the containment test corrected, every accepted dependency lies inside indir |
| IsolateInputs.ExpandDirectoriesAsWritten | tools/isolate/isolate.py:75-110 | as written, an accepted dependency only has indir as a string prefix |
| IsolateInputs.OutsideAccepted | tools/isolate/isolate.py:84 | with indir '/a' the dependency '../ab' is '/ab', which has '/a' as a prefix without being inside it |
| IsolateInputs.SecondPrunedKept | tools/isolate/isolate.py:97-100 | of two blacklisted directories in a row, the loop as written keeps the second; the corrected pruning keeps neither |
| IsolateInputs.PrunedDirWalked | tools/isolate/isolate.py:92-100 | the files under that second directory are listed as written and not by the corrected walk |
| IsolateInputs.KeepDirsAgree | tools/isolate/isolate.py:97-100 | when no blacklisted directory follows another, the loop as written prunes exactly what the corrected one does |
| IsolateManifest.NormalizeMode | tools/isolate/isolate.py:171-179 | the recorded mode has no group or other write bit, no owner write bit when read-only, keeps the other bits, and gives group and other execute exactly when the owner has it |
| IsolateManifest.NormalizeModeIdempotent | tools/isolate/isolate.py:171-179 | normalising a normalised mode changes nothing |
| IsolateManifest.FourModes | tools/isolate/isolate_smoke_test.py:89-95 | a checkout file gets one of 0755, 0644, 0555 and 0444, executable exactly when its owner could execute it |
| IsolateManifest.Code | tools/isolate/isolate.py:39 | the three levels are the codes 56, 57 and 58 |
| IsolateManifest.LevelOf | tools/isolate/isolate.py:277-286 | the level table knows exactly the five modes, only 'hashtable' hashes and only 'check' records nothing; any other mode is a KeyError |
| IsolateManifest.ProcessInput | tools/isolate/isolate.py:165-195 | no information gives an empty entry; otherwise the mode, size and timestamp come from stat, and at stats level a sha-1 is carried over exactly when the previous entry has the same timestamp and a sha-1; at hash level a non-empty carried sha-1 is kept and otherwise the file is hashed |
| IsolateManifest.ProcessInputs | tools/isolate/isolate.py:148-196 | there is one entry per input file and no other |
| IsolateManifest.ProcessInputStable | tools/isolate/isolate.py:184-195 | with the files unchanged, running again on the previous entry gives the same entry |
| IsolateManifest.ProcessInputsStable | tools/isolate/isolate.py:148-196 | with the files unchanged, running again on the previous manifest gives the same manifest |
| IsolateManifest.ProcessInputOnly | tools/isolate/isolate.py:185-189 | an entry depends only on the previous manifest's entry for the same file |
| StraceLines.LeadOf | tools/isolate/trace_inputs.py:165 | the header starts with the pid's digits and the blanks after them |
| StraceLines.NameOf | tools/isolate/trace_inputs.py:165 | the function name runs from after the blanks to the first '(' |
| StraceLines.HeaderOf | tools/isolate/trace_inputs.py:165 | a parsed header has a non-empty digit pid at the start of the line, a name without '(', non-empty arguments, and a result that ends the line |
| StraceLines.HeaderAt | tools/isolate/trace_inputs.py:165 | a line laid out as pid, blank, name, '(' arguments ') = ' result parses to exactly those pieces |
| StraceLines.HeaderRoundTrip | tools/isolate/trace_inputs.py:164-165 | a call written the way strace writes it reads back as that call |
| StraceLines.UnfinishedOf | tools/isolate/trace_inputs.py:167 | an unfinished call yields a digit pid and a non-empty name |
| StraceLines.ResumedOf | tools/isolate/trace_inputs.py:170 | a resumed call yields a digit pid, a non-empty name and the rest of the call, which ends the line |
| StraceLines.KilledOf | tools/isolate/trace_inputs.py:174 | a killed process yields its digit pid on a line ending in ' +++' |
| StraceLines.IsSignal | tools/isolate/trace_inputs.py:172 | a signal line starts with a pid, and `--- SIG` occurs after it |
| StraceLines.SignalRecognised | tools/isolate/trace_inputs.py:172 | every report laid out as pid, ' --- SIG', capitals, a blank, some text and ' ---' is recognised as a signal |
| StraceLines.ParseInt | tools/isolate/trace_inputs.py:256 | `int()` succeeds only on text holding a digit, and gives a negative number only when the text holds a minus sign |
| StraceLines.ParseIntDecimal | tools/isolate/trace_inputs.py:256 | the decimal text of a number reads back as that number, so a clone's result names the child pid |
| StraceLines.ParseStripped | tools/isolate/trace_inputs.py:256 | on stripped text, `int()` succeeds only when the text holds a digit, and a negative result needs a leading minus |
| StraceLines.ParseIntBlankAfterSign | tools/isolate/trace_inputs.py:256 | a sign, any blanks and a run of digits read as the signed value of the digits, as Python 2's `int` skips blanks after the sign: '- 12' is -12 |
| StraceLines.ParseIntBareSign | tools/isolate/trace_inputs.py:256 | a sign with no digits after it is a ValueError |
| StraceLines.ParseIntInnerBlank | tools/isolate/trace_inputs.py:256 | a blank between two digits is a ValueError |
| StraceLines.ChdirArg | tools/isolate/trace_inputs.py:179 | the chdir argument is exactly one non-empty quoted string |
| StraceLines.ExecveArg | tools/isolate/trace_inputs.py:180 | the executable is the non-empty quoted string the arguments start with |
| StraceLines.Open3Args | tools/isolate/trace_inputs.py:182 | the three-argument open gives the quoted path and the flags that follow it |
| StraceLines.Open2Args | tools/isolate/trace_inputs.py:181 | the two-argument open is exactly the quoted path and the flags |
| StraceLines.OpenArgs | tools/isolate/trace_inputs.py:270 | the path and flags come from the three-argument form, or else the two-argument form |
| StraceLines.RenameArgs | tools/isolate/trace_inputs.py:183 | the rename arguments are exactly two non-empty quoted paths |
| Strace.Resolve | tools/isolate/trace_inputs.py:292-293 | an absolute path stays as it is; a relative one is joined onto the process's directory, which must be known |
| Strace.HandleFile | tools/isolate/trace_inputs.py:288-305 | a failed call or a blacklisted path changes nothing, a relative path of an unknown process is a KeyError, and no path ends up both existing and missing |
| Strace.FileRecorded | tools/isolate/trace_inputs.py:301-305 | a new path is recorded once, as existing exactly when isfile says so, and a known path keeps its place |
| Strace.FileIgnored | tools/isolate/trace_inputs.py:289-295 | a failed call or a blacklisted path leaves the context as it was |
| Strace.Chdir | tools/isolate/trace_inputs.py:238-250 | a successful chdir sets only the process's directory, joining a relative one onto the current one; a failed one fails the assertion |
| Strace.ChdirThenResolve | tools/isolate/trace_inputs.py:238-248 | after a chdir the process resolves relative paths against the new directory and other processes are unaffected |
| Strace.Clone | tools/isolate/trace_inputs.py:252-256 | the child whose pid is the result starts in its parent's directory; a restarted clone creates no child |
| Strace.CloneThenResolve | tools/isolate/trace_inputs.py:252-256 | a cloned child resolves relative paths as its parent did |
| Strace.ExitGroup | tools/isolate/trace_inputs.py:261-263 | exit_group forgets exactly the exiting process's directory; an unknown process is a KeyError |
| Strace.ExitThenResolve | tools/isolate/trace_inputs.py:261-263 | after exit_group a relative path of that process is an error, and other processes keep their directories |
| Strace.Open | tools/isolate/trace_inputs.py:269-273 | an open with O_DIRECTORY is skipped; any other open is a file access |
| Strace.Rename | tools/isolate/trace_inputs.py:275-278 | both paths of a rename are accesses; the directories and pending calls are untouched |
| Strace.Dispatch | tools/isolate/trace_inputs.py:232-236 | a call goes to the handler of its name; names without a handler fail |
| Strace.Classify | tools/isolate/trace_inputs.py:198-228 | an unfinished line is its head followed by the unfinished marker; a resumed line ends with the rest of the call |
| Strace.Perform | tools/isolate/trace_inputs.py:230-236 | a line that is not a whole call fails the assertion; otherwise the file sets only grow |
| Strace.OnLine | tools/isolate/trace_inputs.py:198-236 | handling a line only adds to the file sets and never puts a path in both |
| Strace.StepsJoin | tools/isolate/trace_inputs.py:209-228 | an unfinished call, once resumed, is performed as the stored head followed by the rest, and nothing stays pending under its key |
| Strace.ResumeJoins | tools/isolate/trace_inputs.py:198-228 | two log lines, an interrupted call and its resumption, are handled as the one line they make together |
| Strace.CancelledMissed | tools/isolate/trace_inputs.py:176 | as written, the cancelled-call pattern never matches a line that starts with a pid |
| Strace.CancelledRecognised | tools/isolate/trace_inputs.py:216-222 | searched for anywhere, the pattern recognises every line ending with the cancelled result |
| Strace.Trace | tools/isolate/trace_inputs.py:353-354 | the lines are read in order and the file sets only grow, never overlapping |
| Strace.FileLines | tools/isolate/trace_inputs.py:353 | the lines read from the log put back together give the log, each ending at its newline |
| Strace.ParseLog | tools/isolate/trace_inputs.py:341-358 | the log fails to parse exactly when its trace fails; every file seen, existing or not, is reported through realpath in the matching set, and each reported path is the realpath of a file seen |
| TraceInputs.FixPythonPath | tools/isolate/trace_inputs.py:126-133 | a leading 'python' is replaced by the interpreter, a leading script gets the interpreter put before it, anything else is unchanged; an empty command raises |
| TraceInputs.FixPythonPathKeepsArguments | tools/isolate/trace_inputs.py:126-133 | the arguments after the program are kept and at most one entry is added |
| TraceInputs.FixPythonPathIdempotent | tools/isolate/trace_inputs.py:126-133 | fixing a fixed command line changes nothing |
| TraceInputs.BlacklistedKinds | tools/isolate/trace_inputs.py:1265-1273 | a path is dropped exactly when it starts with an ignored directory, ends with '.pyc' or lies inside '.git' or '.svn' |
| TraceInputs.BlacklistedUnderIgnored | tools/isolate/trace_inputs.py:146-156 | every path starting with an ignored system directory is dropped |
| TraceInputs.BlacklistedInsideVcs | tools/isolate/trace_inputs.py:1265-1273 | anything inside a '.git' or '.svn' directory is dropped |
| TraceInputs.CleanupPath | tools/isolate/trace_inputs.py:1296-1305 | a cleaned directory is empty for the root or '.', and otherwise the directory with exactly one trailing slash |
| TraceInputs.CleanupDir | tools/isolate/trace_inputs.py:1308-1309 | a missing directory stays missing |
| TraceInputs.CleanupPathIdempotent | tools/isolate/trace_inputs.py:1296-1305 | cleaning a cleaned directory changes nothing |
| TraceInputs.Fix | tools/isolate/trace_inputs.py:1311-1323 | a build output file becomes '<(PRODUCT_DIR)/' and its rest, any other file a non-empty relative path; only an empty path fails |
| TraceInputs.FixLeadsBack | tools/isolate/trace_inputs.py:1311-1323 | the fixed name gives the file back: through the build output directory, or joined onto the .gyp directory |
| TraceInputs.FixKeepsSlash | tools/isolate/trace_inputs.py:1323 | outside the build output a fixed name ends with a slash exactly when the file did |
| TraceInputs.RelPathKeepNonEmpty | tools/isolate/trace_inputs.py:136-141 | `posix_relpath` never answers the empty string, so the './' fallback is never taken |
| TraceInputs.FixAll | tools/isolate/trace_inputs.py:1325 | the corrected list fixes every file in place, and fails when one fails |
| TraceInputs.Partition | tools/isolate/trace_inputs.py:1093-1101 | every file is either below the root, kept as its non-empty tail, or elsewhere; the root itself fails the assertion |
| TraceInputs.RelevantFiles | tools/isolate/trace_inputs.py:1088-1102 | both lists are sorted without repetition; the first holds the tails of the files below the root and the second the other files |
| TraceInputs.RelevantFilesOfSet | tools/isolate/trace_inputs.py:1088-1102 | the result depends only on the set of files |
| TraceInputs.RelevantFilesCover | tools/isolate/trace_inputs.py:1095-1101 | every traced file lands in one of the two lists |
| TraceInputs.RootPrefix | tools/isolate/trace_inputs.py:1284 | the root is `root_dir` with exactly one trailing slash |
| TraceInputs.Tracked | tools/isolate/trace_inputs.py:1326 | the tracked files are exactly the corrected ones without a trailing slash or a space |
| TraceInputs.Untracked | tools/isolate/trace_inputs.py:1327 | the untracked files are exactly the corrected ones with a trailing slash or a space |
| TraceInputs.TrackedSplit | tools/isolate/trace_inputs.py:1326-1327 | every corrected file goes to exactly one of the two lists, as often as it occurs |
| TraceInputs.Variables | tools/isolate/trace_inputs.py:1326-1332 | each key is present exactly when its list is non-empty, and no other key is; the tracked list holds the corrected files that neither end with '/' nor contain a blank, the untracked list the others |
| TraceInputs.VariablesList | tools/isolate/trace_inputs.py:1326-1332 | every corrected file appears in the list its kind selects |
| TraceInputs.VariablesPartition | tools/isolate/trace_inputs.py:1326-1332 | the two lists together hold every corrected file exactly as often as it occurs: nothing is lost or duplicated |
| PrettyPrint.Position | tools/isolate/trace_inputs.py:1136 | `ORDER.index` gives the first position of the key |
| PrettyPrint.SortedKeys | tools/isolate/trace_inputs.py:1169 | the keys are visited once each, sorted by their sorting key |
| PrettyPrint.KeyOrder | tools/isolate/trace_inputs.py:1128-1137 | the keys of ORDER come first in ORDER's order, and the other keys follow in increasing order |
| PrettyPrint.SortingKey | tools/isolate/trace_inputs.py:1133-1137 | a key of ORDER is replaced by its one-digit position, and any other key is kept as it is |
| PrettyPrint.ReadEscaped | tools/isolate/trace_inputs.py:1181-1182 | an escaped string between quotes reads back as itself |
| PrettyPrint.UnescapedItemMisread | tools/isolate/trace_inputs.py:1141-1142 | a list item containing a quote is written unescaped and reads back cut short |
| PrettyPrint.QuotedItemRead | tools/isolate/trace_inputs.py:1141-1153 | with the escaping, every list item reads back as itself |
| PrettyPrint.ValueText | tools/isolate/trace_inputs.py:1170-1186 | a value prints exactly when it is a string, a printable dictionary or list, True, False, None, or 0 or 1 (which compare equal to True and False); it ends with a comma, except the bare values as written |
| PrettyPrint.DictText | tools/isolate/trace_inputs.py:1168-1186 | a dictionary prints exactly when all its values are printable |
| PrettyPrint.EntriesText | tools/isolate/trace_inputs.py:1169-1170 | the entries print exactly when every key is present with a printable value |
| PrettyPrint.ListText | tools/isolate/trace_inputs.py:1139-1166 | a list prints exactly when each item is a string, a printable dictionary, or a list of strings and printable dictionaries |
| PrettyPrint.InnerText | tools/isolate/trace_inputs.py:1147-1164 | a list inside a list prints exactly when its items are strings or printable dictionaries |
| PrettyPrint.PrettyPrint | tools/isolate/trace_inputs.py:1188-1190 | the output is framed by the '{' and '}' lines |
| Strace.Step | tools/isolate/trace_inputs.py:198-236 | whatever kind of line is read, the file sets only grow and never overlap |
| PrettyPrint.BareValueUnseparated | tools/isolate/trace_inputs.py:1183-1184 | as written, a boolean or None ends its line with no comma before the next entry; corrected, the comma is there |

## Left out

- Only POSIX is modelled: the path separator is '/'. These Windows branches are not part of this model: the lowering in `to_relative` and `trace_inputs`, the mode-less entries of `process_inputs`, the extra slash of `relpath`, and the '\\' replacement in `fix`. Neither are `LogmanTrace`, `DosDriveMap` and the code-page handling.
- `to_relative` (isolate.py:61-72) is not modelled: none of the modelled operations calls it.
- Text.Lower: case folding is ASCII only. Schema names loaded by `json.loads` are `unicode`, whose `lower`/`upper` also fold letters such as 'É'; the model leaves them unchanged. The same holds for Text.Upper and for everything built on them (`UnixName`, `CppUtil.Classname`, `CppUtil.GenerateIfndefName`).
- Text.Upper: case folding is ASCII only. `u'é'.upper()` is 'É' in the source; the model leaves 'é' unchanged.
- SchemaNamespace.ParseTypes: a type's `id` must be a string; any other value is a TypeError. The source stores whatever value it finds (model.py:332). Names are strings throughout the model, because `_UnixName`, the `+` that builds child names and the hierarchy join need strings there too.
- SchemaNamespace.AddTypes: the same restriction on `id` as SchemaNamespace.ParseTypes, for the types of a namespace.
- SchemaModel.ParseFunction: a function's `name` must be a string; any other value is a TypeError. The source stores whatever value it finds (model.py:136), for the same reason as SchemaNamespace.ParseTypes.
- SchemaModel.AddFunctions: the same restriction on `name` as SchemaModel.ParseFunction, for every function of the list.
- SchemaModel.AddProperties: entries are visited in the order they were written. Python 2 visits `json['properties'].items()` (model.py:348) in hash order, so when several properties fail, the one whose error is reported may differ. The same holds for every other dict the model iterates.
- Integers are unbounded: C++ `int` in the marshalling and JSON numbers in the schemas are not bounded or wrapped.
- Doubles are opaque tokens: nothing computes with them. The 6.1 of the arrays test is carried, not compared numerically.
- PrettyPrint.ValueText: the floats 1.0 and 0.0 compare equal to True and False, so the source prints them bare as '1.0' and '0.0'. The model refuses every float.
- Json.Lookup: a JSON object is an ordered list of entries. Where a loaded text repeats a key, `Lookup` finds the first entry, while `json.loads` keeps the last; the model assumes distinct keys wherever that matters (`DistinctKeys`).
- StraceLines.HeaderOf: the strace patterns are read on lines that hold no newline, since `on_line` strips them; '.' and '$' are taken to match accordingly.
- `os.stat`, the sha-1 of a file, `os.path.isfile`, `os.path.isdir`, the tree `os.walk` visits and `os.path.realpath` are parameters: the model sees only what they return, not the file system.
- Opening and reading files, running strace or dtrace (`gen_trace`), the `MODE*` functions, `recreate_tree`, `main`'s option parsing and `print_if` are I/O and are left out. The sequence of lines of the log is the input (`Strace.FileLines` splits the text as `for line in open(name)` does).
- PrettyPrint.PrettyPrint: the text is returned whole. When printing fails part-way, the source has already written part of the text to stdout; the model returns only the error.
- The `conditions` wrapper that `trace_inputs` builds around the variables before calling `pretty_print` is not modelled; `TraceInputs.Variables` stops at the `variables` dict.
- `extract_directories` needs `os.listdir` and is not modelled. `TraceInputs.FixAll` applies `fix` to any list of files, standing in for its result.
- `load_isolate` depends on `merge_isolate`, which is not part of this model. The dependencies and the command are the input of `IsolateVariables.EvalVariables` and `IsolateInputs.RebaseInfiles`.
- The `PRODUCT_DIR` handling of `main` (isolate.py:477-485) checks the directory with `isdir` and rewrites it relative to the `.isolate` file. It is not modelled; `relative_dir` is a parameter of `IsolateInputs.RebaseInfiles`.
- `Dtrace`, including `Dtrace._sort_log`, is not modelled: it reads dtrace output, and only the strace reader is modelled.
- Logging, and the repr of an IDL node in the `sys.exit` message, are not modelled.
- The `CHROMIUM_LICENSE` header, which depends on the date, is not modelled.
- IsolateManifest.LevelOf: its KeyError branch cannot be reached from `main`, because optparse restricts `--mode` to the valid modes. It is kept so that the table is total.

## Findings

| source | as written | input that shows it | evidently intended | confidence | as-written member | corrected member |
|---|---|---|---|---|---|---|
| tools/isolate/isolate.py:84 | `infile.startswith(indir)` compares strings, not path components | indir '/a', dependency '../ab': it normalises to '/ab', which starts with '/a' and is accepted | accept only paths inside indir | high, not executed | IsolateInputs.ExpandDirectoriesAsWritten, IsolateInputs.OutsideAccepted | IsolateInputs.ExpandDirectories |
| tools/isolate/isolate.py:97-100 | `del dirnames[index]` inside `enumerate(dirnames)` shifts the next directory into the visited slot, so it is never tested | two blacklisted subdirectories in a row: the second is walked and its files listed | prune every blacklisted subdirectory | high, not executed | IsolateInputs.KeepDirsAsWritten, IsolateInputs.SecondPrunedKept, IsolateInputs.PrunedDirWalked | IsolateInputs.KeepDirs, IsolateInputs.KeepDirsAgree |
| tools/isolate/trace_inputs.py:1141-1142 | a string directly inside a list is written between quotes without escaping | the list item "a'b" is written 'a'b', which reads back as 'a' followed by stray text | escape backslashes and quotes as the other string branches do | high, not executed | PrettyPrint.UnescapedItemMisread | PrettyPrint.QuotedItemRead, PrettyPrint.ReadEscaped |
| tools/isolate/trace_inputs.py:1183-1184 | True, False and None are written without a trailing comma | a dict with 'read_only': True followed by another key: the two entries run together without a separator | end bare values with ',' like every other value | medium, not executed | PrettyPrint.BareValueUnseparated | PrettyPrint.ValueText |
| tools/json_schema_compiler/model.py:73-86 | `Type.__init__` raises ParseException before assigning `self.name` and `self.parent`, so computing the hierarchy raises AttributeError | a type {} (no properties, no functions) under a rooted namespace: AttributeError('parent') instead of the ParseException "has no properties or functions"; likewise an array type whose `items` is not a dict, since the item property (lines 76-78) raises while the type has no parent yet | assign name and parent first, so the ParseException is raised with its hierarchy | high, not executed | SchemaErrors.ParseTypeAsWritten, SchemaErrors.MemberlessTypeReports | SchemaModel.ParseType |
| tools/json_schema_compiler/idl_schema.py:240-252 | `nodoc = False` runs at the top of every loop iteration, so a `[nodoc]` attribute is forgotten before its namespace is reached | the nodes `[nodoc]` and then `namespace x {}`: x comes out with nodoc false | the flag marks the namespace that follows it | high, not executed | IdlNamespace.SchemaLoopAsWritten, IdlNamespace.AsWrittenNeverNodoc, IdlNamespace.NodocDropped | IdlNamespace.SchemaLoop, IdlNamespace.SchemaNodoc |
| tools/isolate/trace_inputs.py:176-222 | `RE_UNAVAILABLE.match` anchors the pattern at the start of the line, so a line that starts with its pid never matches | '7 read(3, ) = ? <unavailable>' is not skipped: it is read as a call to `read`, which has no handler (AttributeError) | recognise the cancelled result anywhere in the line (`re.search`) | high, not executed | Strace.CancelledMissed | Strace.CancelledRecognised |

=== FILE: arrays_api.dfy ===
/** The generated API of the `arrays` test schema: records whose fields
    are arrays of strings, booleans, doubles, integers and `Item`
    references, and the functions `IntegerArray`, `AnyArray`, `RefArray`,
    `ReturnIntegerArray` and `ReturnRefArray`.

    The schema file itself is not part of this model: the fields are the
    ones the tests read and write, all of them required. */
module ArraysApi {
  import opened Wrappers
  import opened Values

  // ---------------------------------------------------------------------
  // Item: { "val": integer }

  datatype Item = Item(val: int)

  /** `Item::Populate` */
  function ItemPopulate(v: Value): (r: Option<Item>)
    ensures r.Some? <==> v.VDict? && "val" in v.entries && v.entries["val"].VInt?
    ensures r.Some? ==> v.entries["val"] == VInt(r.value.val)
  {
    if !v.VDict? then None
    else
      var n :- Required(v.entries, "val", AsInt);
      Some(Item(n))
  }

  /** `Item::ToValue` */
  function ItemToValue(it: Item): (r: Value)
    ensures r.VDict? && r.entries.Keys == {"val"}
    ensures ItemPopulate(r) == Some(it)
  {
    VDict(map["val" := VInt(it.val)])
  }

  /** A dictionary holding only an integer `val` is an encoded item. */
  lemma ItemBack(v: Value)
    requires ItemPopulate(v).Some? && v.entries.Keys == {"val"}
    ensures ItemToValue(ItemPopulate(v).value) == v
  {
    assert v.entries == map["val" := v.entries["val"]];
  }

  // ---------------------------------------------------------------------
  // BasicArrayType

  datatype BasicArrayType = BasicArrayType(strings: seq<string>, booleans: seq<bool>, numbers: seq<int>, integers: seq<int>)

  const BasicArrayKeys: set<string> := {"strings", "booleans", "numbers", "integers"}

  /** `BasicArrayType::Populate`: all four lists present, each element of
      its own type. */
  function BasicArrayTypePopulate(v: Value): (r: Option<BasicArrayType>)
    ensures r.Some? <==> (
      && v.VDict? && BasicArrayKeys <= v.entries.Keys
      && ListOf(v.entries["strings"], AsString) && ListOf(v.entries["booleans"], AsBool)
      && ListOf(v.entries["numbers"], AsDouble) && ListOf(v.entries["integers"], AsInt))
    ensures r.Some? ==> (
      && |r.value.strings| == |v.entries["strings"].items| && |r.value.booleans| == |v.entries["booleans"].items|
      && |r.value.numbers| == |v.entries["numbers"].items| && |r.value.integers| == |v.entries["integers"].items|)
  {
    if !v.VDict? then None
    else
      var strings :- Required(v.entries, "strings", (x: Value) => DecodeList(x, AsString));
      var booleans :- Required(v.entries, "booleans", (x: Value) => DecodeList(x, AsBool));
      var numbers :- Required(v.entries, "numbers", (x: Value) => DecodeList(x, AsDouble));
      var integers :- Required(v.entries, "integers", (x: Value) => DecodeList(x, AsInt));
      Some(BasicArrayType(strings, booleans, numbers, integers))
  }

  /** `BasicArrayType::ToValue` */
  function BasicArrayTypeToValue(t: BasicArrayType): (r: Value)
    ensures r.VDict? && r.entries.Keys == BasicArrayKeys
  {
    VDict(map[
      "strings" := VList(EncodeAll(t.strings, (s: string) => VStr(s))),
      "booleans" := VList(EncodeAll(t.booleans, (b: bool) => VBool(b))),
      "numbers" := VList(EncodeAll(t.numbers, (d: int) => VDouble(d))),
      "integers" := VList(EncodeAll(t.integers, (n: int) => VInt(n)))])
  }

  /** Populating from what `ToValue` wrote gives the record back. */
  lemma BasicArrayRoundTrip(t: BasicArrayType)
    ensures BasicArrayTypePopulate(BasicArrayTypeToValue(t)) == Some(t)
  {
    var d := BasicArrayTypeToValue(t).entries;
    DecodeEncodeList(t.strings, AsString, (s: string) => VStr(s));
    DecodeEncodeList(t.booleans, AsBool, (b: bool) => VBool(b));
    DecodeEncodeList(t.numbers, AsDouble, (x: int) => VDouble(x));
    DecodeEncodeList(t.integers, AsInt, (n: int) => VInt(n));
    assert Required(d, "strings", (x: Value) => DecodeList(x, AsString)) == Some(t.strings);
    assert Required(d, "booleans", (x: Value) => DecodeList(x, AsBool)) == Some(t.booleans);
    assert Required(d, "numbers", (x: Value) => DecodeList(x, AsDouble)) == Some(t.numbers);
    assert Required(d, "integers", (x: Value) => DecodeList(x, AsInt)) == Some(t.integers);
  }

  /** `ToValue` after `Populate` reproduces a dictionary with exactly the
      four keys: the test's `value->Equals(basic_array_type->ToValue())`. */
  lemma BasicArrayBack(v: Value)
    requires BasicArrayTypePopulate(v).Some? && v.entries.Keys == BasicArrayKeys
    ensures BasicArrayTypeToValue(BasicArrayTypePopulate(v).value) == v
  {
    var t := BasicArrayTypePopulate(v).value;
    var d := v.entries;
    EncodeDecodeAll(d["strings"].items, AsString, (s: string) => VStr(s));
    EncodeDecodeAll(d["booleans"].items, AsBool, (b: bool) => VBool(b));
    EncodeDecodeAll(d["numbers"].items, AsDouble, (x: int) => VDouble(x));
    EncodeDecodeAll(d["integers"].items, AsInt, (n: int) => VInt(n));
    var e := BasicArrayTypeToValue(t).entries;
    assert e["strings"] == d["strings"];
    assert e["booleans"] == d["booleans"];
    assert e["numbers"] == d["numbers"];
    assert e["integers"] == d["integers"];
    FourKeys(e, d, "strings", "booleans", "numbers", "integers");
  }

  /** Two maps on the same four keys that agree on each are equal. */
  lemma FourKeys<V>(e: map<string, V>, d: map<string, V>, a: string, b: string, c: string, x: string)
    requires e.Keys == {a, b, c, x} && d.Keys == {a, b, c, x}
    requires e[a] == d[a] && e[b] == d[b] && e[c] == d[c] && e[x] == d[x]
    ensures e == d
  {
  }

  // ---------------------------------------------------------------------
  // RefArrayType

  datatype RefArrayType = RefArrayType(refs: seq<Item>)

  /** `RefArrayType::Populate`: `refs` must be a list of items; one element
      that is not an item dictionary fails the whole record. */
  function RefArrayTypePopulate(v: Value): (r: Option<RefArrayType>)
    ensures r.Some? <==> v.VDict? && "refs" in v.entries && ListOf(v.entries["refs"], ItemPopulate)
    ensures r.Some? ==> |r.value.refs| == |v.entries["refs"].items|
    ensures r.Some? ==> forall k :: 0 <= k < |r.value.refs| ==> ItemPopulate(v.entries["refs"].items[k]) == Some(r.value.refs[k])
  {
    if !v.VDict? then None
    else
      var refs :- Required(v.entries, "refs", (x: Value) => DecodeList(x, ItemPopulate));
      Some(RefArrayType(refs))
  }

  /** `RefArrayType::ToValue` */
  function RefArrayTypeToValue(t: RefArrayType): (r: Value)
    ensures r.VDict? && r.entries.Keys == {"refs"}
  {
    VDict(map["refs" := VList(EncodeAll(t.refs, ItemToValue))])
  }

  lemma RefArrayRoundTrip(t: RefArrayType)
    ensures RefArrayTypePopulate(RefArrayTypeToValue(t)) == Some(t)
  {
    DecodeEncodeAll(t.refs, ItemPopulate, ItemToValue);
  }

  // ---------------------------------------------------------------------
  // Functions

  datatype IntegerArrayParams = IntegerArrayParams(nums: seq<int>)

  /** `IntegerArray::Params::Create`: one list of integers. */
  function IntegerArrayCreate(args: seq<Value>): (r: Option<IntegerArrayParams>)
    ensures r.Some? <==> |args| == 1 && args[0].VList? && forall k :: 0 <= k < |args[0].items| ==> args[0].items[k].VInt?
    ensures r.Some? ==> |r.value.nums| == |args[0].items| && forall k :: 0 <= k < |r.value.nums| ==> args[0].items[k] == VInt(r.value.nums[k])
  {
    if !ArgsFit(args, 1, 1) then None
    else
      var nums :- RequiredArg(args, 0, (x: Value) => DecodeList(x, AsInt));
      Some(IntegerArrayParams(nums))
  }

  datatype AnyArrayParams = AnyArrayParams(anys: seq<Value>)

  /** `AnyArray::Params::Create`: one list whose elements are kept as they
      are, whatever their type. */
  function AnyArrayCreate(args: seq<Value>): (r: Option<AnyArrayParams>)
    ensures r.Some? <==> |args| == 1 && args[0].VList?
    ensures r.Some? ==> r.value.anys == args[0].items
  {
    if !ArgsFit(args, 1, 1) then None
    else
      var anys :- RequiredArg(args, 0, (x: Value) => DecodeList(x, AsAny));
      assert anys == args[0].items;
      Some(AnyArrayParams(anys))
  }

  datatype RefArrayParams = RefArrayParams(refs: seq<Item>)

  /** `RefArray::Params::Create`: one list of items. */
  function RefArrayCreate(args: seq<Value>): (r: Option<RefArrayParams>)
    ensures r.Some? <==> |args| == 1 && args[0].VList? && forall k :: 0 <= k < |args[0].items| ==> ItemPopulate(args[0].items[k]).Some?
    ensures r.Some? ==> |r.value.refs| == |args[0].items| && forall k :: 0 <= k < |r.value.refs| ==> ItemPopulate(args[0].items[k]) == Some(r.value.refs[k])
  {
    if !ArgsFit(args, 1, 1) then None
    else
      var refs :- RequiredArg(args, 0, (x: Value) => DecodeList(x, ItemPopulate));
      Some(RefArrayParams(refs))
  }

  /** `ReturnIntegerArray::Result::Create` */
  function ReturnIntegerArrayResult(xs: seq<int>): (r: Value)
    ensures r.VList? && DecodeAll(r.items, AsInt) == Some(xs)
  {
    DecodeEncodeAll(xs, AsInt, (n: int) => VInt(n));
    VList(EncodeAll(xs, (n: int) => VInt(n)))
  }

  /** `ReturnRefArray::Result::Create`: each item as its dictionary, in
      order. */
  function ReturnRefArrayResult(items: seq<Item>): (r: Value)
    ensures r.VList? && |r.items| == |items|
    ensures forall k :: 0 <= k < |items| ==> r.items[k] == VDict(map["val" := VInt(items[k].val)])
    ensures DecodeAll(r.items, ItemPopulate) == Some(items)
  {
    DecodeEncodeAll(items, ItemPopulate, ItemToValue);
    VList(EncodeAll(items, ItemToValue))
  }

  /** The arguments `Params::Create` reads back into the same parameters:
      the result list of a function is the argument list of one taking
      the same array. */
  lemma IntegerArrayFromResult(xs: seq<int>)
    ensures IntegerArrayCreate([ReturnIntegerArrayResult(xs)]) == Some(IntegerArrayParams(xs))
  {
  }

  lemma RefArrayFromResult(items: seq<Item>)
    ensures RefArrayCreate([ReturnRefArrayResult(items)]) == Some(RefArrayParams(items))
  {
  }

  // ---------------------------------------------------------------------
  // The cases of the arrays test

  /** Three item dictionaries populate three items, in order. */
  lemma RefArrayTypeCase()
    ensures RefArrayTypePopulate(VDict(map["refs" := VList([ItemToValue(Item(1)), ItemToValue(Item(2)), ItemToValue(Item(3))])]))
         == Some(RefArrayType([Item(1), Item(2), Item(3)]))
  {
    var items := [Item(1), Item(2), Item(3)];
    RefArrayRoundTrip(RefArrayType(items));
    assert EncodeAll(items, ItemToValue) == [ItemToValue(Item(1)), ItemToValue(Item(2)), ItemToValue(Item(3))];
  }

  /** An integer among the items fails the whole record. */
  lemma NotRefArrayCase()
    ensures RefArrayTypePopulate(VDict(map["refs" := VList([ItemToValue(Item(1)), VInt(3)])])).None?
  {
    assert ItemPopulate(VInt(3)).None?;
  }

  lemma IntegerArrayCase()
    ensures IntegerArrayCreate([VList([VInt(2), VInt(4), VInt(8)])]) == Some(IntegerArrayParams([2, 4, 8]))
  {
    IntegerArrayFromResult([2, 4, 8]);
  }

  /** An integer, a string and a dictionary are all kept; the first is
      the integer 1. */
  lemma AnyArrayCase()
    ensures var r := AnyArrayCreate([VList([VInt(1), VStr("test"), ItemToValue(Item(2))])]);
      r.Some? && |r.value.anys| == 3 && AsInt(r.value.anys[0]) == Some(1)
  {
  }

  lemma RefArrayParamsCase()
    ensures RefArrayCreate([VList([ItemToValue(Item(1)), ItemToValue(Item(2))])]) == Some(RefArrayParams([Item(1), Item(2)]))
  {
    var items := [Item(1), Item(2)];
    RefArrayFromResult(items);
    assert EncodeAll(items, ItemToValue) == [ItemToValue(Item(1)), ItemToValue(Item(2))];
  }
}

=== FILE: choices_api.dfy ===
/** The generated API of the `choices` test schema: `TakesIntegers`, whose
    parameter is an integer or a list of integers, `ObjectWithChoices`,
    whose parameter holds a required string-or-strings choice and an
    optional integer-or-integers choice, and `ReturnChoices`.

    The generated record keeps a choice as a `..._type` tag and one filled
    slot per alternative; a datatype with one constructor per alternative
    is that record with exactly one slot filled. The value's own type
    selects the alternative: there is nothing to try in order. */
module ChoicesApi {
  import opened Wrappers
  import opened Values

  // ---------------------------------------------------------------------
  // Integer or list of integers

  datatype Integers = IntegersInteger(n: int) | IntegersArray(xs: seq<int>)

  function IntegersOf(v: Value): (r: Option<Integers>)
    ensures r.Some? <==> v.VInt? || ListOf(v, AsInt)
    ensures r.Some? ==> (r.value.IntegersInteger? <==> v.VInt?)
    ensures r.Some? ==> v == IntegersValue(r.value)
  {
    if v.VInt? then Some(IntegersInteger(v.i))
    else
      var xs :- DecodeList(v, AsInt);
      EncodeDecodeAll(v.items, AsInt, (n: int) => VInt(n));
      Some(IntegersArray(xs))
  }

  function IntegersValue(c: Integers): (r: Value)
    ensures r.VInt? || r.VList?
  {
    match c
    case IntegersInteger(n) => VInt(n)
    case IntegersArray(xs) => VList(EncodeAll(xs, (n: int) => VInt(n)))
  }

  lemma IntegersRoundTrip(c: Integers)
    ensures IntegersOf(IntegersValue(c)) == Some(c)
  {
    if c.IntegersArray? {
      DecodeEncodeList(c.xs, AsInt, (n: int) => VInt(n));
    }
  }

  // ---------------------------------------------------------------------
  // String or list of strings

  datatype Strings = StringsString(s: string) | StringsArray(xs: seq<string>)

  function StringsOf(v: Value): (r: Option<Strings>)
    ensures r.Some? <==> v.VStr? || ListOf(v, AsString)
    ensures r.Some? ==> (r.value.StringsString? <==> v.VStr?)
    ensures r.Some? ==> v == StringsValue(r.value)
  {
    if v.VStr? then Some(StringsString(v.s))
    else
      var xs :- DecodeList(v, AsString);
      EncodeDecodeAll(v.items, AsString, (s: string) => VStr(s));
      Some(StringsArray(xs))
  }

  function StringsValue(c: Strings): (r: Value)
    ensures r.VStr? || r.VList?
  {
    match c
    case StringsString(s) => VStr(s)
    case StringsArray(xs) => VList(EncodeAll(xs, (s: string) => VStr(s)))
  }

  lemma StringsRoundTrip(c: Strings)
    ensures StringsOf(StringsValue(c)) == Some(c)
  {
    if c.StringsArray? {
      DecodeEncodeList(c.xs, AsString, (s: string) => VStr(s));
    }
  }

  // ---------------------------------------------------------------------
  // Functions

  /** `TakesIntegers::Params::Create`: one integer or list of integers; a
      boolean fails. */
  function TakesIntegersCreate(args: seq<Value>): (r: Option<Integers>)
    ensures r.Some? <==> |args| == 1 && (args[0].VInt? || ListOf(args[0], AsInt))
    ensures r.Some? ==> args == [IntegersValue(r.value)]
  {
    if !ArgsFit(args, 1, 1) then None
    else RequiredArg(args, 0, IntegersOf)
  }

  /** The `string_info` parameter of `ObjectWithChoices`. */
  datatype StringInfo = StringInfo(strings: Strings, integers: Option<Integers>)

  /** The object parameter: `strings` required, `integers` optional, each
      decoded as its choice. */
  function StringInfoOf(v: Value): (r: Option<StringInfo>)
    ensures r.Some? <==> (
      && v.VDict? && "strings" in v.entries && StringsOf(v.entries["strings"]).Some?
      && ("integers" in v.entries ==> IntegersOf(v.entries["integers"]).Some?))
    ensures r.Some? ==> v.entries["strings"] == StringsValue(r.value.strings)
    ensures r.Some? ==> (r.value.integers.Some? <==> "integers" in v.entries)
    ensures r.Some? && r.value.integers.Some? ==> v.entries["integers"] == IntegersValue(r.value.integers.value)
  {
    if !v.VDict? then None
    else
      var strings :- Required(v.entries, "strings", StringsOf);
      var integers :- Optional(v.entries, "integers", IntegersOf);
      Some(StringInfo(strings, integers))
  }

  /** `ObjectWithChoices::Params::Create` */
  function ObjectWithChoicesCreate(args: seq<Value>): (r: Option<StringInfo>)
    ensures r.Some? <==> |args| == 1 && StringInfoOf(args[0]).Some?
    ensures r.Some? ==> r == StringInfoOf(args[0])
  {
    if !ArgsFit(args, 1, 1) then None
    else RequiredArg(args, 0, StringInfoOf)
  }

  /** The object a caller passes for a `string_info`. */
  function StringInfoValue(p: StringInfo): (r: Value)
    ensures r.VDict? && "strings" in r.entries && ("integers" in r.entries <==> p.integers.Some?)
  {
    VDict(PutOptional(map["strings" := StringsValue(p.strings)], "integers", p.integers, IntegersValue))
  }

  /** The object parameter decodes to what it was built from. */
  lemma StringInfoRoundTrip(p: StringInfo)
    ensures StringInfoOf(StringInfoValue(p)) == Some(p)
    ensures ObjectWithChoicesCreate([StringInfoValue(p)]) == Some(p)
  {
    StringsRoundTrip(p.strings);
    if p.integers.Some? {
      IntegersRoundTrip(p.integers.value);
    }
  }

  /** `ReturnChoices::Result::Create`, both overloads: a list of integers
      for a vector, a bare integer for a scalar. */
  function ReturnChoicesResult(c: Integers): (r: Value)
    ensures IntegersOf(r) == Some(c)
    ensures c.IntegersArray? ==> r.VList? && |r.items| == |c.xs|
    ensures c.IntegersArray? ==> forall k :: 0 <= k < |c.xs| ==> r.items[k] == VInt(c.xs[k])
    ensures c.IntegersInteger? ==> r == VInt(c.n)
  {
    IntegersRoundTrip(c);
    IntegersValue(c)
  }

  // ---------------------------------------------------------------------
  // The cases of the choices test

  lemma TakesIntegersCases()
    ensures TakesIntegersCreate([VBool(true)]).None?
    ensures TakesIntegersCreate([VInt(6)]) == Some(IntegersInteger(6))
    ensures TakesIntegersCreate([VList([VInt(6), VInt(8)])]) == Some(IntegersArray([6, 8]))
  {
    var r := TakesIntegersCreate([VList([VInt(6), VInt(8)])]);
    assert r.Some?;
    assert r.value.xs == [6, 8];
  }

  lemma ObjectWithChoicesCases()
    ensures ObjectWithChoicesCreate([VDict(map["strings" := VStr("asdf")])])
         == Some(StringInfo(StringsString("asdf"), None))
    ensures ObjectWithChoicesCreate([VDict(map["strings" := VStr("asdf"), "integers" := VInt(6)])])
         == Some(StringInfo(StringsString("asdf"), Some(IntegersInteger(6))))
  {
  }

  lemma ObjectWithChoicesFailures()
    ensures ObjectWithChoicesCreate([VDict(map["strings" := VInt(5)])]).None?
    ensures ObjectWithChoicesCreate([VDict(map["strings" := VStr("asdf"), "integers" := VStr("asdf")])]).None?
    ensures ObjectWithChoicesCreate([VDict(map["integers" := VInt(6)])]).None?
  {
  }
}

=== FILE: cpp_util.dfy ===
/** The naming and type-mapping helpers the C++ generator of the JSON
    schema compiler uses. A property is represented by its type and
    unix_name as the model defines them; the `%` formatting is written out
    as concatenation. */
module CppUtil {
  import opened Wrappers
  import opened Python
  import opened Text
  import opened SchemaModel

  // ---------------------------------------------------------------------
  // Classname

  /** `x[0].upper() + x[1:]` */
  function Capitalize(x: string): (r: string)
    requires x != []
    ensures |r| == |x| && r[0] == UpperChar(x[0]) && r[1..] == x[1..]
  {
    [UpperChar(x[0])] + x[1..]
  }

  /** The list comprehension of `Classname`: indexing an empty segment
      raises IndexError. */
  function CapitalizeAll(parts: seq<string>): (r: Result<seq<string>, PyError>)
    ensures r.Ok? <==> forall i :: 0 <= i < |parts| ==> parts[i] != []
    ensures r.Ok? ==> |r.value| == |parts|
    ensures r.Ok? ==> forall i :: 0 <= i < |parts| ==> r.value[i] == Capitalize(parts[i])
  {
    if parts == [] then Ok([])
    else if parts[0] == [] then Err(IndexError("string index out of range"))
    else
      var rest :- CapitalizeAll(parts[1..]);
      Ok([Capitalize(parts[0])] + rest)
  }

  /** No segment between dots is empty: the string is not empty, does not
      start or end with '.', and has no two dots in a row. */
  predicate DotSeparated(s: string) {
    && s != []
    && s[0] != '.'
    && s[|s| - 1] != '.'
    && forall i :: 0 <= i < |s| - 1 && s[i] == '.' ==> s[i + 1] != '.'
  }

  /** The character `Classname` puts at position `i`: '_' for a dot, the
      upper-cased letter at the start of a segment, the character itself
      elsewhere. */
  function ClassChar(s: string, i: nat): char
    requires i < |s|
  {
    if s[i] == '.' then '_'
    else if i == 0 || s[i - 1] == '.' then UpperChar(s[i])
    else s[i]
  }

  predicate IsClassnameOf(s: string, r: string) {
    |r| == |s| && forall i :: 0 <= i < |s| ==> r[i] == ClassChar(s, i)
  }

  /** `Classname(s)`: the segments between dots, each with its first
      character upper-cased, joined with '_'. */
  function Classname(s: string): (r: Result<string, PyError>)
    ensures r.Ok? <==> DotSeparated(s)
    ensures r.Ok? ==> IsClassnameOf(s, r.value)
  {
    ClassnameBySegments(s);
    var parts :- CapitalizeAll(Split(s, '.'));
    Ok(Join(parts, "_"))
  }

  /** A dot-free segment is upper-cased at its start and kept elsewhere. */
  lemma SegmentClassname(s: string)
    requires s != [] && '.' !in s
    ensures IsClassnameOf(s, Capitalize(s))
  {
  }

  /** Splitting at the first dot `k`: the rest is dot-separated exactly when
      the whole is, provided the first segment is not empty. */
  lemma DotSeparatedAtFirst(s: string, k: nat)
    requires k < |s| && s[k] == '.' && '.' !in s[..k]
    ensures DotSeparated(s) <==> k > 0 && DotSeparated(s[k + 1..])
  {
    var rest := s[k + 1..];
    if k > 0 && DotSeparated(rest) {
      forall i | 0 <= i < |s| - 1 && s[i] == '.'
        ensures s[i + 1] != '.'
      {
        if i < k {
          assert false;
        } else if i > k {
          assert s[i] == rest[i - k - 1] && s[i + 1] == rest[i - k];
        }
      }
      assert s[|s| - 1] == rest[|rest| - 1];
    }
    if DotSeparated(s) {
      assert k > 0;
      assert rest != [] by {
        if rest == [] { assert false; }
      }
      forall i | 0 <= i < |rest| - 1 && rest[i] == '.'
        ensures rest[i + 1] != '.'
      {
        assert s[k + 1 + i] == rest[i];
      }
      assert rest[0] == s[k + 1];
      assert rest[|rest| - 1] == s[|s| - 1];
    }
  }

  /** The classname of `head.rest` is the head's, '_', then the rest's. */
  lemma ClassnameAtFirst(s: string, k: nat, t: string)
    requires 0 < k < |s| && s[k] == '.' && '.' !in s[..k]
    requires IsClassnameOf(s[k + 1..], t)
    ensures IsClassnameOf(s, Capitalize(s[..k]) + "_" + t)
  {
    var head := s[..k];
    var rest := s[k + 1..];
    var r := Capitalize(head) + "_" + t;
    SegmentClassname(head);
    forall i | 0 <= i < |s|
      ensures r[i] == ClassChar(s, i)
    {
      if i < k {
        assert s[i] == head[i];
        assert i > 0 ==> s[i - 1] == head[i - 1];
        assert r[i] == Capitalize(head)[i];
        assert ClassChar(head, i) == ClassChar(s, i);
      } else if i == k {
      } else {
        assert r[i] == t[i - k - 1];
        assert s[i] == rest[i - k - 1];
        assert i - k - 1 > 0 ==> s[i - 1] == rest[i - k - 2];
      }
    }
  }

  lemma {:induction false} ClassnameBySegments(s: string)
    ensures CapitalizeAll(Split(s, '.')).Ok? <==> DotSeparated(s)
    ensures CapitalizeAll(Split(s, '.')).Ok? ==> IsClassnameOf(s, Join(CapitalizeAll(Split(s, '.')).value, "_"))
    decreases |s|
  {
    if '.' !in s {
      assert Split(s, '.') == [s];
      if s != [] {
        SegmentClassname(s);
      }
    } else {
      var k := IndexOf(s, '.');
      var head := s[..k];
      var rest := s[k + 1..];
      assert Split(s, '.') == [head] + Split(rest, '.');
      ClassnameBySegments(rest);
      DotSeparatedAtFirst(s, k);
      var parts := Split(s, '.');
      assert parts[1..] == Split(rest, '.');
      if k > 0 && CapitalizeAll(Split(rest, '.')).Ok? {
        var tail := CapitalizeAll(Split(rest, '.')).value;
        assert CapitalizeAll(parts).value == [Capitalize(head)] + tail;
        JoinCons(Capitalize(head), tail, "_");
        ClassnameAtFirst(s, k, Join(tail, "_"));
      }
    }
  }

  // ---------------------------------------------------------------------
  // Value types

  /** The `Value::Type` name of a model type, where one is defined. */
  function ValueTypeName(t: PropertyType): Option<string> {
    if t.IsFundamental() then Some(t.Name())
    else if t == ENUM then Some("STRING")
    else if t == OBJECT then Some("DICTIONARY")
    else if t == ARRAY then Some("LIST")
    else None
  }

  /** `GetValueType(type_)`: the dictionary lookup raises KeyError for a
      type it does not list. */
  function GetValueType(t: PropertyType): (r: Result<string, PyError>)
    ensures r.Ok? <==> t in {STRING, INTEGER, BOOLEAN, DOUBLE, ENUM, OBJECT, ARRAY}
    ensures r.Ok? ==> ValueTypeName(t).Some? && r.value == "Value::TYPE_" + ValueTypeName(t).value
    ensures r.Err? ==> r.error == KeyError(t.Name())
  {
    match t
    case STRING => Ok("Value::TYPE_STRING")
    case INTEGER => Ok("Value::TYPE_INTEGER")
    case BOOLEAN => Ok("Value::TYPE_BOOLEAN")
    case DOUBLE => Ok("Value::TYPE_DOUBLE")
    case ENUM => Ok("Value::TYPE_STRING")
    case OBJECT => Ok("Value::TYPE_DICTIONARY")
    case ARRAY => Ok("Value::TYPE_LIST")
    case _ => Err(KeyError(t.Name()))
  }

  /** An enum is stored as a string value; no other two types share one. */
  lemma ValueTypesShared(a: PropertyType, b: PropertyType)
    requires a != b && GetValueType(a).Ok? && GetValueType(b).Ok?
    ensures GetValueType(a) == GetValueType(b) <==> {a, b} == {STRING, ENUM}
  {
    if GetValueType(a) == GetValueType(b) {
      var x, y := ValueTypeName(a).value, ValueTypeName(b).value;
      assert "Value::TYPE_" + x == "Value::TYPE_" + y;
      assert x == (("Value::TYPE_" + x)[12..]);
      assert y == (("Value::TYPE_" + y)[12..]);
    }
  }

  /** `GetAsFundamentalValue(prop, src, dst)` */
  function GetAsFundamentalValue(t: PropertyType, src: string, dst: string): (r: Result<string, PyError>)
    ensures r.Ok? <==> t.IsFundamental()
    ensures r.Ok? ==> StartsWith(r.value, src + "->GetAs") && EndsWith(r.value, "(" + dst + ")")
    ensures r.Err? ==> r.error == KeyError(t.Name())
  {
    match t
    case STRING => Ok(src + "->GetAsString(" + dst + ")")
    case BOOLEAN => Ok(src + "->GetAsBoolean(" + dst + ")")
    case INTEGER => Ok(src + "->GetAsInteger(" + dst + ")")
    case DOUBLE => Ok(src + "->GetAsDouble(" + dst + ")")
    case _ => Err(KeyError(t.Name()))
  }

  // ---------------------------------------------------------------------
  // Parameter declarations

  /** The types `GetParameterDeclaration` passes by reference. */
  predicate ByReference(t: PropertyType) {
    t in {REF, OBJECT, ARRAY, STRING}
  }

  /** `GetParameterDeclaration(param, type_)`: reading `param.unix_name`
      may raise, and freezes it. */
  function GetParameterDeclaration(param: Property, cppType: string): (r: Result<(Property, string), PyError>)
    ensures r.Ok? <==> GetUnixName(param).Ok?
    ensures r.Ok? ==> r.value.0 == GetUnixName(param).value.0 && r.value.0.unixNameUsed
    ensures r.Ok? ==> var (_, decl) := r.value; var u := GetUnixName(param).value.1;
      && StartsWith(decl, cppType) && EndsWith(decl, u)
      && |decl| == |cppType| + |u| + (if ByReference(param.Type()) then 2 else 1)
      && decl[|cppType|] == (if ByReference(param.Type()) then '&' else ' ')
      && decl[|decl| - |u| - 1] == ' '
  {
    var (used, u) :- GetUnixName(param);
    if ByReference(param.Type()) then Ok((used, cppType + "& " + u))
    else Ok((used, cppType + " " + u))
  }

  // ---------------------------------------------------------------------
  // Include guards

  /** `GenerateIfndefName(path, filename)` on POSIX, where `os.sep` is '/'. */
  function GenerateIfndefName(path: string, filename: string): (r: string)
    ensures '/' !in r
    ensures var raw := path + "_" + filename + "_H__";
      |r| == |raw| && forall i :: 0 <= i < |raw| ==> r[i] == (if raw[i] == '/' then '_' else UpperChar(raw[i]))
  {
    ReplaceChar(ReplaceChar(Upper(path + "_" + filename + "_H__"), '/', '_'), '/', '_')
  }

  /** The name is a fixed point of upper-casing: nothing in it is lower-case. */
  lemma IfndefNameUpper(path: string, filename: string)
    ensures forall i :: 0 <= i < |GenerateIfndefName(path, filename)| ==> !IsLower(GenerateIfndefName(path, filename)[i])
  {
  }

  /** A '.' in the file name survives: `gen`, `file.h` gives
      `GEN_FILE.H_H__`, not `GEN_FILE_H__`. */
  lemma IfndefNameKeepsDots()
    ensures GenerateIfndefName("gen", "file.h") == "GEN_FILE.H_H__"
  {
  }
}

=== FILE: enums_api.dfy ===
/** The generated API of the `enums` test schema: a record with a required
    enum, one with an optional enum, and the functions `TakesEnum`,
    `TakesOptionalEnum` and `TakesMultipleOptionalEnums`.

    An enum is a string value restricted to the enum's members; a string
    outside them fails the decode. An optional enum that is absent is the
    generated `..._NONE` constant, here `None`. The schema file is not part
    of this model: the members the tests name are `one`, `two`, `baz` and
    `foo`. The others (`three`, `bar`, `ding`, `dong`) are an assumption
    that fills out the three enums; nothing here depends on their names
    beyond their being distinct from the named ones. */
module EnumsApi {
  import opened Wrappers
  import opened Values

  // ---------------------------------------------------------------------
  // The enums and their strings

  datatype TypeEnum = TYPE_ONE | TYPE_TWO | TYPE_THREE

  function TypeString(t: TypeEnum): string {
    match t
    case TYPE_ONE => "one"
    case TYPE_TWO => "two"
    case TYPE_THREE => "three"
  }

  /** The enum member a string names, if any. */
  function TypeFromString(s: string): (r: Option<TypeEnum>)
    ensures forall t :: r == Some(t) <==> TypeString(t) == s
  {
    if s == "one" then Some(TYPE_ONE)
    else if s == "two" then Some(TYPE_TWO)
    else if s == "three" then Some(TYPE_THREE)
    else None
  }

  datatype StateEnum = STATE_FOO | STATE_BAR | STATE_BAZ

  function StateString(t: StateEnum): string {
    match t
    case STATE_FOO => "foo"
    case STATE_BAR => "bar"
    case STATE_BAZ => "baz"
  }

  function StateFromString(s: string): (r: Option<StateEnum>)
    ensures forall t :: r == Some(t) <==> StateString(t) == s
  {
    if s == "foo" then Some(STATE_FOO)
    else if s == "bar" then Some(STATE_BAR)
    else if s == "baz" then Some(STATE_BAZ)
    else None
  }

  /** The second enum of `TakesMultipleOptionalEnums`. */
  datatype KindEnum = KIND_FOO | KIND_DING | KIND_DONG

  function KindString(t: KindEnum): string {
    match t
    case KIND_FOO => "foo"
    case KIND_DING => "ding"
    case KIND_DONG => "dong"
  }

  function KindFromString(s: string): (r: Option<KindEnum>)
    ensures forall t :: r == Some(t) <==> KindString(t) == s
  {
    if s == "foo" then Some(KIND_FOO)
    else if s == "ding" then Some(KIND_DING)
    else if s == "dong" then Some(KIND_DONG)
    else None
  }

  // ---------------------------------------------------------------------
  // Enum values

  function TypeOf(v: Value): (r: Option<TypeEnum>)
    ensures r.Some? <==> v.VStr? && TypeFromString(v.s).Some?
    ensures r.Some? ==> v == VStr(TypeString(r.value))
  {
    var s :- AsString(v);
    TypeFromString(s)
  }

  function TypeValue(t: TypeEnum): (r: Value)
    ensures TypeOf(r) == Some(t)
  {
    VStr(TypeString(t))
  }

  function StateOf(v: Value): (r: Option<StateEnum>)
    ensures r.Some? <==> v.VStr? && StateFromString(v.s).Some?
    ensures r.Some? ==> v == VStr(StateString(r.value))
  {
    var s :- AsString(v);
    StateFromString(s)
  }

  function StateValue(t: StateEnum): (r: Value)
    ensures StateOf(r) == Some(t)
  {
    VStr(StateString(t))
  }

  function KindOf(v: Value): (r: Option<KindEnum>)
    ensures r.Some? <==> v.VStr? && KindFromString(v.s).Some?
    ensures r.Some? ==> v == VStr(KindString(r.value))
  {
    var s :- AsString(v);
    KindFromString(s)
  }

  function KindValue(t: KindEnum): (r: Value)
    ensures KindOf(r) == Some(t)
  {
    VStr(KindString(t))
  }

  // ---------------------------------------------------------------------
  // EnumType and OptionalEnumType

  datatype EnumType = EnumType(kind: TypeEnum)

  /** `EnumType::Populate`: `type` must be present and one of the enum's
      strings. */
  function EnumTypePopulate(v: Value): (r: Option<EnumType>)
    ensures r.Some? <==> v.VDict? && "type" in v.entries && TypeOf(v.entries["type"]).Some?
    ensures r.Some? ==> v.entries["type"] == TypeValue(r.value.kind)
  {
    if !v.VDict? then None
    else
      var t :- Required(v.entries, "type", TypeOf);
      Some(EnumType(t))
  }

  /** `EnumType::ToValue` */
  function EnumTypeToValue(e: EnumType): (r: Value)
    ensures r.VDict? && r.entries.Keys == {"type"}
    ensures EnumTypePopulate(r) == Some(e)
  {
    VDict(map["type" := TypeValue(e.kind)])
  }

  /** The test's `value->Equals(enum_type->ToValue())`: a dictionary with
      only a valid `type` comes back unchanged. */
  lemma EnumTypeBack(v: Value)
    requires EnumTypePopulate(v).Some? && v.entries.Keys == {"type"}
    ensures EnumTypeToValue(EnumTypePopulate(v).value) == v
  {
    assert v.entries == map["type" := v.entries["type"]];
  }

  datatype OptionalEnumType = OptionalEnumType(kind: Option<TypeEnum>)

  /** `OptionalEnumType::Populate`: an absent `type` is `TYPE_NONE`; a
      present one must be valid. */
  function OptionalEnumTypePopulate(v: Value): (r: Option<OptionalEnumType>)
    ensures r.Some? <==> v.VDict? && ("type" !in v.entries || TypeOf(v.entries["type"]).Some?)
    ensures r.Some? ==> (r.value.kind.None? <==> "type" !in v.entries)
    ensures r.Some? && r.value.kind.Some? ==> v.entries["type"] == TypeValue(r.value.kind.value)
  {
    if !v.VDict? then None
    else
      var t :- Optional(v.entries, "type", TypeOf);
      Some(OptionalEnumType(t))
  }

  /** `OptionalEnumType::ToValue`: `TYPE_NONE` writes no key. */
  function OptionalEnumTypeToValue(e: OptionalEnumType): (r: Value)
    ensures r.VDict? && ("type" in r.entries <==> e.kind.Some?) && r.entries.Keys <= {"type"}
    ensures OptionalEnumTypePopulate(r) == Some(e)
  {
    VDict(PutOptional(map[], "type", e.kind, TypeValue))
  }

  lemma OptionalEnumTypeBack(v: Value)
    requires OptionalEnumTypePopulate(v).Some? && v.entries.Keys <= {"type"}
    ensures OptionalEnumTypeToValue(OptionalEnumTypePopulate(v).value) == v
  {
    if "type" in v.entries {
      assert v.entries == map["type" := v.entries["type"]];
    } else {
      assert v.entries == map[];
    }
  }

  // ---------------------------------------------------------------------
  // Functions

  /** `TakesEnum::Params::Create`: exactly one valid state. */
  function TakesEnumCreate(args: seq<Value>): (r: Option<StateEnum>)
    ensures r.Some? <==> |args| == 1 && StateOf(args[0]).Some?
    ensures r.Some? ==> args == [StateValue(r.value)]
  {
    if !ArgsFit(args, 1, 1) then None
    else RequiredArg(args, 0, StateOf)
  }

  /** `TakesOptionalEnum::Params::Create`: no argument is `STATE_NONE`; one
      argument must be a valid state. */
  function TakesOptionalEnumCreate(args: seq<Value>): (r: Option<Option<StateEnum>>)
    ensures r.Some? <==> |args| == 0 || (|args| == 1 && StateOf(args[0]).Some?)
    ensures r.Some? ==> (r.value.None? <==> args == [])
    ensures r.Some? && r.value.Some? ==> args == [StateValue(r.value.value)]
  {
    if !ArgsFit(args, 0, 1) then None
    else OptionalArg(args, 0, StateOf)
  }

  datatype MultipleParams = MultipleParams(state: Option<StateEnum>, kind: Option<KindEnum>)

  /** `TakesMultipleOptionalEnums::Params::Create`: missing trailing
      arguments are `NONE`; every argument given must be valid, or nothing
      is created. */
  function TakesMultipleOptionalEnumsCreate(args: seq<Value>): (r: Option<MultipleParams>)
    ensures r.Some? <==> |args| <= 2 && (|args| >= 1 ==> StateOf(args[0]).Some?) && (|args| == 2 ==> KindOf(args[1]).Some?)
    ensures r.Some? ==> (r.value.state.None? <==> |args| == 0) && (r.value.kind.None? <==> |args| < 2)
    ensures r.Some? ==> args == MultipleArgs(r.value)
  {
    if !ArgsFit(args, 0, 2) then None
    else
      var state :- OptionalArg(args, 0, StateOf);
      var kind :- OptionalArg(args, 1, KindOf);
      Some(MultipleParams(state, kind))
  }

  /** The argument list a caller passes for given parameters: the set ones,
      up to the first that is not set. */
  function MultipleArgs(p: MultipleParams): (r: seq<Value>)
    ensures |r| <= 2
  {
    match p.state
    case None => []
    case Some(s) =>
      match p.kind
      case None => [StateValue(s)]
      case Some(k) => [StateValue(s), KindValue(k)]
  }

  /** Parameters without a set one after an unset one survive the trip
      through their argument list. */
  lemma MultipleRoundTrip(p: MultipleParams)
    requires p.state.None? ==> p.kind.None?
    ensures TakesMultipleOptionalEnumsCreate(MultipleArgs(p)) == Some(p)
  {
  }

  // ---------------------------------------------------------------------
  // The cases of the enums test

  lemma EnumTypeCases()
    ensures EnumTypePopulate(VDict(map["type" := VStr("one")])) == Some(EnumType(TYPE_ONE))
    ensures EnumTypePopulate(VDict(map["type" := VStr("invalid")])).None?
  {
  }

  lemma OptionalEnumTypeCases()
    ensures OptionalEnumTypePopulate(VDict(map["type" := VStr("two")])) == Some(OptionalEnumType(Some(TYPE_TWO)))
    ensures OptionalEnumTypePopulate(VDict(map[])) == Some(OptionalEnumType(None))
    ensures OptionalEnumTypeToValue(OptionalEnumType(None)) == VDict(map[])
    ensures OptionalEnumTypePopulate(VDict(map["type" := VStr("invalid")])).None?
  {
  }

  lemma TakesEnumCases()
    ensures TakesEnumCreate([VStr("baz")]) == Some(STATE_BAZ)
    ensures TakesEnumCreate([VStr("invalid")]).None?
    ensures TakesOptionalEnumCreate([VStr("baz")]) == Some(Some(STATE_BAZ))
    ensures TakesOptionalEnumCreate([]) == Some(None)
    ensures TakesOptionalEnumCreate([VStr("invalid")]).None?
  {
  }

  lemma TakesMultipleOptionalEnumsCases()
    ensures TakesMultipleOptionalEnumsCreate([VStr("foo"), VStr("foo")]) == Some(MultipleParams(Some(STATE_FOO), Some(KIND_FOO)))
    ensures TakesMultipleOptionalEnumsCreate([VStr("foo")]) == Some(MultipleParams(Some(STATE_FOO), None))
    ensures TakesMultipleOptionalEnumsCreate([]) == Some(MultipleParams(None, None))
    ensures TakesMultipleOptionalEnumsCreate([VStr("baz"), VStr("invalid")]).None?
  {
  }
}

=== FILE: idl_comment.dfy ===
/** `ProcessComment` of the IDL front end: a comment is split into the
    parent comment and the `|name|: text` parameter comments.

    The two regular expressions are written out as scans that behave like
    Python's engine on them: `re.findall(r'\n *\|([^|]*)\| *: *(.*)', c)`
    tries each position from the left and resumes behind a match, and
    `re.sub(r'\n *\|.*', '', c)` deletes each line that starts with
    optional spaces and '|', from the newline before it to the end of the
    line. Neither pattern can backtrack into a different match: `[^|]*`
    stops at the only '|' that can follow it, and '.' stops at a newline. */
module IdlComment {
  import opened Wrappers
  import opened Text

  /** The first position at or after `i` that is not a space. */
  function SkipSpaces(s: string, i: nat): (j: nat)
    requires i <= |s|
    ensures i <= j <= |s|
    ensures forall k :: i <= k < j ==> s[k] == ' '
    ensures j == |s| || s[j] != ' '
    decreases |s| - i
  {
    if i < |s| && s[i] == ' ' then SkipSpaces(s, i + 1) else i
  }

  /** The end of the line that position `i` is on: the next newline or the
      end of the string. */
  function LineEnd(s: string, i: nat): (j: nat)
    requires i <= |s|
    ensures i <= j <= |s|
    ensures '\n' !in s[i..j]
    ensures j == |s| || s[j] == '\n'
    decreases |s| - i
  {
    if i == |s| || s[i] == '\n' then i
    else
      var j := LineEnd(s, i + 1);
      assert s[i..j] == [s[i]] + s[i + 1..j];
      j
  }

  /** The first '|' at or after `i`. */
  function NextBar(s: string, i: nat): (r: Option<nat>)
    requires i <= |s|
    ensures r.Some? ==> i <= r.value < |s| && s[r.value] == '|' && '|' !in s[i..r.value]
    ensures r.None? ==> '|' !in s[i..]
    decreases |s| - i
  {
    if i == |s| then None
    else if s[i] == '|' then Some(i)
    else
      var r := NextBar(s, i + 1);
      assert r.Some? ==> s[i..r.value] == [s[i]] + s[i + 1..r.value];
      assert s[i..] == [s[i]] + s[i + 1..];
      r
  }

  /** One `|name|: text` match, ending at `end`. */
  datatype ParamComment = ParamComment(name: string, text: string, end: nat)

  /** The parameter pattern at position `i`: a newline, spaces, '|', a
      name without '|', '|', spaces, ':', spaces, and the rest of the line. */
  function ParamAt(s: string, i: nat): (r: Option<ParamComment>)
    requires i < |s|
    ensures r.Some? ==> i < r.value.end <= |s|
    ensures r.Some? ==> '|' !in r.value.name && '\n' !in r.value.text
    ensures r.Some? ==> s[i] == '\n'
  {
    if s[i] != '\n' then None
    else
      var j := SkipSpaces(s, i + 1);
      if j == |s| || s[j] != '|' then None
      else match NextBar(s, j + 1)
        case None => None
        case Some(b) =>
          var c := SkipSpaces(s, b + 1);
          if c == |s| || s[c] != ':' then None
          else
            var t := SkipSpaces(s, c + 1);
            var e := LineEnd(s, t);
            Some(ParamComment(s[j + 1..b], s[t..e], e))
  }

  /** `re.findall` of the parameter pattern from position `i`. */
  function FindParams(s: string, i: nat): (r: seq<ParamComment>)
    requires i <= |s|
    ensures forall k :: 0 <= k < |r| ==> '|' !in r[k].name && '\n' !in r[k].text
    decreases |s| - i
  {
    if i == |s| then []
    else match ParamAt(s, i)
      case Some(m) => [m] + FindParams(s, m.end)
      case None => FindParams(s, i + 1)
  }

  /** Where a line that starts with spaces and '|' begins at the newline
      `i`, the position its deletion ends at. */
  function BarLineAt(s: string, i: nat): (r: Option<nat>)
    requires i < |s|
    ensures r.Some? ==> i < r.value <= |s| && s[i] == '\n'
  {
    if s[i] != '\n' then None
    else
      var j := SkipSpaces(s, i + 1);
      if j == |s| || s[j] != '|' then None
      else Some(LineEnd(s, j + 1))
  }

  /** `re.sub(r'\n *\|.*', '', s)` from position `i`. */
  function DropBarLines(s: string, i: nat): (r: string)
    requires i <= |s|
    ensures |r| <= |s| - i
    decreases |s| - i
  {
    if i == |s| then []
    else match BarLineAt(s, i)
      case Some(e) => DropBarLines(s, e)
      case None => [s[i]] + DropBarLines(s, i + 1)
  }

  /** `x.replace('\n', '').strip()` */
  function Clean(x: string): (r: string)
    ensures '\n' !in r
    ensures IsStripped(r)
  {
    Strip(Remove(x, '\n'))
  }

  predicate IsStripped(x: string) {
    x == [] || (!IsSpace(x[0]) && !IsSpace(x[|x| - 1]))
  }

  /** The names of the matches. */
  function Names(ms: seq<ParamComment>): (r: set<string>)
    ensures forall k :: 0 <= k < |ms| ==> ms[k].name in r
  {
    if ms == [] then {} else {ms[0].name} + Names(ms[1..])
  }

  /** The dictionary of parameter comments: a later match for the same name
      replaces an earlier one. */
  function ParamMap(ms: seq<ParamComment>, acc: map<string, string>): (r: map<string, string>)
    requires forall n :: n in acc ==> '\n' !in acc[n] && IsStripped(acc[n])
    ensures forall n :: n in r ==> '\n' !in r[n] && IsStripped(r[n])
    ensures r.Keys == acc.Keys + Names(ms)
    ensures forall n :: n in acc && n !in Names(ms) ==> r[n] == acc[n]
    ensures |ms| > 0 ==> r[ms[|ms| - 1].name] == Clean(ms[|ms| - 1].text)
    decreases |ms|
  {
    if ms == [] then acc
    else ParamMap(ms[1..], acc[ms[0].name := Clean(ms[0].text)])
  }

  lemma {:induction false} NamesNoBar(ms: seq<ParamComment>)
    requires forall k :: 0 <= k < |ms| ==> '|' !in ms[k].name
    ensures forall n :: n in Names(ms) ==> '|' !in n
    decreases |ms|
  {
    if ms != [] {
      NamesNoBar(ms[1..]);
    }
  }

  /** `ProcessComment(comment)`: the parent comment and the parameter
      comments, each without newlines and stripped; the parameters are
      exactly the names written between bars, each with the text of its
      last match. */
  function ProcessComment(comment: string): (r: (string, map<string, string>))
    ensures '\n' !in r.0 && IsStripped(r.0)
    ensures forall n :: n in r.1 ==> '\n' !in r.1[n] && IsStripped(r.1[n])
    ensures forall n :: n in r.1 ==> '|' !in n
    ensures r.1.Keys == Names(FindParams(comment, 0))
  {
    var ms := FindParams(comment, 0);
    NamesNoBar(ms);
    (Clean(DropBarLines(comment, 0)), ParamMap(ms, map[]))
  }

  /** Without a '|' nothing is a parameter comment, and nothing is
      dropped before the newlines are removed. */
  lemma {:induction false} NoBarNoParams(s: string, i: nat)
    requires i <= |s| && '|' !in s
    ensures FindParams(s, i) == []
    ensures DropBarLines(s, i) == s[i..]
    decreases |s| - i
  {
    if i < |s| {
      NoBarAt(s, i);
      NoBarNoParams(s, i + 1);
      assert s[i..] == [s[i]] + s[i + 1..];
    }
  }

  lemma NoBarAt(s: string, i: nat)
    requires i < |s| && '|' !in s
    ensures ParamAt(s, i).None? && BarLineAt(s, i).None?
  {
    if s[i] == '\n' {
      var j := SkipSpaces(s, i + 1);
      if j < |s| {
        assert s[j] in s;
      }
    }
  }

  lemma PlainComment(comment: string)
    requires '|' !in comment
    ensures ProcessComment(comment) == (Clean(comment), map[])
  {
    NoBarNoParams(comment, 0);
    assert comment[0..] == comment;
  }
}

=== FILE: idl_examples.dfy ===
/** What the IDL front end makes of the parameter shapes its tests use:
    a primitive, a callback, an array of a named type and an array of
    callbacks. Each is stated for every parameter of that shape, not only
    for the test file's. */
module IdlExamples {
  import opened Wrappers
  import opened Json
  import opened IdlSchema

  /** A parameter that is neither optional nor an array. */
  predicate Plain(node: Node) {
    !ArraySibling(node) && !Truthy(node.Property("OPTIONAL"))
  }

  /** A parameter that is an array and not optional. */
  predicate PlainArray(node: Node) {
    ArraySibling(node) && !Truthy(node.Property("OPTIONAL"))
  }

  /** A named type that is neither a primitive, `object` nor a callback. */
  predicate IsTypeName(t: string, callbacks: map<string, Json>) {
    PrimitiveType(t).None? && t != "object" && t !in callbacks
  }

  /** `long x` comes out as `{'name': 'x', 'type': 'integer'}`: the name,
      the primitive's type, and no other key. */
  lemma PrimitiveParam(node: Node, callbacks: map<string, Json>, t: string, x: string)
    requires CallbacksOk(callbacks) && node.typeref == Some(t) && PrimitiveType(t).Some? && Plain(node)
    ensures Get(ParamProcess(node, callbacks), x)
         == if x == "name" then Some(JStr(node.name))
            else if x == "type" then Some(JStr(PrimitiveType(t).value))
            else None
  {
    var r := ParamProcess(node, callbacks);
    assert Describes(node.typeref, node, callbacks, Named(node.name), r);
  }

  /** A parameter whose type is a callback is the callback's own entry,
      name included: `Callback1 cb` comes out as
      `{'type': 'function', 'name': 'Callback1', 'parameters': []}`. */
  lemma CallbackParam(node: Node, callbacks: map<string, Json>, t: string, x: string)
    requires CallbacksOk(callbacks) && node.typeref == Some(t) && IsCallbackName(t, callbacks) && Plain(node)
    ensures Get(ParamProcess(node, callbacks), x) == Get(callbacks[t], x)
  {
    var r := ParamProcess(node, callbacks);
    var cb := callbacks[t];
    assert Inlined(cb, Named(node.name), r);
    assert Has(cb, "name");
  }

  /** `MyType2[] arg` comes out as
      `{'name': 'arg', 'type': 'array', 'items': {'$ref': 'MyType2'}}`. */
  lemma ArrayOfTypeParam(node: Node, callbacks: map<string, Json>, t: string, x: string)
    requires CallbacksOk(callbacks) && node.typeref == Some(t) && IsTypeName(t, callbacks) && PlainArray(node)
    ensures Get(ParamProcess(node, callbacks), x)
         == if x == "name" then Some(JStr(node.name))
            else if x == "type" then Some(JStr("array"))
            else if x == "items" then Some(JObj([Entry("$ref", JStr(t))]))
            else None
  {
    var r := ParamProcess(node, callbacks);
    var items := Get(r, "items").value;
    assert Describes(node.typeref, node, callbacks, EmptyDict(), items);
    assert Get(items, "$ref") == Some(JStr(t));
    KeepsEmpty(items, "$ref");
    DictOfOne(items, "$ref", JStr(t));
  }

  /** A dict built from an empty one that only `k` was written to has no
      other key. */
  lemma KeepsEmpty(after: Json, k: string)
    requires after.JObj? && Keeps(EmptyDict(), after, {k})
    ensures forall y :: y != k ==> !Has(after, y)
  {
    forall y | y != k ensures !Has(after, y) {
      assert y !in {k};
      assert Get(after, y) == Get(EmptyDict(), y);
    }
  }

  /** `MyCallback[] callbacks` comes out as an array whose items are the
      callback's own entry. */
  lemma ArrayOfCallbackParam(node: Node, callbacks: map<string, Json>, t: string, x: string)
    requires CallbacksOk(callbacks) && node.typeref == Some(t) && IsCallbackName(t, callbacks) && PlainArray(node)
    ensures Get(ParamProcess(node, callbacks), "type") == Some(JStr("array"))
    ensures Get(ParamProcess(node, callbacks), "name") == Some(JStr(node.name))
    ensures Get(ParamProcess(node, callbacks), "items").Some?
    ensures Get(ParamProcess(node, callbacks), "items").value.JObj?
    ensures Get(Get(ParamProcess(node, callbacks), "items").value, x) == Get(callbacks[t], x)
  {
    var r := ParamProcess(node, callbacks);
    var items := Get(r, "items").value;
    assert Inlined(callbacks[t], EmptyDict(), items);
  }

  /** A dictionary with one key and no other is that one entry. */
  lemma DictOfOne(d: Json, k: string, v: Json)
    requires IsDict(d) && Get(d, k) == Some(v) && forall y :: y != k ==> !Has(d, y)
    ensures d == JObj([Entry(k, v)])
  {
    var fs := d.fields;
    assert Has(d, k);
    assert |fs| > 0;
    if |fs| > 1 {
      assert fs[0].key != fs[1].key;
      assert Has(d, fs[0].key) && Has(d, fs[1].key);
      assert false;
    }
    assert Lookup(fs, k) == Some(fs[0].value);
  }
}

=== FILE: idl_namespace.dfy ===
/** The top of the IDL front end: `Dictionary.process`, `Namespace.process`
    with its `process_interface`, and `IDLSchema.process`.

    `sys.exit` on a node the translation does not know is the error
    `DidNotProcess`, carrying the node's class and name (the message also
    prints the node's `repr`, which is not modelled). */
module IdlNamespace {
  import opened Wrappers
  import opened Json
  import opened IdlSchema

  datatype Exit = DidNotProcess(cls: string, name: string)

  /** The nodes of class `cls` from index `i` on, in order. */
  function Filter(nodes: seq<Node>, i: nat, cls: string): (r: seq<Node>)
    requires i <= |nodes|
    ensures |r| <= |nodes| - i
    ensures forall k :: 0 <= k < |r| ==> r[k].cls == cls
    decreases |nodes| - i
  {
    if i == |nodes| then []
    else (if nodes[i].cls == cls then [nodes[i]] else []) + Filter(nodes, i + 1, cls)
  }

  /** Every node of class `cls` from `i` on is kept. */
  lemma {:induction false} FilterKeeps(nodes: seq<Node>, i: nat, cls: string, k: nat)
    requires i <= k < |nodes| && nodes[k].cls == cls
    ensures nodes[k] in Filter(nodes, i, cls)
    decreases k - i
  {
    if k > i {
      FilterKeeps(nodes, i + 1, cls, k);
    }
  }

  // ---------------------------------------------------------------------
  // Dictionary

  /** The position of the last Member child from `i` on that reports the
      name `x`. */
  function LastMemberNamed(nodes: seq<Node>, i: nat, x: string): (r: Option<nat>)
    requires i <= |nodes|
    ensures r.Some? ==> i <= r.value < |nodes| && nodes[r.value].cls == "Member" && MemberName(nodes[r.value]) == x
    ensures r.None? ==> forall k :: i <= k < |nodes| && nodes[k].cls == "Member" ==> MemberName(nodes[k]) != x
    decreases |nodes| - i
  {
    if i == |nodes| then None
    else match LastMemberNamed(nodes, i + 1, x)
      case Some(k) => Some(k)
      case None => if nodes[i].cls == "Member" && MemberName(nodes[i]) == x then Some(i) else None
  }

  /** The properties loop of `Dictionary.process`: each Member child is
      filed under the name it reports; the other children are skipped. */
  function DictionaryProperties(nodes: seq<Node>, i: nat, acc: Json, callbacks: map<string, Json>): (r: Json)
    requires i <= |nodes| && IsDict(acc) && CallbacksOk(callbacks)
    ensures IsDict(r)
    decreases |nodes| - i
  {
    if i == |nodes| then acc
    else if nodes[i].cls == "Member" then
      var (k, v) := MemberProcess(nodes[i], callbacks);
      DictionaryProperties(nodes, i + 1, Set(acc, k, v), callbacks)
    else DictionaryProperties(nodes, i + 1, acc, callbacks)
  }

  /** The last Member child of a name wins; a name no Member child reports
      keeps its value from before the loop. */
  lemma {:induction false} DictionaryPropertiesGet(nodes: seq<Node>, i: nat, acc: Json, callbacks: map<string, Json>, x: string)
    requires i <= |nodes| && IsDict(acc) && CallbacksOk(callbacks)
    ensures Get(DictionaryProperties(nodes, i, acc, callbacks), x) == match LastMemberNamed(nodes, i, x)
      case Some(k) => Some(MemberProcess(nodes[k], callbacks).1)
      case None => Get(acc, x)
    decreases |nodes| - i
  {
    if i < |nodes| {
      if nodes[i].cls == "Member" {
        var (k, v) := MemberProcess(nodes[i], callbacks);
        DictionaryPropertiesGet(nodes, i + 1, Set(acc, k, v), callbacks, x);
      } else {
        DictionaryPropertiesGet(nodes, i + 1, acc, callbacks, x);
      }
    }
  }

  /** `Dictionary(node).process(callbacks)`: an object type named by the
      node, whose properties are its Member children. */
  function DictionaryProcess(node: Node, callbacks: map<string, Json>): (r: Json)
    requires CallbacksOk(callbacks)
    ensures IsDict(r)
    ensures Get(r, "id") == Some(JStr(node.name))
    ensures Get(r, "type") == Some(JStr("object"))
    ensures Get(r, "properties") == Some(DictionaryProperties(node.children, 0, EmptyDict(), callbacks))
  {
    var props := DictionaryProperties(node.children, 0, EmptyDict(), callbacks);
    Set(Set(Set(EmptyDict(), "id", JStr(node.name)), "properties", props), "type", JStr("object"))
  }

  /** The properties of a dictionary type: for each name, the last Member
      child that reports it, and nothing for the other names. */
  lemma DictionaryMembers(node: Node, callbacks: map<string, Json>, x: string)
    requires CallbacksOk(callbacks)
    ensures Get(DictionaryProcess(node, callbacks), "properties").Some?
    ensures Get(Get(DictionaryProcess(node, callbacks), "properties").value, x) == match LastMemberNamed(node.children, 0, x)
      case Some(k) => Some(MemberProcess(node.children[k], callbacks).1)
      case None => None
  {
    DictionaryPropertiesGet(node.children, 0, EmptyDict(), callbacks, x);
  }

  // ---------------------------------------------------------------------
  // Namespace

  /** `process_interface(node)`: one entry per Member child, in order. */
  function InterfaceMembers(nodes: seq<Node>, callbacks: map<string, Json>): (r: seq<Json>)
    requires CallbacksOk(callbacks)
    ensures |r| == |Filter(nodes, 0, "Member")|
    ensures forall k :: 0 <= k < |r| ==> IsEntry(r[k])
    ensures forall k :: 0 <= k < |r| ==> r[k] == MemberProcess(Filter(nodes, 0, "Member")[k], callbacks).1
  {
    var members := Filter(nodes, 0, "Member");
    seq(|members|, k requires 0 <= k < |members| => MemberProcess(members[k], callbacks).1)
  }

  /** The node classes `Namespace.process` handles. */
  predicate Handled(n: Node) {
    n.cls == "Dictionary" || n.cls == "Callback" || (n.cls == "Interface" && (n.name == "Functions" || n.name == "Events"))
  }

  /** The first node from `i` on that `Namespace.process` does not handle. */
  function FirstUnhandled(nodes: seq<Node>, i: nat): (r: Option<nat>)
    requires i <= |nodes|
    ensures r.Some? ==> i <= r.value < |nodes| && !Handled(nodes[r.value])
    ensures r.Some? ==> forall k :: i <= k < r.value ==> Handled(nodes[k])
    ensures r.None? ==> forall k :: i <= k < |nodes| ==> Handled(nodes[k])
    decreases |nodes| - i
  {
    if i == |nodes| then None
    else if !Handled(nodes[i]) then Some(i)
    else FirstUnhandled(nodes, i + 1)
  }

  datatype NsState = NsState(types: seq<Json>, callbacks: map<string, Json>, functions: seq<Json>, events: seq<Json>)

  /** The names the Callback nodes from `i` on register. */
  function CallbackNames(nodes: seq<Node>, i: nat): set<string>
    requires i <= |nodes|
    decreases |nodes| - i
  {
    if i == |nodes| then {}
    else (if nodes[i].cls == "Callback" then {MemberName(nodes[i])} else {}) + CallbackNames(nodes, i + 1)
  }

  /** A Dictionary node appends its object type. */
  function AddDictionary(n: Node, st: NsState): (r: NsState)
    requires CallbacksOk(st.callbacks)
    ensures r.types == st.types + [DictionaryProcess(n, st.callbacks)]
    ensures r.callbacks == st.callbacks
  {
    st.(types := st.types + [DictionaryProcess(n, st.callbacks)])
  }

  /** A Callback node is registered under the name it reports, for the
      nodes after it. */
  function AddCallback(n: Node, st: NsState): (r: NsState)
    requires CallbacksOk(st.callbacks)
    ensures r.types == st.types
    ensures CallbacksOk(r.callbacks)
    ensures r.callbacks.Keys == st.callbacks.Keys + {MemberName(n)}
    ensures r.callbacks[MemberName(n)] == MemberProcess(n, st.callbacks).1
  {
    var (k, v) := MemberProcess(n, st.callbacks);
    st.(callbacks := st.callbacks[k := v])
  }

  /** One step of the loop of `Namespace.process`: a dictionary is
      appended to the types, a callback registered for the nodes after it,
      and the Functions and Events interfaces replace the lists; any other
      node ends the translation. */
  function NamespaceStep(n: Node, st: NsState): (r: Result<NsState, Exit>)
    requires CallbacksOk(st.callbacks)
    ensures r.Ok? <==> Handled(n)
    ensures r.Err? ==> r.error == DidNotProcess(n.cls, n.name)
    ensures r.Ok? ==> CallbacksOk(r.value.callbacks)
    ensures r.Ok? ==> r.value.callbacks.Keys == st.callbacks.Keys + (if n.cls == "Callback" then {MemberName(n)} else {})
    ensures r.Ok? ==> r.value.types == st.types + (if n.cls == "Dictionary" then [DictionaryProcess(n, st.callbacks)] else [])
  {
    if n.cls == "Dictionary" then Ok(AddDictionary(n, st))
    else if n.cls == "Callback" then Ok(AddCallback(n, st))
    else if n.cls == "Interface" && n.name == "Functions" then Ok(st.(functions := InterfaceMembers(n.children, st.callbacks)))
    else if n.cls == "Interface" && n.name == "Events" then Ok(st.(events := InterfaceMembers(n.children, st.callbacks)))
    else Err(DidNotProcess(n.cls, n.name))
  }

  /** The types a step appends, as `AppendsType` describes them. */
  lemma StepAppends(n: Node, st: NsState)
    requires CallbacksOk(st.callbacks) && Handled(n)
    ensures NamespaceStep(n, st).Ok? && AppendsType(n, st.types, NamespaceStep(n, st).value.types)
  {
    var after := NamespaceStep(n, st).value.types;
    if n.cls == "Dictionary" {
      assert after[..|st.types|] == st.types;
      assert after[|st.types|] == DictionaryProcess(n, st.callbacks);
    } else {
      assert after == st.types + [];
    }
  }

  /** An object type with the id `name`. */
  ghost predicate NamedType(t: Json, name: string) {
    IsDict(t) && Get(t, "id") == Some(JStr(name))
  }

  /** A Dictionary node appends one object type with the node's name as
      its id; another node appends none. */
  ghost predicate AppendsType(n: Node, before: seq<Json>, after: seq<Json>) {
    if n.cls == "Dictionary" then
      |after| == |before| + 1 && after[..|before|] == before && NamedType(after[|before|], n.name)
    else after == before
  }

  /** One type per node of `dicts`, in order, each named by its node. */
  ghost predicate NamedTypes(dicts: seq<Node>, ts: seq<Json>)
    decreases |dicts|
  {
    if dicts == [] then ts == []
    else ts != [] && NamedType(ts[0], dicts[0].name) && NamedTypes(dicts[1..], ts[1..])
  }

  /** The types appended: one per Dictionary node, in order, each an object
      type with the node's name as its id. */
  ghost predicate TypesFor(dicts: seq<Node>, before: seq<Json>, after: seq<Json>) {
    |before| <= |after| && after[..|before|] == before && NamedTypes(dicts, after[|before|..])
  }

  /** Position by position: as many types as nodes, the `k`-th named by
      the `k`-th node. */
  lemma {:induction false} NamedTypesAt(dicts: seq<Node>, ts: seq<Json>, k: nat)
    requires NamedTypes(dicts, ts) && k < |dicts|
    ensures |ts| == |dicts| && NamedType(ts[k], dicts[k].name)
    decreases k
  {
    NamedTypesLength(dicts, ts);
    if k > 0 {
      NamedTypesAt(dicts[1..], ts[1..], k - 1);
    }
  }

  lemma {:induction false} NamedTypesLength(dicts: seq<Node>, ts: seq<Json>)
    requires NamedTypes(dicts, ts)
    ensures |ts| == |dicts|
    decreases |dicts|
  {
    if dicts != [] {
      NamedTypesLength(dicts[1..], ts[1..]);
    }
  }

  /** The loop of `Namespace.process` from node `i` on. */
  function NamespaceLoop(nodes: seq<Node>, i: nat, st: NsState): (r: Result<NsState, Exit>)
    requires i <= |nodes| && CallbacksOk(st.callbacks)
    ensures r.Ok? <==> FirstUnhandled(nodes, i).None?
    ensures r.Err? ==> var k := FirstUnhandled(nodes, i).value; r.error == DidNotProcess(nodes[k].cls, nodes[k].name)
    ensures r.Ok? ==> CallbacksOk(r.value.callbacks)
    decreases |nodes| - i
  {
    if i == |nodes| then Ok(st)
    else
      match NamespaceStep(nodes[i], st)
      case Err(e) => Err(e)
      case Ok(next) => NamespaceLoop(nodes, i + 1, next)
  }

  /** Each Callback node registers its name, and nothing else does. */
  lemma {:induction false} LoopCallbacks(nodes: seq<Node>, i: nat, st: NsState)
    requires i <= |nodes| && CallbacksOk(st.callbacks) && NamespaceLoop(nodes, i, st).Ok?
    ensures NamespaceLoop(nodes, i, st).value.callbacks.Keys == st.callbacks.Keys + CallbackNames(nodes, i)
    decreases |nodes| - i
  {
    if i < |nodes| {
      var next := NamespaceStep(nodes[i], st).value;
      LoopCallbacks(nodes, i + 1, next);
      var here := if nodes[i].cls == "Callback" then {MemberName(nodes[i])} else {};
      assert NamespaceLoop(nodes, i, st) == NamespaceLoop(nodes, i + 1, next);
      KeysStep(st.callbacks.Keys, next.callbacks.Keys, NamespaceLoop(nodes, i + 1, next).value.callbacks.Keys,
               here, CallbackNames(nodes, i + 1), CallbackNames(nodes, i));
    }
  }

  lemma KeysStep(k0: set<string>, k1: set<string>, k2: set<string>, here: set<string>, rest: set<string>, all: set<string>)
    requires k1 == k0 + here && k2 == k1 + rest && all == here + rest
    ensures k2 == k0 + all
  {
  }

  /** One type per Dictionary node, in order, each an object type with the
      node's name as its id. */
  lemma {:induction false} LoopTypes(nodes: seq<Node>, i: nat, st: NsState)
    requires i <= |nodes| && CallbacksOk(st.callbacks)
    requires NamespaceLoop(nodes, i, st).Ok?
    ensures TypesFor(Filter(nodes, i, "Dictionary"), st.types, NamespaceLoop(nodes, i, st).value.types)
    decreases |nodes| - i
  {
    if i < |nodes| {
      StepAppends(nodes[i], st);
      var next := NamespaceStep(nodes[i], st).value;
      LoopTypes(nodes, i + 1, next);
      TypesStep(nodes, i, st.types, next.types, NamespaceLoop(nodes, i, st).value.types);
    } else {
      assert st.types[..|st.types|] == st.types;
      assert st.types[|st.types|..] == [];
    }
  }

  lemma TypesStep(nodes: seq<Node>, i: nat, before: seq<Json>, mid: seq<Json>, after: seq<Json>)
    requires i < |nodes|
    requires AppendsType(nodes[i], before, mid)
    requires TypesFor(Filter(nodes, i + 1, "Dictionary"), mid, after)
    ensures TypesFor(Filter(nodes, i, "Dictionary"), before, after)
  {
    if nodes[i].cls == "Dictionary" {
      TypesStepDictionary(nodes, i, before, mid, after);
    } else {
      assert Filter(nodes, i, "Dictionary") == Filter(nodes, i + 1, "Dictionary");
    }
  }

  lemma TypesStepDictionary(nodes: seq<Node>, i: nat, before: seq<Json>, mid: seq<Json>, after: seq<Json>)
    requires i < |nodes| && nodes[i].cls == "Dictionary"
    requires AppendsType(nodes[i], before, mid)
    requires TypesFor(Filter(nodes, i + 1, "Dictionary"), mid, after)
    ensures TypesFor(Filter(nodes, i, "Dictionary"), before, after)
  {
    var f, g := Filter(nodes, i, "Dictionary"), Filter(nodes, i + 1, "Dictionary");
    var b := |before|;
    assert f == [nodes[i]] + g;
    assert f[0] == nodes[i] && f[1..] == g;
    assert after[..b] == after[..b + 1][..b] == mid[..b] == before;
    assert after[b..][0] == after[b] == after[..b + 1][b] == mid[b];
    assert after[b..][1..] == after[|mid|..];
  }

  /** The three lists of a namespace. */
  function NamespaceLists(st: NsState): (r: Json)
    ensures IsDict(r)
    ensures Get(r, "types") == Some(JList(st.types))
    ensures Get(r, "functions") == Some(JList(st.functions))
    ensures Get(r, "events") == Some(JList(st.events))
  {
    var withEvents := Set(EmptyDict(), "events", JList(st.events));
    Set(Set(withEvents, "functions", JList(st.functions)), "types", JList(st.types))
  }

  /** The dictionary `Namespace.process` returns. */
  function NamespaceDict(name: string, nodoc: bool, st: NsState): (r: Json)
    ensures IsDict(r)
    ensures Get(r, "namespace") == Some(JStr(name))
    ensures Get(r, "nodoc") == Some(JBool(nodoc))
    ensures forall x :: x != "namespace" && x != "nodoc" ==> Get(r, x) == Get(NamespaceLists(st), x)
  {
    Set(Set(NamespaceLists(st), "namespace", JStr(name)), "nodoc", JBool(nodoc))
  }

  /** `Namespace(node, nodoc).process()`: the events, functions and types
      of the namespace, its name and its nodoc flag. */
  function NamespaceProcess(node: Node, nodoc: bool): (r: Result<Json, Exit>)
    ensures r.Ok? <==> FirstUnhandled(node.children, 0).None?
    ensures r.Err? ==> var k := FirstUnhandled(node.children, 0).value;
      r.error == DidNotProcess(node.children[k].cls, node.children[k].name)
    ensures r.Ok? ==> IsDict(r.value)
    ensures r.Ok? ==> Get(r.value, "namespace") == Some(JStr(node.name))
    ensures r.Ok? ==> Get(r.value, "nodoc") == Some(JBool(nodoc))
  {
    var st :- NamespaceLoop(node.children, 0, NsState([], map[], [], []));
    Ok(NamespaceDict(node.name, nodoc, st))
  }

  /** The types of a namespace: one per Dictionary child, in order, each an
      object type with the child's name as its id. */
  lemma NamespaceTypes(node: Node, nodoc: bool)
    ensures NamespaceProcess(node, nodoc).Ok? ==>
      && Get(NamespaceProcess(node, nodoc).value, "types").Some?
      && Get(NamespaceProcess(node, nodoc).value, "types").value.JList?
      && TypesFor(Filter(node.children, 0, "Dictionary"), [], Get(NamespaceProcess(node, nodoc).value, "types").value.items)
  {
    if NamespaceProcess(node, nodoc).Ok? {
      var st0 := NsState([], map[], [], []);
      LoopTypes(node.children, 0, st0);
      var st := NamespaceLoop(node.children, 0, st0).value;
      assert NamespaceProcess(node, nodoc).value == NamespaceDict(node.name, nodoc, st);
    }
  }

  // ---------------------------------------------------------------------
  // IDLSchema

  /** A top-level node `IDLSchema.process` gets through: a namespace whose
      children are all handled, a copyright, a comment or an extended
      attribute. */
  predicate TopOk(n: Node) {
    || (n.cls == "Namespace" && FirstUnhandled(n.children, 0).None?)
    || n.cls == "Copyright" || n.cls == "Comment" || n.cls == "ExtAttribute"
  }

  /** The exit a top-level node that is not `TopOk` ends the translation
      with: the first unhandled child of a namespace, or the node itself. */
  function ExitFor(n: Node): Exit {
    if n.cls == "Namespace" && FirstUnhandled(n.children, 0).Some? then
      var k := FirstUnhandled(n.children, 0).value;
      DidNotProcess(n.children[k].cls, n.children[k].name)
    else DidNotProcess(n.cls, n.name)
  }

  /** The first top-level node from `i` on that is not `TopOk`. */
  function FirstFailure(idl: seq<Node>, i: nat): (r: Option<nat>)
    requires i <= |idl|
    ensures r.Some? ==> i <= r.value < |idl| && !TopOk(idl[r.value])
    ensures r.Some? ==> forall k :: i <= k < r.value ==> TopOk(idl[k])
    ensures r.None? ==> forall k :: i <= k < |idl| ==> TopOk(idl[k])
    decreases |idl| - i
  {
    if i == |idl| then None
    else if !TopOk(idl[i]) then Some(i)
    else FirstFailure(idl, i + 1)
  }

  /** An extended attribute `[nodoc]` whose value is truthy. */
  predicate NodocMark(n: Node) {
    n.cls == "ExtAttribute" && n.name == "nodoc" && Truthy(n.value)
  }

  /** The number of namespaces among `idl[i..j]`. */
  function CountNamespaces(idl: seq<Node>, i: nat, j: nat): (r: nat)
    requires i <= j <= |idl|
    ensures r <= j - i
    decreases j - i
  {
    if j == i then 0
    else CountNamespaces(idl, i, j - 1) + (if idl[j - 1].cls == "Namespace" then 1 else 0)
  }

  /** The nodoc flag in force at position `j`, looking back: the value of
      the last `[nodoc]` attribute since the previous namespace, or `nodoc`
      when the scan from `i` has met neither. */
  function FlagBefore(idl: seq<Node>, i: nat, j: nat, nodoc: bool): bool
    requires i <= j <= |idl|
    decreases j - i
  {
    if j == i then nodoc
    else
      var n := idl[j - 1];
      if n.cls == "Namespace" then false
      else if n.cls == "ExtAttribute" && n.name == "nodoc" then Truthy(n.value)
      else FlagBefore(idl, i, j - 1, nodoc)
  }

  /** A namespace dictionary with the name `name` and the nodoc flag
      `nodoc`. */
  predicate NamespaceFlags(ns: Json, name: string, nodoc: bool) {
    ns.JObj? && Get(ns, "namespace") == Some(JStr(name)) && Get(ns, "nodoc") == Some(JBool(nodoc))
  }

  /** What one top-level node contributes: a namespace its dictionary, a
      copyright, a comment or an extended attribute nothing; any other
      node ends the translation. */
  function SchemaNode(n: Node, nodoc: bool): (r: Result<seq<Json>, Exit>)
    ensures r.Ok? <==> TopOk(n)
    ensures r.Err? ==> r.error == ExitFor(n)
    ensures r.Ok? ==> |r.value| == (if n.cls == "Namespace" then 1 else 0)
    ensures r.Ok? && n.cls == "Namespace" ==> NamespaceFlags(r.value[0], n.name, nodoc)
  {
    if n.cls == "Namespace" then
      var ns :- NamespaceProcess(n, nodoc);
      Ok([ns])
    else if n.cls == "Copyright" || n.cls == "Comment" || n.cls == "ExtAttribute" then Ok([])
    else Err(DidNotProcess(n.cls, n.name))
  }

  /** The flag after the scan has passed node `n`. */
  function FlagAfter(n: Node, nodoc: bool): bool {
    if n.cls == "Namespace" then false
    else if n.cls == "ExtAttribute" && n.name == "nodoc" then Truthy(n.value)
    else nodoc
  }

  /** The loop of `IDLSchema.process`, with `nodoc` declared before the loop
      and reset after each namespace, as the flag is evidently meant to
      work: a `[nodoc]` attribute marks the namespace that follows it. */
  function SchemaLoop(idl: seq<Node>, i: nat, nodoc: bool): (r: Result<seq<Json>, Exit>)
    requires i <= |idl|
    ensures r.Ok? <==> FirstFailure(idl, i).None?
    ensures r.Err? ==> r.error == ExitFor(idl[FirstFailure(idl, i).value])
    ensures r.Ok? ==> |r.value| == CountNamespaces(idl, i, |idl|)
    decreases |idl| - i
  {
    if i == |idl| then Ok([])
    else
      match SchemaNode(idl[i], nodoc)
      case Err(e) => Err(e)
      case Ok(here) =>
        match SchemaLoop(idl, i + 1, FlagAfter(idl[i], nodoc))
        case Err(e) => Err(e)
        case Ok(rest) =>
          CountFirst(idl, i, |idl|);
          Ok(here + rest)
  }

  /** Counting from `i` is counting the node at `i`, then from `i + 1`. */
  lemma {:induction false} CountFirst(idl: seq<Node>, i: nat, j: nat)
    requires i < j <= |idl|
    ensures CountNamespaces(idl, i, j) == (if idl[i].cls == "Namespace" then 1 else 0) + CountNamespaces(idl, i + 1, j)
    decreases j - i
  {
    if j > i + 1 {
      CountFirst(idl, i, j - 1);
    }
  }

  /** `IDLSchema(idl).process()` as corrected. */
  function SchemaProcess(idl: seq<Node>): (r: Result<seq<Json>, Exit>)
    ensures r.Ok? <==> FirstFailure(idl, 0).None?
    ensures r.Err? ==> r.error == ExitFor(idl[FirstFailure(idl, 0).value])
    ensures r.Ok? ==> |r.value| == CountNamespaces(idl, 0, |idl|)
  {
    SchemaLoop(idl, 0, false)
  }

  /** Looking back from `j` over the node at `i` is starting after it. */
  lemma {:induction false} FlagBeforeShift(idl: seq<Node>, i: nat, j: nat, nodoc: bool)
    requires i < j <= |idl|
    ensures FlagBefore(idl, i, j, nodoc) == FlagBefore(idl, i + 1, j, FlagAfter(idl[i], nodoc))
    decreases j - i
  {
    if j > i + 1 {
      FlagBeforeShift(idl, i, j - 1, nodoc);
    }
  }

  /** The namespace at position `j` is the result at its count, with its
      name and the nodoc flag in force before it. */
  lemma SchemaNamespaceAt(idl: seq<Node>, i: nat, nodoc: bool, j: nat)
    requires i <= j < |idl| && idl[j].cls == "Namespace"
    requires SchemaLoop(idl, i, nodoc).Ok?
    ensures CountNamespaces(idl, i, j) < |SchemaLoop(idl, i, nodoc).value|
    ensures NamespaceFlags(SchemaLoop(idl, i, nodoc).value[CountNamespaces(idl, i, j)], idl[j].name, FlagBefore(idl, i, j, nodoc))
  {
    LoopFlags(idl, i, nodoc);
    FlagsFromAt(idl, i, nodoc, false, SchemaLoop(idl, i, nodoc).value, j);
  }

  /** The results from node `i` on, one per namespace, each with the
      namespace's name and the flag in force at it. The flag starts as
      `nodoc` and moves on as `FlagAfter` says, or stays `nodoc` when
      `fixed`. */
  ghost predicate FlagsFrom(idl: seq<Node>, i: nat, nodoc: bool, fixed: bool, out: seq<Json>)
    requires i <= |idl|
    decreases |idl| - i
  {
    if i == |idl| then out == []
    else
      var next := if fixed then nodoc else FlagAfter(idl[i], nodoc);
      if idl[i].cls == "Namespace" then
        out != [] && NamespaceFlags(out[0], idl[i].name, nodoc) && FlagsFrom(idl, i + 1, next, fixed, out[1..])
      else FlagsFrom(idl, i + 1, next, fixed, out)
  }

  /** What node `i` contributes, then the results after it. */
  lemma FlagsCons(idl: seq<Node>, i: nat, nodoc: bool, fixed: bool, here: seq<Json>, rest: seq<Json>)
    requires i < |idl|
    requires |here| == (if idl[i].cls == "Namespace" then 1 else 0)
    requires idl[i].cls == "Namespace" ==> NamespaceFlags(here[0], idl[i].name, nodoc)
    requires FlagsFrom(idl, i + 1, if fixed then nodoc else FlagAfter(idl[i], nodoc), fixed, rest)
    ensures FlagsFrom(idl, i, nodoc, fixed, here + rest)
  {
    if idl[i].cls == "Namespace" {
      assert (here + rest)[0] == here[0] && (here + rest)[1..] == rest;
    } else {
      assert here + rest == rest;
    }
  }

  /** The corrected loop's results carry the flags `FlagAfter` moves on. */
  lemma {:induction false} LoopFlags(idl: seq<Node>, i: nat, nodoc: bool)
    requires i <= |idl| && SchemaLoop(idl, i, nodoc).Ok?
    ensures FlagsFrom(idl, i, nodoc, false, SchemaLoop(idl, i, nodoc).value)
    decreases |idl| - i
  {
    if i < |idl| {
      LoopUnfold(idl, i, nodoc);
      LoopFlags(idl, i + 1, FlagAfter(idl[i], nodoc));
      FlagsCons(idl, i, nodoc, false, SchemaNode(idl[i], nodoc).value, SchemaLoop(idl, i + 1, FlagAfter(idl[i], nodoc)).value);
    }
  }

  /** The result for the namespace at `j` is at its count, with the flag in
      force before it. */
  lemma {:induction false} FlagsFromAt(idl: seq<Node>, i: nat, nodoc: bool, fixed: bool, out: seq<Json>, j: nat)
    requires i <= j < |idl| && idl[j].cls == "Namespace"
    requires FlagsFrom(idl, i, nodoc, fixed, out)
    ensures CountNamespaces(idl, i, j) < |out|
    ensures NamespaceFlags(out[CountNamespaces(idl, i, j)], idl[j].name, if fixed then nodoc else FlagBefore(idl, i, j, nodoc))
    decreases j - i
  {
    if j > i {
      var next := if fixed then nodoc else FlagAfter(idl[i], nodoc);
      var rest := if idl[i].cls == "Namespace" then out[1..] else out;
      FlagsFromAt(idl, i + 1, next, fixed, rest, j);
      FlagBeforeShift(idl, i, j, nodoc);
      CountFirst(idl, i, j);
      if idl[i].cls == "Namespace" {
        assert out[CountNamespaces(idl, i, j)] == rest[CountNamespaces(idl, i + 1, j)];
      }
    }
  }

  /** A successful loop from `i` is the contribution of node `i` followed by
      the loop from `i + 1`. */
  lemma LoopUnfold(idl: seq<Node>, i: nat, nodoc: bool)
    requires i < |idl| && SchemaLoop(idl, i, nodoc).Ok?
    ensures SchemaNode(idl[i], nodoc).Ok?
    ensures SchemaLoop(idl, i + 1, FlagAfter(idl[i], nodoc)).Ok?
    ensures SchemaLoop(idl, i, nodoc).value
      == SchemaNode(idl[i], nodoc).value + SchemaLoop(idl, i + 1, FlagAfter(idl[i], nodoc)).value
  {
  }

  /** Each namespace is marked nodoc exactly when a truthy `[nodoc]`
      attribute comes after the previous namespace and before it. */
  lemma SchemaNodoc(idl: seq<Node>, j: nat)
    requires j < |idl| && idl[j].cls == "Namespace" && SchemaProcess(idl).Ok?
    ensures CountNamespaces(idl, 0, j) < |SchemaProcess(idl).value|
    ensures NamespaceFlags(SchemaProcess(idl).value[CountNamespaces(idl, 0, j)], idl[j].name, FlagBefore(idl, 0, j, false))
  {
    SchemaNamespaceAt(idl, 0, false, j);
  }

  /** The loop of `IDLSchema.process` as written: `nodoc = False` runs at the
      top of every iteration, so the value a `[nodoc]` attribute sets is gone
      before the next node is looked at, and every namespace is built with
      nodoc false. */
  function SchemaLoopAsWritten(idl: seq<Node>, i: nat): (r: Result<seq<Json>, Exit>)
    requires i <= |idl|
    ensures r.Ok? <==> FirstFailure(idl, i).None?
    ensures r.Err? ==> r.error == ExitFor(idl[FirstFailure(idl, i).value])
    ensures r.Ok? ==> |r.value| == CountNamespaces(idl, i, |idl|)
    decreases |idl| - i
  {
    if i == |idl| then Ok([])
    else
      match SchemaNode(idl[i], false)
      case Err(e) => Err(e)
      case Ok(here) =>
        match SchemaLoopAsWritten(idl, i + 1)
        case Err(e) => Err(e)
        case Ok(rest) =>
          CountFirst(idl, i, |idl|);
          Ok(here + rest)
  }

  /** As written, every namespace comes out with nodoc false. */
  lemma AsWrittenNeverNodoc(idl: seq<Node>, i: nat, j: nat)
    requires i <= j < |idl| && idl[j].cls == "Namespace"
    requires SchemaLoopAsWritten(idl, i).Ok?
    ensures CountNamespaces(idl, i, j) < |SchemaLoopAsWritten(idl, i).value|
    ensures NamespaceFlags(SchemaLoopAsWritten(idl, i).value[CountNamespaces(idl, i, j)], idl[j].name, false)
  {
    AsWrittenFlags(idl, i);
    FlagsFromAt(idl, i, false, true, SchemaLoopAsWritten(idl, i).value, j);
  }

  /** The loop as written builds every namespace with the flag false. */
  lemma {:induction false} AsWrittenFlags(idl: seq<Node>, i: nat)
    requires i <= |idl| && SchemaLoopAsWritten(idl, i).Ok?
    ensures FlagsFrom(idl, i, false, true, SchemaLoopAsWritten(idl, i).value)
    decreases |idl| - i
  {
    if i < |idl| {
      AsWrittenUnfold(idl, i);
      AsWrittenFlags(idl, i + 1);
      FlagsCons(idl, i, false, true, SchemaNode(idl[i], false).value, SchemaLoopAsWritten(idl, i + 1).value);
    }
  }

  lemma AsWrittenUnfold(idl: seq<Node>, i: nat)
    requires i < |idl| && SchemaLoopAsWritten(idl, i).Ok?
    ensures SchemaNode(idl[i], false).Ok? && SchemaLoopAsWritten(idl, i + 1).Ok?
    ensures SchemaLoopAsWritten(idl, i).value == SchemaNode(idl[i], false).value + SchemaLoopAsWritten(idl, i + 1).value
  {
  }

  /** Without a truthy `[nodoc]` attribute the two loops agree. */
  lemma {:induction false} SchemaLoopsAgree(idl: seq<Node>, i: nat)
    requires i <= |idl|
    requires forall k :: i <= k < |idl| ==> !NodocMark(idl[k])
    ensures SchemaLoop(idl, i, false) == SchemaLoopAsWritten(idl, i)
    decreases |idl| - i
  {
    if i < |idl| {
      assert FlagAfter(idl[i], false) == false;
      SchemaLoopsAgree(idl, i + 1);
    }
  }

  /** The discrepancy: `[nodoc] namespace x {}` comes out with nodoc false
      as written, and with nodoc true once the flag survives to the
      namespace. */
  lemma NodocDropped(mark: Node, ns: Node)
    requires NodocMark(mark) && ns.cls == "Namespace" && FirstUnhandled(ns.children, 0).None?
    ensures SchemaLoopAsWritten([mark, ns], 0).Ok? && SchemaProcess([mark, ns]).Ok?
    ensures |SchemaLoopAsWritten([mark, ns], 0).value| == |SchemaProcess([mark, ns]).value| == 1
    ensures NamespaceFlags(SchemaLoopAsWritten([mark, ns], 0).value[0], ns.name, false)
    ensures NamespaceFlags(SchemaProcess([mark, ns]).value[0], ns.name, true)
  {
    var idl := [mark, ns];
    assert FirstFailure(idl, 0).None? by {
      assert TopOk(idl[0]) && TopOk(idl[1]);
    }
    assert CountNamespaces(idl, 0, 1) == 0;
    assert CountNamespaces(idl, 0, 2) == 1;
    SchemaNodoc(idl, 1);
    AsWrittenNeverNodoc(idl, 0, 1);
  }
}

=== FILE: idl_schema.dfy ===
/** The IDL front end of the JSON schema compiler: the translation of the
    node tree the IDL parser produces into the dictionaries the model reads.

    A node is abstract: its class, its name, its `TYPEREF` property (a type
    name or None), its other properties, the `value` an extended attribute
    carries, and its children. Python's dictionaries are `Json` objects;
    the in-place updates of the translation are written out as `Set` and
    `Update` on the dictionary being built. */
module IdlSchema {
  import opened Wrappers
  import opened Python
  import opened Json
  import opened IdlComment
  import SchemaModel

  datatype Node = Node(cls: string, name: string, typeref: Option<string>, props: map<string, Json>,
                       value: Json, children: seq<Node>)
  {
    /** `GetProperty(k)`: None where the property is not set. */
    function Property(k: string): (r: Json)
      ensures k !in props ==> r == JNull
    {
      if k in props then props[k] else JNull
    }
  }

  /** A translated entry: a dictionary whose `name` is a string. Every
      registered callback is one. */
  predicate IsEntry(v: Json) {
    IsDict(v) && Get(v, "name").Some? && Get(v, "name").value.JStr?
  }

  predicate CallbacksOk(callbacks: map<string, Json>) {
    forall k :: k in callbacks ==> IsEntry(callbacks[k])
  }

  // ---------------------------------------------------------------------
  // Typeref

  /** The schema type each IDL primitive stands for. */
  function PrimitiveType(t: string): Option<string> {
    if t == "DOMString" then Some("string")
    else if t == "boolean" then Some("boolean")
    else if t == "long" then Some("integer")
    else if t == "any" then Some("any")
    else None
  }

  /** The primitives translate to type names the model recognises. */
  lemma PrimitivesAreModelTypes(t: string)
    requires PrimitiveType(t).Some?
    ensures SchemaModel.TypeNamed(PrimitiveType(t).value).Some?
    ensures SchemaModel.TypeNamed(PrimitiveType(t).value).value.IsFundamental()
            || SchemaModel.TypeNamed(PrimitiveType(t).value).value == SchemaModel.ANY
  {
  }

  /** A type name that is registered as a callback, and not shadowed by a
      primitive or `object`, is inlined. */
  predicate IsCallbackName(t: string, callbacks: map<string, Json>) {
    PrimitiveType(t).None? && t != "object" && t in callbacks
  }

  /** Every key outside `changed` has the same value in `after` as in
      `before`. */
  ghost predicate Keeps(before: Json, after: Json, changed: set<string>)
    requires before.JObj? && after.JObj?
  {
    forall x :: x !in changed ==> Get(after, x) == Get(before, x)
  }

  /** `after` is `before` with `type` set to `t`. */
  ghost predicate TypedAs(before: Json, after: Json, t: string)
    requires before.JObj? && after.JObj?
  {
    Get(after, "type") == Some(JStr(t)) && Keeps(before, after, {"type"})
  }

  /** `after` is `before` with the object translation written into it. */
  ghost predicate ObjectDescribed(parent: Node, before: Json, after: Json)
    requires before.JObj? && after.JObj?
  {
    && Get(after, "type") == Some(JStr("object"))
    && Get(after, "additionalProperties").Some?
    && Get(after, "additionalProperties").value.JObj?
    && Get(Get(after, "additionalProperties").value, "type") == Some(JStr("any"))
    && (Truthy(parent.Property("instanceOf")) ==> Get(after, "isInstanceOf") == Some(parent.Property("instanceOf")))
    && Keeps(before, after, if Truthy(parent.Property("instanceOf")) then {"type", "additionalProperties", "isInstanceOf"}
                            else {"type", "additionalProperties"})
  }

  /** `after` is `before` updated with the callback `cb`: each key of the
      callback takes the callback's value. */
  ghost predicate Inlined(cb: Json, before: Json, after: Json)
    requires before.JObj? && after.JObj? && cb.JObj?
  {
    forall x :: Get(after, x) == (if Has(cb, x) then Get(cb, x) else Get(before, x))
  }

  /** The dictionary `after` is `before` with the type `typeref` names
      written into it, and no other key changed. */
  ghost predicate Describes(typeref: Option<string>, parent: Node, callbacks: map<string, Json>, before: Json, after: Json)
    requires before.JObj? && after.JObj? && CallbacksOk(callbacks)
  {
    match typeref
    case None => TypedAs(before, after, "function")
    case Some(t) =>
      if PrimitiveType(t).Some? then TypedAs(before, after, PrimitiveType(t).value)
      else if t == "object" then ObjectDescribed(parent, before, after)
      else if t in callbacks then Inlined(callbacks[t], before, after)
      else Get(after, "$ref") == Some(JStr(t)) && Keeps(before, after, {"$ref"})
  }

  /** `properties['type'] = t` */
  function SetType(props: Json, t: string): (r: Json)
    requires IsDict(props)
    ensures IsDict(r) && TypedAs(props, r, t)
    ensures IsEntry(props) ==> IsEntry(r)
  {
    Set(props, "type", JStr(t))
  }

  /** `if 'additionalProperties' not in properties: properties['additionalProperties'] = {}` */
  function WithExtra(props: Json): (r: Json)
    requires IsDict(props)
    ensures IsDict(r) && Has(r, "additionalProperties")
    ensures Has(props, "additionalProperties") ==> r == props
    ensures !Has(props, "additionalProperties") ==> Get(r, "additionalProperties") == Some(JObj([]))
    ensures Keeps(props, r, {"additionalProperties"})
    ensures IsEntry(props) ==> IsEntry(r)
  {
    if Has(props, "additionalProperties") then props else Set(props, "additionalProperties", JObj([]))
  }

  /** `properties['additionalProperties']['type'] = 'any'`: item assignment
      on a value that is not a dictionary raises TypeError. */
  function ExtraAny(props: Json): (r: Result<Json, PyError>)
    requires IsDict(props) && Has(props, "additionalProperties")
    ensures r.Ok? <==> Get(props, "additionalProperties").value.JObj?
    ensures r.Ok? ==> IsDict(r.value) && Keeps(props, r.value, {"additionalProperties"})
    ensures r.Ok? ==> Get(r.value, "additionalProperties").Some? && Get(r.value, "additionalProperties").value.JObj?
    ensures r.Ok? ==> Get(Get(r.value, "additionalProperties").value, "type") == Some(JStr("any"))
    ensures r.Ok? && IsEntry(props) ==> IsEntry(r.value)
  {
    var extra := Get(props, "additionalProperties").value;
    if !extra.JObj? then Err(TypeError("object does not support item assignment"))
    else Ok(Set(props, "additionalProperties", Set(extra, "type", JStr("any"))))
  }

  /** `properties['isInstanceOf'] = instance_of` when it is truthy. */
  function WithInstanceOf(parent: Node, props: Json): (r: Json)
    requires IsDict(props)
    ensures IsDict(r)
    ensures Truthy(parent.Property("instanceOf")) ==> Get(r, "isInstanceOf") == Some(parent.Property("instanceOf"))
    ensures !Truthy(parent.Property("instanceOf")) ==> r == props
    ensures Keeps(props, r, {"isInstanceOf"})
    ensures IsEntry(props) ==> IsEntry(r)
  {
    var instanceOf := parent.Property("instanceOf");
    if Truthy(instanceOf) then Set(props, "isInstanceOf", instanceOf) else props
  }

  /** The `object` branch: the type, an `additionalProperties` dictionary
      whose type is `any`, and `isInstanceOf` when the parent names one. */
  function ObjectType(parent: Node, props: Json): (r: Result<Json, PyError>)
    requires IsDict(props)
    ensures !Has(props, "additionalProperties") ==> r.Ok?
    ensures r.Ok? ==> IsDict(r.value) && ObjectDescribed(parent, props, r.value)
    ensures r.Ok? && IsEntry(props) ==> IsEntry(r.value)
  {
    var typed := SetType(props, "object");
    var withExtra := WithExtra(typed);
    match ExtraAny(withExtra)
    case Err(e) => Err(e)
    case Ok(done) =>
      var r := WithInstanceOf(parent, done);
      var changed := if Truthy(parent.Property("instanceOf")) then {"type", "additionalProperties", "isInstanceOf"}
                     else {"type", "additionalProperties"};
      assert "type" !in {"isInstanceOf", "additionalProperties"};
      assert "additionalProperties" != "isInstanceOf";
      assert Get(r, "type") == Some(JStr("object")) by {
        assert Get(r, "type") == Get(done, "type") == Get(withExtra, "type") == Get(typed, "type");
      }
      assert Get(r, "additionalProperties") == Get(done, "additionalProperties");
      assert Keeps(props, r, changed) by {
        forall x | x !in changed
          ensures Get(r, x) == Get(props, x)
        {
          assert Get(r, x) == Get(done, x) == Get(withExtra, x) == Get(typed, x);
        }
      }
      Ok(r)
  }

  /** `properties.update(callbacks[t])` */
  function Inline(props: Json, cb: Json): (r: Json)
    requires IsDict(props) && IsEntry(cb)
    ensures IsDict(r) && Inlined(cb, props, r)
    ensures IsEntry(r)
  {
    Update(props, cb)
  }

  /** `properties['$ref'] = t` */
  function RefTo(props: Json, t: string): (r: Json)
    requires IsDict(props)
    ensures IsDict(r) && Get(r, "$ref") == Some(JStr(t)) && Keeps(props, r, {"$ref"})
    ensures IsEntry(props) ==> IsEntry(r)
  {
    Set(props, "$ref", JStr(t))
  }

  /** The type chain of `Typeref.process`, written into `props`. The only
      failure is an `additionalProperties` already in `props` that is not a
      dictionary, which no caller produces. */
  function WriteType(typeref: Option<string>, parent: Node, props: Json, callbacks: map<string, Json>)
    : (r: Result<Json, PyError>)
    requires IsDict(props) && CallbacksOk(callbacks)
    ensures !Has(props, "additionalProperties") ==> r.Ok?
    ensures r.Ok? ==> IsDict(r.value) && Describes(typeref, parent, callbacks, props, r.value)
    ensures r.Ok? && IsEntry(props) ==> IsEntry(r.value)
  {
    match typeref
    case None => Ok(SetType(props, "function"))
    case Some(t) =>
      if t == "DOMString" then Ok(SetType(props, "string"))
      else if t == "boolean" then Ok(SetType(props, "boolean"))
      else if t == "long" then Ok(SetType(props, "integer"))
      else if t == "any" then Ok(SetType(props, "any"))
      else if t == "object" then ObjectType(parent, props)
      else if t in callbacks then Ok(Inline(props, callbacks[t]))
      else Ok(RefTo(props, t))
  }

  /** Some child of `parent` is an `Array` node of the parent's own name. */
  function ArraySibling(parent: Node): (r: bool)
    ensures r <==> exists k :: 0 <= k < |parent.children| && IsArrayOf(parent.children[k], parent.name)
  {
    FindArray(parent.children, parent.name, 0)
  }

  predicate IsArrayOf(n: Node, name: string) {
    n.cls == "Array" && n.name == name
  }

  function FindArray(nodes: seq<Node>, name: string, i: nat): (r: bool)
    requires i <= |nodes|
    ensures r <==> exists k :: i <= k < |nodes| && IsArrayOf(nodes[k], name)
    decreases |nodes| - i
  {
    if i == |nodes| then false
    else if IsArrayOf(nodes[i], name) then true
    else FindArray(nodes, name, i + 1)
  }

  /** `optional` set when the parent is OPTIONAL. */
  function WithOptional(parent: Node, base: Json): (r: Json)
    requires IsDict(base)
    ensures IsDict(r)
    ensures Truthy(parent.Property("OPTIONAL")) ==> Get(r, "optional") == Some(JBool(true))
    ensures !Truthy(parent.Property("OPTIONAL")) ==> r == base
    ensures forall x :: x != "optional" ==> Get(r, x) == Get(base, x)
  {
    if Truthy(parent.Property("OPTIONAL")) then Set(base, "optional", JBool(true)) else base
  }

  /** `properties['type'] = 'array'; properties['items'] = items` */
  function ArrayOf(props: Json, items: Json): (r: Json)
    requires IsDict(props)
    ensures IsDict(r)
    ensures Get(r, "type") == Some(JStr("array")) && Get(r, "items") == Some(items)
    ensures Keeps(props, r, {"type", "items"})
    ensures IsEntry(props) ==> IsEntry(r)
  {
    Set(Set(props, "type", JStr("array")), "items", items)
  }

  /** `Typeref(typeref, parent, base).process(callbacks)`: an array of the
      type when the parent has a same-named `Array` child, the type itself
      otherwise. */
  function Typeref(typeref: Option<string>, parent: Node, base: Json, callbacks: map<string, Json>)
    : (r: Result<Json, PyError>)
    requires IsDict(base) && CallbacksOk(callbacks)
    ensures ArraySibling(parent) || !Has(base, "additionalProperties") ==> r.Ok?
    ensures r.Ok? ==> IsDict(r.value)
    ensures r.Ok? && IsEntry(base) ==> IsEntry(r.value)
    ensures r.Ok? && ArraySibling(parent) ==>
      && Get(r.value, "type") == Some(JStr("array"))
      && Get(r.value, "items").Some? && IsDict(Get(r.value, "items").value)
      && Describes(typeref, parent, callbacks, EmptyDict(), Get(r.value, "items").value)
      && Keeps(WithOptional(parent, base), r.value, {"type", "items"})
    ensures r.Ok? && !ArraySibling(parent) ==> Describes(typeref, parent, callbacks, WithOptional(parent, base), r.value)
  {
    var props := WithOptional(parent, base);
    if ArraySibling(parent) then
      var items := WriteType(typeref, parent, EmptyDict(), callbacks).value;
      Ok(ArrayOf(props, items))
    else
      WriteType(typeref, parent, props, callbacks)
  }

  /** `{}` */
  function EmptyDict(): (r: Json)
    ensures IsDict(r) && forall x :: !Has(r, x)
  {
    JObj([])
  }

  // ---------------------------------------------------------------------
  // Param and Callspec

  /** `{'name': name}` */
  function Named(name: string): (r: Json)
    ensures IsEntry(r) && Get(r, "name") == Some(JStr(name))
    ensures forall x :: x != "name" ==> !Has(r, x)
  {
    JObj([Entry("name", JStr(name))])
  }

  /** `Param(node).process(callbacks)`: the parameter's type written into
      a dictionary holding its name. */
  function ParamProcess(node: Node, callbacks: map<string, Json>): (r: Json)
    requires CallbacksOk(callbacks)
    ensures IsEntry(r)
    ensures Typeref(node.typeref, node, Named(node.name), callbacks) == Ok(r)
  {
    Typeref(node.typeref, node, Named(node.name), callbacks).value
  }

  /** The name a translated entry reports. */
  function EntryName(v: Json): string
    requires IsEntry(v)
  {
    Get(v, "name").value.s
  }

  /** A parameter is described by the comment written for its name. */
  function WithDescription(p: Json, comment: map<string, string>): (r: Json)
    requires IsEntry(p)
    ensures IsEntry(r) && EntryName(r) == EntryName(p)
    ensures EntryName(p) in comment ==> Get(r, "description") == Some(JStr(comment[EntryName(p)]))
    ensures EntryName(p) !in comment ==> r == p
    ensures forall x :: x != "description" ==> Get(r, x) == Get(p, x)
  {
    var n := EntryName(p);
    if n in comment then Set(p, "description", JStr(comment[n])) else p
  }

  /** `Callspec(node, comment).process(callbacks)`: the function's name and
      one parameter per child, in child order. */
  function CallspecProcess(node: Node, comment: map<string, string>, callbacks: map<string, Json>)
    : (r: (string, seq<Json>))
    requires CallbacksOk(callbacks)
    ensures r.0 == node.name
    ensures |r.1| == |node.children|
    ensures forall k :: 0 <= k < |r.1| ==> IsEntry(r.1[k])
    ensures forall k :: 0 <= k < |r.1| ==>
      r.1[k] == WithDescription(ParamProcess(node.children[k], callbacks), comment)
  {
    (node.name, seq(|node.children|, k requires 0 <= k < |node.children| =>
                      WithDescription(ParamProcess(node.children[k], callbacks), comment)))
  }

  // ---------------------------------------------------------------------
  // Member

  /** The position of the last node of class `cls` from index `i` on. */
  function LastOf(nodes: seq<Node>, cls: string, i: nat): (r: Option<nat>)
    requires i <= |nodes|
    ensures r.Some? ==> i <= r.value < |nodes| && nodes[r.value].cls == cls
    ensures r.Some? ==> forall k :: r.value < k < |nodes| ==> nodes[k].cls != cls
    ensures r.None? ==> forall k :: i <= k < |nodes| ==> nodes[k].cls != cls
    decreases |nodes| - i
  {
    if i == |nodes| then None
    else match LastOf(nodes, cls, i + 1)
      case Some(k) => Some(k)
      case None => if nodes[i].cls == cls then Some(i) else None
  }

  /** The first loop of `Member.process`: every Comment child sets the
      description and the parameter comments, so the last one wins. The
      state is the description written so far and the parameter comments;
      writing the same key again keeps its place in the dictionary, so
      only the last value matters. */
  function ReadComments(nodes: seq<Node>, i: nat, desc: Option<string>, comments: map<string, string>)
    : (r: (Option<string>, map<string, string>))
    requires i <= |nodes|
    ensures LastOf(nodes, "Comment", i).None? ==> r == (desc, comments)
    ensures LastOf(nodes, "Comment", i).Some? ==>
      var c := ProcessComment(nodes[LastOf(nodes, "Comment", i).value].name);
      r == (Some(c.0), c.1)
    decreases |nodes| - i
  {
    if i == |nodes| then (desc, comments)
    else if nodes[i].cls == "Comment" then
      var c := ProcessComment(nodes[i].name);
      ReadComments(nodes, i + 1, Some(c.0), c.1)
    else ReadComments(nodes, i + 1, desc, comments)
  }

  /** The second loop of `Member.process`: every Callspec child makes the
      member a function, renames it and sets its parameters, so the last
      one wins. */
  function ReadCallspecs(nodes: seq<Node>, i: nat, params: Option<seq<Json>>, name: string, isFunction: bool,
                         comments: map<string, string>, callbacks: map<string, Json>)
    : (r: (Option<seq<Json>>, string, bool))
    requires i <= |nodes| && CallbacksOk(callbacks)
    ensures r.2 <==> isFunction || LastOf(nodes, "Callspec", i).Some?
    ensures LastOf(nodes, "Callspec", i).None? ==> r == (params, name, isFunction)
    ensures LastOf(nodes, "Callspec", i).Some? ==>
      var spec := CallspecProcess(nodes[LastOf(nodes, "Callspec", i).value], comments, callbacks);
      r.0 == Some(spec.1) && r.1 == spec.0
    decreases |nodes| - i
  {
    if i == |nodes| then (params, name, isFunction)
    else if nodes[i].cls == "Callspec" then
      var spec := CallspecProcess(nodes[i], comments, callbacks);
      ReadCallspecs(nodes, i + 1, Some(spec.1), spec.0, true, comments, callbacks)
    else ReadCallspecs(nodes, i + 1, params, name, isFunction, comments, callbacks)
  }

  /** The name `Member.process` returns: the last Callspec's, or the
      member's own. */
  function MemberName(node: Node): string {
    match LastOf(node.children, "Callspec", 0)
    case Some(k) => node.children[k].name
    case None => node.name
  }

  /** The parameter comments of the member's last Comment child. */
  function ParamComments(node: Node): map<string, string> {
    match LastOf(node.children, "Comment", 0)
    case Some(k) => ProcessComment(node.children[k].name).1
    case None => map[]
  }

  /** The keys `Member.process` writes before the type. */
  const HeadKeys: set<string> := {"optional", "nodoc", "description", "parameters", "name"}

  /** `properties['optional'] = True` and `properties['nodoc'] = True` for
      the truthy properties. */
  function Flags(node: Node): (r: Json)
    ensures IsDict(r)
    ensures Get(r, "optional") == (if Truthy(node.Property("OPTIONAL")) then Some(JBool(true)) else None)
    ensures Get(r, "nodoc") == (if Truthy(node.Property("nodoc")) then Some(JBool(true)) else None)
    ensures forall x :: x !in {"optional", "nodoc"} ==> !Has(r, x)
  {
    var opt := if Truthy(node.Property("OPTIONAL")) then Set(EmptyDict(), "optional", JBool(true)) else EmptyDict();
    if Truthy(node.Property("nodoc")) then Set(opt, "nodoc", JBool(true)) else opt
  }

  /** The description the member's last Comment child gives it. */
  function DescriptionOf(node: Node): Option<Json> {
    match LastOf(node.children, "Comment", 0)
    case Some(k) => Some(JStr(ProcessComment(node.children[k].name).0))
    case None => None
  }

  /** The parameters the member's last Callspec child gives it. */
  function ParametersOf(node: Node, callbacks: map<string, Json>): Option<Json>
    requires CallbacksOk(callbacks)
  {
    match LastOf(node.children, "Callspec", 0)
    case Some(k) => Some(JList(CallspecProcess(node.children[k], ParamComments(node), callbacks).1))
    case None => None
  }

  /** The flags, then the description and the parameters where there are
      any, then the name. */
  function BuildHead(flags: Json, desc: Option<string>, params: Option<seq<Json>>, name: string): (r: Json)
    requires IsDict(flags)
    ensures IsEntry(r) && Get(r, "name") == Some(JStr(name))
  {
    var described := if desc.Some? then Set(flags, "description", JStr(desc.value)) else flags;
    var withParams := if params.Some? then Set(described, "parameters", JList(params.value)) else described;
    Set(withParams, "name", JStr(name))
  }

  /** The description and the parameters are the ones given. */
  lemma BuildHeadWrites(flags: Json, desc: Option<string>, params: Option<seq<Json>>, name: string)
    requires IsDict(flags)
    ensures var r := BuildHead(flags, desc, params, name);
      && Get(r, "description") == (if desc.Some? then Some(JStr(desc.value)) else Get(flags, "description"))
      && Get(r, "parameters") == (if params.Some? then Some(JList(params.value)) else Get(flags, "parameters"))
  {
  }

  /** Nothing else changes. */
  lemma BuildHeadKeeps(flags: Json, desc: Option<string>, params: Option<seq<Json>>, name: string, x: string)
    requires IsDict(flags) && x !in {"description", "parameters", "name"}
    ensures Get(BuildHead(flags, desc, params, name), x) == Get(flags, x)
  {
  }

  /** The dictionary `Member.process` has built when it comes to the type,
      the name it returns, and whether a Callspec made it a function. */
  function MemberHead(node: Node, callbacks: map<string, Json>): (r: (Json, string, bool))
    requires CallbacksOk(callbacks)
    ensures IsEntry(r.0)
    ensures r.1 == MemberName(node)
    ensures r.2 <==> LastOf(node.children, "Callspec", 0).Some?
  {
    var (desc, comments) := ReadComments(node.children, 0, None, map[]);
    var (params, name, isFunction) := ReadCallspecs(node.children, 0, None, node.name, false, comments, callbacks);
    (BuildHead(Flags(node), desc, params, name), name, isFunction)
  }

  /** The head is built from what the comment and callspec children give. */
  lemma HeadBuilt(node: Node, callbacks: map<string, Json>)
    requires CallbacksOk(callbacks)
    ensures var (desc, comments) := ReadComments(node.children, 0, None, map[]);
      var (params, name, isFunction) := ReadCallspecs(node.children, 0, None, node.name, false, comments, callbacks);
      MemberHead(node, callbacks).0 == BuildHead(Flags(node), desc, params, name)
  {
  }

  /** The description comes from the last Comment child. */
  lemma HeadDescription(node: Node, callbacks: map<string, Json>)
    requires CallbacksOk(callbacks)
    ensures Get(MemberHead(node, callbacks).0, "description") == DescriptionOf(node)
  {
    HeadBuilt(node, callbacks);
    BuiltDescription(node, callbacks);
  }

  lemma BuiltDescription(node: Node, callbacks: map<string, Json>)
    requires CallbacksOk(callbacks)
    ensures var (desc, comments) := ReadComments(node.children, 0, None, map[]);
      var (params, name, isFunction) := ReadCallspecs(node.children, 0, None, node.name, false, comments, callbacks);
      Get(BuildHead(Flags(node), desc, params, name), "description") == DescriptionOf(node)
  {
    var (desc, comments) := ReadComments(node.children, 0, None, map[]);
    var (params, name, isFunction) := ReadCallspecs(node.children, 0, None, node.name, false, comments, callbacks);
    BuildHeadWrites(Flags(node), desc, params, name);
    FlagsOnly(node);
  }

  /** The parameters come from the last Callspec child, with the
      parameter comments of the last Comment child. */
  lemma HeadParameters(node: Node, callbacks: map<string, Json>)
    requires CallbacksOk(callbacks)
    ensures Get(MemberHead(node, callbacks).0, "parameters") == ParametersOf(node, callbacks)
  {
    HeadBuilt(node, callbacks);
    BuiltParameters(node, callbacks);
  }

  lemma BuiltParameters(node: Node, callbacks: map<string, Json>)
    requires CallbacksOk(callbacks)
    ensures var (desc, comments) := ReadComments(node.children, 0, None, map[]);
      var (params, name, isFunction) := ReadCallspecs(node.children, 0, None, node.name, false, comments, callbacks);
      Get(BuildHead(Flags(node), desc, params, name), "parameters") == ParametersOf(node, callbacks)
  {
    var (desc, comments) := ReadComments(node.children, 0, None, map[]);
    assert comments == ParamComments(node);
    var (params, name, isFunction) := ReadCallspecs(node.children, 0, None, node.name, false, comments, callbacks);
    BuildHeadWrites(Flags(node), desc, params, name);
    FlagsOnly(node);
  }

  /** The flags hold neither a description nor parameters. */
  lemma FlagsOnly(node: Node)
    ensures Get(Flags(node), "description") == None && Get(Flags(node), "parameters") == None
  {
    assert "description" !in {"optional", "nodoc"};
    assert "parameters" !in {"optional", "nodoc"};
  }

  /** The other keys are the flags'. */
  lemma HeadFlags(node: Node, callbacks: map<string, Json>, x: string)
    requires CallbacksOk(callbacks) && x !in {"description", "parameters", "name"}
    ensures Get(MemberHead(node, callbacks).0, x) == Get(Flags(node), x)
  {
    var (desc, comments) := ReadComments(node.children, 0, None, map[]);
    var (params, name, isFunction) := ReadCallspecs(node.children, 0, None, node.name, false, comments, callbacks);
    BuildHeadKeeps(Flags(node), desc, params, name, x);
  }

  /** An OPTIONAL member is marked optional. */
  lemma HeadOptional(node: Node, callbacks: map<string, Json>)
    requires CallbacksOk(callbacks)
    ensures Get(MemberHead(node, callbacks).0, "optional")
         == (if Truthy(node.Property("OPTIONAL")) then Some(JBool(true)) else None)
  {
    HeadFlags(node, callbacks, "optional");
  }

  /** A member with a truthy `nodoc` property is marked nodoc. */
  lemma HeadNodoc(node: Node, callbacks: map<string, Json>)
    requires CallbacksOk(callbacks)
    ensures Get(MemberHead(node, callbacks).0, "nodoc")
         == (if Truthy(node.Property("nodoc")) then Some(JBool(true)) else None)
  {
    HeadFlags(node, callbacks, "nodoc");
  }

  /** The head holds no key but the five it writes. */
  lemma HeadOnlyKeys(node: Node, callbacks: map<string, Json>)
    requires CallbacksOk(callbacks)
    ensures forall x :: x !in HeadKeys ==> !Has(MemberHead(node, callbacks).0, x)
  {
    var head := MemberHead(node, callbacks).0;
    forall x | x !in HeadKeys
      ensures !Has(head, x)
    {
      HeadFlags(node, callbacks, x);
    }
  }

  /** In particular it has no `additionalProperties`, so its type can
      always be written. */
  lemma HeadHasNoExtra(node: Node, callbacks: map<string, Json>)
    requires CallbacksOk(callbacks)
    ensures !Has(MemberHead(node, callbacks).0, "additionalProperties")
  {
    HeadFlags(node, callbacks, "additionalProperties");
  }

  /** `Member(node).process(callbacks)`: a member with a Callspec is a
      function; any other gets the type its TYPEREF names. */
  function MemberProcess(node: Node, callbacks: map<string, Json>): (r: (string, Json))
    requires CallbacksOk(callbacks)
    ensures IsEntry(r.1)
    ensures r.0 == MemberName(node)
    ensures LastOf(node.children, "Callspec", 0).Some? ==>
      TypedAs(MemberHead(node, callbacks).0, r.1, "function")
    ensures LastOf(node.children, "Callspec", 0).None? ==>
      Typeref(node.typeref, node, MemberHead(node, callbacks).0, callbacks) == Ok(r.1)
  {
    var (head, name, isFunction) := MemberHead(node, callbacks);
    HeadHasNoExtra(node, callbacks);
    if isFunction then (name, SetType(head, "function"))
    else (name, Typeref(node.typeref, node, head, callbacks).value)
  }
}

=== FILE: isolate_inputs.dfy ===
/** How `isolate.py` turns the dependencies of a `.isolate` file into the
    list of input files: the path helpers that keep a trailing slash, the
    root directory inferred from how far up the dependencies reach, and
    `expand_directories`, which validates every dependency and walks the
    directories among them.

    The file system is a parameter: `isfile`, `isdir`, and the tree
    `os.walk` enumerates below a directory. Paths are POSIX paths. */
module IsolateInputs {
  import opened Wrappers
  import opened Python
  import opened Text
  import opened Paths

  // ---------------------------------------------------------------------
  // normpath and relpath that keep a trailing slash

  /** `normpath(path)`: `os.path.normpath` with the trailing slash kept. The
      result ends with a slash exactly when the path did, or when it
      normalises to the root. */
  function NormPathKeep(p: string): (r: string)
    ensures EndsWith(r, "/") <==> EndsWith(p, "/") || AllSlashes(NormPath(p))
  {
    var out := NormPath(p);
    NormPathSlashEnd(p);
    if EndsWith(p, "/") then out + "/" else out
  }

  /** Normalising the kept form gives the plain normal form, and keeping is
      idempotent, for every path that does not normalise to the root. */
  lemma NormPathKeepNormal(p: string)
    requires !AllSlashes(NormPath(p))
    ensures NormPath(NormPathKeep(p)) == NormPath(p)
    ensures NormPathKeep(NormPathKeep(p)) == NormPathKeep(p)
  {
    var n := NormPath(p);
    NormPathIdempotent(p);
    NormPathSlashEnd(p);
    if EndsWith(p, "/") {
      NormPathTrailing(n);
      assert EndsWith(n + "/", "/");
    }
  }

  /** `relpath(path, root)`: `os.path.relpath` with the trailing slash
      kept; an empty path is the `ValueError` of `os.path.relpath`. */
  function RelPathKeep(path: string, start: string, cwd: string): (r: Result<string, PyError>)
    ensures r.Err? <==> path == []
    ensures r.Ok? ==> (EndsWith(r.value, "/") <==> EndsWith(path, "/"))
  {
    var out :- RelPath(path, start, cwd);
    RelPathEnd(path, start, cwd);
    if EndsWith(path, "/") then Ok(out + "/") else Ok(out)
  }

  /** A relative path from `relpath` is '.' or components joined by
      slashes: it is not empty, not absolute, and does not end with a
      slash. */
  lemma RelPathEnd(path: string, start: string, cwd: string)
    requires path != []
    ensures var v := RelPath(path, start, cwd).value;
      v != [] && !IsAbs(v) && v[|v| - 1] != '/'
  {
    RelPathJoined(path, start, cwd);
    var rel := RelComps(path, start, cwd);
    var walk := if rel == [] then ["."] else rel;
    JoinLastChar(walk);
  }

  /** The kept relative path still leads from `start` to `path`. */
  lemma RelPathKeepRoundTrip(path: string, start: string, cwd: string)
    requires IsAbs(cwd) && path != []
    ensures NormPath(PathJoin(Root(Comps(AbsPath(start, cwd))), RelPathKeep(path, start, cwd).value))
         == Root(Comps(AbsPath(path, cwd)))
  {
    RelPathRoundTrip(path, start, cwd);
    if EndsWith(path, "/") {
      RelPathEnd(path, start, cwd);
      JoinTrailing(Root(Comps(AbsPath(start, cwd))), RelPath(path, start, cwd).value);
    }
  }

  /** A trailing slash on a relative path does not change where it
      leads. */
  lemma JoinTrailing(base: string, v: string)
    requires v != [] && !IsAbs(v) && v[|v| - 1] != '/'
    ensures NormPath(PathJoin(base, v + "/")) == NormPath(PathJoin(base, v))
  {
    var q := PathJoin(base, v);
    assert PathJoin(base, v + "/") == q + "/" by {
      assert !IsAbs(v + "/");
    }
    assert q[|q| - 1] == v[|v| - 1];
    NormPathTrailing(q);
  }

  // ---------------------------------------------------------------------
  // The root directory

  /** How many leading '../' a dependency climbs. A climb that lands on an
      absolute path fails the `assert` of `main`. */
  function Climb(i: string): (r: Result<nat, PyError>)
    ensures r.Ok? && r.value > 0 ==> StartsWith(i, "../")
    decreases |i|
  {
    if StartsWith(i, "../") then
      var rest := i[3..];
      if StartsWith(rest, "/") then Err(AssertionError("not i.startswith('/')"))
      else
        var k :- Climb(rest);
        Ok(k + 1)
    else Ok(0)
  }

  /** `posixpath.dirname` applied `k` times. */
  function Raise(x: string, k: nat): (r: string)
    ensures StartsWith(x, r)
    decreases k
  {
    if k == 0 then x
    else
      var up := Dirname(x);
      var r := Raise(up, k - 1);
      assert r == up[..|r|] && up == x[..|up|];
      assert x[..|up|][..|r|] == x[..|r|];
      r
  }

  /** Climbing further gives a prefix of what a shorter climb gives. */
  lemma {:induction false} RaisePrefix(x: string, j: nat, k: nat)
    requires j <= k
    ensures StartsWith(Raise(x, j), Raise(x, k))
    decreases j
  {
    if j > 0 {
      var up := Dirname(x);
      RaisePrefix(up, j - 1, k - 1);
      RaiseStep(x, up, j);
      RaiseStep(x, up, k);
    }
  }

  lemma RaiseStep(x: string, up: string, k: nat)
    requires k > 0 && up == Dirname(x)
    ensures Raise(x, k) == Raise(up, k - 1)
  {
  }

  /** The loop of `main` over the dependencies: the candidate for each is
      the `.isolate` file's directory raised by its climb, taken when the
      root found so far starts with it. */
  function RootLoop(isolateDir: string, infiles: seq<string>, root: string): (r: Result<string, PyError>)
    ensures r.Ok? <==> forall k :: 0 <= k < |infiles| ==> Climb(infiles[k]).Ok?
    ensures r.Err? ==> exists k :: 0 <= k < |infiles| && Climb(infiles[k]) == Err(r.error)
    decreases |infiles|
  {
    if infiles == [] then Ok(root)
    else
      var k :- Climb(infiles[0]);
      var x := Raise(isolateDir, k);
      var r := RootLoop(isolateDir, infiles[1..], if StartsWith(root, x) then x else root);
      assert forall k :: 1 <= k < |infiles| ==> infiles[k] == infiles[1..][k - 1];
      r
  }

  /** `root_dir` of `main` */
  function InferRootDir(isolateDir: string, infiles: seq<string>): (r: Result<string, PyError>)
    ensures r.Ok? <==> forall k :: 0 <= k < |infiles| ==> Climb(infiles[k]).Ok?
  {
    RootLoop(isolateDir, infiles, isolateDir)
  }

  /** The farthest climb of the dependencies. */
  function MaxClimb(infiles: seq<string>): (m: nat)
    requires forall k :: 0 <= k < |infiles| ==> Climb(infiles[k]).Ok?
    ensures forall k :: 0 <= k < |infiles| ==> Climb(infiles[k]).value <= m
    ensures infiles != [] ==> exists k :: 0 <= k < |infiles| && Climb(infiles[k]).value == m
    ensures infiles == [] ==> m == 0
  {
    if infiles == [] then 0
    else
      var rest := MaxClimb(infiles[1..]);
      var here := Climb(infiles[0]).value;
      assert forall k :: 1 <= k < |infiles| ==> infiles[k] == infiles[1..][k - 1];
      if here >= rest then here else rest
  }

  /** The root directory is the `.isolate` file's directory raised by the
      farthest climb of any dependency. */
  lemma RootDirIsFarthest(isolateDir: string, infiles: seq<string>)
    requires forall k :: 0 <= k < |infiles| ==> Climb(infiles[k]).Ok?
    ensures InferRootDir(isolateDir, infiles) == Ok(Raise(isolateDir, MaxClimb(infiles)))
  {
    RootLoopFarthest(isolateDir, infiles, 0);
  }

  lemma {:induction false} RootLoopFarthest(isolateDir: string, infiles: seq<string>, m: nat)
    requires forall k :: 0 <= k < |infiles| ==> Climb(infiles[k]).Ok?
    ensures var far := if MaxClimb(infiles) >= m then MaxClimb(infiles) else m;
      RootLoop(isolateDir, infiles, Raise(isolateDir, m)) == Ok(Raise(isolateDir, far))
    decreases |infiles|
  {
    if infiles != [] {
      var k := Climb(infiles[0]).value;
      var next := if k > m then k else m;
      var tail := infiles[1..];
      ClimbsTail(infiles);
      MaxClimbCons(infiles);
      var far := if MaxClimb(infiles) >= m then MaxClimb(infiles) else m;
      var farTail := if MaxClimb(tail) >= next then MaxClimb(tail) else next;
      assert far == farTail;
      CandidateFarther(isolateDir, m, k);
      RootLoopCons(isolateDir, infiles, Raise(isolateDir, m));
      assert RootLoop(isolateDir, infiles, Raise(isolateDir, m)) == RootLoop(isolateDir, tail, Raise(isolateDir, next));
      RootLoopFarthest(isolateDir, tail, next);
    }
  }

  lemma ClimbsTail(infiles: seq<string>)
    requires infiles != [] && forall k :: 0 <= k < |infiles| ==> Climb(infiles[k]).Ok?
    ensures Climb(infiles[0]).Ok? && forall k :: 0 <= k < |infiles[1..]| ==> Climb(infiles[1..][k]).Ok?
  {
    assert forall k :: 0 <= k < |infiles[1..]| ==> infiles[1..][k] == infiles[k + 1];
  }

  /** One step of the loop: the candidate of the first dependency decides
      the root the rest start from. */
  lemma RootLoopCons(isolateDir: string, infiles: seq<string>, root: string)
    requires infiles != [] && Climb(infiles[0]).Ok?
    ensures var x := Raise(isolateDir, Climb(infiles[0]).value);
      RootLoop(isolateDir, infiles, root) == RootLoop(isolateDir, infiles[1..], if StartsWith(root, x) then x else root)
  {
  }

  lemma MaxClimbCons(infiles: seq<string>)
    requires infiles != [] && forall k :: 0 <= k < |infiles| ==> Climb(infiles[k]).Ok?
    requires forall k :: 0 <= k < |infiles[1..]| ==> Climb(infiles[1..][k]).Ok?
    ensures var here := Climb(infiles[0]).value;
      MaxClimb(infiles) == if here >= MaxClimb(infiles[1..]) then here else MaxClimb(infiles[1..])
  {
  }

  /** The candidate is taken exactly when it climbs farther than the root
      found so far. */
  lemma CandidateFarther(isolateDir: string, m: nat, k: nat)
    ensures var root := Raise(isolateDir, m);
      var x := Raise(isolateDir, k);
      (if StartsWith(root, x) then x else root) == Raise(isolateDir, if k > m then k else m)
  {
    var root := Raise(isolateDir, m);
    var x := Raise(isolateDir, k);
    if k > m {
      RaisePrefix(isolateDir, m, k);
    } else {
      RaisePrefix(isolateDir, k, m);
      if StartsWith(root, x) {
        assert x == root;
      }
    }
  }

  /** The dependencies as `main` hands them on: joined onto the relative
      directory and normalised, trailing slashes kept. */
  function RebaseInfiles(relativeDir: string, infiles: seq<string>): (r: seq<string>)
    ensures |r| == |infiles|
    ensures forall k :: 0 <= k < |infiles| ==> r[k] == NormPathKeep(PathJoin(relativeDir, infiles[k]))
  {
    seq(|infiles|, k requires 0 <= k < |infiles| => NormPathKeep(PathJoin(relativeDir, infiles[k])))
  }

  // ---------------------------------------------------------------------
  // expand_directories

  /** A directory below the walked one, with what `os.walk` lists in it. */
  datatype DirTree = DirTree(files: seq<string>, subdirs: seq<SubDir>)
  datatype SubDir = SubDir(name: string, tree: DirTree)

  /** What `expand_directories` asks of the file system. */
  datatype FileSystem = FileSystem(isFile: string -> bool, isDir: string -> bool, tree: string -> DirTree)

  /** The errors `expand_directories` raises, each with its message. */
  datatype MappingError =
    | AbsolutePath(relfile: string)
    | Outside(infile: string, indir: string)
    | NotADirectory(infile: string)
    | MissingSlash(infile: string)
    | Missing(infile: string)
  {
    function Message(): string {
      match this
      case AbsolutePath(f) => "Can't map absolute path " + f
      case Outside(f, d) => "Can't map file " + f + " outside " + d
      case NotADirectory(f) => f + " is not a directory"
      case MissingSlash(f) => "Input directory " + f + " must have a trailing slash"
      case Missing(f) => "Input file " + f + " doesn't exist"
    }
  }

  /** The blacklist `isolate` passes, `re.match(r'.*\.(svn|pyc)$', x)`:
      `.*` does not cross a newline and `$` also matches just before a
      final newline. The contract reads the pattern as a split of `x`. */
  function DefaultBlacklist(x: string): (r: bool)
    ensures r <==> exists k :: 0 <= k <= |x| && '\n' !in x[..k] && x[k..] in {".svn", ".pyc", ".svn\n", ".pyc\n"}
  {
    if (EndsWith(x, ".svn") || EndsWith(x, ".pyc")) && '\n' !in x[..|x| - 4] then
      assert x[|x| - 4..] in {".svn", ".pyc", ".svn\n", ".pyc\n"};
      true
    else if (EndsWith(x, ".svn\n") || EndsWith(x, ".pyc\n")) && '\n' !in x[..|x| - 5] then
      assert x[|x| - 5..] in {".svn", ".pyc", ".svn\n", ".pyc\n"};
      true
    else
      assert forall k :: 0 <= k <= |x| && x[k..] in {".svn", ".pyc"} ==> k == |x| - 4 && EndsWith(x, x[k..]);
      assert forall k :: 0 <= k <= |x| && x[k..] in {".svn\n", ".pyc\n"} ==> k == |x| - 5 && EndsWith(x, x[k..]);
      false
  }

  /** The path a dependency names: joined onto `indir` and normalised,
      trailing slash kept. */
  function InFile(indir: string, relfile: string): string {
    NormPathKeep(PathJoin(indir, relfile))
  }

  /** What the containment test is meant to establish: the path is `indir`
      or below it, component by component. */
  predicate Inside(infile: string, indir: string) {
    Comps(indir) <= Comps(infile)
  }

  /** The containment test: a string prefix as written, whole components
      once corrected. */
  predicate Contained(infile: string, indir: string, v: Variant) {
    match v
    case AsWritten => StartsWith(infile, indir)
    case Corrected => Inside(infile, indir)
  }

  /** `dirpath[len(indir)+1:]` */
  function RelDir(dirpath: string, indir: string): string {
    if |indir| + 1 <= |dirpath| then dirpath[|indir| + 1..] else []
  }

  /** The files of one directory joined onto its relative path. */
  function Joined(rel: string, files: seq<string>): (r: seq<string>)
    ensures |r| == |files|
    ensures forall k :: 0 <= k < |files| ==> r[k] == PathJoin(rel, files[k])
  {
    if files == [] then [] else [PathJoin(rel, files[0])] + Joined(rel, files[1..])
  }

  /** The files of one directory that are added: joined onto its relative
      path, blacklisted ones left out, in order. */
  function AddedFiles(rel: string, files: seq<string>, blacklist: string -> bool): (r: seq<string>)
    ensures forall f :: f in r <==> f in Joined(rel, files) && !blacklist(f)
  {
    if files == [] then []
    else
      var f := PathJoin(rel, files[0]);
      var rest := AddedFiles(rel, files[1..], blacklist);
      assert Joined(rel, files) == [f] + Joined(rel, files[1..]);
      if blacklist(f) then rest else [f] + rest
  }

  /** A subdirectory the blacklist rules out. */
  predicate Pruned(rel: string, d: SubDir, blacklist: string -> bool) {
    blacklist(PathJoin(rel, d.name))
  }

  /** The pruning test of one directory, as the loops below take it. */
  function PrunedBy(rel: string, blacklist: string -> bool): (p: SubDir -> bool)
    ensures forall d :: p(d) <==> Pruned(rel, d, blacklist)
  {
    d => Pruned(rel, d, blacklist)
  }

  /** The subdirectories left to descend into, as intended: the pruned
      ones removed, the others kept in order. */
  function KeepDirs(dirs: seq<SubDir>, pruned: SubDir -> bool): (r: seq<SubDir>)
    ensures |r| <= |dirs|
    ensures forall d :: d in r <==> d in dirs && !pruned(d)
  {
    if dirs == [] then []
    else
      var rest := KeepDirs(dirs[1..], pruned);
      assert forall d :: d in dirs <==> d == dirs[0] || d in dirs[1..];
      if pruned(dirs[0]) then rest else [dirs[0]] + rest
  }

  /** The pruning loop as written: `del dirnames[index]` inside
      `enumerate(dirnames)` moves the next directory into the slot just
      visited, and the loop goes on past it. */
  function KeepDirsAsWritten(dirs: seq<SubDir>, i: nat, pruned: SubDir -> bool): (r: seq<SubDir>)
    ensures |r| <= |dirs|
    ensures forall d :: d in r ==> d in dirs
    decreases |dirs| - i
  {
    if i >= |dirs| then dirs
    else if pruned(dirs[i]) then
      var r := KeepDirsAsWritten(dirs[..i] + dirs[i + 1..], i + 1, pruned);
      assert forall d :: d in dirs[..i] + dirs[i + 1..] ==> d in dirs;
      r
    else KeepDirsAsWritten(dirs, i + 1, pruned)
  }

  /** `os.walk(dirpath)` with the caller's pruning: the files of each
      directory, then the walks of the subdirectories left. */
  function Walk(indir: string, dirpath: string, t: DirTree, blacklist: string -> bool, v: Variant): (r: seq<string>)
    ensures forall f :: f in r ==> !blacklist(f)
    decreases t, |t.subdirs| + 1
  {
    var rel := RelDir(dirpath, indir);
    var kept := match v
      case AsWritten => KeepDirsAsWritten(t.subdirs, 0, PrunedBy(rel, blacklist))
      case Corrected => KeepDirs(t.subdirs, PrunedBy(rel, blacklist));
    AddedFiles(rel, t.files, blacklist) + WalkDirs(indir, dirpath, t, kept, 0, blacklist, v)
  }

  function WalkDirs(indir: string, dirpath: string, t: DirTree, kept: seq<SubDir>, i: nat,
                    blacklist: string -> bool, v: Variant): (r: seq<string>)
    requires |kept| <= |t.subdirs| && forall d :: d in kept ==> d in t.subdirs
    ensures forall f :: f in r ==> !blacklist(f)
    decreases t, |kept| - i
  {
    if i >= |kept| then []
    else
      assert kept[i] in t.subdirs;
      Walk(indir, PathJoin(dirpath, kept[i].name), kept[i].tree, blacklist, v)
        + WalkDirs(indir, dirpath, t, kept, i + 1, blacklist, v)
  }

  /** The checks and the expansion of one dependency. */
  function ExpandOne(indir: string, relfile: string, fs: FileSystem, blacklist: string -> bool, v: Variant)
    : (r: Result<seq<string>, MappingError>)
    ensures r.Ok? <==> (
      && !IsAbs(relfile)
      && Contained(InFile(indir, relfile), indir, v)
      && if EndsWith(relfile, "/") then fs.isDir(InFile(indir, relfile))
         else !fs.isDir(InFile(indir, relfile)) && fs.isFile(InFile(indir, relfile)))
    ensures r.Ok? && !EndsWith(relfile, "/") ==> r.value == [relfile]
    ensures r.Ok? && EndsWith(relfile, "/") ==> forall f :: f in r.value ==> !blacklist(f)
    ensures r.Err? ==> (r.error.AbsolutePath? <==> IsAbs(relfile))
    ensures r.Err? && !r.error.AbsolutePath? ==> r.error.infile == InFile(indir, relfile)
  {
    if IsAbs(relfile) then Err(AbsolutePath(relfile))
    else
      var infile := InFile(indir, relfile);
      if !Contained(infile, indir, v) then Err(Outside(infile, indir))
      else if EndsWith(relfile, "/") then
        if !fs.isDir(infile) then Err(NotADirectory(infile))
        else Ok(Walk(indir, infile, fs.tree(infile), blacklist, v))
      else if fs.isDir(infile) then Err(MissingSlash(infile))
      else if !fs.isFile(infile) then Err(Missing(infile))
      else Ok([relfile])
  }

  /** The dependencies expanded in order; the first failing one is the
      error. */
  function Expand(indir: string, infiles: seq<string>, fs: FileSystem, blacklist: string -> bool, v: Variant)
    : (r: Result<seq<string>, MappingError>)
    ensures r.Ok? <==> forall k :: 0 <= k < |infiles| ==> ExpandOne(indir, infiles[k], fs, blacklist, v).Ok?
    ensures r.Err? ==> exists k :: 0 <= k < |infiles| && ExpandOne(indir, infiles[k], fs, blacklist, v) == Err(r.error)
    decreases |infiles|
  {
    if infiles == [] then Ok([])
    else
      match ExpandOne(indir, infiles[0], fs, blacklist, v)
      case Err(e) => Err(e)
      case Ok(here) =>
        ExpandOkCons(indir, infiles, fs, blacklist, v);
        match Expand(indir, infiles[1..], fs, blacklist, v)
        case Err(e) =>
          ExpandErrCons(indir, infiles, fs, blacklist, v, e);
          Err(e)
        case Ok(rest) => Ok(here + rest)
  }

  /** Past an accepted first dependency, all are accepted when the rest are. */
  lemma ExpandOkCons(indir: string, infiles: seq<string>, fs: FileSystem, blacklist: string -> bool, v: Variant)
    requires infiles != [] && ExpandOne(indir, infiles[0], fs, blacklist, v).Ok?
    ensures (forall k :: 0 <= k < |infiles| ==> ExpandOne(indir, infiles[k], fs, blacklist, v).Ok?)
        <==> (forall k :: 0 <= k < |infiles[1..]| ==> ExpandOne(indir, infiles[1..][k], fs, blacklist, v).Ok?)
  {
    AllCons(infiles, f => ExpandOne(indir, f, fs, blacklist, v).Ok?);
  }

  /** A property holds of every element exactly when it holds of the first
      and of every element of the rest. */
  lemma AllCons<T>(xs: seq<T>, p: T -> bool)
    requires xs != []
    ensures (forall k :: 0 <= k < |xs| ==> p(xs[k]))
        <==> p(xs[0]) && forall k :: 0 <= k < |xs[1..]| ==> p(xs[1..][k])
  {
    if p(xs[0]) && forall k :: 0 <= k < |xs[1..]| ==> p(xs[1..][k]) {
      forall k | 0 <= k < |xs| ensures p(xs[k]) {
        if k > 0 {
          assert xs[k] == xs[1..][k - 1];
        }
      }
    }
  }

  /** An error of a later dependency is an error of one of them all. */
  lemma ExpandErrCons(indir: string, infiles: seq<string>, fs: FileSystem, blacklist: string -> bool, v: Variant,
                      e: MappingError)
    requires infiles != []
    ensures (exists k :: 0 <= k < |infiles[1..]| && ExpandOne(indir, infiles[1..][k], fs, blacklist, v) == Err(e))
        ==> exists k :: 0 <= k < |infiles| && ExpandOne(indir, infiles[k], fs, blacklist, v) == Err(e)
  {
    if exists k :: 0 <= k < |infiles[1..]| && ExpandOne(indir, infiles[1..][k], fs, blacklist, v) == Err(e) {
      var k :| 0 <= k < |infiles[1..]| && ExpandOne(indir, infiles[1..][k], fs, blacklist, v) == Err(e);
      assert infiles[1..][k] == infiles[k + 1];
    }
  }

  /** `expand_directories(indir, infiles, blacklist)` as corrected: every
      accepted path lies inside `indir` and no blacklisted directory is
      walked. */
  function ExpandDirectories(indir: string, infiles: seq<string>, fs: FileSystem, blacklist: string -> bool)
    : (r: Result<seq<string>, MappingError>)
    ensures r.Ok? ==> forall k :: 0 <= k < |infiles| ==> Inside(InFile(indir, infiles[k]), indir)
  {
    var r := Expand(indir, infiles, fs, blacklist, Corrected);
    assert r.Ok? ==> forall k :: 0 <= k < |infiles| ==> ExpandOne(indir, infiles[k], fs, blacklist, Corrected).Ok?;
    r
  }

  /** `expand_directories` as written. */
  function ExpandDirectoriesAsWritten(indir: string, infiles: seq<string>, fs: FileSystem, blacklist: string -> bool)
    : (r: Result<seq<string>, MappingError>)
    ensures r.Ok? ==> forall k :: 0 <= k < |infiles| ==> StartsWith(InFile(indir, infiles[k]), indir)
  {
    var r := Expand(indir, infiles, fs, blacklist, AsWritten);
    assert r.Ok? ==> forall k :: 0 <= k < |infiles| ==> ExpandOne(indir, infiles[k], fs, blacklist, AsWritten).Ok?;
    r
  }

  /** What the expansion lists: the files named one by one, even
      blacklisted ones, and walked files that are not blacklisted. */
  lemma {:induction false} ExpandOutputs(indir: string, infiles: seq<string>, fs: FileSystem, blacklist: string -> bool, v: Variant)
    requires Expand(indir, infiles, fs, blacklist, v).Ok?
    ensures var out := Expand(indir, infiles, fs, blacklist, v).value;
      && (forall f :: f in out ==> f in infiles || !blacklist(f))
      && (forall k :: 0 <= k < |infiles| && !EndsWith(infiles[k], "/") ==> infiles[k] in out)
    decreases |infiles|
  {
    if infiles != [] {
      var here := ExpandOne(indir, infiles[0], fs, blacklist, v).value;
      ExpandOutputs(indir, infiles[1..], fs, blacklist, v);
      assert Expand(indir, infiles, fs, blacklist, v).value == here + Expand(indir, infiles[1..], fs, blacklist, v).value;
      OutputsCons(infiles, here, Expand(indir, infiles[1..], fs, blacklist, v).value, blacklist);
    }
  }

  /** The outputs of the first dependency followed by those of the rest. */
  lemma OutputsCons(infiles: seq<string>, here: seq<string>, rest: seq<string>, blacklist: string -> bool)
    requires infiles != []
    requires !EndsWith(infiles[0], "/") ==> here == [infiles[0]]
    requires EndsWith(infiles[0], "/") ==> forall f :: f in here ==> !blacklist(f)
    requires forall f :: f in rest ==> f in infiles[1..] || !blacklist(f)
    requires forall k :: 0 <= k < |infiles[1..]| && !EndsWith(infiles[1..][k], "/") ==> infiles[1..][k] in rest
    ensures forall f :: f in here + rest ==> f in infiles || !blacklist(f)
    ensures forall k :: 0 <= k < |infiles| && !EndsWith(infiles[k], "/") ==> infiles[k] in here + rest
  {
    forall k | 0 <= k < |infiles| && !EndsWith(infiles[k], "/")
      ensures infiles[k] in here + rest
    {
      if k > 0 {
        assert infiles[k] == infiles[1..][k - 1];
      }
    }
    assert forall f :: f in infiles[1..] ==> f in infiles;
  }

  // ---------------------------------------------------------------------
  // The two defects of expand_directories

  /** The components of a rooted path of plain names. */
  lemma RootedComps(parts: seq<string>, p: string)
    requires |parts| >= 1 && forall i :: 0 <= i < |parts| ==> parts[i] != [] && '/' !in parts[i]
    requires p == "/" + Join(parts, "/")
    ensures Comps(p) == parts
  {
    JoinCons("", parts, "/");
    assert Join([""] + parts, "/") == p;
    SplitJoin([""] + parts, '/');
    assert ([""] + parts)[1..] == parts;
    NonEmptyId(parts);
  }

  /** The string prefix test lets a sibling through: with `indir` `/a`, the
      dependency `../ab` is `/ab`, which starts with `/a` but is not inside
      it. */
  lemma OutsideAccepted()
    ensures InFile("/a", "../ab") == "/ab"
    ensures StartsWith("/ab", "/a")
    ensures !Inside("/ab", "/a")
  {
    SiblingInFile();
    SiblingComps();
    SiblingPrefix();
  }

  lemma SiblingInFile()
    ensures InFile("/a", "../ab") == "/ab"
  {
    var indir, rel := "/a", "../ab";
    assert rel[0] == '.' && !IsAbs(rel);
    assert indir[|indir| - 1] == 'a';
    assert PathJoin(indir, rel) == indir + "/" + rel;
    assert indir + "/" + rel == "/a/../ab";
    SiblingNormPath();
    assert rel[|rel| - 1] == 'b' && !EndsWith(rel, "/");
  }

  lemma SiblingPrefix()
    ensures StartsWith("/ab", "/a")
  {
    assert "/ab"[..2] == "/a";
  }

  lemma SiblingComps()
    ensures Comps("/a") == ["a"] && Comps("/ab") == ["ab"]
  {
    var a, ab := ["a"], ["ab"];
    assert Join(a, "/") == "a";
    assert Join(ab, "/") == "ab";
    assert "/" + Join(a, "/") == "/a";
    assert "/" + Join(ab, "/") == "/ab";
    RootedComps(a, "/a");
    RootedComps(ab, "/ab");
  }

  lemma SiblingNormPath()
    ensures NormPath("/a/../ab") == "/ab"
  {
    var parts := ["", "a", "..", "ab"];
    SiblingSplit();
    OneSlash("/a/../ab");
    SiblingFold();
    assert Repeat('/', 1) == "/";
    assert Join(["ab"], "/") == "ab";
  }

  lemma OneSlash(s: string)
    requires |s| >= 2 && s[0] == '/' && s[1] != '/'
    ensures InitialSlashes(s) == 1
  {
    assert s[..2] != "//";
  }

  lemma SiblingSplit()
    ensures Split("/a/../ab", '/') == ["", "a", "..", "ab"]
  {
    var parts := ["", "a", "..", "ab"];
    assert Join(parts, "/") == "/a/../ab" by {
      assert Join(["ab"], "/") == "ab";
      JoinCons("..", ["ab"], "/");
      JoinCons("a", ["..", "ab"], "/");
      JoinCons("", ["a", "..", "ab"], "/");
    }
    SplitJoin(parts, '/');
  }

  lemma SiblingFold()
    ensures NormFold(["", "a", "..", "ab"], true, []) == ["ab"]
  {
    var parts := ["", "a", "..", "ab"];
    assert parts[1..] == ["a", "..", "ab"];
    assert parts[1..][1..] == ["..", "ab"];
    assert parts[1..][1..][1..] == ["ab"];
    assert NormFold(["ab"], true, []) == ["ab"];
    assert NormFold(["..", "ab"], true, ["a"]) == ["ab"];
    assert NormFold(["a", "..", "ab"], true, []) == ["ab"];
  }

  /** Two blacklisted directories in a row: the loop as written deletes the
      first and never looks at the second, which is then walked; the
      corrected pruning removes both. */
  lemma SecondPrunedKept(d1: SubDir, d2: SubDir, pruned: SubDir -> bool)
    requires pruned(d1) && pruned(d2)
    ensures KeepDirsAsWritten([d1, d2], 0, pruned) == [d2]
    ensures KeepDirs([d1, d2], pruned) == []
  {
    assert [d1, d2][..0] + [d1, d2][1..] == [d2];
  }

  /** The files below the second of two blacklisted directories are listed
      by the walk as written and not by the corrected one. */
  lemma PrunedDirWalked(indir: string, dirpath: string, d1: SubDir, d2: SubDir, blacklist: string -> bool)
    requires Pruned(RelDir(dirpath, indir), d1, blacklist) && Pruned(RelDir(dirpath, indir), d2, blacklist)
    ensures var t := DirTree([], [d1, d2]);
      && Walk(indir, dirpath, t, blacklist, AsWritten) == Walk(indir, PathJoin(dirpath, d2.name), d2.tree, blacklist, AsWritten)
      && Walk(indir, dirpath, t, blacklist, Corrected) == []
  {
    var t := DirTree([], [d1, d2]);
    var rel := RelDir(dirpath, indir);
    SecondPrunedKept(d1, d2, PrunedBy(rel, blacklist));
    var w := Walk(indir, PathJoin(dirpath, d2.name), d2.tree, blacklist, AsWritten);
    assert WalkDirs(indir, dirpath, t, [d2], 1, blacklist, AsWritten) == [];
    assert WalkDirs(indir, dirpath, t, [d2], 0, blacklist, AsWritten) == w + [];
    assert AddedFiles(rel, [], blacklist) == [];
  }

  /** No two pruned directories next to each other. */
  predicate Spaced(dirs: seq<SubDir>, pruned: SubDir -> bool) {
    forall i :: 0 <= i < |dirs| - 1 && pruned(dirs[i]) ==> !pruned(dirs[i + 1])
  }

  /** Where no pruned directory follows another, the loop as written
      prunes exactly what the corrected one does. */
  lemma {:induction false} KeepDirsAgree(done: seq<SubDir>, rest: seq<SubDir>, pruned: SubDir -> bool)
    requires Spaced(rest, pruned)
    requires forall d :: d in done ==> !pruned(d)
    ensures KeepDirsAsWritten(done + rest, |done|, pruned) == done + KeepDirs(rest, pruned)
    decreases |rest|, 1
  {
    if rest == [] {
      assert done + rest == done;
    } else if !pruned(rest[0]) {
      AgreeKeptStep(done, rest, pruned);
    } else if |rest| == 1 {
      AgreeLast(done, rest[0], pruned);
    } else {
      AgreeSkippedStep(done, rest, pruned);
    }
  }

  /** The step of `KeepDirsAgree` past a spared directory. */
  lemma {:induction false} AgreeKeptStep(done: seq<SubDir>, rest: seq<SubDir>, pruned: SubDir -> bool)
    requires Spaced(rest, pruned) && rest != [] && !pruned(rest[0])
    requires forall d :: d in done ==> !pruned(d)
    ensures KeepDirsAsWritten(done + rest, |done|, pruned) == done + KeepDirs(rest, pruned)
    decreases |rest|, 0
  {
    AgreeNext(done, rest, 0, pruned);
    KeepDirsAgree(done + [rest[0]], rest[1..], pruned);
    AgreeKept(done, rest, pruned);
  }

  /** The step of `KeepDirsAgree` past a pruned directory and the spared
      one after it. */
  lemma {:induction false} AgreeSkippedStep(done: seq<SubDir>, rest: seq<SubDir>, pruned: SubDir -> bool)
    requires Spaced(rest, pruned) && |rest| >= 2 && pruned(rest[0])
    requires forall d :: d in done ==> !pruned(d)
    ensures KeepDirsAsWritten(done + rest, |done|, pruned) == done + KeepDirs(rest, pruned)
    decreases |rest|, 0
  {
    assert !pruned(rest[1]);
    AgreeNext(done, rest, 1, pruned);
    KeepDirsAgree(done + [rest[1]], rest[2..], pruned);
    AgreeSkipped(done, rest, pruned);
  }

  /** The loop goes on with a spared directory added to those done. */
  lemma AgreeNext(done: seq<SubDir>, rest: seq<SubDir>, n: nat, pruned: SubDir -> bool)
    requires Spaced(rest, pruned) && n < |rest| && !pruned(rest[n])
    requires forall d :: d in done ==> !pruned(d)
    ensures Spaced(rest[n + 1..], pruned)
    ensures forall d :: d in done + [rest[n]] ==> !pruned(d)
  {
    var tail := rest[n + 1..];
    forall i | 0 <= i < |tail| - 1 && pruned(tail[i])
      ensures !pruned(tail[i + 1])
    {
      assert tail[i] == rest[n + 1 + i] && tail[i + 1] == rest[n + 1 + i + 1];
    }
  }

  /** A directory the pruning spares stays, and the loop moves on. */
  lemma AgreeKept(done: seq<SubDir>, rest: seq<SubDir>, pruned: SubDir -> bool)
    requires rest != [] && !pruned(rest[0])
    requires KeepDirsAsWritten(done + [rest[0]] + rest[1..], |done| + 1, pruned)
          == done + [rest[0]] + KeepDirs(rest[1..], pruned)
    ensures KeepDirsAsWritten(done + rest, |done|, pruned) == done + KeepDirs(rest, pruned)
  {
    var all := done + rest;
    ShiftFirst(done, rest);
    assert KeepDirsAsWritten(all, |done|, pruned) == KeepDirsAsWritten(all, |done| + 1, pruned);
    assert KeepDirs(rest, pruned) == [rest[0]] + KeepDirs(rest[1..], pruned);
    ConcatAssoc(done, [rest[0]], KeepDirs(rest[1..], pruned));
  }

  /** A pruned last directory is deleted and the loop ends. */
  lemma AgreeLast(done: seq<SubDir>, d: SubDir, pruned: SubDir -> bool)
    requires pruned(d)
    ensures KeepDirsAsWritten(done + [d], |done|, pruned) == done + KeepDirs([d], pruned)
  {
    var all := done + [d];
    ShiftFirst(done, [d]);
    DeleteAt(done, [d]);
    assert [d][1..] == [] && done + [] == done;
    assert KeepDirsAsWritten(done, |done| + 1, pruned) == done;
    assert KeepDirs([d], pruned) == [];
    assert done + [] == done;
  }

  /** A pruned directory is deleted and the one after it, which the
      pruning spares, is passed over. */
  lemma AgreeSkipped(done: seq<SubDir>, rest: seq<SubDir>, pruned: SubDir -> bool)
    requires |rest| >= 2 && pruned(rest[0]) && !pruned(rest[1])
    requires KeepDirsAsWritten(done + [rest[1]] + rest[2..], |done| + 1, pruned)
          == done + [rest[1]] + KeepDirs(rest[2..], pruned)
    ensures KeepDirsAsWritten(done + rest, |done|, pruned) == done + KeepDirs(rest, pruned)
  {
    var all := done + rest;
    ShiftFirst(done, rest);
    DeleteAt(done, rest);
    var shrunk := all[..|done|] + all[|done| + 1..];
    ShiftFirst(done, rest[1..]);
    assert rest[1..][1..] == rest[2..];
    assert KeepDirsAsWritten(all, |done|, pruned) == KeepDirsAsWritten(shrunk, |done| + 1, pruned);
    assert KeepDirs(rest[1..], pruned) == [rest[1]] + KeepDirs(rest[2..], pruned);
    assert KeepDirs(rest, pruned) == KeepDirs(rest[1..], pruned);
    ConcatAssoc(done, [rest[1]], KeepDirs(rest[2..], pruned));
  }
}

=== FILE: isolate_manifest.dfy ===
/** The per-file manifest `isolate.py` records for its inputs: the
    normalised permission bits, the size, the rounded modification time and
    the sha-1 of the content, as much of it as the mode's information level
    asks for, with a sha-1 carried over from the previous manifest when the
    file's time stamp has not moved.

    `os.stat` and the sha-1 of a file's content are parameters: the model
    only sees what they return. The Windows branch, which records no mode,
    is not part of this model. */
module IsolateManifest {
  import opened Wrappers
  import opened Python
  import opened Paths

  // ---------------------------------------------------------------------
  // Permission bits (octal in the comments)

  const S_IWUSR: bv12 := 128  // 0200
  const S_IXUSR: bv12 := 64   // 0100
  const S_IWGRP: bv12 := 16   // 0020
  const S_IXGRP: bv12 := 8    // 0010
  const S_IWOTH: bv12 := 2    // 0002
  const S_IXOTH: bv12 := 1    // 0001

  /** The bits the normalisation never touches: set-id, sticky, the three
      read bits and the owner's execute bit (07544). */
  const UNTOUCHED: bv12 := 3940

  /** `stat.S_IMODE`: the permission bits of an `st_mode`. */
  function IMode(stMode: nat): bv12 {
    (stMode % 4096) as bv12
  }

  /** The mode `process_inputs` records: no write access for group and
      others, none for the owner either when the tree is read-only, and
      group and others may execute exactly when the owner may. */
  function NormalizeMode(stMode: nat, readOnly: bool): (r: bv12)
    ensures r & (S_IWGRP | S_IWOTH) == 0
    ensures readOnly ==> r & S_IWUSR == 0
    ensures !readOnly ==> r & S_IWUSR == IMode(stMode) & S_IWUSR
    ensures r & UNTOUCHED == IMode(stMode) & UNTOUCHED
    ensures r & (S_IXGRP | S_IXOTH) == (if IMode(stMode) & S_IXUSR != 0 then S_IXGRP | S_IXOTH else 0)
  {
    var m := IMode(stMode) & !(S_IWGRP | S_IWOTH);
    var m := if readOnly then m & !S_IWUSR else m;
    if m & S_IXUSR != 0 then m | (S_IXGRP | S_IXOTH) else m & !(S_IXGRP | S_IXOTH)
  }

  /** Normalising a normalised mode changes nothing. */
  lemma NormalizeModeIdempotent(stMode: nat, readOnly: bool)
    ensures NormalizeMode(NormalizeMode(stMode, readOnly) as nat, readOnly) == NormalizeMode(stMode, readOnly)
  {
    IModeOfBits(NormalizeMode(stMode, readOnly));
  }

  /** The permission bits of a mode that has no other bits are the mode. */
  lemma IModeOfBits(b: bv12)
    ensures IMode(b as nat) == b
  {
    var n := b as nat;
    assert n < 4096;
    assert n % 4096 == n;
  }

  /** The mode the smoke test expects of a file: readable by all, writable
      by the owner unless read-only, executable by all when it is meant to
      be (0755, 0644, 0555 or 0444). */
  function ExpectedMode(executable: bool, readOnly: bool): bv12 {
    var minMode: bv12 := if readOnly then 292 else 292 | 128;  // 0444, 0644
    if executable then minMode | 73 else minMode               // | 0111
  }

  /** A file of the checkout, readable by everyone, writable by its owner
      and without set-id or sticky bits, gets one of the four modes the
      smoke test expects, executable exactly when its owner could execute
      it. */
  lemma FourModes(stMode: nat, readOnly: bool)
    requires IMode(stMode) & 3584 == 0     // no 07000 bits
    requires IMode(stMode) & 292 == 292    // 0444
    requires IMode(stMode) & S_IWUSR != 0
    ensures NormalizeMode(stMode, readOnly) == ExpectedMode(IMode(stMode) & S_IXUSR != 0, readOnly)
    ensures NormalizeMode(stMode, readOnly) in {493, 420, 365, 292}  // 0755, 0644, 0555, 0444
  {
  }

  // ---------------------------------------------------------------------
  // Information levels

  /** `NO_INFO, STATS_ONLY, WITH_HASH = range(56, 59)` */
  datatype Level = NoInfo | StatsOnly | WithHash {
    function Code(): (c: int)
      ensures 56 <= c <= 58
    {
      match this
      case NoInfo => 56
      case StatsOnly => 57
      case WithHash => 58
    }
  }

  /** The modes `isolate.py` offers, as `get_valid_modes` lists them. */
  const VALID_MODES: seq<string> := ["check", "hashtable", "remap", "run", "trace"]

  /** The level table of `isolate`: a mode outside it is a `KeyError`. Only
      `hashtable` needs the sha-1 and only `check` needs no information at
      all. */
  function LevelOf(mode: string): (r: Result<Level, PyError>)
    ensures r.Ok? <==> mode in VALID_MODES
    ensures r.Err? ==> r.error == KeyError(mode)
    ensures r.Ok? ==> (r.value == WithHash <==> mode == "hashtable")
    ensures r.Ok? ==> (r.value == NoInfo <==> mode == "check")
  {
    if mode == "check" then Ok(NoInfo)
    else if mode == "hashtable" then Ok(WithHash)
    else if mode == "remap" || mode == "run" || mode == "trace" then Ok(StatsOnly)
    else Err(KeyError(mode))
  }

  // ---------------------------------------------------------------------
  // process_inputs

  /** What `os.stat` reports and the manifest keeps; `mtime` is already
      rounded to whole seconds. */
  datatype FileStat = FileStat(mode: nat, size: nat, mtime: int)

  /** One manifest entry; a key the entry does not have is `None`. */
  datatype FileEntry = FileEntry(mode: Option<bv12>, size: Option<nat>, timestamp: Option<int>, sha1: Option<string>)

  const EMPTY_ENTRY := FileEntry(None, None, None, None)

  /** The previous manifest holds the file with the same time stamp and a
      sha-1. */
  predicate Reusable(prev: map<string, FileEntry>, infile: string, timestamp: int) {
    infile in prev && prev[infile].timestamp == Some(timestamp) && prev[infile].sha1.Some?
  }

  /** The entry `process_inputs` records for one file. The sha-1 is
      computed only at `WITH_HASH`, and only when no usable one was
      carried over: an empty carried sha-1 counts as none. */
  function ProcessInput(prev: map<string, FileEntry>, indir: string, infile: string, level: Level, readOnly: bool,
                        stat: string -> FileStat, sha1: string -> string): (r: FileEntry)
    ensures level == NoInfo <==> r == EMPTY_ENTRY
    ensures level != NoInfo ==> var st := stat(PathJoin(indir, infile));
      && r.mode == Some(NormalizeMode(st.mode, readOnly))
      && r.size == Some(st.size)
      && r.timestamp == Some(st.mtime)
    ensures level == StatsOnly ==> var ts := stat(PathJoin(indir, infile)).mtime;
      && (r.sha1.Some? <==> Reusable(prev, infile, ts))
      && (Reusable(prev, infile, ts) ==> r.sha1 == prev[infile].sha1)
    ensures level == WithHash ==> var ts := stat(PathJoin(indir, infile)).mtime;
      && r.sha1.Some?
      && (Reusable(prev, infile, ts) && prev[infile].sha1 != Some([]) ==> r.sha1 == prev[infile].sha1)
      && (!Reusable(prev, infile, ts) || prev[infile].sha1 == Some([]) ==> r.sha1 == Some(sha1(PathJoin(indir, infile))))
  {
    var filepath := PathJoin(indir, infile);
    var stats :=
      if level.Code() >= StatsOnly.Code() then
        var st := stat(filepath);
        var carried := if Reusable(prev, infile, st.mtime) then prev[infile].sha1 else None;
        FileEntry(Some(NormalizeMode(st.mode, readOnly)), Some(st.size), Some(st.mtime), carried)
      else EMPTY_ENTRY;
    if level.Code() >= WithHash.Code() && (stats.sha1.None? || stats.sha1 == Some([])) then
      stats.(sha1 := Some(sha1(filepath)))
    else stats
  }

  /** `process_inputs(prevdict, indir, infiles, level, read_only)`: one entry
      per input file. */
  function ProcessInputs(prev: map<string, FileEntry>, indir: string, infiles: seq<string>, level: Level, readOnly: bool,
                         stat: string -> FileStat, sha1: string -> string): (r: map<string, FileEntry>)
    ensures r.Keys == set f | f in infiles
  {
    map f | f in infiles :: ProcessInput(prev, indir, f, level, readOnly, stat, sha1)
  }

  /** With the files unchanged, the manifest is stable: running again with
      the previous result as cache gives the same result, sha-1s
      included. */
  lemma ProcessInputStable(prev: map<string, FileEntry>, indir: string, infile: string, level: Level, readOnly: bool,
                           stat: string -> FileStat, sha1: string -> string)
    ensures var once := ProcessInput(prev, indir, infile, level, readOnly, stat, sha1);
      ProcessInput(map[infile := once], indir, infile, level, readOnly, stat, sha1) == once
  {
  }

  lemma ProcessInputsStable(prev: map<string, FileEntry>, indir: string, infiles: seq<string>, level: Level, readOnly: bool,
                            stat: string -> FileStat, sha1: string -> string)
    ensures var once := ProcessInputs(prev, indir, infiles, level, readOnly, stat, sha1);
      ProcessInputs(once, indir, infiles, level, readOnly, stat, sha1) == once
  {
    var once := ProcessInputs(prev, indir, infiles, level, readOnly, stat, sha1);
    var twice := ProcessInputs(once, indir, infiles, level, readOnly, stat, sha1);
    forall f | f in infiles
      ensures twice[f] == once[f]
    {
      ProcessInputStable(prev, indir, f, level, readOnly, stat, sha1);
      ProcessInputOnly(once, map[f := once[f]], indir, f, level, readOnly, stat, sha1);
    }
  }

  /** An entry depends on the previous manifest's entry for the same file
      only. */
  lemma ProcessInputOnly(p: map<string, FileEntry>, q: map<string, FileEntry>, indir: string, infile: string, level: Level,
                         readOnly: bool, stat: string -> FileStat, sha1: string -> string)
    requires (infile in p <==> infile in q) && (infile in p ==> p[infile] == q[infile])
    ensures ProcessInput(p, indir, infile, level, readOnly, stat, sha1) == ProcessInput(q, indir, infile, level, readOnly, stat, sha1)
  {
  }
}

=== FILE: isolate_variables.dfy ===
/** The `<(NAME)` substitution `isolate.py` applies to every command word
    and dependency of a `.isolate` file. A token is `<(`, a non-empty run of
    upper-case letters and underscores, and `)`; the text is cut into
    tokens and the literal text between them, each token is replaced by its
    variable's value, and an unknown variable is a `KeyError`. */
module IsolateVariables {
  import opened Wrappers
  import opened Python

  predicate NameChar(c: char) {
    'A' <= c <= 'Z' || c == '_'
  }

  predicate IsName(n: string) {
    n != [] && forall i :: 0 <= i < |n| ==> NameChar(n[i])
  }

  /** The length of the run of name characters `s` starts with. */
  function NameRun(s: string): (k: nat)
    ensures k <= |s|
    ensures forall i :: 0 <= i < k ==> NameChar(s[i])
    ensures k < |s| ==> !NameChar(s[k])
  {
    if s == [] || !NameChar(s[0]) then 0 else 1 + NameRun(s[1..])
  }

  /** The text of the token for variable `n`. */
  function TokenText(n: string): string {
    "<(" + n + ")"
  }

  /** The variable whose token `s` starts with, if it starts with one. */
  function Token(s: string): (r: Option<string>)
    ensures r.Some? ==> IsName(r.value) && |r.value| + 3 <= |s| && s[..|r.value| + 3] == TokenText(r.value)
  {
    if |s| < 2 || s[0] != '<' || s[1] != '(' then None
    else
      var k := NameRun(s[2..]);
      if k == 0 || 2 + k >= |s| || s[2 + k] != ')' then None
      else Some(s[2..2 + k])
  }

  /** `Token` finds exactly the tokens: every text that starts with the
      token of a name is recognised as that name's. */
  lemma TokenExact(s: string, n: string)
    requires IsName(n) && |n| + 3 <= |s| && s[..|n| + 3] == TokenText(n)
    ensures Token(s) == Some(n)
  {
    assert s[0] == '<' && s[1] == '(';
    assert forall i :: 0 <= i < |n| ==> s[2..][i] == n[i];
    assert s[2..][|n|] == ')';
    assert NameRun(s[2..]) == |n| by {
      NameRunExact(s[2..], |n|);
    }
    assert s[2..2 + |n|] == n;
  }

  lemma {:induction false} NameRunExact(s: string, k: nat)
    requires k < |s| && !NameChar(s[k]) && forall i :: 0 <= i < k ==> NameChar(s[i])
    ensures NameRun(s) == k
  {
    if k > 0 {
      NameRunExact(s[1..], k - 1);
    }
  }

  /** A token of an unknown variable starts at position `i` of `s`. */
  predicate UnknownAt(s: string, i: nat, vars: map<string, string>)
    requires i <= |s|
  {
    Token(s[i..]).Some? && Token(s[i..]).value !in vars
  }

  /** `eval_variables(item, variables)`: the text scanned from the left,
      every token replaced by its variable's value and every other
      character kept; the first unknown variable is the `KeyError`. */
  function EvalVariables(s: string, vars: map<string, string>): (r: Result<string, PyError>)
    ensures r.Err? ==> r.error.KeyError? && r.error.key !in vars && IsName(r.error.key)
    ensures (forall i :: 0 <= i < |s| ==> Token(s[i..]).None?) ==> r == Ok(s)
    decreases |s|
  {
    if s == [] then Ok([])
    else
      assert s[0..] == s;
      match Token(s)
      case Some(n) =>
        if n !in vars then Err(KeyError(n))
        else
          var rest :- EvalVariables(s[|n| + 3..], vars);
          Ok(vars[n] + rest)
      case None =>
        assert forall i :: 0 <= i < |s| - 1 ==> s[1..][i..] == s[i + 1..];
        var rest :- EvalVariables(s[1..], vars);
        assert [s[0]] + s[1..] == s;
        Ok([s[0]] + rest)
  }

  /** Inside a token no other token starts: its characters after the first
      are '(', name characters and ')', none of them a '<'. */
  lemma NoTokenInside(s: string, n: string, i: nat)
    requires Token(s) == Some(n) && 0 < i < |n| + 3
    ensures Token(s[i..]).None?
  {
    assert s[i..][0] == s[i];
    assert s[i] != '<' by {
      if 2 <= i < |n| + 2 {
        assert s[i] == n[i - 2];
      }
    }
  }

  /** The substitution fails exactly when the text holds a token of an
      unknown variable, wherever it is. */
  lemma {:induction false} EvalFailsIff(s: string, vars: map<string, string>)
    ensures EvalVariables(s, vars).Err? <==> exists i :: 0 <= i <= |s| && UnknownAt(s, i, vars)
    decreases |s|
  {
    if s == [] {
      assert !UnknownAt(s, 0, vars);
    } else {
      match Token(s)
      case Some(n) =>
        if n in vars {
          var t := s[|n| + 3..];
          EvalFailsIff(t, vars);
          forall i | 0 <= i <= |s| && UnknownAt(s, i, vars)
            ensures |n| + 3 <= i && UnknownAt(t, i - |n| - 3, vars)
          {
            if i < |n| + 3 {
              if i > 0 {
                NoTokenInside(s, n, i);
              }
            }
            assert t[i - |n| - 3..] == s[i..];
          }
          forall j | 0 <= j <= |t| && UnknownAt(t, j, vars)
            ensures UnknownAt(s, j + |n| + 3, vars)
          {
            assert t[j..] == s[j + |n| + 3..];
          }
        } else {
          assert UnknownAt(s, 0, vars);
        }
      case None =>
        var t := s[1..];
        EvalFailsIff(t, vars);
        forall i | 0 <= i <= |s| && UnknownAt(s, i, vars)
          ensures 1 <= i && UnknownAt(t, i - 1, vars)
        {
          assert t[i - 1..] == s[i..];
        }
        forall j | 0 <= j <= |t| && UnknownAt(t, j, vars)
          ensures UnknownAt(s, j + 1, vars)
        {
          assert t[j..] == s[j + 1..];
        }
    }
  }

  // ---------------------------------------------------------------------
  // The text as `re.split` cuts it

  /** A piece of the text: a literal character or a variable's token. */
  datatype Piece = Lit(c: char) | Var(name: string)

  /** The pieces of the text, left to right. */
  function Pieces(s: string): (ps: seq<Piece>)
    ensures forall k :: 0 <= k < |ps| && ps[k].Var? ==> IsName(ps[k].name)
    decreases |s|
  {
    if s == [] then []
    else
      match Token(s)
      case Some(n) => [Var(n)] + Pieces(s[|n| + 3..])
      case None => [Lit(s[0])] + Pieces(s[1..])
  }

  /** The text the pieces were cut from. */
  function Unpieces(ps: seq<Piece>): string {
    if ps == [] then []
    else
      match ps[0]
      case Lit(c) => [c] + Unpieces(ps[1..])
      case Var(n) => TokenText(n) + Unpieces(ps[1..])
  }

  /** The pieces with every token replaced. */
  function Render(ps: seq<Piece>, vars: map<string, string>): Result<string, PyError> {
    if ps == [] then Ok([])
    else
      match ps[0]
      case Lit(c) =>
        var rest :- Render(ps[1..], vars);
        Ok([c] + rest)
      case Var(n) =>
        if n !in vars then Err(KeyError(n))
        else
          var rest :- Render(ps[1..], vars);
          Ok(vars[n] + rest)
  }

  /** Cutting loses nothing: the pieces put together are the text. */
  lemma {:induction false} PiecesJoin(s: string)
    ensures Unpieces(Pieces(s)) == s
    decreases |s|
  {
    if s != [] {
      match Token(s)
      case Some(n) =>
        PiecesJoin(s[|n| + 3..]);
        assert ([Var(n)] + Pieces(s[|n| + 3..]))[1..] == Pieces(s[|n| + 3..]);
        assert s == s[..|n| + 3] + s[|n| + 3..];
      case None =>
        PiecesJoin(s[1..]);
        assert ([Lit(s[0])] + Pieces(s[1..]))[1..] == Pieces(s[1..]);
    }
  }

  /** The substitution is the pieces rendered: literal text kept, each
      token replaced by its value, in order. */
  lemma {:induction false} EvalRenders(s: string, vars: map<string, string>)
    ensures EvalVariables(s, vars) == Render(Pieces(s), vars)
    decreases |s|
  {
    if s != [] {
      match Token(s)
      case Some(n) =>
        EvalRenders(s[|n| + 3..], vars);
        assert ([Var(n)] + Pieces(s[|n| + 3..]))[1..] == Pieces(s[|n| + 3..]);
      case None =>
        EvalRenders(s[1..], vars);
        assert ([Lit(s[0])] + Pieces(s[1..]))[1..] == Pieces(s[1..]);
    }
  }

  /** A text with no variable in it is its own value, and a single token
      is its variable's value. */
  lemma EvalCases(vars: map<string, string>, n: string)
    requires IsName(n)
    ensures EvalVariables(TokenText(n), vars) == if n in vars then Ok(vars[n]) else Err(KeyError(n))
  {
    var s := TokenText(n);
    TokenExact(s, n);
    assert s[|n| + 3..] == [];
    if n in vars {
      assert vars[n] + [] == vars[n];
    }
  }
}

=== FILE: json.dfy ===
/** The Python values a JSON schema is loaded into (dict, list, unicode,
    int, float, bool, None) and the few dictionary operations the schema
    compiler applies to them.

    A dict is an ordered sequence of entries with distinct keys, iterated
    in the order they were written. Python 2 iterates a dict in its hash
    order instead, so where several entries fail, the one the model
    reports first may not be the one the code meets first. A float is an
    opaque token: nothing here computes with floating point. */
module Json {
  import opened Wrappers
  import opened Python

  datatype Json =
    | JNull
    | JBool(b: bool)
    | JInt(i: int)
    | JFloat(token: int)
    | JStr(s: string)
    | JList(items: seq<Json>)
    | JObj(fields: seq<Entry>)

  /** One `key: value` entry of a dict. */
  datatype Entry = Entry(key: string, value: Json)

  /** A structural size, to prove that recursion into a member terminates. */
  function Size(j: Json): nat {
    match j
    case JList(items) => 1 + SizeItems(items)
    case JObj(fields) => 1 + SizeFields(fields)
    case _ => 1
  }

  function SizeItems(items: seq<Json>): nat {
    if items == [] then 0 else Size(items[0]) + SizeItems(items[1..])
  }

  function SizeFields(fields: seq<Entry>): nat {
    if fields == [] then 0 else Size(fields[0].value) + SizeFields(fields[1..])
  }

  lemma {:induction false} SizeItemBound(items: seq<Json>, i: nat)
    requires i < |items|
    ensures Size(items[i]) <= SizeItems(items)
  {
    if i > 0 {
      SizeItemBound(items[1..], i - 1);
    }
  }

  lemma {:induction false} SizeFieldBound(fields: seq<Entry>, i: nat)
    requires i < |fields|
    ensures Size(fields[i].value) <= SizeFields(fields)
  {
    if i > 0 {
      SizeFieldBound(fields[1..], i - 1);
    }
  }

  lemma ItemsSmaller(j: Json)
    ensures j.JList? ==> forall k :: 0 <= k < |j.items| ==> Size(j.items[k]) < Size(j)
  {
    if j.JList? {
      forall k | 0 <= k < |j.items|
        ensures Size(j.items[k]) < Size(j)
      {
        SizeItemBound(j.items, k);
      }
    }
  }

  /** The `i`-th element of a list, smaller than the list. */
  function Item(j: Json, i: nat): (r: Json)
    requires j.JList? && i < |j.items|
    ensures r == j.items[i]
    ensures Size(r) < Size(j)
  {
    SizeItemBound(j.items, i);
    j.items[i]
  }

  /** The value of the `i`-th entry of a dict, smaller than the dict. */
  function EntryValue(j: Json, i: nat): (r: Json)
    requires j.JObj? && i < |j.fields|
    ensures r == j.fields[i].value
    ensures Size(r) < Size(j)
  {
    SizeFieldBound(j.fields, i);
    j.fields[i].value
  }

  predicate DistinctKeys(fields: seq<Entry>) {
    forall i, k :: 0 <= i < k < |fields| ==> fields[i].key != fields[k].key
  }

  /** A value that can be a Python dict: no key occurs twice. */
  predicate IsDict(j: Json) {
    j.JObj? && DistinctKeys(j.fields)
  }

  /** The value of the first entry with key `k`. */
  function Lookup(fields: seq<Entry>, k: string): (r: Option<Json>)
    ensures r.Some? ==> exists i :: 0 <= i < |fields| && fields[i] == Entry(k, r.value)
    ensures r.None? ==> forall i :: 0 <= i < |fields| ==> fields[i].key != k
  {
    if fields == [] then None
    else if fields[0].key == k then Some(fields[0].value)
    else
      var r := Lookup(fields[1..], k);
      assert r.Some? ==> exists i :: 0 <= i < |fields| && fields[i] == Entry(k, r.value) by {
        if r.Some? {
          var i :| 0 <= i < |fields| - 1 && fields[1..][i] == Entry(k, r.value);
          assert fields[i + 1] == Entry(k, r.value);
        }
      }
      r
  }

  lemma {:induction false} LookupSize(fields: seq<Entry>, k: string)
    requires Lookup(fields, k).Some?
    ensures Size(Lookup(fields, k).value) <= SizeFields(fields)
  {
    if fields[0].key != k {
      LookupSize(fields[1..], k);
    }
  }

  /** The keys of a dict. */
  function Keys(fields: seq<Entry>): (ks: set<string>)
    ensures forall x :: x in ks <==> Lookup(fields, x).Some?
  {
    if fields == [] then {} else {fields[0].key} + Keys(fields[1..])
  }

  /** `k in j` for a dict. */
  predicate Has(j: Json, k: string) {
    j.JObj? && Lookup(j.fields, k).Some?
  }

  /** `j.get(k)` for a dict: the value, smaller than the dict. */
  function Get(j: Json, k: string): (r: Option<Json>)
    requires j.JObj?
    ensures r == Lookup(j.fields, k)
    ensures r.Some? <==> Has(j, k)
    ensures r.Some? ==> Size(r.value) < Size(j)
  {
    if Has(j, k) then LookupSize(j.fields, k); Lookup(j.fields, k) else None
  }

  /** `j.get(k, default)` */
  function GetOr(j: Json, k: string, default: Json): (r: Json)
    requires j.JObj?
    ensures Has(j, k) ==> Some(r) == Get(j, k) && Size(r) < Size(j)
    ensures !Has(j, k) ==> r == default
  {
    match Get(j, k)
    case Some(v) => v
    case None => default
  }

  /** `j[k]`: a KeyError for a missing key and a TypeError on a value
      that is not a dict. */
  function Index(j: Json, k: string): (r: Result<Json, PyError>)
    ensures r.Ok? <==> Has(j, k)
    ensures r.Ok? ==> Some(r.value) == Get(j, k) && Size(r.value) < Size(j)
    ensures j.JObj? && !Has(j, k) ==> r == Err(KeyError(k))
  {
    if !j.JObj? then Err(TypeError("indices must be integers"))
    else match Get(j, k)
      case Some(v) => Ok(v)
      case None => Err(KeyError(k))
  }

  /** `j[k] = v`: replaces the entry in place, or appends it. */
  function Set(j: Json, k: string, v: Json): (r: Json)
    requires j.JObj?
    ensures r.JObj?
    ensures IsDict(j) ==> IsDict(r)
    ensures Get(r, k) == Some(v)
    ensures forall x :: x != k ==> Get(r, x) == Get(j, x)
  {
    JObj(SetField(j.fields, k, v))
  }

  function SetField(fields: seq<Entry>, k: string, v: Json): (r: seq<Entry>)
    ensures Lookup(r, k) == Some(v)
    ensures forall x :: x != k ==> Lookup(r, x) == Lookup(fields, x)
    ensures DistinctKeys(fields) ==> DistinctKeys(r)
  {
    if fields == [] then [Entry(k, v)]
    else if fields[0].key == k then
      var r := [Entry(k, v)] + fields[1..];
      assert forall i :: 0 <= i < |r| ==> r[i].key == fields[i].key;
      r
    else
      var tail := SetField(fields[1..], k, v);
      var r := [fields[0]] + tail;
      assert r[1..] == tail;
      assert DistinctKeys(fields) ==> DistinctKeys(r) by {
        if DistinctKeys(fields) {
          assert DistinctKeys(fields[1..]) by {
            forall i, m | 0 <= i < m < |fields[1..]|
              ensures fields[1..][i].key != fields[1..][m].key
            {
              assert fields[1..][i] == fields[i + 1] && fields[1..][m] == fields[m + 1];
            }
          }
          assert Lookup(fields[1..], fields[0].key).None? by {
            forall i | 0 <= i < |fields[1..]|
              ensures fields[1..][i].key != fields[0].key
            {
              assert fields[1..][i] == fields[i + 1];
            }
          }
          forall i, m | 0 <= i < m < |r|
            ensures r[i].key != r[m].key
          {
            if i == 0 {
              assert r[m] == tail[m - 1];
            }
          }
        }
      }
      r
  }

  /** `j.update(other)`: every key of `other` is set, in `other`'s order,
      and every other key keeps its value. A Python dict has distinct keys,
      and then each key gets `other`'s value. */
  function Update(j: Json, other: Json): (r: Json)
    requires j.JObj? && other.JObj?
    ensures r.JObj?
    ensures IsDict(j) ==> IsDict(r)
    ensures forall x :: !Has(other, x) ==> Get(r, x) == Get(j, x)
    ensures forall x :: Has(other, x) ==> Has(r, x)
    ensures DistinctKeys(other.fields) ==> forall x :: Has(other, x) ==> Get(r, x) == Get(other, x)
  {
    JObj(UpdateFields(j.fields, other.fields))
  }

  function UpdateFields(fields: seq<Entry>, other: seq<Entry>): (r: seq<Entry>)
    ensures forall x :: Lookup(other, x).None? ==> Lookup(r, x) == Lookup(fields, x)
    ensures forall x :: Lookup(other, x).Some? ==> Lookup(r, x).Some?
    ensures DistinctKeys(other) ==> forall x :: Lookup(other, x).Some? ==> Lookup(r, x) == Lookup(other, x)
    ensures DistinctKeys(fields) ==> DistinctKeys(r)
    decreases |other|
  {
    if other == [] then fields
    else
      var e := other[0];
      var rest := other[1..];
      var r := UpdateFields(SetField(fields, e.key, e.value), rest);
      assert DistinctKeys(other) ==> DistinctKeys(rest) && Lookup(rest, e.key).None? by {
        if DistinctKeys(other) {
          forall i | 0 <= i < |rest|
            ensures rest[i].key != e.key
          {
            assert rest[i] == other[i + 1];
          }
        }
      }
      r
  }

  /** Python truthiness (`if x:`). Float token 0 stands for 0.0. */
  predicate Truthy(j: Json) {
    match j
    case JNull => false
    case JBool(b) => b
    case JInt(i) => i != 0
    case JFloat(t) => t != 0
    case JStr(s) => s != []
    case JList(items) => items != []
    case JObj(fields) => fields != []
  }

  /** Python 2's name of the value's type, as `type(v)` prints it. */
  function TypeRepr(j: Json): string {
    match j
    case JNull => "<type 'NoneType'>"
    case JBool(_) => "<type 'bool'>"
    case JInt(_) => "<type 'int'>"
    case JFloat(_) => "<type 'float'>"
    case JStr(_) => "<type 'unicode'>"
    case JList(_) => "<type 'list'>"
    case JObj(_) => "<type 'dict'>"
  }

  /** `s` when the value is a string. */
  function AsString(j: Json): (r: Result<string, PyError>)
    ensures r.Ok? <==> j.JStr?
    ensures r.Ok? ==> r.value == j.s
  {
    if j.JStr? then Ok(j.s) else Err(TypeError("expected string"))
  }

  /** The number of elements `len(j)` counts, when defined. */
  function Len(j: Json): Option<nat> {
    match j
    case JStr(s) => Some(|s|)
    case JList(items) => Some(|items|)
    case JObj(fields) => Some(|fields|)
    case _ => None
  }

  /** The values `for x in j` visits, when `j` is iterable: list elements,
      one-character strings, or dict keys. */
  function Elements(j: Json): (r: Result<seq<Json>, PyError>)
    ensures r.Ok? <==> Len(j).Some?
    ensures r.Ok? ==> |r.value| == Len(j).value
    ensures j.JList? ==> r == Ok(j.items)
    ensures r.Ok? ==> forall k :: 0 <= k < |r.value| ==> Size(r.value[k]) <= Size(j)
  {
    ItemsSmaller(j);
    match j
    case JList(items) => Ok(items)
    case JStr(s) => Ok(seq(|s|, i requires 0 <= i < |s| => JStr([s[i]])))
    case JObj(fields) => Ok(seq(|fields|, i requires 0 <= i < |fields| => JStr(fields[i].key)))
    case _ => Err(TypeError("object is not iterable"))
  }
}

=== FILE: paths.dfy ===
/** The POSIX `os.path` functions the tools call: `join`, `split`,
    `isabs`, `normpath`, `abspath` and `relpath`, as Python 2.7's
    `posixpath` defines them. The process's working directory, which
    `abspath` and `relpath` read, is a parameter. */
module Paths {
  import opened Wrappers
  import opened Python
  import opened Text

  predicate IsAbs(p: string) {
    StartsWith(p, "/")
  }

  /** `os.path.join(a, b)`: an absolute `b` discards `a`; otherwise a '/' is
      inserted unless `a` is empty or already ends with one. */
  function PathJoin(a: string, b: string): (r: string)
    ensures IsAbs(b) ==> r == b
    ensures EndsWith(r, b)
    ensures !IsAbs(b) ==> StartsWith(r, a)
    ensures !IsAbs(b) && a != [] && a[|a| - 1] != '/' ==> r == a + "/" + b
    ensures !IsAbs(b) && (a == [] || a[|a| - 1] == '/') ==> r == a + b
  {
    if IsAbs(b) then b
    else if a == [] || a[|a| - 1] == '/' then a + b
    else a + "/" + b
  }

  /** `os.path.join(*parts)`: the parts joined from left to right. */
  function PathJoinAll(parts: seq<string>): string
    requires |parts| >= 1
  {
    if |parts| == 1 then parts[0] else PathJoin(PathJoinAll(parts[..|parts| - 1]), parts[|parts| - 1])
  }

  lemma {:induction false} JoinSnoc(parts: seq<string>, last: string, sep: string)
    requires |parts| >= 1
    ensures Join(parts + [last], sep) == Join(parts, sep) + sep + last
  {
    if |parts| > 1 {
      assert (parts + [last])[1..] == parts[1..] + [last];
      JoinSnoc(parts[1..], last, sep);
    }
  }

  /** Joining relative, non-empty, slash-free parts is `'/'.join(parts)`. */
  lemma {:induction false} PathJoinAllPlain(parts: seq<string>)
    requires |parts| >= 1
    requires forall i :: 0 <= i < |parts| ==> parts[i] != [] && '/' !in parts[i]
    ensures PathJoinAll(parts) == Join(parts, "/")
  {
    if |parts| > 1 {
      var init := parts[..|parts| - 1];
      var last := parts[|parts| - 1];
      PathJoinAllPlain(init);
      var j := Join(init, "/");
      assert PathJoinAll(parts) == PathJoin(j, last);
      JoinNoTrailingSlash(init);
      assert !IsAbs(last) by {
        assert last[0] in last;
      }
      assert PathJoin(j, last) == j + "/" + last;
      JoinSnoc(init, last, "/");
      SplitLast(parts);
    }
  }

  /** Slash-free, non-empty components joined with '/' end with a
      character other than '/'. */
  lemma JoinNoTrailingSlash(parts: seq<string>)
    requires |parts| >= 1
    requires forall i :: 0 <= i < |parts| ==> parts[i] != [] && '/' !in parts[i]
    ensures var j := Join(parts, "/"); j != [] && j[|j| - 1] != '/'
  {
    var j := Join(parts, "/");
    var last := parts[|parts| - 1];
    JoinEndsWithLast(parts, "/");
    assert j[|j| - 1] == last[|last| - 1];
    assert last[|last| - 1] in last;
  }

  lemma {:induction false} JoinEndsWithLast(parts: seq<string>, sep: string)
    requires |parts| >= 1
    ensures EndsWith(Join(parts, sep), parts[|parts| - 1])
  {
    if |parts| > 1 {
      JoinEndsWithLast(parts[1..], sep);
    }
  }

  lemma {:induction false} JoinStartsWithFirst(parts: seq<string>, sep: string)
    requires |parts| >= 1
    ensures StartsWith(Join(parts, sep), parts[0])
  {
  }

  // ---------------------------------------------------------------------
  // split, dirname, basename

  /** The index just past the last '/', or 0. */
  function AfterLastSlash(p: string): (i: nat)
    ensures i <= |p|
    ensures '/' !in p[i..]
    ensures i > 0 ==> p[i - 1] == '/'
  {
    if p == [] then 0
    else if p[|p| - 1] == '/' then |p|
    else
      var i := AfterLastSlash(p[..|p| - 1]);
      assert p[i..] == p[..|p| - 1][i..] + [p[|p| - 1]];
      i
  }

  predicate AllSlashes(s: string) {
    forall i :: 0 <= i < |s| ==> s[i] == '/'
  }

  /** `os.path.split(p)`: the tail after the last '/', and the head before it
      with its trailing slashes removed unless it consists of slashes only. */
  function SplitPath(p: string): (r: (string, string))
    ensures '/' !in r.1
    ensures EndsWith(p, r.1) && StartsWith(p, r.0)
    ensures |r.0| + |r.1| <= |p|
    ensures AllSlashes(p[|r.0|..|p| - |r.1|])
    ensures r.0 == [] || AllSlashes(r.0) || r.0[|r.0| - 1] != '/'
    ensures r.1 == p <==> '/' !in p
  {
    var i := AfterLastSlash(p);
    var head := p[..i];
    var tail := p[i..];
    if head == [] || AllSlashes(head) then
      (head, tail)
    else
      var h := RStripChar(head, '/');
      (h, tail)
  }

  function Dirname(p: string): string {
    SplitPath(p).0
  }

  function Basename(p: string): string {
    SplitPath(p).1
  }

  // ---------------------------------------------------------------------
  // normpath

  /** POSIX keeps two leading slashes but folds three or more into one. */
  function InitialSlashes(p: string): (n: nat)
    ensures n <= 2
    ensures n > 0 <==> IsAbs(p)
  {
    if StartsWith(p, "//") && !StartsWith(p, "///") then 2
    else if StartsWith(p, "/") then 1
    else 0
  }

  /** One component of `normpath`'s loop: '' and '.' vanish, '..' removes the
      preceding component, and every other component is kept. A leading '..'
      is kept in a relative path and dropped in a rooted one. */
  function NormStep(acc: seq<string>, comp: string, rooted: bool): seq<string> {
    if comp == "" || comp == "." then acc
    else if comp != ".." || (!rooted && acc == []) || (acc != [] && acc[|acc| - 1] == "..") then acc + [comp]
    else if acc != [] then acc[..|acc| - 1]
    else acc
  }

  function NormFold(comps: seq<string>, rooted: bool, acc: seq<string>): seq<string>
    decreases |comps|
  {
    if comps == [] then acc else NormFold(comps[1..], rooted, NormStep(acc, comps[0], rooted))
  }

  /** `os.path.normpath(p)`. */
  function NormPath(p: string): (r: string)
    ensures r != []
  {
    if p == [] then "."
    else
      var n := InitialSlashes(p);
      var path := Repeat('/', n) + Join(NormFold(Split(p, '/'), n > 0, []), "/");
      if path == [] then "." else path
  }

  predicate IsComponent(c: string) {
    c != [] && c != "." && '/' !in c
  }

  /** The normal form `normpath` produces: proper components, and '..' only
      in a leading run of a relative path. */
  predicate NormalComps(cs: seq<string>, rooted: bool) {
    && (forall i :: 0 <= i < |cs| ==> IsComponent(cs[i]))
    && (forall i :: 0 <= i < |cs| && cs[i] == ".." ==> !rooted && forall k :: 0 <= k < i ==> cs[k] == "..")
  }

  lemma NormStepNormal(acc: seq<string>, comp: string, rooted: bool)
    requires NormalComps(acc, rooted) && '/' !in comp
    ensures NormalComps(NormStep(acc, comp, rooted), rooted)
  {
    var r := NormStep(acc, comp, rooted);
    if comp == ".." && acc != [] && acc[|acc| - 1] == ".." {
      assert r == acc + [".."];
      forall i | 0 <= i < |r| && r[i] == ".."
        ensures !rooted && forall k :: 0 <= k < i ==> r[k] == ".."
      {
        assert acc[|acc| - 1] == "..";
      }
    }
  }

  lemma {:induction false} NormFoldNormal(comps: seq<string>, rooted: bool, acc: seq<string>)
    requires NormalComps(acc, rooted)
    requires forall i :: 0 <= i < |comps| ==> '/' !in comps[i]
    ensures NormalComps(NormFold(comps, rooted, acc), rooted)
    decreases |comps|
  {
    if comps != [] {
      NormStepNormal(acc, comps[0], rooted);
      NormFoldNormal(comps[1..], rooted, NormStep(acc, comps[0], rooted));
    }
  }

  lemma {:induction false} NormFoldAppend(xs: seq<string>, ys: seq<string>, rooted: bool, acc: seq<string>)
    ensures NormFold(xs + ys, rooted, acc) == NormFold(ys, rooted, NormFold(xs, rooted, acc))
    decreases |xs|
  {
    if xs == [] {
      assert xs + ys == ys;
    } else {
      assert (xs + ys)[1..] == xs[1..] + ys;
      NormFoldAppend(xs[1..], ys, rooted, NormStep(acc, xs[0], rooted));
    }
  }

  /** Components already in normal form pass through unchanged. */
  lemma {:induction false} NormFoldFix(cs: seq<string>, rooted: bool, acc: seq<string>)
    requires NormalComps(acc + cs, rooted)
    ensures NormFold(cs, rooted, acc) == acc + cs
    decreases |cs|
  {
    if cs != [] {
      var all := acc + cs;
      assert all[|acc|] == cs[0];
      if cs[0] == ".." {
        assert acc == [] || acc[|acc| - 1] == ".." by {
          if acc != [] {
            assert all[|acc| - 1] == acc[|acc| - 1];
          }
        }
      }
      assert NormStep(acc, cs[0], rooted) == acc + [cs[0]];
      assert acc + [cs[0]] + cs[1..] == all;
      NormFoldFix(cs[1..], rooted, acc + [cs[0]]);
    }
  }

  lemma {:induction false} NormFoldEmpties(k: nat, rooted: bool, acc: seq<string>)
    ensures NormFold(Repeat<string>("", k), rooted, acc) == acc
  {
    if k > 0 {
      assert Repeat<string>("", k)[1..] == Repeat<string>("", k - 1);
      NormFoldEmpties(k - 1, rooted, acc);
    }
  }

  lemma SplitLeadingSlash(t: string)
    ensures Split("/" + t, '/') == [""] + Split(t, '/')
  {
    var s := "/" + t;
    assert IndexOf(s, '/') == 0;
    assert s[1..] == t;
  }

  /** Each leading slash splits off one empty string. */
  lemma {:induction false} SplitLeadingSlashes(k: nat, j: string)
    ensures Split(Repeat('/', k) + j, '/') == Repeat<string>("", k) + Split(j, '/')
  {
    if k == 0 {
      assert Repeat('/', 0) + j == j;
    } else {
      var r := Repeat('/', k - 1);
      assert Repeat('/', k) == "/" + r;
      ConcatAssoc("/", r, j);
      SplitLeadingSlashes(k - 1, j);
      SplitLeadingSlash(r + j);
      ConcatAssoc([""], Repeat<string>("", k - 1), Split(j, '/'));
    }
  }

  lemma SplitSlashes(k: nat, cs: seq<string>)
    requires forall i :: 0 <= i < |cs| ==> '/' !in cs[i]
    ensures cs != [] ==> Split(Repeat('/', k) + Join(cs, "/"), '/') == Repeat<string>("", k) + cs
    ensures cs == [] ==> Split(Repeat('/', k), '/') == Repeat<string>("", k) + [""]
  {
    if cs != [] {
      SplitJoin(cs, '/');
      SplitLeadingSlashes(k, Join(cs, "/"));
    } else {
      SplitLeadingSlashes(k, "");
      assert Repeat('/', k) + "" == Repeat('/', k);
    }
  }

  /** The components a slash-joined path splits into. */
  lemma NormPathShape(p: string)
    requires p != []
    ensures var n := InitialSlashes(p);
      var cs := NormFold(Split(p, '/'), n > 0, []);
      && NormalComps(cs, n > 0)
      && NormPath(p) == (if n == 0 && cs == [] then "." else Repeat('/', n) + Join(cs, "/"))
  {
    var n := InitialSlashes(p);
    NormFoldNormal(Split(p, '/'), n > 0, []);
    var cs := NormFold(Split(p, '/'), n > 0, []);
    if cs == [] {
      assert Join(cs, "/") == [];
      assert Repeat('/', n) + [] == Repeat('/', n);
    }
  }

  /** `normpath` is idempotent. */
  lemma NormPathIdempotent(p: string)
    ensures NormPath(NormPath(p)) == NormPath(p)
  {
    if p != [] {
      var n := InitialSlashes(p);
      var cs := NormFold(Split(p, '/'), n > 0, []);
      NormPathShape(p);
      if n == 0 && cs == [] {
        assert NormPath(p) == ".";
        assert Split(".", '/') == ["."];
      } else {
        NormalFixed(n, cs);
      }
    }
  }

  /** A path made of normal components is its own normal form. */
  lemma NormalFixed(n: nat, cs: seq<string>)
    requires n <= 2 && NormalComps(cs, n > 0) && (n > 0 || cs != [])
    ensures var q := Repeat('/', n) + Join(cs, "/");
      NormPath(q) == q
  {
    var q := Repeat('/', n) + Join(cs, "/");
    NormalSlashed(n, cs);
    NormalFold(n, cs);
    assert NormFold(Split(q, '/'), n > 0, []) == cs;
  }

  /** The components of a normal path fold back to themselves. */
  lemma NormalFold(n: nat, cs: seq<string>)
    requires n <= 2 && NormalComps(cs, n > 0)
    ensures NormFold(Split(Repeat('/', n) + Join(cs, "/"), '/'), n > 0, []) == cs
  {
    SplitSlashes(n, cs);
    NormFoldEmpties(n, n > 0, []);
    if cs == [] {
      assert Repeat('/', n) + Join(cs, "/") == Repeat('/', n);
      NormFoldAppend(Repeat<string>("", n), [""], n > 0, []);
    } else {
      NormFoldAppend(Repeat<string>("", n), cs, n > 0, []);
      NormFoldFix(cs, n > 0, []);
      assert [] + cs == cs;
    }
  }

  /** The leading slashes of a normal path are the ones written before its
      first component. */
  lemma NormalSlashed(n: nat, cs: seq<string>)
    requires n <= 2 && NormalComps(cs, n > 0) && (n > 0 || cs != [])
    ensures InitialSlashes(Repeat('/', n) + Join(cs, "/")) == n
  {
    var q := Repeat('/', n) + Join(cs, "/");
    if cs != [] {
      JoinStartsWithFirst(cs, "/");
      assert q[n] == cs[0][0];
    } else {
      assert q == Repeat('/', n);
    }
  }

  // ---------------------------------------------------------------------
  // abspath and relpath

  /** `os.path.abspath(p)` with the working directory `cwd`. */
  function AbsPath(p: string, cwd: string): (r: string)
    ensures r != []
  {
    if IsAbs(p) then NormPath(p) else NormPath(PathJoin(cwd, p))
  }

  /** The non-empty components of a path. */
  function Comps(p: string): (r: seq<string>)
    ensures forall i :: 0 <= i < |r| ==> r[i] != [] && '/' !in r[i]
  {
    var r := NonEmpty(Split(p, '/'));
    assert forall i :: 0 <= i < |r| ==> r[i] in Split(p, '/');
    r
  }

  /** The length of the common prefix of two component lists, as
      `commonprefix([a, b])` computes it. */
  function CommonPrefixLen(a: seq<string>, b: seq<string>): (n: nat)
    ensures n <= |a| && n <= |b|
    ensures a[..n] == b[..n]
    ensures n < |a| && n < |b| ==> a[n] != b[n]
  {
    if a == [] || b == [] || a[0] != b[0] then 0
    else
      var n := 1 + CommonPrefixLen(a[1..], b[1..]);
      assert a[..n] == [a[0]] + a[1..][..n - 1];
      assert b[..n] == [b[0]] + b[1..][..n - 1];
      n
  }

  /** The components of `relpath`: up from `start` to the common prefix,
      then down to `path`. */
  function RelComps(path: string, start: string, cwd: string): seq<string> {
    var sl := Comps(AbsPath(start, cwd));
    var pl := Comps(AbsPath(path, cwd));
    var i := CommonPrefixLen(sl, pl);
    Repeat<string>("..", |sl| - i) + pl[i..]
  }

  /** `os.path.relpath(path, start)`: a ValueError for an empty path. */
  function RelPath(path: string, start: string, cwd: string): (r: Result<string, PyError>)
    ensures r.Err? <==> path == []
  {
    if path == [] then Err(ValueError("no path specified"))
    else
      var rel := RelComps(path, start, cwd);
      if rel == [] then Ok(".") else Ok(PathJoinAll(rel))
  }

  /** The rooted path with the given components. */
  function Root(cs: seq<string>): string {
    "/" + Join(cs, "/")
  }

  /** An absolute path's components are the normal, rooted ones. */
  lemma AbsComps(p: string, cwd: string)
    requires IsAbs(cwd)
    ensures NormalComps(Comps(AbsPath(p, cwd)), true)
  {
    var q := if IsAbs(p) then p else PathJoin(cwd, p);
    assert IsAbs(q);
    var n := InitialSlashes(q);
    var cs := NormFold(Split(q, '/'), true, []);
    NormPathShape(q);
    SplitSlashes(n, cs);
    if cs == [] {
      assert Join(cs, "/") == [];
      assert Repeat('/', n) + [] == Repeat('/', n);
      NonEmptyEmpties(n, [""]);
      assert NonEmpty([""]) == [];
    } else {
      NonEmptyEmpties(n, cs);
      NonEmptyId(cs);
    }
  }

  lemma {:induction false} NonEmptyEmpties(k: nat, xs: seq<string>)
    ensures NonEmpty(Repeat<string>("", k) + xs) == NonEmpty(xs)
  {
    if k == 0 {
      assert Repeat<string>("", k) + xs == xs;
    } else {
      assert (Repeat<string>("", k) + xs)[1..] == Repeat<string>("", k - 1) + xs;
      NonEmptyEmpties(k - 1, xs);
    }
  }

  lemma {:induction false} NonEmptyId(xs: seq<string>)
    requires forall i :: 0 <= i < |xs| ==> xs[i] != []
    ensures NonEmpty(xs) == xs
  {
    if xs != [] {
      NonEmptyId(xs[1..]);
    }
  }

  /** Each '..' removes one component of a rooted normal list. */
  lemma {:induction false} NormFoldDots(k: nat, acc: seq<string>)
    requires k <= |acc| && NormalComps(acc, true)
    ensures NormFold(Repeat<string>("..", k), true, acc) == acc[..|acc| - k]
  {
    if k > 0 {
      assert acc[|acc| - 1] != "..";
      assert Repeat<string>("..", k)[1..] == Repeat<string>("..", k - 1);
      var popped := acc[..|acc| - 1];
      assert NormStep(acc, "..", true) == popped;
      assert NormalComps(popped, true);
      NormFoldDots(k - 1, popped);
      assert popped[..|popped| - (k - 1)] == acc[..|acc| - k];
    }
  }

  lemma {:induction false} JoinAppend(a: seq<string>, b: seq<string>, sep: string)
    requires |a| >= 1 && |b| >= 1
    ensures Join(a + b, sep) == Join(a, sep) + sep + Join(b, sep)
    decreases |a|
  {
    if |a| == 1 {
      JoinCons(a[0], b, sep);
      assert [a[0]] + b == a + b;
    } else {
      JoinAppend(a[1..], b, sep);
      JoinCons(a[0], a[1..] + b, sep);
      assert a + b == [a[0]] + (a[1..] + b);
      JoinCons(a[0], a[1..], sep);
      assert a == [a[0]] + a[1..];
    }
  }

  /** The string `relpath` returns is its components (or '.') joined by '/'. */
  lemma RelPathJoined(path: string, start: string, cwd: string)
    requires path != []
    ensures var rel := RelComps(path, start, cwd);
      var walk := if rel == [] then ["."] else rel;
      && (forall k :: 0 <= k < |walk| ==> walk[k] != [] && '/' !in walk[k])
      && RelPath(path, start, cwd).value == Join(walk, "/")
      && !IsAbs(Join(walk, "/"))
  {
    var rel := RelComps(path, start, cwd);
    var walk := if rel == [] then ["."] else rel;
    var pl := Comps(AbsPath(path, cwd));
    assert forall k :: 0 <= k < |walk| ==> walk[k] != [] && '/' !in walk[k];
    if rel != [] {
      PathJoinAllPlain(rel);
    }
    JoinStartsWithFirst(walk, "/");
  }

  /** Joining the relative walk onto a rooted path gives one rooted,
      slash-joined list of components. */
  lemma RootJoinShape(sl: seq<string>, walk: seq<string>)
    requires |walk| >= 1
    requires forall k :: 0 <= k < |sl| ==> sl[k] != [] && '/' !in sl[k]
    requires !IsAbs(Join(walk, "/"))
    ensures PathJoin(Root(sl), Join(walk, "/")) == "/" + Join(sl + walk, "/")
  {
    var w := Join(walk, "/");
    if sl == [] {
      assert Join(sl, "/") == [];
      assert sl + walk == walk;
    } else {
      RootNoTrailingSlash(sl);
      var r := Root(sl);
      var a := Join(sl, "/");
      assert PathJoin(r, w) == (("/" + a) + "/") + w;
      JoinAppend(sl, walk, "/");
      ConcatAssoc("/", a, "/");
      ConcatAssoc("/", a + "/", w);
    }
  }

  /** A rooted path of components ends with the last one's last character,
      never a slash. */
  lemma RootNoTrailingSlash(sl: seq<string>)
    requires |sl| >= 1
    requires forall k :: 0 <= k < |sl| ==> sl[k] != [] && '/' !in sl[k]
    ensures var r := Root(sl); r != [] && r[|r| - 1] != '/'
  {
    var a := Join(sl, "/");
    JoinNoTrailingSlash(sl);
    var r := Root(sl);
    assert r[|r| - 1] == a[|a| - 1];
  }

  /** A slash followed by a component starts a path with one leading slash. */
  lemma OneInitialSlash(all: seq<string>)
    requires |all| >= 1 && all[0] != [] && '/' !in all[0]
    ensures InitialSlashes("/" + Join(all, "/")) == 1
  {
    JoinStartsWithFirst(all, "/");
    assert ("/" + Join(all, "/"))[1] == all[0][0];
  }

  lemma RootJoin(sl: seq<string>, walk: seq<string>)
    requires |walk| >= 1
    requires forall k :: 0 <= k < |sl| ==> sl[k] != [] && '/' !in sl[k]
    requires forall k :: 0 <= k < |walk| ==> walk[k] != [] && '/' !in walk[k]
    requires !IsAbs(Join(walk, "/"))
    ensures var joined := PathJoin(Root(sl), Join(walk, "/"));
      && InitialSlashes(joined) == 1
      && Split(joined, '/') == Repeat<string>("", 1) + (sl + walk)
  {
    var all := sl + walk;
    var joined := PathJoin(Root(sl), Join(walk, "/"));
    RootJoinShape(sl, walk);
    assert joined == "/" + Join(all, "/");
    assert all[0] != [] && '/' !in all[0];
    OneInitialSlash(all);
    assert Repeat('/', 1) == "/";
    assert forall i :: 0 <= i < |all| ==> '/' !in all[i] by {
      forall i | 0 <= i < |all| ensures '/' !in all[i] {
        if i < |sl| {
          assert all[i] == sl[i];
        } else {
          assert all[i] == walk[i - |sl|];
        }
      }
    }
    SplitSlashes(1, all);
    assert Split(joined, '/') == Repeat<string>("", 1) + all;
  }

  /** Walking up with '..' to the common prefix and down again reaches `pl`. */
  lemma WalkReaches(sl: seq<string>, pl: seq<string>, i: nat)
    requires NormalComps(sl, true) && NormalComps(pl, true)
    requires i <= |sl| && i <= |pl| && sl[..i] == pl[..i]
    requires |sl| > i || |pl| > i
    ensures NormFold(sl + (Repeat<string>("..", |sl| - i) + pl[i..]), true, []) == pl
  {
    var down := pl[i..];
    var dots := Repeat<string>("..", |sl| - i);
    NormFoldAppend(sl, dots + down, true, []);
    assert [] + sl == sl;
    NormFoldFix(sl, true, []);
    NormFoldAppend(dots, down, true, sl);
    NormFoldDots(|sl| - i, sl);
    assert |sl| - (|sl| - i) == i;
    TakeDrop(pl, i);
    NormFoldFix(down, true, pl[..i]);
  }

  /** The relative walk from `sl` to `pl`, folded after `sl`, ends at `pl`. */
  lemma WalkFold(sl: seq<string>, pl: seq<string>)
    requires NormalComps(sl, true) && NormalComps(pl, true)
    ensures var i := CommonPrefixLen(sl, pl);
      var rel := Repeat<string>("..", |sl| - i) + pl[i..];
      NormFold(sl + (if rel == [] then ["."] else rel), true, []) == pl
  {
    var i := CommonPrefixLen(sl, pl);
    var rel := Repeat<string>("..", |sl| - i) + pl[i..];
    if rel == [] {
      SameFold(sl, pl);
    } else {
      assert |sl| > i || |pl| > i;
      WalkReaches(sl, pl, i);
      assert NormFold(sl + rel, true, []) == pl;
    }
  }

  /** From a path to itself the walk is '.', which folds away. */
  lemma SameFold(sl: seq<string>, pl: seq<string>)
    requires NormalComps(sl, true) && sl == pl
    ensures NormFold(sl + ["."], true, []) == pl
  {
    NormFoldAppend(sl, ["."], true, []);
    NormFoldFix(sl, true, []);
    assert [] + sl == sl;
  }

  /** `relpath` is the way from `start` to `path`: joined onto `start`'s
      absolute form and normalised, it leads to `path`'s absolute form. */
  lemma RelPathRoundTrip(path: string, start: string, cwd: string)
    requires IsAbs(cwd) && path != []
    ensures NormPath(PathJoin(Root(Comps(AbsPath(start, cwd))), RelPath(path, start, cwd).value))
         == Root(Comps(AbsPath(path, cwd)))
  {
    var sl := Comps(AbsPath(start, cwd));
    var pl := Comps(AbsPath(path, cwd));
    AbsComps(start, cwd);
    AbsComps(path, cwd);
    var i := CommonPrefixLen(sl, pl);
    var rel := RelComps(path, start, cwd);
    assert rel == Repeat<string>("..", |sl| - i) + pl[i..];
    var walk := if rel == [] then ["."] else rel;
    RelPathJoined(path, start, cwd);
    RootJoin(sl, walk);
    var joined := PathJoin(Root(sl), Join(walk, "/"));
    NormFoldEmpties(1, true, []);
    NormFoldAppend(Repeat<string>("", 1), sl + walk, true, []);
    WalkFold(sl, pl);
    assert NormFold(Split(joined, '/'), true, []) == pl;
    NormPathShape(joined);
    assert Repeat('/', 1) == "/";
    assert NormPath(joined) == Root(pl);
    assert RelPath(path, start, cwd).value == Join(walk, "/");
  }

  // ---------------------------------------------------------------------
  // Trailing slashes

  /** The first separator of `a + b` is the one in `a`, when `a` has one. */
  lemma {:induction false} IndexOfPrefix(a: string, b: string, c: char)
    requires c in a
    ensures IndexOf(a + b, c) == IndexOf(a, c)
  {
    if a[0] != c {
      assert (a + b)[1..] == a[1..] + b;
      IndexOfPrefix(a[1..], b, c);
    }
  }

  /** A trailing slash adds one empty component. */
  lemma {:induction false} SplitTrailing(q: string)
    ensures Split(q + "/", '/') == Split(q, '/') + [""]
    decreases |q|
  {
    var s := q + "/";
    if '/' !in q {
      IndexOfAfter(q, '/', []);
      assert s == q + ['/'] + [];
      assert s[|q| + 1..] == [];
      assert Split(s[|q| + 1..], '/') == [""];
    } else {
      var k := IndexOf(q, '/');
      IndexOfPrefix(q, "/", '/');
      assert s[..k] == q[..k];
      assert s[k + 1..] == q[k + 1..] + "/";
      SplitTrailing(q[k + 1..]);
    }
  }

  /** `normpath` ignores a trailing slash, unless the path is made of
      slashes only (where one more slash can change the number of leading
      slashes kept). */
  lemma NormPathTrailing(q: string)
    requires !AllSlashes(q)
    ensures NormPath(q + "/") == NormPath(q)
  {
    var s := q + "/";
    assert |q| >= 1;
    assert InitialSlashes(s) == InitialSlashes(q) by {
      if |q| >= 3 {
        assert s[..2] == q[..2] && s[..3] == q[..3];
      } else if |q| == 2 {
        assert s[..2] == q;
        assert q != "//";
      }
    }
    var rooted := InitialSlashes(q) > 0;
    SplitTrailing(q);
    NormFoldAppend(Split(q, '/'), [""], rooted, []);
  }

  /** A normalised path ends with a slash only when it is made of
      slashes. */
  lemma NormPathSlashEnd(p: string)
    ensures EndsWith(NormPath(p), "/") ==> AllSlashes(NormPath(p))
  {
    if p != [] {
      var r := NormPath(p);
      NormPathShape(p);
      var n := InitialSlashes(p);
      var cs := NormFold(Split(p, '/'), n > 0, []);
      if cs != [] {
        var j := Join(cs, "/");
        JoinLastChar(cs);
        assert r == Repeat('/', n) + j;
        assert r[|r| - 1] == j[|j| - 1];
      } else if n > 0 {
        assert Join(cs, "/") == [];
        assert r == Repeat('/', n) + [];
      }
    }
  }

  /** Components joined by slashes do not end with one. */
  lemma JoinLastChar(cs: seq<string>)
    requires |cs| >= 1 && forall i :: 0 <= i < |cs| ==> cs[i] != [] && '/' !in cs[i]
    ensures var j := Join(cs, "/"); j != [] && j[|j| - 1] != '/'
  {
    var last := cs[|cs| - 1];
    var j := Join(cs, "/");
    JoinEndsWithLast(cs, "/");
    assert j[|j| - |last|..] == last;
    assert j[|j| - 1] == last[|last| - 1];
    assert last[|last| - 1] in last;
  }
}

=== FILE: pretty_print.dfy ===
/** `pretty_print(variables, stdout)`: the gyp-style text `trace_inputs.py`
    writes for a dictionary of variables. The text is framed by `{` and
    `}` lines; a dictionary's keys come out in the priority order of
    `ORDER` first and sorted after that; string values are written
    between single quotes with backslashes and quotes escaped; booleans and
    `None` are written bare.

    Two places of the code as written do not produce a Python literal: a
    string directly inside a list is not escaped, and a bare value is not
    followed by a comma. Every function here takes a `Variant`: the code
    as written, or with those two places corrected.

    The text is returned whole. What the code writes to `stdout` before it
    fails on a value it cannot print is not part of this model. */
module PrettyPrint {
  import opened Wrappers
  import opened Python
  import opened Text
  import opened Json
  import opened Sorting

  const KEY_TRACKED := "isolate_dependency_tracked"
  const KEY_UNTRACKED := "isolate_dependency_untracked"

  /** The keys written first, in this order. */
  const ORDER: seq<string> := ["variables", "condition", "command", "relative_cwd", "read_only", KEY_TRACKED, KEY_UNTRACKED]

  /** The first position of `x` in `xs`: `xs.index(x)`. */
  function Position(xs: seq<string>, x: string): (k: nat)
    requires x in xs
    ensures k < |xs| && xs[k] == x
    ensures forall i :: 0 <= i < k ==> xs[i] != x
  {
    if xs[0] == x then 0 else 1 + Position(xs[1..], x)
  }

  /** `sorting_key`: a key of `ORDER` sorts as the digit of its position,
      every other key as itself. */
  function SortingKey(x: string): (r: string)
    ensures x in ORDER ==> |r| == 1 && '0' <= r[0] <= '6'
    ensures x !in ORDER ==> r == x
  {
    if x in ORDER then [('0' as int + Position(ORDER, x)) as char] else x
  }

  // ---------------------------------------------------------------------
  // String literals

  /** `s.replace('\\', '\\\\').replace('\'', '\\\'')` */
  function Escape(s: string): string {
    Replace(Replace(s, '\\', "\\\\"), '\'', "\\'")
  }

  /** Reads a single-quoted Python string literal from just after its
      opening quote: the string it denotes and the text after its closing
      quote. Only the two escapes `\\` and `\'` are read. */
  function ReadBody(t: string): (r: Option<(string, string)>)
    ensures r.Some? ==> |r.value.1| < |t|
    decreases |t|
  {
    if t == [] then None
    else if t[0] == '\'' then Some(([], t[1..]))
    else if t[0] == '\\' then
      if |t| >= 2 && (t[1] == '\\' || t[1] == '\'') then
        var p :- ReadBody(t[2..]);
        Some(([t[1]] + p.0, p.1))
      else None
    else
      var p :- ReadBody(t[1..]);
      Some(([t[0]] + p.0, p.1))
  }

  /** The text of one character once escaped. */
  function EscapeChar(c: char): string {
    if c == '\\' then "\\\\" else if c == '\'' then "\\'" else [c]
  }

  lemma EscapeCons(c: char, s: string)
    ensures Escape([c] + s) == EscapeChar(c) + Escape(s)
  {
    var x := if c == '\\' then "\\\\" else [c];
    assert ([c] + s)[0] == c && ([c] + s)[1..] == s;
    assert Replace([c] + s, '\\', "\\\\") == x + Replace(s, '\\', "\\\\");
    ReplaceAppend(x, Replace(s, '\\', "\\\\"), '\'', "\\'");
    if c == '\\' {
      assert Replace(x, '\'', "\\'") == x;
    } else {
      assert x[0] == c && x[1..] == [];
      assert Replace(x, '\'', "\\'") == EscapeChar(c);
    }
  }

  /** An escaped string between quotes reads back as the string, whatever
      follows the closing quote. */
  lemma {:induction false} ReadEscaped(s: string, rest: string)
    ensures ReadBody(Escape(s) + "'" + rest) == Some((s, rest))
    decreases |s|
  {
    if s == [] {
      assert Escape(s) + "'" + rest == "'" + rest;
      assert ("'" + rest)[1..] == rest;
    } else {
      var c, u := s[0], Escape(s[1..]) + "'" + rest;
      assert s == [c] + s[1..];
      EscapeCons(c, s[1..]);
      ConcatAssoc(EscapeChar(c), Escape(s[1..]), "'");
      ConcatAssoc(EscapeChar(c), Escape(s[1..]) + "'", rest);
      var t := EscapeChar(c) + u;
      assert Escape(s) + "'" + rest == t;
      ReadEscaped(s[1..], rest);
      if c == '\\' || c == '\'' {
        assert t[0] == '\\' && t[1] == c && t[2..] == u;
      } else {
        assert t[0] == c && t[1..] == u;
      }
    }
  }

  /** A string written between quotes as the code writes it inside a list,
      and as it is meant to be written. */
  function Quoted(s: string, v: Variant): string {
    match v
    case AsWritten => "'" + s + "'"
    case Corrected => "'" + Escape(s) + "'"
  }

  /** The quote inside `a'b` closes the unescaped literal early: it reads
      as `a`. */
  lemma UnescapedItemMisread()
    ensures Quoted("a'b", AsWritten) == "'a'b'"
    ensures ReadBody(Quoted("a'b", AsWritten)[1..] + ",\n") == Some(("a", "b',\n"))
  {
    var t := "a'b',\n";
    assert Quoted("a'b", AsWritten)[1..] + ",\n" == t;
    assert t[0] == 'a' && t[1..] == "'b',\n";
    assert t[1..][0] == '\'' && t[1..][1..] == "b',\n";
    assert ReadBody(t[1..]) == Some(([], "b',\n"));
    assert ReadBody(t) == Some(([t[0]] + [], "b',\n"));
    assert [t[0]] + [] == "a";
  }

  /** Every string written inside a list reads back as itself once
      escaped. */
  lemma QuotedItemRead(s: string, rest: string)
    ensures ReadBody(Quoted(s, Corrected)[1..] + rest) == Some((s, rest))
  {
    assert Quoted(s, Corrected)[1..] == Escape(s) + "'";
    ReadEscaped(s, rest);
  }

  // ---------------------------------------------------------------------
  // What can be printed

  /** The values `loop_dict` writes: dictionaries and lists of printable
      values, strings, and the values equal to `True`, `False` or `None`,
      which in Python include the integers 1 and 0. */
  predicate DictValue(j: Json)
    decreases Size(j), 0
  {
    match j
    case JObj(fields) => FieldsPrintable(fields)
    case JList(items) => forall k :: 0 <= k < |items| ==> ListItemAt(items, k)
    case JStr(_) => true
    case JBool(_) => true
    case JNull => true
    case JInt(i) => i == 0 || i == 1
    case JFloat(_) => false
  }

  /** Every key of the dict has a printable value. */
  predicate FieldsPrintable(fields: seq<Entry>)
    decreases SizeFields(fields), 2
  {
    forall k :: 0 <= k < |fields| ==> DictValueOf(fields, fields[k].key)
  }

  /** `items[key]` exists and is printable. */
  predicate DictValueOf(fields: seq<Entry>, key: string)
    decreases SizeFields(fields), 1
  {
    match Lookup(fields, key)
    case None => false
    case Some(x) => LookupSize(fields, key); DictValue(x)
  }

  /** The items `loop_list` writes: strings, printable dictionaries, and
      lists of strings and printable dictionaries. */
  predicate ListItemAt(items: seq<Json>, k: nat)
    requires k < |items|
    decreases SizeItems(items), 1
  {
    SizeItemBound(items, k);
    match items[k]
    case JStr(_) => true
    case JObj(fields) => FieldsPrintable(fields)
    case JList(inner) => forall i :: 0 <= i < |inner| ==> InnerItemAt(inner, i)
    case _ => false
  }

  /** The items of a list inside a list: strings and printable
      dictionaries. */
  predicate InnerItemAt(inner: seq<Json>, k: nat)
    requires k < |inner|
    decreases SizeItems(inner), 1
  {
    SizeItemBound(inner, k);
    match inner[k]
    case JStr(_) => true
    case JObj(fields) => FieldsPrintable(fields)
    case _ => false
  }

  /** The items of a list from position `i` on are printable. */
  predicate ListItemsFrom(items: seq<Json>, i: nat) {
    forall k :: i <= k < |items| ==> ListItemAt(items, k)
  }

  predicate InnerItemsFrom(inner: seq<Json>, i: nat) {
    forall k :: i <= k < |inner| ==> InnerItemAt(inner, k)
  }

  // ---------------------------------------------------------------------
  // The printer

  /** The keys of a dict in the order `loop_dict` visits them:
      `sorted(items, key=sorting_key)`. */
  function SortedKeys(fields: seq<Entry>): (ks: seq<string>)
    ensures multiset(ks) == multiset(KeyList(fields))
    ensures SortedBy(ks, SortingKey)
  {
    SortBy(KeyList(fields), SortingKey)
  }

  /** With every other key sorting above "6" (every key that starts with a
      letter does), the keys of `ORDER` come first, in the order `ORDER`
      lists them, and the other keys follow in increasing order. */
  lemma KeyOrder(fields: seq<Entry>, i: nat, j: nat)
    requires DistinctKeys(fields)
    requires forall k :: 0 <= k < |fields| && fields[k].key !in ORDER ==> Less("6", fields[k].key)
    requires i < j < |SortedKeys(fields)|
    ensures var ks := SortedKeys(fields);
      && (ks[j] in ORDER ==> ks[i] in ORDER && Position(ORDER, ks[i]) < Position(ORDER, ks[j]))
      && (ks[i] !in ORDER ==> ks[j] !in ORDER && Less(ks[i], ks[j]))
  {
    var ks, kl := SortedKeys(fields), KeyList(fields);
    var x, y := ks[i], ks[j];
    assert x in multiset(ks) && y in multiset(ks);
    assert x in kl && y in kl;
    assert x !in ORDER ==> Less("6", x);
    assert y !in ORDER ==> Less("6", y);
    TwoCount(ks, i, j);
    DistinctCount(kl, x);
    assert x != y;
    assert LessEq(SortingKey(x), SortingKey(y));
    LessEqNotLess(SortingKey(x), SortingKey(y));
    OrderKeyBelow(y, x);
    OrderKeyBelow(x, y);
    OrderPositions(x, y);
  }

  /** A key of `ORDER` sorts below every key above "6". */
  lemma OrderKeyBelow(x: string, y: string)
    ensures x in ORDER && y !in ORDER && Less("6", y) ==> Less(SortingKey(x), SortingKey(y))
  {
    if x in ORDER && y !in ORDER && Less("6", y) {
      var d := SortingKey(x)[0];
      assert SortingKey(x) == [d] && d <= '6';
      assert y != [] && y[0] >= '6';
      if d == y[0] {
        assert y[1..] != [];
        assert [d][1..] == [];
      }
    }
  }

  /** Two keys of `ORDER` sort as their positions in it. */
  lemma OrderPositions(x: string, y: string)
    ensures x in ORDER && y in ORDER && x != y && LessEq(SortingKey(x), SortingKey(y))
      ==> Position(ORDER, x) < Position(ORDER, y)
  {
    if x in ORDER && y in ORDER && x != y {
      var p, q := Position(ORDER, x), Position(ORDER, y);
      assert p != q;
      var a, b := SortingKey(x), SortingKey(y);
      assert a == [a[0]] && b == [b[0]] && a[0] != b[0];
      assert a[1..] == [] && b[1..] == [];
    }
  }

  lemma LessEqNotLess(a: string, b: string)
    ensures LessEq(a, b) ==> !Less(b, a)
  {
    LessIrreflexive(a);
    if Less(a, b) {
      LessAsymmetric(a, b);
    }
  }

  /** A value at two positions occurs twice. */
  lemma TwoCount(s: seq<string>, i: nat, j: nat)
    requires i < j < |s|
    ensures s[i] == s[j] ==> multiset(s)[s[i]] >= 2
  {
    assert s == s[..j] + s[j..];
    assert s[i] == s[..j][i] && s[j] == s[j..][0];
    assert s[..j][i] in multiset(s[..j]) && s[j..][0] in multiset(s[j..]);
  }

  /** Distinct keys occur once each. */
  lemma {:induction false} DistinctCount(s: seq<string>, x: string)
    requires forall a, b :: 0 <= a < b < |s| ==> s[a] != s[b]
    ensures multiset(s)[x] <= 1
  {
    if s != [] {
      assert s == [s[0]] + s[1..];
      DistinctCount(s[1..], x);
      if s[0] == x {
        assert x !in s[1..];
      }
    }
  }

  /** The keys in iteration order. */
  function KeyList(fields: seq<Entry>): (ks: seq<string>)
    ensures |ks| == |fields|
    ensures forall k :: 0 <= k < |fields| ==> ks[k] == fields[k].key
  {
    if fields == [] then [] else [fields[0].key] + KeyList(fields[1..])
  }

  /** A bare value, as `'%s' % item` writes it. */
  function Bare(j: Json): string {
    match j
    case JBool(b) => if b then "True" else "False"
    case JInt(i) => if i == 0 then "0" else "1"
    case _ => "None"
  }

  /** The end of a bare value's line. */
  function BareEnd(v: Variant): string {
    match v
    case AsWritten => "\n"
    case Corrected => ",\n"
  }

  /** What `loop_dict` writes after a key: a line ending in a comma, bare
      values as written aside. */
  function ValueText(indent: string, j: Json, v: Variant): (r: Result<string, PyError>)
    ensures r.Ok? <==> DictValue(j)
    ensures r.Ok? ==> EndsWith(r.value, "\n")
    ensures r.Ok? && (v == Corrected || !(j.JBool? || j.JNull? || j.JInt?)) ==> EndsWith(r.value, ",\n")
    decreases Size(j), 1, 0
  {
    match j
    case JObj(fields) =>
      var body :- DictText(indent + "  ", fields, v);
      Ok("{\n" + body + indent + "},\n")
    case JList(items) =>
      var body :- ListText(indent + "  ", items, 0, v);
      Ok("[\n" + body + indent + "],\n")
    case JStr(s) => Ok("'" + Escape(s) + "',\n")
    case JBool(_) => Ok(Bare(j) + BareEnd(v))
    case JNull => Ok(Bare(j) + BareEnd(v))
    case JInt(i) => if i == 0 || i == 1 then Ok(Bare(j) + BareEnd(v)) else Err(AssertionError("int"))
    case JFloat(_) => Err(AssertionError("float"))
  }

  /** As written, a boolean or `None` ends its line without the comma that
      separates it from the next entry of the dict; corrected, the comma
      is there. */
  lemma BareValueUnseparated(indent: string, j: Json)
    requires j.JBool? || j.JNull?
    ensures ValueText(indent, j, AsWritten) == Ok(Bare(j) + "\n")
    ensures !EndsWith(ValueText(indent, j, AsWritten).value, ",\n")
    ensures ValueText(indent, j, Corrected) == Ok(Bare(j) + ",\n")
  {
    var t := Bare(j) + "\n";
    assert t[|t| - 2] == 'e';
  }

  /** `loop_dict(indent, items)` */
  function DictText(indent: string, fields: seq<Entry>, v: Variant): (r: Result<string, PyError>)
    ensures r.Ok? <==> FieldsPrintable(fields)
    decreases SizeFields(fields), 3, 0
  {
    var ks := SortedKeys(fields);
    SameKeys(fields, ks);
    EntriesText(indent, ks, fields, v)
  }

  /** Sorting the keys keeps them: the keys visited are the dict's keys. */
  lemma SameKeys(fields: seq<Entry>, ks: seq<string>)
    requires multiset(ks) == multiset(KeyList(fields))
    ensures (forall k :: 0 <= k < |ks| ==> DictValueOf(fields, ks[k])) <==> FieldsPrintable(fields)
  {
    var kl := KeyList(fields);
    forall x ensures x in ks <==> x in kl {
      assert x in ks <==> x in multiset(ks);
      assert x in kl <==> x in multiset(kl);
    }
    if forall k :: 0 <= k < |ks| ==> DictValueOf(fields, ks[k]) {
      KeysCovered(fields, ks);
    }
    if FieldsPrintable(fields) {
      KeysPrintable(fields, ks);
    }
  }

  lemma KeysCovered(fields: seq<Entry>, ks: seq<string>)
    requires forall x :: x in KeyList(fields) ==> x in ks
    requires forall k :: 0 <= k < |ks| ==> DictValueOf(fields, ks[k])
    ensures FieldsPrintable(fields)
  {
    var kl := KeyList(fields);
    forall i | 0 <= i < |fields| ensures DictValueOf(fields, fields[i].key) {
      assert kl[i] in kl;
      var k :| 0 <= k < |ks| && ks[k] == kl[i];
    }
  }

  lemma KeysPrintable(fields: seq<Entry>, ks: seq<string>)
    requires forall x :: x in ks ==> x in KeyList(fields)
    requires FieldsPrintable(fields)
    ensures forall k :: 0 <= k < |ks| ==> DictValueOf(fields, ks[k])
  {
    var kl := KeyList(fields);
    forall k | 0 <= k < |ks| ensures DictValueOf(fields, ks[k]) {
      assert ks[k] in ks;
      var i :| 0 <= i < |kl| && kl[i] == ks[k];
      assert DictValueOf(fields, fields[i].key);
    }
  }

  /** The entries of the given keys, in order; `items[key]` is a
      `KeyError` for a key the dict does not have. */
  function EntriesText(indent: string, keys: seq<string>, fields: seq<Entry>, v: Variant): (r: Result<string, PyError>)
    ensures r.Ok? <==> forall k :: 0 <= k < |keys| ==> DictValueOf(fields, keys[k])
    decreases SizeFields(fields), 2, |keys|
  {
    if keys == [] then Ok([])
    else
      match Lookup(fields, keys[0])
      case None => Err(KeyError(keys[0]))
      case Some(item) =>
        LookupSize(fields, keys[0]);
        var value :- ValueText(indent, item, v);
        var rest :- EntriesText(indent, keys[1..], fields, v);
        Ok(indent + "'" + keys[0] + "': " + value + rest)
  }

  /** `loop_list(indent, items)` from item `i` on. */
  function ListText(indent: string, items: seq<Json>, i: nat, v: Variant): (r: Result<string, PyError>)
    ensures r.Ok? <==> ListItemsFrom(items, i)
    decreases SizeItems(items), 1, |items| - i
  {
    if i >= |items| then Ok([])
    else
      assert ListItemsFrom(items, i) <==> ListItemAt(items, i) && ListItemsFrom(items, i + 1);
      var line := ItemText(indent, items, i, v);
      var rest := ListText(indent, items, i + 1, v);
      if line.Err? then line
      else if rest.Err? then rest
      else Ok(line.value + rest.value)
  }

  /** The line `loop_list` writes for item `i`. */
  function ItemText(indent: string, items: seq<Json>, i: nat, v: Variant): (r: Result<string, PyError>)
    requires i < |items|
    ensures r.Ok? <==> ListItemAt(items, i)
    decreases SizeItems(items), 0, 0
  {
    SizeItemBound(items, i);
    match items[i]
    case JStr(s) => Ok(indent + Quoted(s, v) + ",\n")
    case JObj(fields) =>
      var body :- DictText(indent + "  ", fields, v);
      Ok(indent + "{\n" + body + indent + "},\n")
    case JList(inner) =>
      var body :- InnerText(indent, inner, 0, v);
      Ok(indent + "[" + body + "],\n")
    case _ => Err(AssertionError("list item"))
  }

  /** A list inside a list, written on the line of its `[`, from item `i`
      on. */
  function InnerText(indent: string, inner: seq<Json>, i: nat, v: Variant): (r: Result<string, PyError>)
    ensures r.Ok? <==> InnerItemsFrom(inner, i)
    decreases SizeItems(inner), 1, |inner| - i
  {
    if i >= |inner| then Ok([])
    else
      assert InnerItemsFrom(inner, i) <==> InnerItemAt(inner, i) && InnerItemsFrom(inner, i + 1);
      var text := InnerItemText(indent, inner, i, v);
      var rest := InnerText(indent, inner, i + 1, v);
      if text.Err? then text
      else if rest.Err? then rest
      else Ok(text.value + rest.value)
  }

  /** What `loop_list` writes for item `i` of a list inside a list: the
      last dictionary has no comma after it. */
  function InnerItemText(indent: string, inner: seq<Json>, i: nat, v: Variant): (r: Result<string, PyError>)
    requires i < |inner|
    ensures r.Ok? <==> InnerItemAt(inner, i)
    decreases SizeItems(inner), 0, 0
  {
    SizeItemBound(inner, i);
    match inner[i]
    case JStr(s) => Ok("'" + Escape(s) + "', ")
    case JObj(fields) =>
      var body :- DictText(indent + "  ", fields, v);
      Ok("{\n" + body + indent + "}" + (if i != |inner| - 1 then ", " else ""))
    case _ => Err(AssertionError("inner list item"))
  }

  /** `pretty_print(variables, stdout)`: the dict framed by `{` and `}`
      lines. */
  function PrettyPrint(variables: seq<Entry>, v: Variant): (r: Result<string, PyError>)
    ensures r.Ok? ==> StartsWith(r.value, "{\n") && EndsWith(r.value, "}\n")
  {
    var body :- DictText("  ", variables, v);
    var out := "{\n" + body + "}\n";
    assert out[..2] == "{\n";
    assert out[|out| - 2..] == "}\n";
    Ok(out)
  }
}

=== FILE: python.dfy ===
/** The Python exceptions the modelled code can raise, with the part of the
    message the model keeps, and the tag that tells a member modelling code
    as written from its corrected counterpart. */
module Python {

  datatype PyError =
    | KeyError(key: string)
    | TypeError(what: string)
    | AttributeError(what: string)
    | ValueError(what: string)
    | AssertionError(what: string)
    | IndexError(what: string)

  /** Which reading of a source function a member follows: the code as
      written, or the code with a defect found in it corrected. */
  datatype Variant = AsWritten | Corrected
}

=== FILE: schema_errors.dfy ===
/** The structural rules the JSON schema compiler's model enforces, each
    stated as the ParseException it raises and where that exception is
    located, and the hierarchy a `Type` reports while it is being built. */
module SchemaErrors {
  import opened Wrappers
  import opened Python
  import opened Json
  import opened SchemaModel

  /** A rooted parent with the hierarchy `h`. */
  predicate RootedAt(parent: Entity, h: seq<string>) {
    Hierarchy(parent) == Ok(h)
  }

  // ---------------------------------------------------------------------
  // Property

  /** A property dictionary without `$ref`, `enum`, `type`, `choices` or
      `value` raises, located at the property. */
  lemma PropertyWithoutKind(parent: Entity, h: seq<string>, name: string, j: Json, origin: Origin)
    requires RootedAt(parent, h) && j.JObj? && FirstClassKey(j).None?
    requires AddProperties(Child(parent, name), j, Origin(false, false)).Ok?
    ensures ParseProperty(parent, name, j, false, origin)
         == Err(ParseException(h + [name], "Property has no type, $ref, choices, or value"))
  {
    ChildHierarchy(parent, name);
  }

  /** A `type` string other than the seven known ones raises. */
  lemma UnknownTypeRaises(self: Entity, h: seq<string>, name: string, j: Json, t: string, origin: Origin)
    requires RootedAt(self, h) && Has(j, "type") && Get(j, "type") == Some(JStr(t))
    requires TypeNamed(t).None?
    ensures TypedKind(self, name, j, origin) == Err(ParseException(h, "type " + t + " not recognized"))
  {
  }

  /** An empty (falsy) `choices` entry raises. */
  lemma EmptyChoicesRaise(self: Entity, h: seq<string>, name: string, j: Json, origin: Origin)
    requires RootedAt(self, h) && j.JObj? && Get(j, "choices") == Some(JList([]))
    ensures ChoicesKind(self, name, j, JList([]), origin) == Err(ParseException(h, "Choices has no choices"))
  {
  }

  /** A `value` that is not a Python `int` raises, naming its type. */
  lemma NonIntValueRaises(self: Entity, h: seq<string>, v: Json)
    requires RootedAt(self, h) && !(v.JInt? && IsPyInt(v.i))
    ensures ValueKind(self, v) == Err(ParseException(h, "\"" + ValueTypeRepr(v) + "\" is not a supported type"))
  {
  }

  /** `$ref` takes precedence over every other classifying key, and never
      raises: the property is built as soon as its own properties are. */
  lemma RefNeverRaises(parent: Entity, name: string, j: Json, origin: Origin)
    requires j.JObj? && Has(j, "$ref")
    requires AddProperties(Child(parent, name), j, Origin(false, false)).Ok?
    ensures ParseProperty(parent, name, j, false, origin).Ok?
    ensures ParseProperty(parent, name, j, false, origin).value.Type() == REF
  {
  }

  /** The additional-properties flag takes precedence over every key. */
  lemma AdditionalNeverRaises(parent: Entity, name: string, j: Json, origin: Origin)
    requires j.JObj?
    requires AddProperties(Child(parent, name), j, Origin(false, false)).Ok?
    ensures ParseProperty(parent, name, j, true, origin).Ok?
    ensures ParseProperty(parent, name, j, true, origin).value.Type() == ADDITIONAL_PROPERTIES
  {
  }

  // ---------------------------------------------------------------------
  // Callback and Function

  /** A callback with two or more parameters raises, located at the
      callback, which reports itself by its `repr`. */
  lemma CallbackWithManyParams(parent: Entity, h: seq<string>, j: Json)
    requires RootedAt(parent, h) && j.JObj? && Has(j, "parameters")
    requires Len(Get(j, "parameters").value).Some? && Len(Get(j, "parameters").value).value >= 2
    ensures ParseCallback(parent, j)
         == Err(ParseException(h + [CallbackRepr], "Callbacks can have at most a single parameter"))
  {
  }

  /** A second function-typed parameter raises, located at the function. */
  lemma SecondCallbackRaises(self: Entity, h: seq<string>, fname: string, elems: seq<Json>, bound: Json,
                             i: nat, c: Callback)
    requires RootedAt(self, h) && i < |elems|
    requires forall k :: 0 <= k < |elems| ==> Size(elems[k]) < Size(bound)
    requires elems[i].JObj? && IsFunctionTyped(elems[i])
    ensures ParseParams(self, fname, elems, bound, i, Some(c))
         == Err(ParseException(h, fname + " has more than one callback"))
  {
  }

  // ---------------------------------------------------------------------
  // Type

  /** A non-array type without properties, additionalProperties or
      functions raises, located at the type. */
  lemma TypeWithoutMembers(parent: Entity, h: seq<string>, name: string, j: Json)
    requires RootedAt(parent, h) && j.JObj? && !HasMembers(j)
    requires Get(j, "type") != Some(JStr("array"))
    ensures ParseType(parent, name, j) == Err(ParseException(h + [name], name + " has no properties or functions"))
  {
    ChildHierarchy(parent, name);
  }

  /** The `Type` object as the first part of its constructor sees it: it
      has neither a `name` nor a `parent` yet. */
  const UnfinishedType := Entity(None, "<model.Type object>", Unassigned)

  /** `Type(parent, name, json)` as written: the item type of an array and
      the check for members run before `self.name` and `self.parent` are
      assigned, so a ParseException raised there cannot compute its
      hierarchy. */
  function ParseTypeAsWritten(parent: Entity, name: string, j: Json): (r: Result<ModelType, ModelError>)
    ensures r.Ok? ==> j.JObj? && r.value.name == name
    ensures r.Ok? ==> (r.value.kind == ARRAY <==> Get(j, "type") == Some(JStr("array")))
    ensures j.JObj? && Get(j, "type") != Some(JStr("array")) && !HasMembers(j)
            ==> r == Err(Raised(AttributeError("parent")))
  {
    if !j.JObj? then Err(Raised(AttributeError("get")))
    else
      var itemType :- TypeItem(UnfinishedType, name, j);
      var self := TypeSelf(parent, name);
      var functions :- AddFunctions(self, j);
      var props :- AddProperties(self, j, Origin(true, true));
      var allProps :- AddAdditional(self, j, props);
      Ok(ModelType(name, Get(j, "description"), if itemType.Some? then ARRAY else OBJECT, itemType, allProps, functions))
  }

  /** The discrepancy: a memberless type in a rooted parent, `{}` say, is
      reported as an AttributeError about `parent` where the corrected
      constructor raises the ParseException located at the type. */
  lemma MemberlessTypeReports(parent: Entity, h: seq<string>, name: string, j: Json)
    requires RootedAt(parent, h) && j.JObj? && !HasMembers(j)
    requires Get(j, "type") != Some(JStr("array"))
    ensures ParseTypeAsWritten(parent, name, j) == Err(Raised(AttributeError("parent")))
    ensures ParseType(parent, name, j) == Err(ParseException(h + [name], name + " has no properties or functions"))
    ensures ParseTypeAsWritten(parent, name, j) != ParseType(parent, name, j)
  {
    TypeWithoutMembers(parent, h, name, j);
  }

  /** The rule applies to the empty dictionary. */
  lemma EmptyDictIsMemberless()
    ensures JObj([]).JObj? && !HasMembers(JObj([])) && Get(JObj([]), "type") != Some(JStr("array"))
  {
  }
}

=== FILE: schema_model.dfy ===
/** The JSON schema compiler's model: the classes `Namespace`, `Type`,
    `Callback`, `Function` and `Property` built from a schema dictionary,
    the exception `ParseException` and the entity hierarchy it reports, and
    the freeze-after-use rule that guards a property's unix_name.

    Construction is a family of mutually recursive functions, one per class
    constructor and one per `_Add*` helper; each returns the constructed
    object or the exception the constructor raises. */
module SchemaModel {
  import opened Wrappers
  import opened Python
  import opened Text
  import opened Json
  import opened UnixName
  import Paths

  // ---------------------------------------------------------------------
  // PropertyType

  datatype PropertyType =
    | INTEGER | DOUBLE | BOOLEAN | STRING
    | ENUM | ARRAY | REF | CHOICES | OBJECT | ANY | ADDITIONAL_PROPERTIES
  {
    /** The `is_fundamental` flag of the source's `_Info` records. */
    predicate IsFundamental() {
      this in {INTEGER, DOUBLE, BOOLEAN, STRING}
    }

    /** The `name` of the `_Info` record, which is also its `repr`. */
    function Name(): string {
      match this
      case INTEGER => "INTEGER"
      case DOUBLE => "DOUBLE"
      case BOOLEAN => "BOOLEAN"
      case STRING => "STRING"
      case ENUM => "ENUM"
      case ARRAY => "ARRAY"
      case REF => "REF"
      case CHOICES => "CHOICES"
      case OBJECT => "OBJECT"
      case ANY => "ANY"
      case ADDITIONAL_PROPERTIES => "ADDITIONAL_PROPERTIES"
    }
  }

  // ---------------------------------------------------------------------
  // Model objects

  /** The `from_json`/`from_client` flags a constructor passes down. */
  datatype Origin = Origin(fromJson: bool, fromClient: bool)

  /** What a property is, with the attributes each kind carries. */
  datatype Kind =
    | AdditionalProperties
    | Ref(refType: Json)
    | Enum(values: seq<Json>)
    | Simple(simple: PropertyType)
    | Array(itemType: Property)
    | Object(origin: Origin, functions: map<string, Function>)
    | Choices(choices: map<PropertyType, Property>)
    | Value(value: int)

  /** A property's `_unix_name`: the one derived from its name at
      construction, one set later, or none (a choice has its cleared). */
  datatype UnixNameSlot = Derived | Assigned(unixName: string) | Cleared

  datatype Property = Property(
    name: string,
    unixName: UnixNameSlot,
    unixNameUsed: bool,
    optional: Json,
    description: Option<Json>,
    properties: map<string, Property>,
    kind: Kind)
  {
    /** `type_` */
    function Type(): PropertyType {
      KindType(kind)
    }

    /** The value of `_unix_name`. */
    function CurrentUnixName(): Option<string> {
      match unixName
      case Derived => Some(ToUnixName(name))
      case Assigned(u) => Some(u)
      case Cleared => None
    }

    /** `has_value` */
    predicate HasValue() {
      kind.Value?
    }
  }

  datatype Callback = Callback(params: seq<Property>)

  datatype Function = Function(
    name: string,
    params: seq<Property>,
    description: Option<Json>,
    callback: Option<Callback>)

  /** A `Type`; its `from_json` and `from_client` are always true. */
  datatype ModelType = ModelType(
    name: string,
    description: Option<Json>,
    kind: PropertyType,
    itemType: Option<Property>,
    properties: map<string, Property>,
    functions: map<string, Function>)

  datatype Namespace = Namespace(
    name: string,
    unixName: string,
    sourceFile: string,
    sourceFileDir: string,
    sourceFileFilename: string,
    types: map<string, ModelType>,
    functions: map<string, Function>,
    properties: map<string, Property>)

  // ---------------------------------------------------------------------
  // The entity hierarchy and ParseException

  /** An object under construction as `_GetModelHierarchy` sees it: its
      `name` if it has one (otherwise its `repr` is reported) and its
      `parent`, which may not be assigned yet. */
  datatype Entity = Entity(name: Option<string>, repr: string, parent: Parent)

  datatype Parent = Unassigned | NoParent | ParentIs(entity: Entity)

  function Label(e: Entity): string {
    match e.name
    case Some(n) => n
    case None => e.repr
  }

  /** Every ancestor of `e` has its parent assigned. */
  predicate Rooted(e: Entity) {
    match e.parent
    case Unassigned => false
    case NoParent => true
    case ParentIs(p) => Rooted(p)
  }

  /** `_GetModelHierarchy`: the labels from the root down to `e`; reading
      an unassigned `parent` raises AttributeError. */
  function Hierarchy(e: Entity): (r: Result<seq<string>, PyError>)
    ensures r.Ok? <==> Rooted(e)
    ensures !Rooted(e) ==> r == Err(AttributeError("parent"))
    ensures r.Ok? ==> |r.value| >= 1 && r.value[|r.value| - 1] == Label(e)
    ensures e.parent.NoParent? ==> r == Ok([Label(e)])
    ensures e.parent.Unassigned? ==> r.Err?
    ensures e.parent.ParentIs? ==> r == (match Hierarchy(e.parent.entity)
      case Ok(h) => Ok(h + [Label(e)])
      case Err(x) => Err(x))
  {
    match e.parent
    case Unassigned => Err(AttributeError("parent"))
    case NoParent => Ok([Label(e)])
    case ParentIs(p) =>
      match Hierarchy(p)
      case Ok(h) => Ok(h + [Label(e)])
      case Err(x) => Err(x)
  }

  /** What constructing the model raises. */
  datatype ModelError =
    | ParseException(hierarchy: seq<string>, message: string)
    | Raised(error: PyError)

  /** The text of a ParseException. */
  function ExceptionText(e: ModelError): string
    requires e.ParseException?
  {
    "Model parse exception at:\n" + Join(e.hierarchy + [e.message], "\n")
  }

  /** `raise ParseException(entity, message)`: computing the hierarchy may
      itself raise. */
  function Raise(e: Entity, message: string): (r: ModelError)
    ensures Rooted(e) ==> r.ParseException? && r.message == message
    ensures Rooted(e) ==> Hierarchy(e) == Ok(r.hierarchy)
    ensures !Rooted(e) ==> r == Raised(AttributeError("parent"))
  {
    match Hierarchy(e)
    case Ok(h) => ParseException(h, message)
    case Err(x) => Raised(x)
  }

  /** The entity a constructor registers as the parent of what it builds. */
  function Child(parent: Entity, name: string): Entity {
    Entity(Some(name), "", ParentIs(parent))
  }

  const CallbackRepr := "<model.Callback object>"

  function Py<T>(r: Result<T, PyError>): Result<T, ModelError> {
    match r
    case Ok(v) => Ok(v)
    case Err(x) => Err(Raised(x))
  }

  /** Python 2's `int` on a 64-bit build; larger JSON integers load as `long`. */
  predicate IsPyInt(i: int) {
    -0x8000_0000_0000_0000 <= i < 0x8000_0000_0000_0000
  }

  predicate IsFunctionTyped(j: Json)
    requires j.JObj?
  {
    Get(j, "type") == Some(JStr("function"))
  }

  /** The hierarchy of a child is its parent's followed by its name. */
  lemma ChildHierarchy(parent: Entity, name: string)
    requires Rooted(parent)
    ensures Rooted(Child(parent, name))
    ensures Hierarchy(Child(parent, name)) == Ok(Hierarchy(parent).value + [name])
  {
  }

  // ---------------------------------------------------------------------
  // Classification

  /** The keys that decide a property's kind, ranked in the order the
      constructor tests them. */
  datatype ClassKey = RefKey | EnumKey | TypeKey | ChoicesKey | ValueKey {
    function Name(): string {
      match this
      case RefKey => "$ref"
      case EnumKey => "enum"
      case TypeKey => "type"
      case ChoicesKey => "choices"
      case ValueKey => "value"
    }

    function Rank(): nat {
      match this
      case RefKey => 0
      case EnumKey => 1
      case TypeKey => 2
      case ChoicesKey => 3
      case ValueKey => 4
    }
  }

  /** The key that decides the kind: the present one of highest precedence. */
  function FirstClassKey(j: Json): (k: Option<ClassKey>)
    requires j.JObj?
    ensures k.Some? ==> Has(j, k.value.Name())
    ensures k.Some? ==> forall c: ClassKey :: c.Rank() < k.value.Rank() ==> !Has(j, c.Name())
    ensures k.None? ==> forall c: ClassKey :: !Has(j, c.Name())
  {
    if Has(j, "$ref") then Some(RefKey)
    else if Has(j, "enum") then Some(EnumKey)
    else if Has(j, "type") then Some(TypeKey)
    else if Has(j, "choices") then Some(ChoicesKey)
    else if Has(j, "value") then Some(ValueKey)
    else None
  }

  /** The `type` strings a property may carry. */
  function TypeNamed(t: string): Option<PropertyType> {
    if t == "string" then Some(STRING)
    else if t == "any" then Some(ANY)
    else if t == "boolean" then Some(BOOLEAN)
    else if t == "integer" then Some(INTEGER)
    else if t == "number" then Some(DOUBLE)
    else if t == "array" then Some(ARRAY)
    else if t == "object" then Some(OBJECT)
    else None
  }

  /** The type a property classified by `key` gets. */
  function KeyType(key: ClassKey, j: Json): Option<PropertyType>
    requires j.JObj?
  {
    match key
    case RefKey => Some(REF)
    case EnumKey => Some(ENUM)
    case ChoicesKey => Some(CHOICES)
    case ValueKey => Some(INTEGER)
    case TypeKey =>
      match Get(j, "type")
      case Some(JStr(t)) => TypeNamed(t)
      case _ => None
  }

  function KindType(k: Kind): PropertyType {
    match k
    case AdditionalProperties => ADDITIONAL_PROPERTIES
    case Ref(_) => REF
    case Enum(_) => ENUM
    case Simple(t) => t
    case Array(_) => ARRAY
    case Object(_, _) => OBJECT
    case Choices(_) => CHOICES
    case Value(_) => INTEGER
  }

  /** Python 2's `type(v)` for a `value` entry. */
  function ValueTypeRepr(v: Json): string {
    if v.JInt? && !IsPyInt(v.i) then "<type 'long'>" else TypeRepr(v)
  }

  predicate ChoicesKeyed(choices: map<PropertyType, Property>) {
    forall t :: t in choices ==>
      && choices[t].Type() == t
      && choices[t].optional == JBool(true)
      && choices[t].unixName == Cleared
  }

  /** Every property is filed under its own name. */
  predicate PropertiesNamed(m: map<string, Property>) {
    forall n :: n in m ==> m[n].name == n
  }

  /** Every function is filed under its own name. */
  predicate FunctionsNamed(m: map<string, Function>) {
    forall n :: n in m ==> m[n].name == n
  }

  // ---------------------------------------------------------------------
  // Construction

  /** `Property(parent, name, json, is_additional_properties, from_json,
      from_client)`. */
  function ParseProperty(parent: Entity, name: string, j: Json, isAdditional: bool, origin: Origin)
    : (r: Result<Property, ModelError>)
    ensures r.Ok? ==> j.JObj? && r.value.name == name && r.value.unixName == Derived
    ensures r.Ok? ==> !r.value.unixNameUsed && r.value.optional == GetOr(j, "optional", JBool(false))
    ensures r.Ok? && !isAdditional ==> FirstClassKey(j).Some? && KeyType(FirstClassKey(j).value, j).Some?
    ensures r.Ok? ==> r.value.Type() == (if isAdditional then ADDITIONAL_PROPERTIES else KeyType(FirstClassKey(j).value, j).value)
    decreases Size(j), 8, 0
  {
    if !j.JObj? then Err(Raised(AttributeError("get")))
    else
      var self := Child(parent, name);
      var props :- AddProperties(self, j, Origin(false, false));
      var classified :- PropertyKind(self, name, j, isAdditional, origin);
      Ok(Property(name, Derived, false, GetOr(j, "optional", JBool(false)),
                  Get(j, "description"), props + classified.1, classified.0))
  }

  /** The classification part of the `Property` constructor: the kind, and
      for an object the properties its `Type` adds. */
  function PropertyKind(self: Entity, name: string, j: Json, isAdditional: bool, origin: Origin)
    : (r: Result<(Kind, map<string, Property>), ModelError>)
    requires j.JObj?
    ensures r.Ok? && !isAdditional ==> FirstClassKey(j).Some? && KeyType(FirstClassKey(j).value, j).Some?
    ensures r.Ok? ==> KindType(r.value.0) == (if isAdditional then ADDITIONAL_PROPERTIES else KeyType(FirstClassKey(j).value, j).value)
    ensures r.Ok? && r.value.0.Choices? ==> ChoicesKeyed(r.value.0.choices)
    decreases Size(j), 7, 0
  {
    if isAdditional then Ok((AdditionalProperties, map[]))
    else
      var key := FirstClassKey(j);
      if key.None? then Err(Raise(self, "Property has no type, $ref, choices, or value"))
      else if key.value == RefKey then Ok((Ref(Get(j, "$ref").value), map[]))
      else if key.value == EnumKey then
        var values :- Py(Elements(Get(j, "enum").value));
        Ok((Enum(values), map[]))
      else if key.value == TypeKey then TypedKind(self, name, j, origin)
      else if key.value == ChoicesKey then ChoicesKind(self, name, j, Get(j, "choices").value, origin)
      else
        var k :- ValueKind(self, Get(j, "value").value);
        Ok((k, map[]))
  }

  /** The `'type' in json` branch of the `Property` constructor. A `type`
      that is not a string cannot be concatenated into the message. */
  function TypedKind(self: Entity, name: string, j: Json, origin: Origin)
    : (r: Result<(Kind, map<string, Property>), ModelError>)
    requires Has(j, "type")
    ensures r.Ok? ==> KeyType(TypeKey, j) == Some(KindType(r.value.0))
    decreases Size(j), 6, 1
  {
    var t := Get(j, "type").value;
    if !t.JStr? then Err(Raised(TypeError("cannot concatenate 'str' and '" + TypeRepr(t) + "' objects")))
    else if TypeNamed(t.s).None? then Err(Raise(self, "type " + t.s + " not recognized"))
    else TypeKind(self, name, j, TypeNamed(t.s).value, origin)
  }

  /** The `'type' in json` branch of the `Property` constructor, once the
      `type` string has been recognised as `named`. */
  function TypeKind(self: Entity, name: string, j: Json, named: PropertyType, origin: Origin)
    : (r: Result<(Kind, map<string, Property>), ModelError>)
    requires j.JObj?
    ensures r.Ok? && named == ARRAY ==> r.value.0.Array? && r.value.0.itemType.name == name + "Element"
    ensures r.Ok? && named == OBJECT ==> r.value.0.Object?
    ensures r.Ok? && named != ARRAY && named != OBJECT ==> r.value.0 == Simple(named)
    decreases Size(j), 6, 0
  {
    if named == ARRAY then
      var item :- ItemProperty(self, name, j, origin);
      Ok((Array(item), map[]))
    else if named == OBJECT then
      var ty :- ParseType(self, name, j);
      Ok((Object(origin, ty.functions), ty.properties))
    else Ok((Simple(named), map[]))
  }

  /** `Property(self, name + "Element", json['items'], ...)`: the item type
      of an array, for a property and for a type alike. */
  function ItemProperty(self: Entity, name: string, j: Json, origin: Origin): (r: Result<Property, ModelError>)
    requires j.JObj?
    ensures r.Ok? ==> r.value.name == name + "Element"
    decreases Size(j), 1, 0
  {
    var items :- Py(Index(j, "items"));
    ParseProperty(self, name + "Element", items, false, origin)
  }


  /** The `'choices' in json` branch of the `Property` constructor. */
  function ChoicesKind(self: Entity, name: string, j: Json, c: Json, origin: Origin)
    : (r: Result<(Kind, map<string, Property>), ModelError>)
    requires j.JObj? && Get(j, "choices") == Some(c)
    ensures r.Ok? ==> r.value.0.Choices? && ChoicesKeyed(r.value.0.choices) && r.value.1 == map[]
    decreases Size(j), 6, 0
  {
    if !Truthy(c) then Err(Raise(self, "Choices has no choices"))
    else
      var elems :- Py(Elements(c));
      var choices :- ParseChoices(self, name, elems, j, 0, origin, map[]);
      Ok((Choices(choices), map[]))
  }

  /** The `'value' in json` branch of the `Property` constructor: only a
      Python `int` is accepted. */
  function ValueKind(self: Entity, v: Json): (r: Result<Kind, ModelError>)
    ensures r.Ok? <==> v.JInt? && IsPyInt(v.i)
    ensures r.Ok? ==> r.value == Value(v.i)
    ensures r.Err? ==> r.error == Raise(self, "\"" + ValueTypeRepr(v) + "\" is not a supported type")
  {
    if v.JInt? && IsPyInt(v.i) then Ok(Value(v.i))
    else Err(Raise(self, "\"" + ValueTypeRepr(v) + "\" is not a supported type"))
  }

  /** The loop over `json['choices']`: each choice is a property of the same
      name, made optional, stripped of its unix_name and keyed by its type. */
  function ParseChoices(self: Entity, name: string, elems: seq<Json>, bound: Json, i: nat,
                        origin: Origin, acc: map<PropertyType, Property>)
    : (r: Result<map<PropertyType, Property>, ModelError>)
    requires i <= |elems|
    requires forall k :: 0 <= k < |elems| ==> Size(elems[k]) < Size(bound)
    requires ChoicesKeyed(acc)
    ensures r.Ok? ==> ChoicesKeyed(r.value) && acc.Keys <= r.value.Keys
    decreases Size(bound), 0, |elems| - i
  {
    if i == |elems| then Ok(acc)
    else
      var choice :- ParseProperty(self, name, elems[i], false, origin);
      var c := choice.(unixName := Cleared, optional := JBool(true));
      ParseChoices(self, name, elems, bound, i + 1, origin, acc[c.Type() := c])
  }

  /** The entity `self` of a `Type` under construction. */
  function TypeSelf(parent: Entity, name: string): (e: Entity)
    ensures Rooted(e) <==> Rooted(parent)
  {
    Child(parent, name)
  }

  predicate HasMembers(j: Json) {
    Has(j, "properties") || Has(j, "additionalProperties") || Has(j, "functions")
  }

  /** `Type(parent, name, json)`. */
  function ParseType(parent: Entity, name: string, j: Json): (r: Result<ModelType, ModelError>)
    ensures r.Ok? ==> j.JObj? && r.value.name == name
    ensures r.Ok? ==> (r.value.kind == ARRAY <==> Get(j, "type") == Some(JStr("array")))
    ensures r.Ok? ==> (r.value.kind == ARRAY ==> r.value.itemType.Some? && r.value.itemType.value.name == name + "Element")
    ensures r.Ok? ==> (r.value.kind != ARRAY ==> r.value.kind == OBJECT && HasMembers(j))
    ensures r.Ok? ==> FunctionsNamed(r.value.functions)
    ensures r.Ok? ==> var extra := Get(j, "additionalProperties");
      && (extra.Some? && Truthy(extra.value) ==>
            && "additionalProperties" in r.value.properties
            && r.value.properties["additionalProperties"].Type() == ADDITIONAL_PROPERTIES)
      && (extra.None? || !Truthy(extra.value) ==> PropertiesNamed(r.value.properties))
    decreases Size(j), 3, 0
  {
    if !j.JObj? then Err(Raised(AttributeError("get")))
    else
      var self := TypeSelf(parent, name);
      var itemType :- TypeItem(self, name, j);
      var functions :- AddFunctions(self, j);
      var props :- AddProperties(self, j, Origin(true, true));
      var allProps :- AddAdditional(self, j, props);
      Ok(ModelType(name, Get(j, "description"), if itemType.Some? then ARRAY else OBJECT, itemType, allProps, functions))
  }

  /** The first part of the `Type` constructor: the item type of an array,
      or the check that an object has members. */
  function TypeItem(self: Entity, name: string, j: Json): (r: Result<Option<Property>, ModelError>)
    requires j.JObj?
    ensures r.Ok? ==> (r.value.Some? <==> Get(j, "type") == Some(JStr("array")))
    ensures r.Ok? && r.value.Some? ==> r.value.value.name == name + "Element"
    ensures r.Ok? && r.value.None? ==> HasMembers(j)
    decreases Size(j), 2, 0
  {
    if Get(j, "type") == Some(JStr("array")) then
      var item :- ItemProperty(self, name, j, Origin(true, true));
      Ok(Some(item))
    else if !HasMembers(j) then Err(Raise(self, name + " has no properties or functions"))
    else Ok(None)
  }

  /** The last part of the `Type` constructor: a truthy
      `additionalProperties` entry becomes one more property. */
  function AddAdditional(self: Entity, j: Json, props: map<string, Property>)
    : (r: Result<map<string, Property>, ModelError>)
    requires j.JObj?
    ensures var extra := Get(j, "additionalProperties");
      && (extra.None? || !Truthy(extra.value) ==> r == Ok(props))
      && (extra.Some? && Truthy(extra.value) && r.Ok? ==>
            && r.value.Keys == props.Keys + {"additionalProperties"}
            && r.value["additionalProperties"].Type() == ADDITIONAL_PROPERTIES
            && forall k :: k in props && k != "additionalProperties" ==> r.value[k] == props[k])
    decreases Size(j), 2, 0
  {
    var extra := Get(j, "additionalProperties");
    if extra.Some? && Truthy(extra.value) then
      var p :- ParseProperty(self, "additionalProperties", extra.value, true, Origin(false, false));
      Ok(props["additionalProperties" := p])
    else Ok(props)
  }

  /** The names `_AddProperties` gives a property: the keys of the entries
      from index `i` on that are not function-typed. */
  function PropertyKeysFrom(pj: Json, i: nat): set<string>
    requires pj.JObj?
  {
    set k | i <= k < |pj.fields| && pj.fields[k].value.JObj? && !IsFunctionTyped(pj.fields[k].value)
      :: pj.fields[k].key
  }

  /** `_AddProperties(model, json, from_json, from_client)`. */
  function AddProperties(owner: Entity, j: Json, origin: Origin): (r: Result<map<string, Property>, ModelError>)
    requires j.JObj?
    ensures r.Ok? ==> PropertiesNamed(r.value)
    ensures r.Ok? ==> var pj := GetOr(j, "properties", JObj([])); pj.JObj? && r.value.Keys == PropertyKeysFrom(pj, 0)
    decreases Size(j), 2, 0
  {
    var pj := GetOr(j, "properties", JObj([]));
    if !pj.JObj? then Err(Raised(AttributeError("items")))
    else AddPropertyEntries(owner, pj, 0, origin, map[])
  }

  function AddPropertyEntries(owner: Entity, pj: Json, i: nat, origin: Origin, acc: map<string, Property>)
    : (r: Result<map<string, Property>, ModelError>)
    requires pj.JObj? && i <= |pj.fields|
    requires PropertiesNamed(acc)
    ensures r.Ok? ==> PropertiesNamed(r.value)
    ensures r.Ok? ==> r.value.Keys == acc.Keys + PropertyKeysFrom(pj, i)
    decreases Size(pj), 0, |pj.fields| - i
  {
    if i == |pj.fields| then
      assert PropertyKeysFrom(pj, i) == {};
      Ok(acc)
    else
      var key := pj.fields[i].key;
      var v := EntryValue(pj, i);
      assert PropertyKeysFrom(pj, i) == (if v.JObj? && !IsFunctionTyped(v) then {key} else {}) + PropertyKeysFrom(pj, i + 1);
      if !v.JObj? then Err(Raised(AttributeError("get")))
      else if IsFunctionTyped(v) then AddPropertyEntries(owner, pj, i + 1, origin, acc)
      else
        var p :- ParseProperty(owner, key, v, false, origin);
        AddPropertyEntries(owner, pj, i + 1, origin, acc[key := p])
  }

  /** The string names of the function entries from index `i` on. */
  function FunctionNames(elems: seq<Json>, i: nat): (names: set<string>)
    requires i <= |elems|
    decreases |elems| - i
  {
    if i == |elems| then {}
    else
      var n := Index(elems[i], "name");
      (if n.Ok? && n.value.JStr? then {n.value.s} else {}) + FunctionNames(elems, i + 1)
  }

  /** `_AddFunctions(model, json)`. */
  function AddFunctions(owner: Entity, j: Json): (r: Result<map<string, Function>, ModelError>)
    requires j.JObj?
    ensures r.Ok? ==> FunctionsNamed(r.value)
    ensures r.Ok? ==> var fs := Elements(GetOr(j, "functions", JList([])));
      fs.Ok? && r.value.Keys == FunctionNames(fs.value, 0)
    decreases Size(j), 2, 0
  {
    var fj := GetOr(j, "functions", JList([]));
    var elems :- Py(Elements(fj));
    ParseFunctions(owner, elems, j, 0, map[])
  }

  function ParseFunctions(owner: Entity, elems: seq<Json>, bound: Json, i: nat, acc: map<string, Function>)
    : (r: Result<map<string, Function>, ModelError>)
    requires i <= |elems|
    requires forall k :: 0 <= k < |elems| ==> Size(elems[k]) < Size(bound)
    requires FunctionsNamed(acc)
    ensures r.Ok? ==> FunctionsNamed(r.value) && r.value.Keys == acc.Keys + FunctionNames(elems, i)
    decreases Size(bound), 0, |elems| - i
  {
    if i == |elems| then Ok(acc)
    else
      var f :- ParseFunction(owner, elems[i]);
      ParseFunctions(owner, elems, bound, i + 1, acc[f.name := f])
  }

  /** The parameter entries that become properties: the dictionaries whose
      `type` is not 'function', from index `i` on, in order. */
  function PlainParams(elems: seq<Json>, i: nat): (r: seq<Json>)
    requires i <= |elems|
    ensures forall k :: 0 <= k < |r| ==> r[k].JObj? && !IsFunctionTyped(r[k])
    decreases |elems| - i
  {
    if i == |elems| then []
    else if elems[i].JObj? && !IsFunctionTyped(elems[i]) then [elems[i]] + PlainParams(elems, i + 1)
    else PlainParams(elems, i + 1)
  }

  /** The number of parameter entries with `type` 'function' from `i` on. */
  function CallbackCount(elems: seq<Json>, i: nat): nat
    requires i <= |elems|
    decreases |elems| - i
  {
    if i == |elems| then 0
    else (if elems[i].JObj? && IsFunctionTyped(elems[i]) then 1 else 0) + CallbackCount(elems, i + 1)
  }

  /** Each property is named by the `name` entry of its parameter. */
  predicate ParamsNamed(props: seq<Property>, params: seq<Json>)
    requires forall k :: 0 <= k < |params| ==> params[k].JObj?
  {
    |props| == |params| && forall k :: 0 <= k < |props| ==> Get(params[k], "name") == Some(JStr(props[k].name))
  }

  lemma ParamsNamedCons(p: Property, ps: seq<Property>, elems: seq<Json>, i: nat)
    requires i < |elems| && elems[i].JObj? && !IsFunctionTyped(elems[i])
    requires Get(elems[i], "name") == Some(JStr(p.name))
    requires ParamsNamed(ps, PlainParams(elems, i + 1))
    ensures ParamsNamed([p] + ps, PlainParams(elems, i))
  {
    var all := PlainParams(elems, i);
    var rest := PlainParams(elems, i + 1);
    assert all == [elems[i]] + rest;
    forall k | 0 <= k < |all|
      ensures Get(all[k], "name") == Some(JStr(([p] + ps)[k].name))
    {
      if k > 0 {
        assert all[k] == rest[k - 1];
        assert ([p] + ps)[k] == ps[k - 1];
      }
    }
  }

  /** `Function(parent, json)`. */
  function ParseFunction(parent: Entity, j: Json): (r: Result<Function, ModelError>)
    ensures r.Ok? ==> Index(j, "name") == Ok(JStr(r.value.name))
    ensures r.Ok? ==> Index(j, "parameters").Ok? && Elements(Index(j, "parameters").value).Ok?
    ensures r.Ok? ==> var elems := Elements(Index(j, "parameters").value).value;
      && ParamsNamed(r.value.params, PlainParams(elems, 0))
      && (r.value.callback.Some? <==> CallbackCount(elems, 0) == 1)
    ensures (&& Index(j, "parameters").Ok?
             && Elements(Index(j, "parameters").value).Ok?
             && CallbackCount(Elements(Index(j, "parameters").value).value, 0) >= 2) ==> r.Err?
    decreases Size(j), 5, 0
  {
    var nameJson :- Py(Index(j, "name"));
    var name :- Py(AsString(nameJson));
    var self := Child(parent, name);
    var ps :- Py(Index(j, "parameters"));
    var elems :- Py(Elements(ps));
    var parsed :- ParseParams(self, name, elems, j, 0, None);
    Ok(Function(name, parsed.0, Get(j, "description"), parsed.1))
  }

  /** The loop over `json['parameters']` of a function from index `i` on:
      plain parameters are collected in order, the first function-typed one
      becomes the callback and a second one raises. `callback` is the
      callback found before index `i`. */
  function ParseParams(self: Entity, fname: string, elems: seq<Json>, bound: Json, i: nat,
                       callback: Option<Callback>)
    : (r: Result<(seq<Property>, Option<Callback>), ModelError>)
    requires i <= |elems|
    requires forall k :: 0 <= k < |elems| ==> Size(elems[k]) < Size(bound)
    ensures r.Ok? ==> ParamsNamed(r.value.0, PlainParams(elems, i))
    ensures r.Ok? ==> (r.value.1.Some? <==> callback.Some? || CallbackCount(elems, i) > 0)
    ensures CallbackCount(elems, i) + (if callback.Some? then 1 else 0) >= 2 ==> r.Err?
    decreases Size(bound), 0, |elems| - i
  {
    if i == |elems| then Ok(([], callback))
    else
      var param := elems[i];
      if !param.JObj? then Err(Raised(AttributeError("get")))
      else if IsFunctionTyped(param) then
        if callback.Some? then Err(Raise(self, fname + " has more than one callback"))
        else
          var c :- ParseCallback(self, param);
          ParseParams(self, fname, elems, bound, i + 1, Some(c))
      else
        var p :- NamedProperty(self, param, Origin(true, false));
        var rest :- ParseParams(self, fname, elems, bound, i + 1, callback);
        ParamsNamedCons(p, rest.0, elems, i);
        Ok(([p] + rest.0, rest.1))
  }

  /** `Property(parent, json['name'], json, ...)`, the way functions and
      callbacks build their parameters. */
  function NamedProperty(parent: Entity, j: Json, origin: Origin): (r: Result<Property, ModelError>)
    ensures r.Ok? ==> Index(j, "name") == Ok(JStr(r.value.name))
    decreases Size(j), 9, 0
  {
    var nameJson :- Py(Index(j, "name"));
    var name :- Py(AsString(nameJson));
    ParseProperty(parent, name, j, false, origin)
  }

  /** `Callback(parent, json)`: at most one parameter. */
  function ParseCallback(parent: Entity, j: Json): (r: Result<Callback, ModelError>)
    requires j.JObj?
    ensures r.Ok? ==> |r.value.params| <= 1
    ensures r.Ok? ==> Index(j, "parameters").Ok?
    ensures r.Ok? ==> Len(Index(j, "parameters").value) == Some(|r.value.params|)
    decreases Size(j), 4, 0
  {
    var ps :- Py(Index(j, "parameters"));
    var self := Entity(None, CallbackRepr, ParentIs(parent));
    match Len(ps)
    case None => Err(Raised(TypeError("object has no len()")))
    case Some(n) =>
      if n == 0 then Ok(Callback([]))
      else if n == 1 then
        match ps
        case JList(_) =>
          var p :- NamedProperty(self, Item(ps, 0), Origin(false, true));
          Ok(Callback([p]))
        case JStr(_) => Err(Raised(TypeError("string indices must be integers")))
        case _ => Err(Raised(KeyError("0")))
      else Err(Raise(self, "Callbacks can have at most a single parameter"))
  }

  // ---------------------------------------------------------------------
  // The unix_name of a property: frozen once it has been read

  /** `GetUnixName`: a missing or empty unix_name raises; otherwise the name
      is returned and the property remembers that it has been used. */
  function GetUnixName(p: Property): (r: Result<(Property, string), PyError>)
    ensures r.Ok? <==> p.CurrentUnixName().Some? && p.CurrentUnixName().value != []
    ensures r.Ok? ==> Some(r.value.1) == p.CurrentUnixName()
    ensures r.Ok? ==> r.value.0 == p.(unixNameUsed := true)
    ensures r.Err? ==> r.error == AttributeError("No unix_name set on " + p.name)
  {
    match p.CurrentUnixName()
    case Some(u) =>
      if u == [] then Err(AttributeError("No unix_name set on " + p.name))
      else Ok((p.(unixNameUsed := true), u))
    case None => Err(AttributeError("No unix_name set on " + p.name))
  }

  /** `%s` of the current `_unix_name`. */
  function UnixNameText(p: Property): string {
    match p.CurrentUnixName()
    case Some(u) => u
    case None => "None"
  }

  /** `SetUnixName`: setting the current name again changes nothing; any
      other name is refused once the current one has been used. */
  function SetUnixName(p: Property, u: string): (r: Result<Property, PyError>)
    ensures p.CurrentUnixName() == Some(u) ==> r == Ok(p)
    ensures p.CurrentUnixName() != Some(u) && p.unixNameUsed ==>
      r == Err(AttributeError("Cannot set the unix_name on " + p.name
                              + "; it is already used elsewhere as " + UnixNameText(p)))
    ensures r.Ok? ==> r.value.CurrentUnixName() == Some(u) && r.value.unixNameUsed == p.unixNameUsed
    ensures r.Ok? ==> r.value.(unixName := p.unixName) == p
  {
    if p.CurrentUnixName() == Some(u) then Ok(p)
    else if p.unixNameUsed then
      Err(AttributeError("Cannot set the unix_name on " + p.name
                         + "; it is already used elsewhere as " + UnixNameText(p)))
    else Ok(p.(unixName := Assigned(u)))
  }

  /** `Copy`: a shallow copy whose unix_name may be set again. */
  function Copy(p: Property): (r: Property)
    ensures !r.unixNameUsed
    ensures r.CurrentUnixName() == p.CurrentUnixName()
    ensures r.(unixNameUsed := p.unixNameUsed) == p
  {
    p.(unixNameUsed := false)
  }

  /** A freshly constructed property carries `_UnixName` of its name, not
      yet used. */
  lemma ConstructedUnixName(parent: Entity, name: string, j: Json, isAdditional: bool, origin: Origin)
    requires ParseProperty(parent, name, j, isAdditional, origin).Ok?
    ensures var p := ParseProperty(parent, name, j, isAdditional, origin).value;
      p.CurrentUnixName() == Some(ToUnixName(name)) && !p.unixNameUsed
  {
  }

  /** Once read, the unix_name is frozen: setting it again succeeds exactly
      when the same name is set, and then changes nothing. */
  lemma FrozenAfterGet(p: Property, u: string)
    requires GetUnixName(p).Ok?
    ensures var (q, got) := GetUnixName(p).value;
      && (SetUnixName(q, u).Ok? <==> u == got)
      && (u == got ==> SetUnixName(q, u) == Ok(q))
  {
  }

  /** Before it is read, any unix_name can be set, and reading gives it
      back. */
  lemma SetThenGet(p: Property, u: string)
    requires !p.unixNameUsed && u != []
    ensures SetUnixName(p, u).Ok?
    ensures GetUnixName(SetUnixName(p, u).value).Ok?
    ensures GetUnixName(SetUnixName(p, u).value).value.1 == u
  {
  }

  /** A copy of a used property can be renamed, while the original stays
      frozen. */
  lemma CopyUnfreezes(p: Property, u: string)
    requires p.unixNameUsed && p.CurrentUnixName() != Some(u)
    ensures SetUnixName(Copy(p), u).Ok?
    ensures SetUnixName(Copy(p), u).value.CurrentUnixName() == Some(u)
    ensures SetUnixName(p, u).Err?
  {
  }
}

=== FILE: schema_namespace.dfy ===
/** The top of the JSON schema compiler's model: `Namespace`, its
    `_AddTypes` loop and `Model.AddNamespace`. */
module SchemaNamespace {
  import opened Wrappers
  import opened Python
  import opened Text
  import opened Json
  import opened UnixName
  import opened SchemaModel
  import Paths

  /** Every type is filed under its own name. */
  predicate TypesNamed(m: map<string, ModelType>) {
    forall n :: n in m ==> m[n].name == n
  }

  /** The `id`s of the type entries from index `i` on. */
  function TypeIds(elems: seq<Json>, i: nat): (ids: set<string>)
    requires i <= |elems|
    decreases |elems| - i
  {
    if i == |elems| then {}
    else
      var id := if elems[i].JObj? && Get(elems[i], "id").Some? && Get(elems[i], "id").value.JStr?
                then {Get(elems[i], "id").value.s} else {};
      id + TypeIds(elems, i + 1)
  }

  /** `_AddTypes(model, json)`: one `Type` per entry of `types`, keyed by
      its `id`. An `id` that is not a string is refused up front. */
  function AddTypes(owner: Entity, j: Json): (r: Result<map<string, ModelType>, ModelError>)
    requires j.JObj?
    ensures r.Ok? ==> TypesNamed(r.value)
    ensures r.Ok? ==> Elements(GetOr(j, "types", JList([]))).Ok?
    ensures r.Ok? ==> r.value.Keys == TypeIds(Elements(GetOr(j, "types", JList([]))).value, 0)
  {
    var elems :- Py(Elements(GetOr(j, "types", JList([]))));
    ParseTypes(owner, elems, 0, map[])
  }

  function ParseTypes(owner: Entity, elems: seq<Json>, i: nat, acc: map<string, ModelType>)
    : (r: Result<map<string, ModelType>, ModelError>)
    requires i <= |elems|
    requires TypesNamed(acc)
    ensures r.Ok? ==> TypesNamed(r.value)
    ensures r.Ok? ==> r.value.Keys == acc.Keys + TypeIds(elems, i)
    decreases |elems| - i
  {
    if i == |elems| then Ok(acc)
    else
      var idJson :- Py(Index(elems[i], "id"));
      var id :- Py(AsString(idJson));
      var t :- ParseType(owner, id, elems[i]);
      ParseTypes(owner, elems, i + 1, acc[t.name := t])
  }

  /** `Namespace(json, source_file)`: types first, then functions, then
      properties, each with the namespace as parent. */
  function ParseNamespace(j: Json, sourceFile: string): (r: Result<Namespace, ModelError>)
    ensures r.Ok? ==> Index(j, "namespace") == Ok(JStr(r.value.name))
    ensures r.Ok? ==> r.value.unixName == ToUnixName(r.value.name)
    ensures r.Ok? ==> r.value.sourceFile == sourceFile
    ensures r.Ok? ==> StartsWith(sourceFile, r.value.sourceFileDir)
    ensures r.Ok? ==> EndsWith(sourceFile, r.value.sourceFileFilename) && '/' !in r.value.sourceFileFilename
    ensures r.Ok? ==> TypesNamed(r.value.types) && FunctionsNamed(r.value.functions)
    ensures r.Ok? ==> PropertiesNamed(r.value.properties)
  {
    var nameJson :- Py(Index(j, "namespace"));
    var name :- Py(AsString(nameJson));
    var self := Entity(Some(name), "", NoParent);
    var (dir, file) := Paths.SplitPath(sourceFile);
    var types :- AddTypes(self, j);
    var functions :- AddFunctions(self, j);
    var properties :- AddProperties(self, j, Origin(false, false));
    Ok(Namespace(name, ToUnixName(name), sourceFile, dir, file, types, functions, properties))
  }

  /** `Model.AddNamespace(json, source_file)`: the new namespace replaces
      any earlier one of the same name; the others are kept. */
  function AddNamespace(namespaces: map<string, Namespace>, j: Json, sourceFile: string)
    : (r: Result<(map<string, Namespace>, Namespace), ModelError>)
    ensures r.Ok? <==> ParseNamespace(j, sourceFile).Ok?
    ensures r.Ok? ==> var (m, ns) := r.value;
      && ns == ParseNamespace(j, sourceFile).value
      && m.Keys == namespaces.Keys + {ns.name}
      && m[ns.name] == ns
      && forall n :: n in namespaces && n != ns.name ==> m[n] == namespaces[n]
  {
    var ns :- ParseNamespace(j, sourceFile);
    Ok((namespaces[ns.name := ns], ns))
  }
}

=== FILE: sorting.dfy ===
/** Python's `sorted` on the byte strings the tools handle: `sorted(set(xs))`,
    which leaves each string once in increasing order, and the stable
    `sorted(xs, key=k)`, which orders by a key and keeps the given order
    among equal keys. */
module Sorting {
  import opened Text

  /** Increasing, hence without duplicates. */
  predicate StrictlySorted(xs: seq<string>) {
    forall i, j :: 0 <= i < j < |xs| ==> Less(xs[i], xs[j])
  }

  /** `x` put into its place in an increasing sequence, unless it is there. */
  function Insert(x: string, xs: seq<string>): (r: seq<string>)
    requires StrictlySorted(xs)
    ensures StrictlySorted(r)
    ensures forall y :: y in r <==> y == x || y in xs
  {
    if xs == [] then [x]
    else if x == xs[0] then xs
    else if Less(x, xs[0]) then
      assert forall j :: 0 < j < |xs| ==> Less(x, xs[j]) by {
        forall j | 0 < j < |xs| ensures Less(x, xs[j]) {
          LessTransitive(x, xs[0], xs[j]);
        }
      }
      [x] + xs
    else
      LessTotal(x, xs[0]);
      var rest := Insert(x, xs[1..]);
      assert forall y :: y in rest ==> Less(xs[0], y);
      [xs[0]] + rest
  }

  /** `sorted(set(xs))`: every string of `xs` once, in increasing order. */
  function SortedSet(xs: seq<string>): (r: seq<string>)
    ensures StrictlySorted(r)
    ensures forall y :: y in r <==> y in xs
  {
    if xs == [] then [] else Insert(xs[0], SortedSet(xs[1..]))
  }

  /** Two increasing sequences with the same strings are the same sequence:
      `sorted(set(xs))` is determined by the set of `xs`. */
  lemma {:induction false} SortedUnique(a: seq<string>, b: seq<string>)
    requires StrictlySorted(a) && StrictlySorted(b)
    requires forall y :: y in a <==> y in b
    ensures a == b
    decreases |a|
  {
    assert a != [] ==> a[0] in a;
    assert b != [] ==> b[0] in b;
    if a != [] && b != [] {
      HeadLeast(a, b[0]);
      HeadLeast(b, a[0]);
      LessEqAntisymmetric(a[0], b[0]);
      forall y
        ensures y in a[1..] <==> y in b[1..]
      {
        if y in a[1..] {
          var i :| 0 <= i < |a| - 1 && a[1..][i] == y;
          assert Less(a[0], a[i + 1]);
          LessIrreflexive(y);
          assert y in b;
          var j :| 0 <= j < |b| && b[j] == y;
          assert j != 0 && b[1..][j - 1] == y;
        }
        if y in b[1..] {
          var j :| 0 <= j < |b| - 1 && b[1..][j] == y;
          assert Less(b[0], b[j + 1]);
          LessIrreflexive(y);
          assert y in a;
          var i :| 0 <= i < |a| && a[i] == y;
          assert i != 0 && a[1..][i - 1] == y;
        }
      }
      SortedUnique(a[1..], b[1..]);
    }
  }

  /** The head of an increasing sequence is its least element. */
  lemma HeadLeast(a: seq<string>, y: string)
    requires StrictlySorted(a) && y in a
    ensures LessEq(a[0], y)
  {
    var i :| 0 <= i < |a| && a[i] == y;
  }

  lemma LessEqAntisymmetric(x: string, y: string)
    ensures LessEq(x, y) && LessEq(y, x) ==> x == y
  {
    if Less(x, y) {
      LessAsymmetric(x, y);
    }
  }

  // ---------------------------------------------------------------------
  // Stable sort by key

  /** The keys of `xs` under `key` never decrease. */
  predicate SortedBy(xs: seq<string>, key: string -> string) {
    forall i, j :: 0 <= i < j < |xs| ==> LessEq(key(xs[i]), key(xs[j]))
  }

  /** `x` put after every element whose key is not greater. */
  function InsertBy(x: string, xs: seq<string>, key: string -> string): (r: seq<string>)
    requires SortedBy(xs, key)
    ensures SortedBy(r, key)
    ensures multiset(r) == multiset(xs) + multiset{x}
  {
    if xs == [] then [x]
    else if Less(key(x), key(xs[0])) then
      assert forall j :: 0 < j < |xs| ==> LessEq(key(x), key(xs[j])) by {
        forall j | 0 < j < |xs| ensures LessEq(key(x), key(xs[j])) {
          if key(xs[0]) != key(xs[j]) {
            LessTransitive(key(x), key(xs[0]), key(xs[j]));
          }
        }
      }
      [x] + xs
    else
      LessTotal(key(x), key(xs[0]));
      var rest := InsertBy(x, xs[1..], key);
      forall j | 0 <= j < |rest| ensures LessEq(key(xs[0]), key(rest[j])) {
        InsertedFrom(rest, j, x, xs);
      }
      assert xs == [xs[0]] + xs[1..];
      [xs[0]] + rest
  }

  /** An element of a sequence with the elements of `xs[1..]` and `x` is
      one of them. */
  lemma InsertedFrom(rest: seq<string>, j: nat, x: string, xs: seq<string>)
    requires xs != [] && j < |rest| && multiset(rest) == multiset(xs[1..]) + multiset{x}
    ensures rest[j] == x || rest[j] in xs[1..]
  {
    assert rest[j] in multiset(rest);
  }

  /** `sorted(xs, key=key)`: the same elements, ordered by key. Each
      element is put after the ones before it, so equal keys keep their
      order. */
  function SortBy(xs: seq<string>, key: string -> string): (r: seq<string>)
    ensures SortedBy(r, key)
    ensures multiset(r) == multiset(xs)
  {
    if xs == [] then []
    else
      var n := |xs| - 1;
      assert xs == xs[..n] + [xs[n]];
      InsertBy(xs[n], SortBy(xs[..n], key), key)
  }

  /** The elements of `xs` whose key is `k`, in order. */
  function WithKey(xs: seq<string>, key: string -> string, k: string): seq<string> {
    if xs == [] then [] else (if key(xs[0]) == k then [xs[0]] else []) + WithKey(xs[1..], key, k)
  }

  lemma {:induction false} WithKeyAppend(a: seq<string>, y: string, key: string -> string, k: string)
    ensures WithKey(a + [y], key, k) == WithKey(a, key, k) + (if key(y) == k then [y] else [])
  {
    if a == [] {
      assert ([y])[1..] == [];
    } else {
      assert (a + [y])[0] == a[0] && (a + [y])[1..] == a[1..] + [y];
      WithKeyAppend(a[1..], y, key, k);
    }
  }

  /** No element of a sorted sequence whose first key is above `k` has
      key `k`. */
  lemma {:induction false} WithKeyNone(xs: seq<string>, key: string -> string, k: string)
    requires SortedBy(xs, key) && xs != [] && Less(k, key(xs[0]))
    ensures WithKey(xs, key, k) == []
  {
    LessIrreflexive(k);
    if |xs| > 1 {
      if key(xs[0]) != key(xs[1]) {
        LessTransitive(k, key(xs[0]), key(xs[1]));
      }
      assert xs[1..][0] == xs[1];
      assert SortedBy(xs[1..], key) by {
        forall i, j | 0 <= i < j < |xs| - 1 ensures LessEq(key(xs[1..][i]), key(xs[1..][j])) {
          assert xs[1..][i] == xs[i + 1] && xs[1..][j] == xs[j + 1];
        }
      }
      WithKeyNone(xs[1..], key, k);
    }
  }

  /** Inserting puts the element after every element with its key. */
  lemma {:induction false} InsertByWithKey(x: string, xs: seq<string>, key: string -> string, k: string)
    requires SortedBy(xs, key)
    ensures WithKey(InsertBy(x, xs, key), key, k) == WithKey(xs, key, k) + (if key(x) == k then [x] else [])
  {
    if xs == [] {
      assert ([x])[1..] == [];
    } else if Less(key(x), key(xs[0])) {
      var r := [x] + xs;
      assert r[0] == x && r[1..] == xs;
      if key(x) == k {
        WithKeyNone(xs, key, k);
      }
    } else {
      assert SortedBy(xs[1..], key) by {
        forall i, j | 0 <= i < j < |xs| - 1 ensures LessEq(key(xs[1..][i]), key(xs[1..][j])) {
          assert xs[1..][i] == xs[i + 1] && xs[1..][j] == xs[j + 1];
        }
      }
      var rest := InsertBy(x, xs[1..], key);
      var r := [xs[0]] + rest;
      assert r[0] == xs[0] && r[1..] == rest;
      InsertByWithKey(x, xs[1..], key, k);
      ConcatAssoc(if key(xs[0]) == k then [xs[0]] else [], WithKey(xs[1..], key, k), if key(x) == k then [x] else []);
    }
  }

  /** `sorted` is stable: the elements with any one key come out in the
      order they went in. */
  lemma {:induction false} SortByStable(xs: seq<string>, key: string -> string, k: string)
    ensures WithKey(SortBy(xs, key), key, k) == WithKey(xs, key, k)
  {
    if xs != [] {
      var n := |xs| - 1;
      assert xs == xs[..n] + [xs[n]];
      SortByStable(xs[..n], key, k);
      InsertByWithKey(xs[n], SortBy(xs[..n], key), key, k);
      WithKeyAppend(xs[..n], xs[n], key, k);
    }
  }
}

=== FILE: strace.dfy ===
/** `Strace._Context` of tools/isolate/trace_inputs.py: the state kept
    while reading an strace log, one line at a time. It tracks the working
    directory of every process, the calls strace interrupted, and the
    files touched, split into those that exist and those that do not.

    The filter that drops uninteresting paths and the `os.path.isfile`
    test are parameters (`Env`); so is `os.path.realpath`, which
    `parse_log` applies to what it found. */
module Strace {
  import opened Wrappers
  import opened Python
  import opened Text
  import opened Paths
  import opened StraceLines

  /** `Strace.IGNORED`: the prefixes of system paths. */
  const IGNORED: seq<string> := ["/bin", "/dev", "/etc", "/lib", "/proc", "/sys", "/tmp", "/usr", "/var"]

  /** `_cwd` by pid, the two sets of files, and `_pending_calls`, keyed by
      the pid and the name as they are written in the log. */
  datatype Context = Context(
    cwd: map<int, string>,
    files: set<string>,
    nonExistent: set<string>,
    pending: map<(string, string), string>)

  /** A context as `__init__` leaves it. */
  const Empty := Context(map[], {}, {}, map[])

  /** What the context consults: the `blacklist` callable it is given and
      `os.path.isfile`. */
  datatype Env = Env(blacklist: string -> bool, isFile: string -> bool)

  /** No file is taken both for existing and for missing. */
  predicate Consistent(c: Context) {
    c.files !! c.nonExistent
  }

  /** `c` keeps every file `d` recorded, and its working directories and
      pending calls change only through `d`'s handlers. */
  predicate Grows(c: Context, d: Context) {
    c.files <= d.files && c.nonExistent <= d.nonExistent
  }

  /** The absolute path of a file a process names: a relative one is joined
      onto the process's working directory, which must be known. */
  function Resolve(c: Context, pid: int, path: string): (r: Option<string>)
    ensures IsAbs(path) ==> r == Some(path)
    ensures r.None? <==> !IsAbs(path) && pid !in c.cwd
  {
    if IsAbs(path) then Some(path)
    else if pid in c.cwd then Some(PathJoin(c.cwd[pid], path))
    else None
  }

  // ---------------------------------------------------------------------
  // The handlers

  /** `_handle_file`: a failed call (a result starting with '-1') and a
      blacklisted path change nothing; a path seen before stays where it
      is; a new one goes to `files` or `non_existent` by `isfile`. */
  function HandleFile(env: Env, c: Context, pid: int, path: string, result: string): (r: Result<Context, PyError>)
    ensures r.Err? <==> !StartsWith(result, "-1") && Resolve(c, pid, path).None?
    ensures r.Ok? ==> r.value.cwd == c.cwd && r.value.pending == c.pending && Grows(c, r.value)
    ensures r.Ok? && Consistent(c) ==> Consistent(r.value)
  {
    if StartsWith(result, "-1") then Ok(c)
    else
      match Resolve(c, pid, path)
      case None => Err(KeyError("_cwd[pid]"))
      case Some(p) =>
        if env.blacklist(p) || p in c.files || p in c.nonExistent then Ok(c)
        else if env.isFile(p) then Ok(c.(files := c.files + {p}))
        else Ok(c.(nonExistent := c.nonExistent + {p}))
  }

  /** After a successful call on a path that is not blacklisted, the path
      is known, and it counts as existing exactly when it already did or
      `isfile` says so the first time it is seen. Nothing else is added. */
  lemma FileRecorded(env: Env, c: Context, pid: int, path: string, result: string)
    requires Consistent(c)
    requires !StartsWith(result, "-1") && Resolve(c, pid, path).Some?
    requires !env.blacklist(Resolve(c, pid, path).value)
    ensures var p := Resolve(c, pid, path).value;
      var d := HandleFile(env, c, pid, path, result).value;
      && p in d.files + d.nonExistent
      && (p in d.files <==> p in c.files || (p !in c.nonExistent && env.isFile(p)))
      && d.files + d.nonExistent == c.files + c.nonExistent + {p}
  {
  }

  /** A failed call, or a blacklisted path, leaves the context as it
      was. */
  lemma FileIgnored(env: Env, c: Context, pid: int, path: string, result: string)
    requires StartsWith(result, "-1") || (Resolve(c, pid, path).Some? && env.blacklist(Resolve(c, pid, path).value))
    ensures HandleFile(env, c, pid, path, result) == Ok(c)
  {
  }

  /** `handle_chdir`: a successful call (a result starting with '0') sets
      the process's working directory; a relative one is joined onto the
      current one. A failed call fails the `assert`; arguments that are
      not one quoted path are the `AttributeError` of `None.group`. */
  function Chdir(c: Context, pid: int, args: string, result: string): (r: Result<Context, PyError>)
    ensures r.Ok? ==> StartsWith(result, "0") && ChdirArg(args).Some?
    ensures r.Ok? ==> r.value == c.(cwd := r.value.cwd) && pid in r.value.cwd
    ensures r.Ok? ==> r.value.cwd - {pid} == c.cwd - {pid}
    ensures r.Ok? ==> Some(r.value.cwd[pid]) == Resolve(c, pid, ChdirArg(args).value)
  {
    if !StartsWith(result, "0") then Err(AssertionError("Unexecpected fail"))
    else
      match ChdirArg(args)
      case None => Err(AttributeError("group"))
      case Some(dir) =>
        match Resolve(c, pid, dir)
        case None => Err(KeyError("_cwd[pid]"))
        case Some(p) => Ok(c.(cwd := c.cwd[pid := p]))
  }

  /** `handle_clone`: the child, whose pid is the call's result, starts in
      its parent's directory. A restarted call creates no child. The
      parent's directory is read before the result is parsed, so an
      unknown parent is a `KeyError` even when the result is no pid. */
  function Clone(c: Context, pid: int, result: string): (r: Result<Context, PyError>)
    ensures r.Ok? ==> r.value == c.(cwd := r.value.cwd)
    ensures r.Ok? && result != "? ERESTARTNOINTR (To be restarted)" ==>
      ParseInt(result).Some? && pid in c.cwd
      && r.value.cwd == c.cwd[ParseInt(result).value := c.cwd[pid]]
    ensures r.Err? ==> result != "? ERESTARTNOINTR (To be restarted)"
  {
    if result == "? ERESTARTNOINTR (To be restarted)" then Ok(c)
    else if pid !in c.cwd then Err(KeyError("_cwd[pid]"))
    else
      match ParseInt(result)
      case None => Err(ValueError("int()"))
      case Some(child) => Ok(c.(cwd := c.cwd[child := c.cwd[pid]]))
  }

  /** `handle_exit_group`: the process's directory is forgotten; a process
      never seen is a `KeyError`. */
  function ExitGroup(c: Context, pid: int): (r: Result<Context, PyError>)
    ensures r.Ok? <==> pid in c.cwd
    ensures r.Ok? ==> r.value == c.(cwd := r.value.cwd) && pid !in r.value.cwd
    ensures r.Ok? ==> forall q :: q != pid ==> (q in r.value.cwd <==> q in c.cwd)
  {
    if pid in c.cwd then Ok(c.(cwd := c.cwd - {pid})) else Err(KeyError("_cwd[pid]"))
  }

  /** After a change of directory, the process's relative paths resolve
      against the new directory; other processes are unaffected. */
  lemma ChdirThenResolve(c: Context, pid: int, args: string, result: string, other: int, path: string)
    requires Chdir(c, pid, args, result).Ok?
    requires !IsAbs(path)
    ensures var d := Chdir(c, pid, args, result).value;
      && Resolve(d, pid, path) == Some(PathJoin(Resolve(c, pid, ChdirArg(args).value).value, path))
      && (other != pid ==> Resolve(d, other, path) == Resolve(c, other, path))
  {
    var d := Chdir(c, pid, args, result).value;
    assert other != pid ==> (other in d.cwd <==> other in c.cwd) by {
      assert d.cwd - {pid} == c.cwd - {pid};
      assert other in d.cwd - {pid} <==> other in c.cwd - {pid};
    }
    assert other != pid && other in c.cwd ==> d.cwd[other] == (d.cwd - {pid})[other];
  }

  /** A child created by `clone` resolves relative paths as its parent
      did when it was created. */
  lemma CloneThenResolve(c: Context, parent: int, result: string, path: string)
    requires Clone(c, parent, result).Ok? && result != "? ERESTARTNOINTR (To be restarted)"
    ensures Resolve(Clone(c, parent, result).value, ParseInt(result).value, path) == Resolve(c, parent, path)
  {
  }

  /** Once a process has exited, a relative path it names is a
      `KeyError`, unless the call failed; the other processes keep their
      directories. */
  lemma ExitThenResolve(env: Env, c: Context, pid: int, other: int, path: string, result: string)
    requires ExitGroup(c, pid).Ok? && !IsAbs(path) && !StartsWith(result, "-1")
    ensures HandleFile(env, ExitGroup(c, pid).value, pid, path, result).Err?
    ensures other != pid ==> Resolve(ExitGroup(c, pid).value, other, path) == Resolve(c, other, path)
  {
  }

  /** `handle_open`: a directory open is skipped; any other open is a file
      access. */
  function Open(env: Env, c: Context, pid: int, args: string, result: string): (r: Result<Context, PyError>)
    ensures OpenArgs(args).None? ==> r.Err?
    ensures OpenArgs(args).Some? && Contains(OpenArgs(args).value.1, "O_DIRECTORY") ==> r == Ok(c)
    ensures OpenArgs(args).Some? && !Contains(OpenArgs(args).value.1, "O_DIRECTORY") ==>
      r == HandleFile(env, c, pid, OpenArgs(args).value.0, result)
  {
    match OpenArgs(args)
    case None => Err(AttributeError("groups"))
    case Some((path, flags)) =>
      if Contains(flags, "O_DIRECTORY") then Ok(c) else HandleFile(env, c, pid, path, result)
  }

  /** `handle_rename`: both the old and the new path are accesses. */
  function Rename(env: Env, c: Context, pid: int, args: string, result: string): (r: Result<Context, PyError>)
    ensures r.Ok? ==> r.value.cwd == c.cwd && r.value.pending == c.pending && Grows(c, r.value)
    ensures r.Ok? && Consistent(c) ==> Consistent(r.value)
  {
    match RenameArgs(args)
    case None => Err(AttributeError("groups"))
    case Some((src, dst)) =>
      var d :- HandleFile(env, c, pid, src, result);
      HandleFile(env, d, pid, dst, result)
  }

  /** `getattr(self, 'handle_' + name)(pid, name, args, result)`. `fork`,
      `vfork` and `stat64` fail their `assert`; a name without a handler
      is an `AttributeError`. */
  function Dispatch(env: Env, c: Context, call: Call): (r: Result<Context, PyError>)
    ensures r.Ok? ==> Grows(c, r.value) && r.value.pending == c.pending
    ensures r.Ok? && Consistent(c) ==> Consistent(r.value)
    ensures call.name !in {"chdir", "clone", "execve", "exit_group", "open", "rename"} ==> r.Err?
  {
    var pid := DigitsValue(call.pid);
    if call.name == "chdir" then Chdir(c, pid, call.args, call.result)
    else if call.name == "clone" then Clone(c, pid, call.result)
    else if call.name == "execve" then
      match ExecveArg(call.args)
      case None => Err(AttributeError("group"))
      case Some(path) => HandleFile(env, c, pid, path, call.result)
    else if call.name == "exit_group" then ExitGroup(c, pid)
    else if call.name == "open" then Open(env, c, pid, call.args, call.result)
    else if call.name == "rename" then Rename(env, c, pid, call.args, call.result)
    else if call.name == "fork" || call.name == "vfork" || call.name == "stat64" then
      Err(AssertionError(call.args))
    else Err(AttributeError("handle_" + call.name))
  }

  // ---------------------------------------------------------------------
  // One line

  /** How `on_line` reads a stripped line, in the order it tries the
      patterns. */
  datatype Kind =
    | Signal
    | Killed(pid: string)
    | Unfinished(key: (string, string), head: string)
    | BadUnfinished
    | Unavailable
    | Resumed(key: (string, string), tail: string)
    | Plain

  /** Whether a line reports a call strace could not finish. As written
      the pattern is tried with `re.match`, which anchors it at the start
      of the line; `Corrected` looks for it anywhere, as `re.search`
      would. */
  predicate IsUnavailable(variant: Variant, line: string) {
    match variant
    case AsWritten => UnavailableAt(line, 0)
    case Corrected => First(0, |line|, UnavailableFrom(line)).Some?
  }

  function Classify(variant: Variant, line: string): (k: Kind)
    ensures k.Unfinished? ==> line == k.head + UNFINISHED
    ensures k.Resumed? ==> EndsWith(line, k.tail) && k.tail != []
  {
    if IsSignal(line) then Signal
    else if KilledOf(line).Some? then Killed(KilledOf(line).value)
    else if EndsWith(line, UNFINISHED) then
      var head := line[..|line| - |UNFINISHED|];
      assert line == head + UNFINISHED;
      match UnfinishedOf(head)
      case None => BadUnfinished
      case Some(key) => Unfinished(key, head)
    else if IsUnavailable(variant, line) then Unavailable
    else
      match ResumedOf(line)
      case Some((pid, name, tail)) => Resumed((pid, name), tail)
      case None => Plain
  }

  /** The end of `on_line`: the line must be a whole call, which goes to
      its handler. */
  function Perform(env: Env, c: Context, line: string): (r: Result<Context, PyError>)
    ensures HeaderOf(line).None? ==> r.Err?
    ensures r.Ok? ==> Grows(c, r.value) && r.value.pending == c.pending
    ensures r.Ok? && Consistent(c) ==> Consistent(r.value)
  {
    match HeaderOf(line)
    case None => Err(AssertionError(line))
    case Some(call) => Dispatch(env, c, call)
  }

  /** What `on_line` does with a line read as `kind`. */
  function Step(env: Env, c: Context, kind: Kind, line: string): (r: Result<Context, PyError>)
    ensures r.Ok? ==> Grows(c, r.value)
    ensures r.Ok? && Consistent(c) ==> Consistent(r.value)
  {
    match kind
    case Signal => Ok(c)
    case Killed(pid) => ExitGroup(c, DigitsValue(pid))
    case Unfinished(key, head) => Ok(c.(pending := c.pending[key := head]))
    case BadUnfinished => Err(AssertionError(line))
    case Unavailable => Ok(c)
    case Resumed(key, tail) =>
      if key in c.pending then Perform(env, c.(pending := c.pending - {key}), c.pending[key] + tail)
      else Err(KeyError("_pending_calls"))
    case Plain => Perform(env, c, line)
  }

  /** `on_line`. Signals and cancelled calls are skipped; a killed process
      exits; an interrupted call is kept until strace resumes it, and the
      two halves are then read as one line. */
  function OnLine(variant: Variant, env: Env, c: Context, raw: string): (r: Result<Context, PyError>)
    ensures r.Ok? ==> Grows(c, r.value)
    ensures r.Ok? && Consistent(c) ==> Consistent(r.value)
  {
    var line := Strip(raw);
    Step(env, c, Classify(variant, line), line)
  }

  /** An interrupted call put aside and then resumed is performed as the
      call put aside followed by the rest, and nothing stays pending
      under its key, whatever was pending there before. */
  lemma StepsJoin(env: Env, c: Context, key: (string, string), head: string, tail: string, first: string, second: string)
    ensures Step(env, c, Unfinished(key, head), first).Ok?
    ensures Step(env, Step(env, c, Unfinished(key, head), first).value, Resumed(key, tail), second)
         == Perform(env, c.(pending := c.pending - {key}), head + tail)
  {
    var mid := c.(pending := c.pending[key := head]);
    var rest := mid.(pending := mid.pending - {key});
    assert Step(env, c, Unfinished(key, head), first) == Ok(mid);
    assert key in mid.pending && mid.pending[key] == head;
    assert Step(env, mid, Resumed(key, tail), second) == Perform(env, rest, head + tail);
    DropUpdated(c.pending, key, head);
  }

  /** Removing a key just set forgets the setting. */
  lemma DropUpdated<K, V>(m: map<K, V>, k: K, v: V)
    ensures m[k := v] - {k} == m - {k}
  {
  }

  /** Two lines of the log: the first interrupted, the second resuming the
      same call. They are handled as the one line they make together. */
  lemma ResumeJoins(variant: Variant, env: Env, c: Context, first: string, second: string)
    ensures var u := Classify(variant, Strip(first));
      var s := Classify(variant, Strip(second));
      u.Unfinished? && s.Resumed? && s.key == u.key ==>
      && OnLine(variant, env, c, first).Ok?
      && OnLine(variant, env, OnLine(variant, env, c, first).value, second)
         == Perform(env, c.(pending := c.pending - {u.key}), u.head + s.tail)
  {
    var u := Classify(variant, Strip(first));
    var s := Classify(variant, Strip(second));
    if u.Unfinished? && s.Resumed? && s.key == u.key {
      StepsJoin(env, c, u.key, u.head, s.tail, Strip(first), Strip(second));
      assert u == Unfinished(u.key, u.head) && s == Resumed(u.key, s.tail);
    }
  }

  /** What strace writes in place of the result of a call cancelled by
      the death of its process. */
  const CANCELLED := ") = ? <unavailable>"

  /** As written, a cancelled call is never recognised on a line that
      starts with its pid, as every line strace writes for a call does:
      the pattern is anchored at the start of the line. */
  lemma CancelledMissed(head: string)
    requires head != [] && IsDigit(head[0])
    ensures !IsUnavailable(AsWritten, head + CANCELLED)
  {
    assert (head + CANCELLED)[0] == head[0];
  }

  /** Searched for anywhere, the pattern recognises every line that ends
      with the cancelled result. */
  lemma CancelledRecognised(head: string)
    ensures IsUnavailable(Corrected, head + CANCELLED)
  {
    var line := head + CANCELLED;
    var q := |head|;
    assert line[q..] == CANCELLED;
    assert line[q] == ')' && line[q + 1] == ' ' && line[q + 2] == '=';
    RunStops(line, q + 1, q + 2, IsSpace);
    assert line[q + 2..] == "= ? <unavailable>";
    assert UnavailableFrom(line)(q);
  }

  /** Every line is read in order; the first failure ends the trace. */
  function Trace(variant: Variant, env: Env, c: Context, lines: seq<string>): (r: Result<Context, PyError>)
    ensures r.Ok? ==> Grows(c, r.value)
    ensures r.Ok? && Consistent(c) ==> Consistent(r.value)
    decreases |lines|
  {
    if lines == [] then Ok(c)
    else
      var next :- OnLine(variant, env, c, lines[0]);
      Trace(variant, env, next, lines[1..])
  }

  /** The lines `for line in open(name)` yields: each one up to and
      including its newline, and a last one without a newline when the
      text does not end with one. */
  function FileLines(text: string): (r: seq<string>)
    ensures Join(r, "") == text
    ensures forall i :: 0 <= i < |r| ==> r[i] != [] && '\n' !in r[i][..|r[i]| - 1]
    decreases |text|
  {
    if '\n' !in text then (if text == [] then [] else [text])
    else
      var k := IndexOf(text, '\n');
      var rest := FileLines(text[k + 1..]);
      assert text == text[..k + 1] + text[k + 1..];
      if rest == [] then [text[..k + 1]]
      else
        JoinCons(text[..k + 1], rest, "");
        [text[..k + 1]] + rest
  }

  /** `Strace.parse_log`: the files the traced processes touched, those
      that exist and those that do not, through `realpath`. */
  function ParseLog(variant: Variant, env: Env, realpath: string -> string, text: string)
    : (r: Result<(set<string>, set<string>), PyError>)
    ensures var t := Trace(variant, env, Empty, FileLines(text));
      && (r.Ok? <==> t.Ok?)
      && (r.Ok? ==> forall g :: g in t.value.files ==> realpath(g) in r.value.0)
      && (r.Ok? ==> forall g :: g in t.value.nonExistent ==> realpath(g) in r.value.1)
      && (r.Ok? ==> forall x :: x in r.value.0 ==> exists g :: g in t.value.files && realpath(g) == x)
      && (r.Ok? ==> forall x :: x in r.value.1 ==> exists g :: g in t.value.nonExistent && realpath(g) == x)
  {
    var c :- Trace(variant, env, Empty, FileLines(text));
    Ok((set f | f in c.files :: realpath(f), set f | f in c.nonExistent :: realpath(f)))
  }
}

=== FILE: strace_lines.dfy ===
/** The lines `strace -f` writes, read the way the regular expressions of
    `Strace._Context` read them (tools/isolate/trace_inputs.py). Each
    pattern is a function that returns the groups it captures, or `None`
    when `re.match` fails.

    The patterns are byte-string patterns, so `\d`, `\s` and `[A-Z]` are
    the ASCII classes. A line reaches them stripped of its end, so it
    holds no newline: `.` matches every character and `$` is the end of
    the line. A greedy run followed by a character outside its class
    stops where the run stops (`Run`); a lazy `.+?` stops at the first
    position from which the rest of the pattern matches (`First`). */
module StraceLines {
  import opened Wrappers
  import opened Text

  // ---------------------------------------------------------------------
  // Scanning

  /** The end of the run of characters satisfying `p` from `i` on. */
  function Run(s: string, i: nat, p: char -> bool): (j: nat)
    requires i <= |s|
    ensures i <= j <= |s|
    ensures forall k :: i <= k < j ==> p(s[k])
    ensures j == |s| || !p(s[j])
    decreases |s| - i
  {
    if i < |s| && p(s[i]) then Run(s, i + 1, p) else i
  }

  /** A run is determined by where it stops. */
  lemma {:induction false} RunStops(s: string, i: nat, j: nat, p: char -> bool)
    requires i <= j <= |s|
    requires forall k :: i <= k < j ==> p(s[k])
    requires j == |s| || !p(s[j])
    ensures Run(s, i, p) == j
    decreases j - i
  {
    if i < j {
      RunStops(s, i + 1, j, p);
    }
  }

  /** The least position in `[lo, hi)` satisfying `p`. */
  function First(lo: nat, hi: nat, p: nat -> bool): (r: Option<nat>)
    ensures r.Some? ==> lo <= r.value < hi && p(r.value)
    ensures r.Some? ==> forall k :: lo <= k < r.value ==> !p(k)
    ensures r.None? ==> forall k :: lo <= k < hi ==> !p(k)
    decreases hi - lo
  {
    if lo >= hi then None else if p(lo) then Some(lo) else First(lo + 1, hi, p)
  }

  /** A search is determined by the first position that satisfies it. */
  lemma {:induction false} FirstIs(lo: nat, hi: nat, p: nat -> bool, k: nat)
    requires lo <= k < hi && p(k)
    requires forall j :: lo <= j < k ==> !p(j)
    ensures First(lo, hi, p) == Some(k)
    decreases k - lo
  {
    if lo < k {
      FirstIs(lo + 1, hi, p, k);
    }
  }

  predicate NotParen(c: char) { c != '(' }

  predicate NotBlank(c: char) { c != ' ' }

  /** `[A-Z\_\|]`, the characters of an `open` flag list. */
  predicate IsFlag(c: char) { IsUpper(c) || c == '_' || c == '|' }

  /** The decimal value of a run of digits, as `int()` reads it. */
  function DigitsValue(s: string): (n: nat)
    decreases |s|
  {
    if s == [] then 0 else 10 * DigitsValue(s[..|s| - 1]) + (s[|s| - 1] as int - '0' as int) % 10
  }

  predicate AllDigits(s: string) {
    forall i :: 0 <= i < |s| ==> IsDigit(s[i])
  }

  /** Python 2's `int(s)` on a byte string: blanks, an optional sign,
      blanks again, at least one digit, and trailing blanks. `int` reads
      the sign and then the unsigned digits, and each step skips the
      blanks in front of it, so '- 12' is -12. Anything else is a
      `ValueError`. */
  function ParseInt(s: string): (r: Option<int>)
    ensures r.Some? ==> exists k :: 0 <= k < |s| && IsDigit(s[k])
    ensures r.Some? && r.value < 0 ==> '-' in s
  {
    var t := Strip(s);
    var r := ParseStripped(t);
    if r.Some? then
      DigitIn(s, t);
      assert t[0] in t;
      r
    else r
  }

  /** `int` on text that neither starts nor ends with a blank. */
  function ParseStripped(t: string): (r: Option<int>)
    ensures r.Some? ==> t != [] && exists k :: 0 <= k < |t| && IsDigit(t[k])
    ensures r.Some? && r.value < 0 ==> t[0] == '-'
  {
    if t != [] && (t[0] == '-' || t[0] == '+') then
      var u := LStripSpace(t[1..]);
      var r := SignedValue(t[0], u);
      if r.Some? then
        assert IsDigit(t[|t| - |u|]);
        r
      else r
    else if t != [] && AllDigits(t) then
      assert IsDigit(t[0]);
      Some(DigitsValue(t))
    else None
  }

  /** Blanks between the sign and the digits are skipped: a sign, any
      blanks and a run of digits read as the signed value of the digits,
      so '- 12' is -12. */
  lemma ParseIntBlankAfterSign(sign: char, blanks: string, d: string)
    requires sign == '-' || sign == '+'
    requires forall i :: 0 <= i < |blanks| ==> IsSpace(blanks[i])
    requires d != [] && AllDigits(d)
    ensures sign == '-' ==> ParseInt([sign] + blanks + d) == Some(-(DigitsValue(d) as int))
    ensures sign == '+' ==> ParseInt([sign] + blanks + d) == Some(DigitsValue(d))
  {
    var s := [sign] + blanks + d;
    StripUnblanked(s);
    assert s[1..] == blanks + d;
    LStripBlanks(blanks, d);
    StrippedSigned(s, d);
    SignedValueOf(sign, d);
  }

  /** The digits after a sign, with the blanks in between already
      skipped: their value, negated after a minus. */
  function SignedValue(sign: char, u: string): (r: Option<int>)
    ensures r.Some? <==> u != [] && AllDigits(u)
    ensures r.Some? && r.value < 0 ==> sign == '-'
  {
    if u != [] && AllDigits(u) then
      var n: int := DigitsValue(u);
      Some(if sign == '-' then -n else n)
    else None
  }

  /** The signed branch of `ParseStripped`. */
  lemma StrippedSigned(t: string, d: string)
    requires t != [] && (t[0] == '-' || t[0] == '+')
    requires LStripSpace(t[1..]) == d && d != [] && AllDigits(d)
    ensures ParseStripped(t) == SignedValue(t[0], d)
  {
  }

  /** The value after each sign. */
  lemma SignedValueOf(sign: char, d: string)
    requires d != [] && AllDigits(d)
    ensures sign == '-' ==> SignedValue(sign, d) == Some(-(DigitsValue(d) as int))
    ensures sign == '+' ==> SignedValue(sign, d) == Some(DigitsValue(d))
  {
  }

  /** A string that neither starts nor ends with a blank is its own
      strip. */
  lemma StripUnblanked(s: string)
    requires s != [] && !IsSpace(s[0]) && !IsSpace(s[|s| - 1])
    ensures Strip(s) == s
  {
    assert LStripSpace(s) == s;
    assert RStripSpace(s) == s;
  }

  lemma {:induction false} LStripBlanks(blanks: string, d: string)
    requires forall i :: 0 <= i < |blanks| ==> IsSpace(blanks[i])
    requires d == [] || !IsSpace(d[0])
    ensures LStripSpace(blanks + d) == d
    decreases |blanks|
  {
    if blanks != [] {
      assert (blanks + d)[1..] == blanks[1..] + d;
      LStripBlanks(blanks[1..], d);
    }
  }

  /** A sign with no digits after it is a `ValueError`. */
  lemma ParseIntBareSign()
    ensures ParseInt("- ") == None
  {
    var s := "- ";
    assert RStripSpace(s) == RStripSpace(s[..1]) == "-";
    assert LStripSpace(s) == s;
    assert Strip(s) == "-";
    assert "-"[1..] == [];
  }

  /** A blank between two digits is a `ValueError`. */
  lemma ParseIntInnerBlank()
    ensures ParseInt("1 2") == None
  {
    var s := "1 2";
    assert LStripSpace(s) == s;
    assert RStripSpace(s) == s;
    assert Strip(s) == s;
    assert !IsDigit(s[1]);
  }

  /** A digit of the stripped string is a digit of the string. */
  lemma DigitIn(s: string, t: string)
    requires exists i :: 0 <= i < |t| && IsDigit(t[i])
    requires forall c :: c in t ==> c in s
    ensures exists k :: 0 <= k < |s| && IsDigit(s[k])
  {
    var i :| 0 <= i < |t| && IsDigit(t[i]);
    assert t[i] in t;
    var k :| 0 <= k < |s| && s[k] == t[i];
  }

  /** `str(n)`: the decimal digits of `n`, without leading zeros. */
  function Decimal(n: nat): (r: string)
    ensures r != [] && AllDigits(r)
  {
    if n < 10 then [('0' as int + n) as char]
    else Decimal(n / 10) + [('0' as int + n % 10) as char]
  }

  lemma {:induction false} DecimalValue(n: nat)
    ensures DigitsValue(Decimal(n)) == n
  {
    if n >= 10 {
      DecimalValue(n / 10);
      var d := Decimal(n);
      assert d[..|d| - 1] == Decimal(n / 10);
    }
  }

  /** `int(str(n))` gives `n` back: the pid a clone returns reads back as
      the child's pid. */
  lemma ParseIntDecimal(n: nat)
    ensures ParseInt(Decimal(n)) == Some(n)
  {
    DecimalValue(n);
    var d := Decimal(n);
    assert IsDigit(d[0]) && IsDigit(d[|d| - 1]);
    StripUnblanked(d);
    assert ParseInt(d) == ParseStripped(d);
    assert d[0] != '-' && d[0] != '+';
  }

  // ---------------------------------------------------------------------
  // Line patterns

  /** `^(\d+)\s+`: where the pid ends and where the blanks after it end. */
  datatype Lead = Lead(pidEnd: nat, blanksEnd: nat)

  function LeadOf(line: string): (r: Option<Lead>)
    ensures r.Some? ==> 0 < r.value.pidEnd < r.value.blanksEnd <= |line|
    ensures r.Some? ==> AllDigits(line[..r.value.pidEnd])
    ensures r.Some? ==> IsSpace(line[r.value.blanksEnd - 1])
    ensures r.Some? ==> r.value.blanksEnd == |line| || !IsSpace(line[r.value.blanksEnd])
  {
    var d := Run(line, 0, IsDigit);
    var w := Run(line, d, IsSpace);
    if d == 0 || w == d then None else Some(Lead(d, w))
  }

  /** `\s+([^\(]+)` after the pid: the name runs up to the first '(' or
      the end of the line. When the first '(' comes straight after the
      blanks, the blanks give up their last character to the name, which
      needs one. Returns where the name starts and ends. */
  function NameOf(line: string, lead: Lead): (r: Option<(nat, nat)>)
    requires 0 < lead.pidEnd < lead.blanksEnd <= |line|
    requires IsSpace(line[lead.blanksEnd - 1])
    ensures r.Some? ==> lead.pidEnd < r.value.0 < r.value.1 <= |line|
    ensures r.Some? ==> '(' !in line[r.value.0..r.value.1]
    ensures r.Some? ==> r.value.1 == |line| || line[r.value.1] == '('
  {
    var e := Run(line, lead.blanksEnd, NotParen);
    if lead.blanksEnd < e then Some((lead.blanksEnd, e))
    else if lead.pidEnd < lead.blanksEnd - 1 then Some((lead.blanksEnd - 1, e))
    else None
  }

  /** One system call: `pid name(args) = result`. */
  datatype Call = Call(pid: string, name: string, args: string, result: string)

  /** `\)\s+= (.+)$` matches from `q`. */
  predicate CloseAt(line: string, q: nat) {
    q < |line| && line[q] == ')' &&
    var v := Run(line, q + 1, IsSpace);
    q + 1 < v && v + 2 < |line| && line[v] == '=' && line[v + 1] == ' '
  }

  /** Where the arguments may end. */
  function CloseAfter(line: string): nat -> bool {
    (q: nat) => CloseAt(line, q)
  }

  /** `RE_HEADER`: `^(\d+)\s+([^\(]+)\((.+?)\)\s+= (.+)$`. The arguments
      end at the first ')' that is followed by blanks, '= ' and a
      result. */
  function HeaderOf(line: string): (r: Option<Call>)
    ensures r.Some? ==> r.value.pid != [] && AllDigits(r.value.pid) && StartsWith(line, r.value.pid)
    ensures r.Some? ==> r.value.name != [] && '(' !in r.value.name
    ensures r.Some? ==> r.value.args != [] && r.value.result != [] && EndsWith(line, r.value.result)
  {
    match LeadOf(line)
    case None => None
    case Some(lead) =>
      match NameOf(line, lead)
      case None => None
      case Some((n, e)) => CallFrom(line, line[..lead.pidEnd], line[n..e], e)
  }

  /** The rest of `RE_HEADER` once the pid and the name are read, with
      the name ending at `e`. */
  function CallFrom(line: string, pid: string, name: string, e: nat): (r: Option<Call>)
    requires e <= |line|
    ensures r.Some? ==> r.value.pid == pid && r.value.name == name
    ensures r.Some? ==> r.value.args != [] && r.value.result != [] && EndsWith(line, r.value.result)
  {
    if e == |line| then None
    else
      match First(e + 2, |line|, CloseAfter(line))
      case None => None
      case Some(q) =>
        var v := Run(line, q + 1, IsSpace);
        Some(Call(pid, name, line[e + 1..q], line[v + 2..]))
  }

  /** The line strace writes for a finished call. */
  function CallLine(c: Call): string {
    c.pid + (" " + (c.name + ("(" + (c.args + (") = " + c.result)))))
  }

  /** The calls whose line reads back unchanged: a name that does not
      start with a blank and holds no '(', arguments without ')'. */
  predicate Plain(c: Call) {
    && c.pid != [] && AllDigits(c.pid)
    && c.name != [] && !IsSpace(c.name[0]) && '(' !in c.name
    && c.args != [] && ')' !in c.args
    && c.result != []
  }

  /** `^(\d+)\s+` on digits up to `d` and a single blank. */
  lemma LeadAt(line: string, d: nat)
    requires 0 < d && d + 1 < |line|
    requires forall k :: 0 <= k < d ==> IsDigit(line[k])
    requires line[d] == ' ' && !IsSpace(line[d + 1])
    ensures LeadOf(line) == Some(Lead(d, d + 1))
  {
    RunStops(line, 0, d, IsDigit);
    RunStops(line, d, d + 1, IsSpace);
  }

  /** The name after a single blank runs up to the first '('. */
  lemma NameAt(line: string, d: nat, e: nat)
    requires 0 < d && d + 1 < e < |line| && IsSpace(line[d])
    requires forall k :: d + 1 <= k < e ==> line[k] != '('
    requires line[e] == '('
    ensures NameOf(line, Lead(d, d + 1)) == Some((d + 1, e))
  {
    RunStops(line, d + 1, e, NotParen);
  }

  /** The arguments end at the first ')' followed by ' = '. */
  lemma ArgsAt(line: string, e: nat, q: nat)
    requires e + 2 <= q && q + 4 < |line|
    requires forall k :: e + 1 <= k < q ==> line[k] != ')'
    requires line[q] == ')' && line[q + 1] == ' ' && line[q + 2] == '=' && line[q + 3] == ' '
    ensures forall pid, name :: CallFrom(line, pid, name, e) == Some(Call(pid, name, line[e + 1..q], line[q + 4..]))
  {
    RunStops(line, q + 1, q + 2, IsSpace);
    assert CloseAfter(line)(q);
    FirstIs(e + 2, |line|, CloseAfter(line), q);
  }

  /** A line laid out as a call, by positions: digits up to `d`, one
      blank, the name up to the '(' at `e`, arguments without ')' up to
      `q`, then ') = ' and the result. */
  lemma HeaderAt(line: string, d: nat, e: nat, q: nat)
    requires 0 < d && d + 1 < e && e + 2 <= q && q + 4 < |line|
    requires forall k :: 0 <= k < d ==> IsDigit(line[k])
    requires line[d] == ' ' && !IsSpace(line[d + 1])
    requires forall k :: d + 1 <= k < e ==> line[k] != '('
    requires line[e] == '('
    requires forall k :: e + 1 <= k < q ==> line[k] != ')'
    requires line[q] == ')' && line[q + 1] == ' ' && line[q + 2] == '=' && line[q + 3] == ' '
    ensures HeaderOf(line) == Some(Call(line[..d], line[d + 1..e], line[e + 1..q], line[q + 4..]))
  {
    LeadAt(line, d);
    NameAt(line, d, e);
    ArgsAt(line, e, q);
  }

  /** The pieces of a call's line. */
  lemma CallPieces(c: Call)
    ensures var line := CallLine(c);
      var d := |c.pid|;
      var e := d + 1 + |c.name|;
      var q := e + 1 + |c.args|;
      && |line| == q + 4 + |c.result|
      && line[..d] == c.pid && line[d] == ' ' && line[d + 1..e] == c.name && line[e] == '('
      && line[e + 1..q] == c.args && line[q..q + 4] == ") = " && line[q + 4..] == c.result
  {
    var r5 := ") = " + c.result;
    var r4 := c.args + r5;
    var r3 := "(" + r4;
    var r2 := c.name + r3;
    var r1 := " " + r2;
    var line := c.pid + r1;
    var d := |c.pid|;
    var e := d + 1 + |c.name|;
    assert line[d..] == r1 && r1[1..] == r2 && line[d + 1..] == r2;
    assert line[e..] == r3 && r3[1..] == r4 && line[e + 1..] == r4;
  }

  /** The characters of a plain call's line, by position. */
  lemma CallLayout(c: Call)
    requires Plain(c)
    ensures var line := CallLine(c);
      var d := |c.pid|;
      var e := d + 1 + |c.name|;
      var q := e + 1 + |c.args|;
      && (forall k :: 0 <= k < d ==> IsDigit(line[k]))
      && line[d] == ' ' && !IsSpace(line[d + 1])
      && (forall k :: d + 1 <= k < e ==> line[k] != '(')
      && line[e] == '('
      && (forall k :: e + 1 <= k < q ==> line[k] != ')')
      && line[q] == ')' && line[q + 1] == ' ' && line[q + 2] == '=' && line[q + 3] == ' '
  {
    var line := CallLine(c);
    var d := |c.pid|;
    var e := d + 1 + |c.name|;
    var q := e + 1 + |c.args|;
    CallPieces(c);
    forall k | 0 <= k < d ensures IsDigit(line[k]) {
      assert line[k] == line[..d][k];
    }
    forall k | d + 1 <= k < e ensures line[k] != '(' {
      assert line[k] == line[d + 1..e][k - d - 1];
    }
    forall k | e + 1 <= k < q ensures line[k] != ')' {
      assert line[k] == line[e + 1..q][k - e - 1];
    }
    assert line[d + 1] == line[d + 1..e][0];
    assert line[q] == line[q..q + 4][0] && line[q + 1] == line[q..q + 4][1];
    assert line[q + 2] == line[q..q + 4][2] && line[q + 3] == line[q..q + 4][3];
  }

  /** A call written the way strace writes it reads back as that call. */
  lemma HeaderRoundTrip(c: Call)
    requires Plain(c)
    ensures HeaderOf(CallLine(c)) == Some(c)
  {
    var line := CallLine(c);
    var d := |c.pid|;
    var e := d + 1 + |c.name|;
    var q := e + 1 + |c.args|;
    CallPieces(c);
    var parsed := Call(line[..d], line[d + 1..e], line[e + 1..q], line[q + 4..]);
    assert parsed.pid == c.pid && parsed.name == c.name;
    assert parsed.args == c.args && parsed.result == c.result;
    assert parsed == c;
    CallLayout(c);
    HeaderAt(line, d, e, q);
  }

  /** `RE_UNFINISHED`: `^(\d+)\s+([^\(]+).*$`: the pid and the name. */
  function UnfinishedOf(line: string): (r: Option<(string, string)>)
    ensures r.Some? ==> r.value.0 != [] && AllDigits(r.value.0) && r.value.1 != []
  {
    match LeadOf(line)
    case None => None
    case Some(lead) =>
      match NameOf(line, lead)
      case None => None
      case Some((n, e)) => Some((line[..lead.pidEnd], line[n..e]))
  }

  /** `RE_RESUMED`: `^(\d+)\s+<\.\.\. ([^ ]+) resumed> (.+)$`: the pid,
      the name and the rest of the call. */
  function ResumedOf(line: string): (r: Option<(string, string, string)>)
    ensures r.Some? ==> r.value.0 != [] && AllDigits(r.value.0) && r.value.1 != [] && r.value.2 != []
    ensures r.Some? ==> EndsWith(line, r.value.2)
  {
    match LeadOf(line)
    case None => None
    case Some(lead) =>
      var w := lead.blanksEnd;
      if !StartsWith(line[w..], "<... ") then None
      else
        var e := Run(line, w + 5, NotBlank);
        if e == w + 5 || !StartsWith(line[e..], " resumed> ") || |line| <= e + 10 then None
        else Some((line[..lead.pidEnd], line[w + 5..e], line[e + 10..]))
  }

  /** `RE_SIGNAL`: `^\d+\s+--- SIG[A-Z]+ .+ ---`. */
  function IsSignal(line: string): (r: bool)
    ensures r ==> LeadOf(line).Some?
    ensures r ==> exists k :: LeadOf(line).value.pidEnd < k < |line| && StartsWith(line[k..], "--- SIG")
  {
    match LeadOf(line)
    case None => false
    case Some(lead) => SignalAfter(line, lead.blanksEnd)
  }

  /** From `w` on, `--- SIG`, a run of capitals, a blank, and a closing
      ` ---` somewhere after the next character. */
  predicate SignalAfter(line: string, w: nat)
    requires w <= |line|
  {
    StartsWith(line[w..], "--- SIG") &&
    var u := Run(line, w + 7, IsUpper);
    w + 7 < u < |line| && line[u] == ' ' &&
    First(u + 2, |line|, SignalClose(line)).Some?
  }

  /** Where the closing ` ---` of a signal report may start. */
  function SignalClose(line: string): nat -> bool {
    (k: nat) => k <= |line| && StartsWith(line[k..], " ---")
  }

  /** A signal report as strace writes it, `pid --- SIGNAME info ---`, is
      recognised. */
  lemma SignalRecognised(pid: string, sig: string, info: string)
    requires pid != [] && AllDigits(pid)
    requires sig != [] && forall k :: 0 <= k < |sig| ==> IsUpper(sig[k])
    requires info != []
    ensures IsSignal(pid + " --- SIG" + sig + " " + info + " ---")
  {
    var tail := sig + " " + info + " ---";
    var line := pid + " --- SIG" + sig + " " + info + " ---";
    assert line == pid + " " + ("--- SIG" + tail);
    SignalLead(pid, "--- SIG" + tail);
    SignalLine(line, Lead(|pid|, |pid| + 1), tail, sig, info);
  }

  /** After the lead, `--- SIG` and the report's tail complete the
      pattern. */
  lemma SignalLine(line: string, lead: Lead, tail: string, sig: string, info: string)
    requires LeadOf(line) == Some(lead)
    requires sig != [] && forall k :: 0 <= k < |sig| ==> IsUpper(sig[k])
    requires info != [] && tail == sig + " " + info + " ---"
    requires lead.blanksEnd <= |line| && line[lead.blanksEnd..] == "--- SIG" + tail
    ensures IsSignal(line)
  {
    var w := lead.blanksEnd;
    assert ("--- SIG" + tail)[..7] == "--- SIG";
    assert line[w + 7..] == line[w..][7..] == tail;
    SignalTail(line, w, sig, info);
  }

  /** The lead of a line whose pid is followed by one blank and a dash. */
  lemma SignalLead(pid: string, rest: string)
    requires pid != [] && AllDigits(pid)
    requires rest != [] && rest[0] == '-'
    ensures LeadOf(pid + " " + rest) == Some(Lead(|pid|, |pid| + 1))
  {
    var line := pid + " " + rest;
    assert line[|pid|] == ' ' && line[|pid| + 1] == '-';
    assert forall k :: 0 <= k < |pid| ==> line[k] == pid[k];
    RunStops(line, 0, |pid|, IsDigit);
    RunStops(line, |pid|, |pid| + 1, IsSpace);
  }

  /** After `--- SIG` at `w`, `SIGNAME info ---` completes the signal
      pattern. */
  lemma SignalTail(line: string, w: nat, sig: string, info: string)
    requires w + 7 <= |line| && StartsWith(line[w..], "--- SIG")
    requires line[w + 7..] == sig + " " + info + " ---"
    requires sig != [] && forall k :: 0 <= k < |sig| ==> IsUpper(sig[k])
    requires info != []
    ensures SignalAfter(line, w)
  {
    var v := w + 7;
    var u := v + |sig|;
    var t := line[v..];
    assert t[..|sig|] == sig && t[|sig|] == ' ';
    assert forall k :: v <= k < u ==> line[k] == t[k - v];
    RunStops(line, v, u, IsUpper);
    var e := |line| - 4;
    assert line[e..] == t[|t| - 4..] == " ---";
    assert SignalClose(line)(e);
  }

  /** `RE_KILLED`: `^(\d+)\s+\+\+\+ killed by ([A-Z]+) \+\+\+$`: the
      pid. */
  function KilledOf(line: string): (r: Option<string>)
    ensures r.Some? ==> r.value != [] && AllDigits(r.value) && EndsWith(line, " +++")
  {
    match LeadOf(line)
    case None => None
    case Some(lead) =>
      var w := lead.blanksEnd;
      if !StartsWith(line[w..], "+++ killed by ") then None
      else
        var u := Run(line, w + 14, IsUpper);
        if w + 14 < u && line[u..] == " +++" then Some(line[..lead.pidEnd]) else None
  }

  /** `RE_UNAVAILABLE`, `\)\s+= \? <unavailable>$`, matches from `q`. */
  predicate UnavailableAt(line: string, q: nat) {
    q < |line| && line[q] == ')' &&
    var v := Run(line, q + 1, IsSpace);
    q + 1 < v && line[v..] == "= ? <unavailable>"
  }

  /** Where a cancelled call may be reported. */
  function UnavailableFrom(line: string): nat -> bool {
    (q: nat) => UnavailableAt(line, q)
  }

  /** `UNFINISHED`, the end of a call strace interrupts. */
  const UNFINISHED := " <unfinished ...>"

  // ---------------------------------------------------------------------
  // Argument patterns

  /** `RE_CHDIR`: `^"(.+?)"$`: the quoted directory. The lazy group can
      only stop at the last character. */
  function ChdirArg(args: string): (r: Option<string>)
    ensures r.Some? ==> args == "\"" + r.value + "\"" && r.value != []
  {
    if |args| >= 3 && args[0] == '"' && args[|args| - 1] == '"' then
      var dir := args[1..|args| - 1];
      assert args == "\"" + dir + "\"";
      Some(dir)
    else None
  }

  /** A quoted group closed at `i` by `sep`: the prefix of `s` up to `j`
      is the quote, the group, `sep` and what follows it. */
  lemma Framed(s: string, i: nat, sep: string, j: nat)
    requires s != [] && s[0] == '"' && 1 <= i && i + |sep| <= j <= |s| && s[i..i + |sep|] == sep
    ensures s[..j] == "\"" + s[1..i] + sep + s[i + |sep|..j]
  {
    assert s[..j] == s[..1] + s[1..i] + s[i..i + |sep|] + s[i + |sep|..j];
  }

  /** The rest of `RE_EXECVE` from `i`: `", \[.+?\], \[.+?\]$`. */
  predicate ExecveAt(s: string, i: nat) {
    i <= |s| && StartsWith(s[i..], "\", [") &&
    var t := s[i + 4..];
    EndsWith(t, "]") && First(1, |t|, (j: nat) => j + 6 <= |t| && StartsWith(t[j..], "], [")).Some?
  }

  /** `RE_EXECVE`: `^"(.+?)", \[.+?\], \[.+?\]$`: the executable. */
  function ExecveArg(s: string): (r: Option<string>)
    ensures r.Some? ==> r.value != [] && StartsWith(s, "\"" + r.value + "\", [")
  {
    if s == [] || s[0] != '"' then None
    else
      match First(2, |s|, (i: nat) => ExecveAt(s, i))
      case None => None
      case Some(i) =>
        Framed(s, i, "\", [", i + 4);
        Some(s[1..i])
  }

  /** The flag list that ends `RE_OPEN2`, `([A-Z\_\|]+)$`. */
  predicate Open2At(s: string, i: nat) {
    i <= |s| && StartsWith(s[i..], "\", ") &&
    var t := s[i + 3..];
    t != [] && Run(t, 0, IsFlag) == |t|
  }

  /** What ends `RE_OPEN3`, `([A-Z\_\|]+), (\d+)$`. */
  predicate Open3At(s: string, i: nat) {
    i <= |s| && StartsWith(s[i..], "\", ") &&
    var t := s[i + 3..];
    var f := Run(t, 0, IsFlag);
    0 < f && StartsWith(t[f..], ", ") && f + 2 < |t| && Run(t, f + 2, IsDigit) == |t|
  }

  /** `RE_OPEN3`: `^"(.*?)", ([A-Z\_\|]+), (\d+)$`: the path and the
      flags. */
  function Open3Args(s: string): (r: Option<(string, string)>)
    ensures r.Some? ==> StartsWith(s, "\"" + r.value.0 + "\", " + r.value.1)
  {
    if s == [] || s[0] != '"' then None
    else
      match First(1, |s|, (i: nat) => Open3At(s, i))
      case None => None
      case Some(i) =>
        var t := s[i + 3..];
        var f := Run(t, 0, IsFlag);
        Framed(s, i, "\", ", i + 3 + f);
        assert t[..f] == s[i + 3..i + 3 + f];
        Some((s[1..i], t[..f]))
  }

  /** `RE_OPEN2`: `^"(.*?)", ([A-Z\_\|]+)$`: the path and the flags. */
  function Open2Args(s: string): (r: Option<(string, string)>)
    ensures r.Some? ==> s == "\"" + r.value.0 + "\", " + r.value.1
  {
    if s == [] || s[0] != '"' then None
    else
      match First(1, |s|, (i: nat) => Open2At(s, i))
      case None => None
      case Some(i) =>
        Framed(s, i, "\", ", |s|);
        Some((s[1..i], s[i + 3..]))
  }

  /** `(RE_OPEN3.match(args) or RE_OPEN2.match(args)).groups()[:2]`: the
      path, which may be empty, and the flags. */
  function OpenArgs(s: string): (r: Option<(string, string)>)
    ensures r.Some? ==> StartsWith(s, "\"" + r.value.0 + "\", " + r.value.1)
  {
    if Open3Args(s).Some? then Open3Args(s) else Open2Args(s)
  }

  /** The rest of `RE_RENAME` from `i`: `", "(.+?)"$`. */
  predicate RenameAt(s: string, i: nat) {
    i + 6 <= |s| && s[i..i + 4] == "\", \"" && s[|s| - 1] == '"'
  }

  /** `RE_RENAME`: `^"(.+?)", "(.+?)"$`: the old and the new path. */
  function RenameArgs(s: string): (r: Option<(string, string)>)
    ensures r.Some? ==> s == "\"" + r.value.0 + "\", \"" + r.value.1 + "\""
    ensures r.Some? ==> r.value.0 != [] && r.value.1 != []
  {
    if s == [] || s[0] != '"' then None
    else
      match First(2, |s|, (i: nat) => RenameAt(s, i))
      case None => None
      case Some(i) =>
        assert s == "\"" + s[1..i] + "\", \"" + s[i + 4..|s| - 1] + "\"";
        Some((s[1..i], s[i + 4..|s| - 1]))
  }
}

=== FILE: text.dfy ===
/** Python 2 byte-string operations used by the tools, on `string`
    (`seq<char>`). Character classes are ASCII, as `str.lower`,
    `str.upper`, `str.strip` and the regular-expression classes `[a-z]`
    and `[A-Z]` are on byte strings. */
module Text {

  predicate IsLower(c: char) { 'a' <= c <= 'z' }

  predicate IsUpper(c: char) { 'A' <= c <= 'Z' }

  predicate IsDigit(c: char) { '0' <= c <= '9' }

  /** The characters `str.strip()` removes: space, \t, \n, \r, \v, \f. */
  predicate IsSpace(c: char) {
    c == ' ' || c == '\t' || c == '\n' || c == '\r' || c == 11 as char || c == 12 as char
  }

  function LowerChar(c: char): (r: char)
    ensures !IsUpper(r)
    ensures IsUpper(c) ==> IsLower(r)
    ensures !IsUpper(c) ==> r == c
  {
    if IsUpper(c) then (c as int + 32) as char else c
  }

  function UpperChar(c: char): (r: char)
    ensures !IsLower(r)
    ensures IsLower(c) ==> IsUpper(r)
    ensures !IsLower(c) ==> r == c
  {
    if IsLower(c) then (c as int - 32) as char else c
  }

  /** `s.lower()` */
  function Lower(s: string): (r: string)
    ensures |r| == |s|
    ensures forall i :: 0 <= i < |s| ==> r[i] == LowerChar(s[i])
  {
    if s == [] then [] else [LowerChar(s[0])] + Lower(s[1..])
  }

  /** `s.upper()` */
  function Upper(s: string): (r: string)
    ensures |r| == |s|
    ensures forall i :: 0 <= i < |s| ==> r[i] == UpperChar(s[i])
  {
    if s == [] then [] else [UpperChar(s[0])] + Upper(s[1..])
  }

  /** `s.replace(a, b)` for a one-character `a` and one-character `b`. */
  function ReplaceChar(s: string, a: char, b: char): (r: string)
    ensures |r| == |s|
    ensures forall i :: 0 <= i < |s| ==> r[i] == (if s[i] == a then b else s[i])
  {
    if s == [] then [] else [if s[0] == a then b else s[0]] + ReplaceChar(s[1..], a, b)
  }

  /** `s.replace(c, t)` for a one-character `c`. */
  function Replace(s: string, c: char, t: string): (r: string)
    ensures c !in t ==> c !in r
    ensures c !in s ==> r == s
  {
    if s == [] then [] else (if s[0] == c then t else [s[0]]) + Replace(s[1..], c, t)
  }

  lemma {:induction false} ReplaceAppend(a: string, b: string, c: char, t: string)
    ensures Replace(a + b, c, t) == Replace(a, c, t) + Replace(b, c, t)
  {
    if a != [] {
      var h := if a[0] == c then t else [a[0]];
      assert (a + b)[0] == a[0] && (a + b)[1..] == a[1..] + b;
      assert Replace(a + b, c, t) == h + Replace(a[1..] + b, c, t);
      ReplaceAppend(a[1..], b, c, t);
      assert Replace(a, c, t) == h + Replace(a[1..], c, t);
      ConcatAssoc(h, Replace(a[1..], c, t), Replace(b, c, t));
    } else {
      assert a + b == b;
    }
  }

  lemma ReplaceCharAbsent(s: string, a: char, b: char)
    requires a !in s
    ensures ReplaceChar(s, a, b) == s
  {
  }

  predicate StartsWith(s: string, p: string) {
    |p| <= |s| && s[..|p|] == p
  }

  predicate EndsWith(s: string, p: string) {
    |p| <= |s| && s[|s| - |p|..] == p
  }

  /** `sub in s` */
  predicate Contains(s: string, sub: string) {
    StartsWith(s, sub) || (s != [] && Contains(s[1..], sub))
  }

  predicate HasChar(s: string, c: char) {
    c in s
  }

  /** `s.rstrip(c)` for a single character `c`. */
  function RStripChar(s: string, c: char): (r: string)
    ensures |r| <= |s| && r == s[..|r|]
    ensures r == [] || r[|r| - 1] != c
    ensures forall i :: |r| <= i < |s| ==> s[i] == c
  {
    if s == [] || s[|s| - 1] != c then s else RStripChar(s[..|s| - 1], c)
  }

  function LStripSpace(s: string): (r: string)
    ensures |r| <= |s| && r == s[|s| - |r|..]
    ensures r == [] || !IsSpace(r[0])
    ensures forall i :: 0 <= i < |s| - |r| ==> IsSpace(s[i])
  {
    if s == [] || !IsSpace(s[0]) then s else LStripSpace(s[1..])
  }

  function RStripSpace(s: string): (r: string)
    ensures |r| <= |s| && r == s[..|r|]
    ensures r == [] || !IsSpace(r[|r| - 1])
    ensures forall i :: |r| <= i < |s| ==> IsSpace(s[i])
  {
    if s == [] || !IsSpace(s[|s| - 1]) then s else RStripSpace(s[..|s| - 1])
  }

  /** `s.strip()`: the longest slice of `s` that neither starts nor ends
      with whitespace, found by dropping whitespace at both ends. */
  function Strip(s: string): (r: string)
    ensures r == [] || (!IsSpace(r[0]) && !IsSpace(r[|r| - 1]))
    ensures |r| <= |s|
    ensures forall c :: c in r ==> c in s
    ensures (forall i :: 0 <= i < |s| ==> !IsSpace(s[i])) ==> r == s
  {
    StripFacts(s);
    RStripSpace(LStripSpace(s))
  }

  lemma StripFacts(s: string)
    ensures var r := RStripSpace(LStripSpace(s));
      && (r == [] || (!IsSpace(r[0]) && !IsSpace(r[|r| - 1])))
      && |r| <= |s|
      && (forall c :: c in r ==> c in s)
      && ((forall i :: 0 <= i < |s| ==> !IsSpace(s[i])) ==> r == s)
  {
    var l := LStripSpace(s);
    var r := RStripSpace(l);
    StripFront(s, l, r);
    StripUnchanged(s);
  }

  /** What is left of a string that does not start with whitespace, once
      its tail is cut, still does not, and holds only characters of the
      string it was cut from. */
  lemma StripFront(s: string, l: string, r: string)
    requires |l| <= |s| && l == s[|s| - |l|..]
    requires |r| <= |l| && r == l[..|r|]
    requires l == [] || !IsSpace(l[0])
    ensures r == [] || !IsSpace(r[0])
    ensures forall c :: c in r ==> c in s
  {
    forall c | c in r ensures c in s {
      var i :| 0 <= i < |r| && r[i] == c;
      assert l[i] == c;
      assert s[|s| - |l| + i] == c;
    }
  }

  /** Nothing is stripped from a string without whitespace. */
  lemma StripUnchanged(s: string)
    ensures (forall i :: 0 <= i < |s| ==> !IsSpace(s[i])) ==> RStripSpace(LStripSpace(s)) == s
  {
    if forall i :: 0 <= i < |s| ==> !IsSpace(s[i]) {
      assert s == [] || !IsSpace(s[0]);
      assert LStripSpace(s) == s;
      assert s == [] || !IsSpace(s[|s| - 1]);
    }
  }

  /** Removes every occurrence of `c` (`s.replace(c, '')`). */
  function Remove(s: string, c: char): (r: string)
    ensures c !in r
    ensures |r| <= |s|
    ensures forall x :: x in r <==> x in s && x != c
  {
    if s == [] then []
    else if s[0] == c then Remove(s[1..], c)
    else [s[0]] + Remove(s[1..], c)
  }

  /** `s.split(sep)` for a one-character separator: always one more part
      than there are separators. */
  function Split(s: string, sep: char): (parts: seq<string>)
    ensures |parts| >= 1
    ensures forall i :: 0 <= i < |parts| ==> sep !in parts[i]
    decreases |s|
  {
    if sep !in s then [s]
    else
      var k := IndexOf(s, sep);
      [s[..k]] + Split(s[k + 1..], sep)
  }

  /** The first index of `c` in `s`. */
  function IndexOf(s: string, c: char): (k: nat)
    requires c in s
    ensures k < |s| && s[k] == c && c !in s[..k]
  {
    if s[0] == c then 0 else 1 + IndexOf(s[1..], c)
  }

  /** `sep.join(parts)` */
  function Join(parts: seq<string>, sep: string): (r: string)
  {
    if parts == [] then []
    else if |parts| == 1 then parts[0]
    else parts[0] + sep + Join(parts[1..], sep)
  }

  lemma JoinCons(head: string, tail: seq<string>, sep: string)
    requires |tail| >= 1
    ensures Join([head] + tail, sep) == head + sep + Join(tail, sep)
  {
    assert ([head] + tail)[1..] == tail;
  }

  /** `split` and `join` with the same separator are inverse. */
  lemma {:induction false} JoinSplit(s: string, sep: char)
    ensures Join(Split(s, sep), [sep]) == s
    decreases |s|
  {
    if sep in s {
      var k := IndexOf(s, sep);
      var rest := s[k + 1..];
      var tail := Split(rest, sep);
      JoinSplit(rest, sep);
      JoinCons(s[..k], tail, [sep]);
      assert s == s[..k] + [sep] + rest;
    }
  }

  /** Concatenation is associative; stating it for given operands spares the
      solver a search through sequence extensionality. */
  lemma ConcatAssoc<T>(a: seq<T>, b: seq<T>, c: seq<T>)
    ensures (a + b) + c == a + (b + c)
  {
  }

  /** Moving the first element of `b` to the end of `a`. */
  lemma ShiftFirst<T>(a: seq<T>, b: seq<T>)
    requires b != []
    ensures a + [b[0]] + b[1..] == a + b
    ensures (a + b)[|a|] == b[0]
  {
    assert b == [b[0]] + b[1..];
  }

  /** Deleting the element at `|a|` from `a + b`. */
  lemma DeleteAt<T>(a: seq<T>, b: seq<T>)
    requires b != []
    ensures (a + b)[..|a|] + (a + b)[|a| + 1..] == a + b[1..]
  {
    assert (a + b)[..|a|] == a;
    assert (a + b)[|a| + 1..] == b[1..];
  }

  /** A sequence is its first `i` elements followed by the rest. */
  lemma TakeDrop<T>(s: seq<T>, i: nat)
    requires i <= |s|
    ensures s[..i] + s[i..] == s
  {
  }

  /** A non-empty sequence is its front followed by its last element. */
  lemma SplitLast<T>(s: seq<T>)
    requires s != []
    ensures s == s[..|s| - 1] + [s[|s| - 1]]
  {
  }

  /** The first separator of `a + [sep] + b` is the one after `a`. */
  lemma {:induction false} IndexOfAfter(a: string, sep: char, b: string)
    requires sep !in a
    ensures IndexOf(a + [sep] + b, sep) == |a|
  {
    if a != [] {
      assert (a + [sep] + b)[1..] == a[1..] + [sep] + b;
      IndexOfAfter(a[1..], sep, b);
    }
  }

  /** `join` then `split` with a separator no part contains gives the parts
      back. */
  lemma {:induction false} SplitJoin(parts: seq<string>, sep: char)
    requires |parts| >= 1
    requires forall i :: 0 <= i < |parts| ==> sep !in parts[i]
    ensures Split(Join(parts, [sep]), sep) == parts
  {
    if |parts| > 1 {
      var rest := parts[1..];
      var j := Join(rest, [sep]);
      JoinCons(parts[0], rest, [sep]);
      assert parts == [parts[0]] + rest;
      var s := parts[0] + [sep] + j;
      IndexOfAfter(parts[0], sep, j);
      assert s[..|parts[0]|] == parts[0];
      assert s[|parts[0]| + 1..] == j;
      SplitJoin(rest, sep);
    }
  }

  /** `c * n`: `n` copies of `c`, a character or a whole path component. */
  function Repeat<T>(c: T, n: nat): (r: seq<T>)
    ensures |r| == n
    ensures forall i :: 0 <= i < n ==> r[i] == c
  {
    if n == 0 then [] else [c] + Repeat(c, n - 1)
  }

  /** The non-empty elements, in order (`[x for x in parts if x]`). */
  function NonEmpty(parts: seq<string>): (r: seq<string>)
    ensures |r| <= |parts|
    ensures forall i :: 0 <= i < |r| ==> r[i] != [] && r[i] in parts
    ensures forall x :: x in parts && x != [] ==> x in r
  {
    if parts == [] then []
    else if parts[0] == [] then NonEmpty(parts[1..])
    else [parts[0]] + NonEmpty(parts[1..])
  }

  // ---------------------------------------------------------------------
  // Python's ordering of byte strings: lexicographic, a proper prefix first.

  predicate Less(a: string, b: string)
    decreases |a|
  {
    if a == [] then b != []
    else if b == [] then false
    else if a[0] != b[0] then a[0] < b[0]
    else Less(a[1..], b[1..])
  }

  predicate LessEq(a: string, b: string) {
    a == b || Less(a, b)
  }

  lemma {:induction false} LessIrreflexive(a: string)
    ensures !Less(a, a)
    decreases |a|
  {
    if a != [] {
      LessIrreflexive(a[1..]);
    }
  }

  lemma {:induction false} LessTransitive(a: string, b: string, c: string)
    requires Less(a, b) && Less(b, c)
    ensures Less(a, c)
    decreases |a|
  {
    if a != [] && a[0] == b[0] && b[0] == c[0] {
      LessTransitive(a[1..], b[1..], c[1..]);
    }
  }

  lemma {:induction false} LessTotal(a: string, b: string)
    ensures a == b || Less(a, b) || Less(b, a)
    decreases |a|
  {
    if a != [] && b != [] && a[0] == b[0] {
      LessTotal(a[1..], b[1..]);
      assert a == [a[0]] + a[1..];
      assert b == [b[0]] + b[1..];
    }
  }

  lemma LessAsymmetric(a: string, b: string)
    requires Less(a, b)
    ensures !Less(b, a)
  {
    if Less(b, a) {
      LessTransitive(a, b, a);
      LessIrreflexive(a);
    }
  }
}

=== FILE: trace_inputs.dfy ===
/** The glue of `trace_inputs.py` around a parsed trace: the command fix-up,
    the blacklist handed to the log parser, the split of the traced files
    into those below the root and the others, the rebasing of each kept
    file onto `<(PRODUCT_DIR)/` or the directory of the `.gyp` file, and the
    split of the result into tracked files and untracked directories. */
module TraceInputs {
  import opened Wrappers
  import opened Python
  import opened Text
  import opened Paths
  import opened Json
  import opened Sorting
  import opened IsolateInputs
  import Strace
  import PrettyPrint

  /** `fix_python_path`: a script or a bare `python` is run by the
      interpreter running the tool. An empty command line raises. */
  function FixPythonPath(cmd: seq<string>, executable: string): (r: Result<seq<string>, PyError>)
    ensures r.Err? <==> cmd == []
    ensures r.Ok? && cmd[0] == "python" ==> r.value == [executable] + cmd[1..]
    ensures r.Ok? && cmd[0] != "python" && EndsWith(cmd[0], ".py") ==> r.value == [executable] + cmd
    ensures r.Ok? && cmd[0] != "python" && !EndsWith(cmd[0], ".py") ==> r.value == cmd
  {
    if cmd == [] then Err(IndexError("list index out of range"))
    else if cmd[0] == "python" then Ok([executable] + cmd[1..])
    else if EndsWith(cmd[0], ".py") then Ok([executable] + cmd)
    else Ok(cmd)
  }

  /** The arguments after the program always reach the program, and the
      fixed command line never shrinks. */
  lemma FixPythonPathKeepsArguments(cmd: seq<string>, executable: string)
    requires cmd != []
    ensures var out := FixPythonPath(cmd, executable).value;
      |cmd| <= |out| <= |cmd| + 1 && out[|out| - |cmd| + 1..] == cmd[1..]
  {
  }

  /** Fixing a fixed command line changes nothing once the interpreter is
      neither called `python` nor a `.py` file. */
  lemma FixPythonPathIdempotent(cmd: seq<string>, executable: string)
    requires cmd != []
    requires executable != "python" && !EndsWith(executable, ".py")
    ensures FixPythonPath(FixPythonPath(cmd, executable).value, executable) == FixPythonPath(cmd, executable)
  {
  }

  /** `f.startswith(prefixes)` for a tuple of prefixes. */
  predicate StartsWithAny(f: string, prefixes: seq<string>) {
    prefixes != [] && (StartsWith(f, prefixes[0]) || StartsWithAny(f, prefixes[1..]))
  }

  lemma {:induction false} StartsWithOne(f: string, prefixes: seq<string>, i: nat)
    requires i < |prefixes| && StartsWith(f, prefixes[i])
    ensures StartsWithAny(f, prefixes)
  {
    if i > 0 {
      StartsWithOne(f, prefixes[1..], i - 1);
    }
  }

  lemma {:induction false} StartsWithSome(f: string, prefixes: seq<string>)
    requires StartsWithAny(f, prefixes)
    ensures exists i :: 0 <= i < |prefixes| && StartsWith(f, prefixes[i])
  {
    if !StartsWith(f, prefixes[0]) {
      StartsWithSome(f, prefixes[1..]);
      var i :| 0 <= i < |prefixes| - 1 && StartsWith(f, prefixes[1..][i]);
      assert StartsWith(f, prefixes[i + 1]);
    }
  }

  const GIT_PATH := "/.git/"
  const SVN_PATH := "/.svn/"

  /** The `blacklist` closure: a system path, a compiled Python file or a
      file inside a Git or Subversion administrative directory. */
  predicate Blacklisted(f: string) {
    StartsWithAny(f, Strace.IGNORED) || EndsWith(f, ".pyc") || Contains(f, GIT_PATH) || Contains(f, SVN_PATH)
  }

  /** The ignored system directories are prefixes, not components: every
      string that starts with one of them is dropped. */
  lemma BlacklistedUnderIgnored(i: nat, rest: string)
    requires i < |Strace.IGNORED|
    ensures Blacklisted(Strace.IGNORED[i] + rest)
  {
    assert (Strace.IGNORED[i] + rest)[..|Strace.IGNORED[i]|] == Strace.IGNORED[i];
    StartsWithOne(Strace.IGNORED[i] + rest, Strace.IGNORED, i);
  }

  /** A blacklisted path is one of the four kinds, and only those. */
  lemma BlacklistedKinds(f: string)
    ensures Blacklisted(f) <==>
      (exists i :: 0 <= i < |Strace.IGNORED| && StartsWith(f, Strace.IGNORED[i]))
      || EndsWith(f, ".pyc") || Contains(f, GIT_PATH) || Contains(f, SVN_PATH)
  {
    if StartsWithAny(f, Strace.IGNORED) {
      StartsWithSome(f, Strace.IGNORED);
    }
    if exists i :: 0 <= i < |Strace.IGNORED| && StartsWith(f, Strace.IGNORED[i]) {
      var i :| 0 <= i < |Strace.IGNORED| && StartsWith(f, Strace.IGNORED[i]);
      StartsWithOne(f, Strace.IGNORED, i);
    }
  }

  lemma {:induction false} ContainsMiddle(a: string, sub: string, b: string)
    ensures Contains(a + sub + b, sub)
    decreases |a|
  {
    if a == [] {
      assert a + sub + b == sub + b;
      assert (sub + b)[..|sub|] == sub;
    } else {
      ContainsMiddle(a[1..], sub, b);
      assert (a + sub + b)[1..] == a[1..] + sub + b;
    }
  }

  /** Anything inside a `.git` or `.svn` directory is dropped, whatever
      surrounds it. */
  lemma BlacklistedInsideVcs(a: string, b: string)
    ensures Blacklisted(a + GIT_PATH + b) && Blacklisted(a + SVN_PATH + b)
  {
    ContainsMiddle(a, GIT_PATH, b);
    ContainsMiddle(a, SVN_PATH, b);
  }

  /** `cleanuppath`: a relative directory without its trailing slashes,
      `.` read as the root itself, and a single slash put back. */
  function CleanupPath(x: string): (r: string)
    ensures r == [] || (|r| >= 2 && r[|r| - 1] == '/' && r[|r| - 2] != '/')
    ensures r == [] <==> RStripChar(x, '/') in {"", "."}
    ensures r != [] ==> r == RStripChar(x, '/') + "/"
  {
    var y := RStripChar(x, '/');
    if y == [] || y == "." then [] else y + "/"
  }

  /** `cleanuppath` of an optional directory: `None` stays `None`. */
  function CleanupDir(x: Option<string>): (r: Option<string>)
    ensures r.None? <==> x.None?
    ensures x.Some? ==> r.value == CleanupPath(x.value)
  {
    match x
    case None => None
    case Some(d) => Some(CleanupPath(d))
  }

  lemma RStripSlash(y: string)
    requires y != [] && y[|y| - 1] != '/'
    ensures RStripChar(y + "/", '/') == y
  {
    assert (y + "/")[..|y + "/"| - 1] == y;
  }

  /** A cleaned directory is clean. */
  lemma CleanupPathIdempotent(x: string)
    ensures CleanupPath(CleanupPath(x)) == CleanupPath(x)
  {
    var y := RStripChar(x, '/');
    if y != [] && y != "." {
      RStripSlash(y);
    }
  }

  const PRODUCT_DIR := "<(PRODUCT_DIR)/"

  /** The file lies in the build output directory. */
  predicate InProductDir(productDir: Option<string>, f: string) {
    productDir.Some? && productDir.value != [] && StartsWith(f, productDir.value)
  }

  /** `fix`: a file of the build output becomes relative to
      `<(PRODUCT_DIR)`, any other file relative to the directory of the
      `.gyp` file, keeping a trailing slash. */
  function Fix(productDir: Option<string>, cwdDir: string, cwd: string, f: string): (r: Result<string, PyError>)
    ensures r.Err? <==> !InProductDir(productDir, f) && f == []
    ensures r.Ok? ==> r.value != []
    ensures r.Ok? ==> (StartsWith(r.value, PRODUCT_DIR) <== InProductDir(productDir, f))
  {
    if InProductDir(productDir, f) then
      assert (PRODUCT_DIR + f[|productDir.value|..])[..|PRODUCT_DIR|] == PRODUCT_DIR;
      Ok(PRODUCT_DIR + f[|productDir.value|..])
    else
      var out :- RelPathKeep(f, cwdDir, cwd);
      if out == [] then Ok("./") else Ok(out)
  }

  /** `fix` loses nothing: the build output directory and the rest give the
      file back, and the directory of the `.gyp` file joined with the
      relative path names the same absolute file. */
  lemma FixLeadsBack(productDir: Option<string>, cwdDir: string, cwd: string, f: string)
    requires IsAbs(cwd) && f != []
    ensures InProductDir(productDir, f) ==>
      productDir.value + Fix(productDir, cwdDir, cwd, f).value[|PRODUCT_DIR|..] == f
    ensures !InProductDir(productDir, f) ==>
      NormPath(PathJoin(Root(Comps(AbsPath(cwdDir, cwd))), Fix(productDir, cwdDir, cwd, f).value))
      == Root(Comps(AbsPath(f, cwd)))
  {
    if InProductDir(productDir, f) {
      var pd := productDir.value;
      assert (PRODUCT_DIR + f[|pd|..])[|PRODUCT_DIR|..] == f[|pd|..];
      assert pd + f[|pd|..] == f;
    } else {
      RelPathKeepRoundTrip(f, cwdDir, cwd);
      RelPathKeepNonEmpty(f, cwdDir, cwd);
    }
  }

  /** Outside the build output a directory stays a directory and a file a
      file: the trailing slash survives `fix`. */
  lemma FixKeepsSlash(productDir: Option<string>, cwdDir: string, cwd: string, f: string)
    requires f != [] && !InProductDir(productDir, f)
    ensures EndsWith(Fix(productDir, cwdDir, cwd, f).value, "/") <==> EndsWith(f, "/")
  {
    RelPathKeepNonEmpty(f, cwdDir, cwd);
  }

  /** `posix_relpath` never answers the empty string, so the `./` fallback
      of `fix` is never taken. */
  lemma RelPathKeepNonEmpty(path: string, start: string, cwd: string)
    requires path != []
    ensures RelPathKeep(path, start, cwd).value != []
  {
    RelPathEnd(path, start, cwd);
  }

  /** `fix` over the simplified list, stopping at the first failure. */
  function FixAll(productDir: Option<string>, cwdDir: string, cwd: string, fs: seq<string>): (r: Result<seq<string>, PyError>)
    ensures r.Err? <==> exists i :: 0 <= i < |fs| && Fix(productDir, cwdDir, cwd, fs[i]).Err?
    ensures r.Ok? ==> |r.value| == |fs|
    ensures r.Ok? ==> forall i :: 0 <= i < |fs| ==> Fix(productDir, cwdDir, cwd, fs[i]) == Ok(r.value[i])
  {
    if fs == [] then Ok([])
    else
      var head :- Fix(productDir, cwdDir, cwd, fs[0]);
      var tail := FixAll(productDir, cwdDir, cwd, fs[1..]);
      if tail.Err? then
        var i :| 0 <= i < |fs| - 1 && Fix(productDir, cwdDir, cwd, fs[1..][i]).Err?;
        assert Fix(productDir, cwdDir, cwd, fs[i + 1]).Err?;
        Err(tail.error)
      else
        assert forall i :: 1 <= i < |fs| ==> fs[i] == fs[1..][i - 1];
        Ok([head] + tail.value)
  }

  /** The loop of `relevant_files` before sorting: the tails of the files
      below `root`, and the other files. A file equal to `root` fails the
      assertion. */
  function Partition(files: seq<string>, root: string): (r: Result<(seq<string>, seq<string>), PyError>)
    ensures r.Err? <==> root in files
    ensures r.Err? ==> r.error == AssertionError("")
    ensures r.Ok? ==> forall y :: y in r.value.0 <==> y != [] && root + y in files
    ensures r.Ok? ==> forall f :: f in r.value.1 <==> f in files && !StartsWith(f, root)
  {
    if files == [] then Ok(([], []))
    else
      var f := files[0];
      var rest :- Partition(files[1..], root);
      if StartsWith(f, root) then
        var y := f[|root|..];
        if y == [] then
          assert f == root;
          Err(AssertionError(""))
        else
          assert root + y == f;
          assert forall z :: z in rest.0 + [y] <==> z != [] && root + z in files by {
            forall z ensures z in rest.0 + [y] <==> z != [] && root + z in files {
              if root + z == f {
                assert z == (root + z)[|root|..];
              }
            }
          }
          Ok((rest.0 + [y], rest.1))
      else
        assert forall z :: root + z != f by {
          forall z ensures root + z != f {
            assert (root + z)[..|root|] == root;
          }
        }
        Ok((rest.0, rest.1 + [f]))
  }

  /** `relevant_files(files, root)`: the files below `root`, relative to
      it, and the files elsewhere, each once and sorted. */
  function RelevantFiles(files: seq<string>, root: string): (r: Result<(seq<string>, seq<string>), PyError>)
    ensures r.Err? <==> root in files
    ensures r.Err? ==> r.error == AssertionError("")
    ensures r.Ok? ==> StrictlySorted(r.value.0) && StrictlySorted(r.value.1)
    ensures r.Ok? ==> forall y :: y in r.value.0 <==> y != [] && root + y in files
    ensures r.Ok? ==> forall f :: f in r.value.1 <==> f in files && !StartsWith(f, root)
  {
    var parts :- Partition(files, root);
    Ok((SortedSet(parts.0), SortedSet(parts.1)))
  }

  /** The traced files form a set: the answer does not depend on the order
      or repetition in which the files are listed. */
  lemma RelevantFilesOfSet(a: seq<string>, b: seq<string>, root: string)
    requires forall f :: f in a <==> f in b
    ensures RelevantFiles(a, root) == RelevantFiles(b, root)
  {
    var ra, rb := RelevantFiles(a, root), RelevantFiles(b, root);
    if ra.Ok? {
      SortedUnique(ra.value.0, rb.value.0);
      SortedUnique(ra.value.1, rb.value.1);
    }
  }

  /** Every file of the trace lands in exactly one of the two lists. */
  lemma RelevantFilesCover(files: seq<string>, root: string, f: string)
    requires RelevantFiles(files, root).Ok? && f in files
    ensures StartsWith(f, root) ==> f[|root|..] in RelevantFiles(files, root).value.0
    ensures !StartsWith(f, root) ==> f in RelevantFiles(files, root).value.1
  {
    if StartsWith(f, root) {
      assert f != root;
      assert |f| > |root|;
      assert root + f[|root|..] == f;
    }
  }

  /** The root handed to `relevant_files`: `root_dir` with one trailing
      slash. */
  function RootPrefix(rootDir: string): (r: string)
    ensures EndsWith(r, "/") && r[..|r| - 1] == RStripChar(rootDir, '/')
  {
    var r := RStripChar(rootDir, '/') + "/";
    assert r[..|r| - 1] == RStripChar(rootDir, '/');
    r
  }

  /** A file the `.isolate` can list as such: no trailing slash and no
      space. */
  predicate Trackable(f: string) {
    !EndsWith(f, "/") && ' ' !in f
  }

  function Tracked(fs: seq<string>): (r: seq<string>)
    ensures forall x :: x in r <==> x in fs && Trackable(x)
  {
    if fs == [] then []
    else if Trackable(fs[0]) then [fs[0]] + Tracked(fs[1..])
    else Tracked(fs[1..])
  }

  function Untracked(fs: seq<string>): (r: seq<string>)
    ensures forall x :: x in r <==> x in fs && !Trackable(x)
  {
    if fs == [] then []
    else if !Trackable(fs[0]) then [fs[0]] + Untracked(fs[1..])
    else Untracked(fs[1..])
  }

  /** The two lists split the corrected files: each file goes to exactly
      one of them, as often as it occurs. */
  lemma {:induction false} TrackedSplit(fs: seq<string>)
    ensures multiset(Tracked(fs)) + multiset(Untracked(fs)) == multiset(fs)
  {
    if fs != [] {
      TrackedSplit(fs[1..]);
      assert fs == [fs[0]] + fs[1..];
    }
  }

  function Strings(xs: seq<string>): (r: seq<Json>)
    ensures |r| == |xs| && forall i :: 0 <= i < |xs| ==> r[i] == JStr(xs[i])
  {
    seq(|xs|, (i: nat) requires i < |xs| => JStr(xs[i]))
  }

  /** The `variables` dict: each list under its key, a key only when its
      list is non-empty. */
  function Variables(corrected: seq<string>): (r: seq<Entry>)
    ensures PrettyPrint.KEY_TRACKED in Keys(r) <==> exists f :: f in corrected && Trackable(f)
    ensures PrettyPrint.KEY_UNTRACKED in Keys(r) <==> exists f :: f in corrected && !Trackable(f)
    ensures Keys(r) <= {PrettyPrint.KEY_TRACKED, PrettyPrint.KEY_UNTRACKED}
    ensures DistinctKeys(r)
    ensures PrettyPrint.KEY_TRACKED in Keys(r) ==>
      Lookup(r, PrettyPrint.KEY_TRACKED) == Some(JList(Strings(Tracked(corrected))))
    ensures PrettyPrint.KEY_UNTRACKED in Keys(r) ==>
      Lookup(r, PrettyPrint.KEY_UNTRACKED) == Some(JList(Strings(Untracked(corrected))))
  {
    var tracked := Tracked(corrected);
    var untracked := Untracked(corrected);
    var t := if tracked == [] then [] else [Entry(PrettyPrint.KEY_TRACKED, JList(Strings(tracked)))];
    var u := if untracked == [] then [] else [Entry(PrettyPrint.KEY_UNTRACKED, JList(Strings(untracked)))];
    assert tracked != [] ==> tracked[0] in tracked;
    assert untracked != [] ==> untracked[0] in untracked;
    t + u
  }

  /** Every corrected file is listed under the key its shape selects:
      `KEY_TRACKED` for a trackable file, `KEY_UNTRACKED` otherwise. */
  lemma VariablesList(corrected: seq<string>, f: string)
    requires f in corrected
    ensures var k := if Trackable(f) then PrettyPrint.KEY_TRACKED else PrettyPrint.KEY_UNTRACKED;
      && Lookup(Variables(corrected), k).Some?
      && Lookup(Variables(corrected), k).value.JList?
      && JStr(f) in Lookup(Variables(corrected), k).value.items
  {
    var fs := if Trackable(f) then Tracked(corrected) else Untracked(corrected);
    assert f in fs;
    var i :| 0 <= i < |fs| && fs[i] == f;
    assert Strings(fs)[i] == JStr(f);
  }

  /** The list stored under `k`, or nothing when `k` is absent. */
  function Listed(fields: seq<Entry>, k: string): seq<Json> {
    match Lookup(fields, k)
    case Some(JList(xs)) => xs
    case _ => []
  }

  lemma StringsCons(x: string, xs: seq<string>)
    ensures Strings([x] + xs) == [JStr(x)] + Strings(xs)
  {
    assert forall i :: 0 <= i < |xs| + 1 ==> Strings([x] + xs)[i] == ([JStr(x)] + Strings(xs))[i];
  }

  lemma {:induction false} StringsSplit(fs: seq<string>)
    ensures multiset(Strings(Tracked(fs))) + multiset(Strings(Untracked(fs))) == multiset(Strings(fs))
  {
    if fs != [] {
      var x, rest := fs[0], fs[1..];
      StringsSplit(rest);
      assert fs == [x] + rest;
      StringsCons(x, rest);
      if Trackable(x) {
        assert Tracked(fs) == [x] + Tracked(rest);
        assert Untracked(fs) == Untracked(rest);
        StringsCons(x, Tracked(rest));
      } else {
        assert Untracked(fs) == [x] + Untracked(rest);
        assert Tracked(fs) == Tracked(rest);
        StringsCons(x, Untracked(rest));
      }
    }
  }

  /** The two lists of the `variables` dict together hold every corrected
      file, each as often as it occurs, and nothing else. */
  lemma VariablesPartition(corrected: seq<string>)
    ensures multiset(Listed(Variables(corrected), PrettyPrint.KEY_TRACKED))
          + multiset(Listed(Variables(corrected), PrettyPrint.KEY_UNTRACKED))
         == multiset(Strings(corrected))
  {
    StringsSplit(corrected);
  }
}

=== FILE: unix_name.dfy ===
/** `_UnixName` of the JSON schema compiler's model: lowerCamelCase and
    dotted names to unix_style names.

    The source runs two regular-expression substitutions and then
    replaces '.' by '_' and lower-cases. `SubLowerUpper` and `SubAcronym`
    follow the regular-expression engine: they scan left to right, try the
    pattern at each position and, after a match, resume behind it.
    `InsertLowerUpper` and `InsertAcronym` are the independent reference
    definitions: they insert '_' before every position where the
    respective pattern's boundary lies. The lemmas prove the two agree. */
module UnixName {
  import opened Text

  // ---------------------------------------------------------------------
  // First substitution: re.sub('([a-z])([A-Z])', r'\1_\2', name)

  /** The scan of the first substitution, from position `i`. */
  function SubLowerUpper(s: string, i: nat): string
    decreases |s| - i
  {
    if i >= |s| then []
    else if i + 1 < |s| && IsLower(s[i]) && IsUpper(s[i + 1]) then
      [s[i], '_', s[i + 1]] + SubLowerUpper(s, i + 2)
    else
      [s[i]] + SubLowerUpper(s, i + 1)
  }

  /** A lower-case letter directly before an upper-case one at `j`. */
  predicate LowerUpperCut(s: string, j: int) {
    0 < j < |s| && IsLower(s[j - 1]) && IsUpper(s[j])
  }

  /** Reference: every character of `s[i..]`, with '_' before each cut. */
  function InsertLowerUpper(s: string, i: nat): string
    decreases |s| - i
  {
    if i >= |s| then []
    else if LowerUpperCut(s, i) then ['_', s[i]] + InsertLowerUpper(s, i + 1)
    else [s[i]] + InsertLowerUpper(s, i + 1)
  }

  lemma {:induction false} SubLowerUpperIsInsert(s: string, i: nat)
    requires !LowerUpperCut(s, i)
    ensures SubLowerUpper(s, i) == InsertLowerUpper(s, i)
    decreases |s| - i
  {
    if i < |s| {
      if i + 1 < |s| && IsLower(s[i]) && IsUpper(s[i + 1]) {
        SubLowerUpperIsInsert(s, i + 2);
        assert LowerUpperCut(s, i + 1);
        assert InsertLowerUpper(s, i + 1) == ['_', s[i + 1]] + InsertLowerUpper(s, i + 2);
      } else {
        SubLowerUpperIsInsert(s, i + 1);
      }
    }
  }

  // ---------------------------------------------------------------------
  // Second substitution: re.sub('([A-Z]+)([A-Z][a-z])', r'\1_\2', s1)

  /** Length of the run of upper-case letters starting at `i`. */
  function UpperRun(s: string, i: nat): (n: nat)
    requires i <= |s|
    ensures i + n <= |s|
    ensures forall k :: i <= k < i + n ==> IsUpper(s[k])
    ensures i + n == |s| || !IsUpper(s[i + n])
    decreases |s| - i
  {
    if i < |s| && IsUpper(s[i]) then 1 + UpperRun(s, i + 1) else 0
  }

  /** At `i` the greedy `[A-Z]+` takes the whole run and gives back its last
      letter to `[A-Z]`, which must be followed by `[a-z]`. */
  predicate AcronymMatch(s: string, i: nat)
    requires i <= |s|
  {
    var n := UpperRun(s, i);
    n >= 2 && i + n < |s| && IsLower(s[i + n])
  }

  /** The scan of the second substitution, from position `i`. */
  function SubAcronym(s: string, i: nat): string
    decreases |s| - i
  {
    if i >= |s| then []
    else if AcronymMatch(s, i) then
      var n := UpperRun(s, i);
      s[i..i + n - 1] + "_" + s[i + n - 1..i + n + 1] + SubAcronym(s, i + n + 1)
    else
      [s[i]] + SubAcronym(s, i + 1)
  }

  /** An upper-case letter at `j` between an upper-case one and a
      lower-case one: the start of "Widgets" in "ACMEWidgets". */
  predicate AcronymCut(s: string, j: int) {
    0 < j && j + 1 < |s| && IsUpper(s[j - 1]) && IsUpper(s[j]) && IsLower(s[j + 1])
  }

  /** Reference: every character of `s[i..]`, with '_' before each cut. */
  function InsertAcronym(s: string, i: nat): string
    decreases |s| - i
  {
    if i >= |s| then []
    else if AcronymCut(s, i) then ['_', s[i]] + InsertAcronym(s, i + 1)
    else [s[i]] + InsertAcronym(s, i + 1)
  }

  /** Without a cut in `[i, k)`, the reference copies `s[i..k]` verbatim. */
  lemma {:induction false} InsertAcronymCopies(s: string, i: nat, k: nat)
    requires i <= k <= |s|
    requires forall j :: i <= j < k ==> !AcronymCut(s, j)
    ensures InsertAcronym(s, i) == s[i..k] + InsertAcronym(s, k)
    decreases k - i
  {
    if i < k {
      assert !AcronymCut(s, i);
      assert InsertAcronym(s, i) == [s[i]] + InsertAcronym(s, i + 1);
      InsertAcronymCopies(s, i + 1, k);
      assert s[i..k] == [s[i]] + s[i + 1..k];
      ConcatAssoc([s[i]], s[i + 1..k], InsertAcronym(s, k));
    }
  }

  /** At a cut followed by a lower-case letter, the reference emits
      '_', the cut letter and the lower-case letter. */
  lemma InsertAcronymAtCut(s: string, j: nat)
    requires AcronymCut(s, j)
    ensures InsertAcronym(s, j) == ['_', s[j], s[j + 1]] + InsertAcronym(s, j + 2)
  {
    assert !AcronymCut(s, j + 1);
  }

  /** Inside a matched run no position but the last letter is a cut. */
  lemma NoCutInsideRun(s: string, i: nat, last: nat)
    requires !AcronymCut(s, i)
    requires i <= last < |s|
    requires forall k :: i <= k <= last ==> IsUpper(s[k])
    ensures forall j :: i <= j < last ==> !AcronymCut(s, j)
  {
    forall j | i <= j < last
      ensures !AcronymCut(s, j)
    {
      if j > i {
        assert IsUpper(s[j + 1]);
      }
    }
  }

  /** One match of the scan: the run `s[i..last+1]` followed by a
      lower-case letter. */
  lemma SubAcronymMatchStep(s: string, i: nat)
    requires i < |s| && AcronymMatch(s, i)
    ensures var last := i + UpperRun(s, i) - 1;
      && SubAcronym(s, i) == s[i..last] + ['_', s[last], s[last + 1]] + SubAcronym(s, last + 2)
      && AcronymCut(s, last)
  {
    var n := UpperRun(s, i);
    MatchedRunCut(s, i, n);
    MatchedRunText(s, i, n, SubAcronym(s, i + n + 1));
  }

  /** The last letter of a matched run is a cut. */
  lemma MatchedRunCut(s: string, i: nat, n: nat)
    requires i < |s| && AcronymMatch(s, i) && n == UpperRun(s, i)
    ensures AcronymCut(s, i + n - 1)
  {
    assert IsUpper(s[i + n - 2]) && IsUpper(s[i + n - 1]);
  }

  /** What the scan emits for a matched run of `n` upper-case letters. */
  lemma MatchedRunText(s: string, i: nat, n: nat, tail: string)
    requires 2 <= n && i + n + 1 <= |s|
    ensures s[i..i + n - 1] + "_" + s[i + n - 1..i + n + 1] + tail
         == s[i..i + n - 1] + ['_', s[i + n - 1], s[i + n]] + tail
  {
    assert s[i + n - 1..i + n + 1] == [s[i + n - 1], s[i + n]];
  }

  /** The reference copies a matched run up to its last letter. */
  lemma InsertAcronymRun(s: string, i: nat)
    requires i < |s| && AcronymMatch(s, i) && !AcronymCut(s, i)
    ensures InsertAcronym(s, i) == s[i..i + UpperRun(s, i) - 1] + InsertAcronym(s, i + UpperRun(s, i) - 1)
  {
    var last := i + UpperRun(s, i) - 1;
    NoCutInsideRun(s, i, last);
    InsertAcronymCopies(s, i, last);
  }

  /** At a match both the scan and the reference emit the run with '_'
      before its last letter, then go on behind the lower-case letter. */
  lemma SubAcronymMatchCase(s: string, i: nat)
    requires i < |s| && AcronymMatch(s, i) && !AcronymCut(s, i)
    ensures var last := i + UpperRun(s, i) - 1;
      && SubAcronym(s, i) == s[i..last] + ['_', s[last], s[last + 1]] + SubAcronym(s, last + 2)
      && InsertAcronym(s, i) == s[i..last] + ['_', s[last], s[last + 1]] + InsertAcronym(s, last + 2)
  {
    SubAcronymMatchStep(s, i);
    InsertAcronymMatch(s, i);
  }

  /** At a match the reference emits the run with '_' before its last
      letter, then goes on behind the lower-case letter. */
  lemma InsertAcronymMatch(s: string, i: nat)
    requires i < |s| && AcronymMatch(s, i) && !AcronymCut(s, i)
    ensures var last := i + UpperRun(s, i) - 1;
      InsertAcronym(s, i) == s[i..last] + ['_', s[last], s[last + 1]] + InsertAcronym(s, last + 2)
  {
    var last := i + UpperRun(s, i) - 1;
    MatchedRunCut(s, i, UpperRun(s, i));
    InsertAcronymRun(s, i);
    InsertAcronymAtCut(s, last);
    JoinParts(InsertAcronym(s, i), s[i..last], InsertAcronym(s, last), ['_', s[last], s[last + 1]], InsertAcronym(s, last + 2));
  }

  lemma JoinParts(whole: string, a: string, x: string, m: string, rest: string)
    requires whole == a + x && x == m + rest
    ensures whole == a + m + rest
  {
    ConcatAssoc(a, m, rest);
  }

  /** Where the scan does not match, the next position is no cut either. */
  lemma SubAcronymSkipCase(s: string, i: nat)
    requires i < |s| && !AcronymMatch(s, i) && !AcronymCut(s, i)
    ensures !AcronymCut(s, i + 1)
    ensures SubAcronym(s, i) == [s[i]] + SubAcronym(s, i + 1)
    ensures InsertAcronym(s, i) == [s[i]] + InsertAcronym(s, i + 1)
  {
    if AcronymCut(s, i + 1) {
      assert false;
    }
  }

  lemma {:induction false} SubAcronymIsInsert(s: string, i: nat)
    requires !AcronymCut(s, i)
    ensures SubAcronym(s, i) == InsertAcronym(s, i)
    decreases |s| - i
  {
    if i < |s| {
      if AcronymMatch(s, i) {
        SubAcronymIsInsert(s, i + UpperRun(s, i) + 1);
        SubAcronymMatchCase(s, i);
      } else {
        SubAcronymSkipCase(s, i);
        SubAcronymIsInsert(s, i + 1);
      }
    }
  }

  // ---------------------------------------------------------------------
  // _UnixName

  /** `_UnixName(name)` as the source computes it. */
  function ToUnixName(name: string): (r: string)
    ensures IsUnixName(r)
  {
    Lower(ReplaceChar(SubAcronym(SubLowerUpper(name, 0), 0), '.', '_'))
  }

  predicate IsUnixName(s: string) {
    forall i :: 0 <= i < |s| ==> !IsUpper(s[i]) && s[i] != '.'
  }

  /** The unix_name is lower-case and dot-free. */
  lemma UnixNameIsUnix(name: string)
    ensures IsUnixName(ToUnixName(name))
  {
  }

  /** The name is the reference insertion of '_' at every lower/Upper and
      acronym boundary, then '.' -> '_' and lower-casing. */
  lemma UnixNameByCuts(name: string)
    ensures ToUnixName(name)
         == Lower(ReplaceChar(InsertAcronym(InsertLowerUpper(name, 0), 0), '.', '_'))
  {
    SubLowerUpperIsInsert(name, 0);
    SubAcronymIsInsert(SubLowerUpper(name, 0), 0);
  }

  lemma {:induction false} InsertLowerUpperNoUpper(s: string, i: nat)
    requires i <= |s|
    requires forall k :: 0 <= k < |s| ==> !IsUpper(s[k])
    ensures InsertLowerUpper(s, i) == s[i..]
    decreases |s| - i
  {
    if i < |s| {
      InsertLowerUpperNoUpper(s, i + 1);
      assert s[i..] == [s[i]] + s[i + 1..];
    }
  }

  /** A name that already is a unix_name is returned unchanged, and only
      such a name is. */
  lemma UnixNameFixpoint(name: string)
    ensures ToUnixName(name) == name <==> IsUnixName(name)
  {
    if IsUnixName(name) {
      UnixNameByCuts(name);
      InsertLowerUpperNoUpper(name, 0);
      InsertAcronymCopies(name, 0, |name|);
      assert name[0..|name|] == name;
      assert InsertAcronym(name, |name|) == [];
      var t := ReplaceChar(name, '.', '_');
      assert t == name;
      assert Lower(t) == name;
    } else {
      UnixNameIsUnix(name);
    }
  }

  /** `_UnixName` is idempotent. */
  lemma UnixNameIdempotent(name: string)
    ensures ToUnixName(ToUnixName(name)) == ToUnixName(name)
  {
    UnixNameIsUnix(name);
    UnixNameFixpoint(ToUnixName(name));
  }

  /** An acronym run followed by a capitalised word is split before the
      run's last letter (the source's comment: "ACMEWidgets" becomes
      "acme_widgets"). */
  lemma UnixNameAcronymExample()
    ensures ToUnixName("ABc") == "a_bc"
  {
  }
}

=== FILE: values.dfy ===
/** The value tree the generated marshalling code of the JSON schema
    compiler reads and writes (`base::Value`), and the decoding steps every
    generated `Populate` and `Params::Create` is built from.

    A dictionary is a map: its keys are unique and their order is not
    observable, which is what `Value::Equals` compares. A double is an
    opaque code: nothing is computed on it, it is only carried and
    compared. Decoding is all-or-nothing: a step yields `None` and the
    record being built is dropped. */
module Values {
  import opened Wrappers

  datatype Value =
    | VNull
    | VBool(b: bool)
    | VInt(i: int)
    | VDouble(code: int)
    | VStr(s: string)
    | VList(items: seq<Value>)
    | VDict(entries: map<string, Value>)

  // ---------------------------------------------------------------------
  // Scalars: `GetAsInteger` and friends succeed only on their own tag

  function AsInt(v: Value): (r: Option<int>)
    ensures r.Some? <==> v.VInt?
    ensures r.Some? ==> v == VInt(r.value)
  {
    if v.VInt? then Some(v.i) else None
  }

  function AsBool(v: Value): (r: Option<bool>)
    ensures r.Some? <==> v.VBool?
    ensures r.Some? ==> v == VBool(r.value)
  {
    if v.VBool? then Some(v.b) else None
  }

  function AsDouble(v: Value): (r: Option<int>)
    ensures r.Some? <==> v.VDouble?
    ensures r.Some? ==> v == VDouble(r.value)
  {
    if v.VDouble? then Some(v.code) else None
  }

  function AsString(v: Value): (r: Option<string>)
    ensures r.Some? <==> v.VStr?
    ensures r.Some? ==> v == VStr(r.value)
  {
    if v.VStr? then Some(v.s) else None
  }

  /** An `any` slot takes the value as it is. */
  function AsAny(v: Value): (r: Option<Value>)
    ensures r == Some(v)
  {
    Some(v)
  }

  // ---------------------------------------------------------------------
  // Lists

  /** Every element decoded with `f`, or nothing if one of them fails. */
  function DecodeAll<T>(items: seq<Value>, f: Value -> Option<T>): (r: Option<seq<T>>)
    ensures r.Some? <==> forall k :: 0 <= k < |items| ==> f(items[k]).Some?
    ensures r.Some? ==> |r.value| == |items|
    ensures r.Some? ==> forall k :: 0 <= k < |items| ==> f(items[k]) == Some(r.value[k])
  {
    if items == [] then Some([])
    else
      var x :- f(items[0]);
      var rest :- DecodeAll(items[1..], f);
      assert forall k :: 1 <= k < |items| ==> items[k] == items[1..][k - 1];
      Some([x] + rest)
  }

  /** A list value decoded element by element with `f`. */
  function DecodeList<T>(v: Value, f: Value -> Option<T>): (r: Option<seq<T>>)
    ensures r.Some? <==> ListOf(v, f)
    ensures r.Some? ==> r == DecodeAll(v.items, f)
  {
    if v.VList? then DecodeAll(v.items, f) else None
  }

  /** A list whose every element decodes with `f`. */
  predicate ListOf<T>(v: Value, f: Value -> Option<T>) {
    v.VList? && forall k :: 0 <= k < |v.items| ==> f(v.items[k]).Some?
  }

  /** Every element encoded with `g`, in order. */
  function EncodeAll<T>(xs: seq<T>, g: T -> Value): (r: seq<Value>)
    ensures |r| == |xs|
    ensures forall k :: 0 <= k < |xs| ==> r[k] == g(xs[k])
  {
    if xs == [] then [] else [g(xs[0])] + EncodeAll(xs[1..], g)
  }

  /** Decoding what was encoded gives the elements back. */
  lemma DecodeEncodeAll<T>(xs: seq<T>, f: Value -> Option<T>, g: T -> Value)
    requires forall x :: f(g(x)) == Some(x)
    ensures DecodeAll(EncodeAll(xs, g), f) == Some(xs)
  {
    var r := DecodeAll(EncodeAll(xs, g), f);
    assert r.Some?;
    assert r.value == xs;
  }

  /** The same for a list value. */
  lemma DecodeEncodeList<T>(xs: seq<T>, f: Value -> Option<T>, g: T -> Value)
    requires forall x :: f(g(x)) == Some(x)
    ensures DecodeList(VList(EncodeAll(xs, g)), f) == Some(xs)
  {
    DecodeEncodeAll(xs, f, g);
  }

  /** Encoding what was decoded gives the list back, when the element
      encoding inverts the element decoding. */
  lemma EncodeDecodeAll<T>(items: seq<Value>, f: Value -> Option<T>, g: T -> Value)
    requires DecodeAll(items, f).Some?
    requires forall v :: f(v).Some? ==> g(f(v).value) == v
    ensures EncodeAll(DecodeAll(items, f).value, g) == items
  {
  }

  // ---------------------------------------------------------------------
  // Dictionary fields

  /** A required field: present and decodable. */
  function Required<T>(d: map<string, Value>, key: string, f: Value -> Option<T>): (r: Option<T>)
    ensures r.Some? <==> key in d && f(d[key]).Some?
    ensures r.Some? ==> f(d[key]) == r
  {
    if key in d then f(d[key]) else None
  }

  /** An optional field: absent is `None` inside a success; present must
      decode. */
  function Optional<T>(d: map<string, Value>, key: string, f: Value -> Option<T>): (r: Option<Option<T>>)
    ensures r.Some? <==> key !in d || f(d[key]).Some?
    ensures r == Some(None) <==> key !in d
    ensures r.Some? && r.value.Some? ==> key in d && f(d[key]) == r.value
  {
    if key !in d then Some(None)
    else
      var x :- f(d[key]);
      Some(Some(x))
  }

  /** The optional field written back: present exactly when it is set. */
  function PutOptional<T>(d: map<string, Value>, key: string, x: Option<T>, g: T -> Value): (r: map<string, Value>)
    ensures x.Some? ==> r == d[key := g(x.value)]
    ensures x.None? ==> r == d - {key}
  {
    match x
    case Some(y) => d[key := g(y)]
    case None => d - {key}
  }

  // ---------------------------------------------------------------------
  // Parameter lists

  /** `Params::Create` first checks the argument count: at least the
      required parameters and at most all of them. */
  predicate ArgsFit(args: seq<Value>, required: nat, total: nat) {
    required <= |args| <= total
  }

  /** A positional parameter that must be there. */
  function RequiredArg<T>(args: seq<Value>, i: nat, f: Value -> Option<T>): (r: Option<T>)
    ensures r.Some? <==> i < |args| && f(args[i]).Some?
    ensures r.Some? ==> f(args[i]) == r
  {
    if i < |args| then f(args[i]) else None
  }

  /** A positional parameter that may be left off the end. */
  function OptionalArg<T>(args: seq<Value>, i: nat, f: Value -> Option<T>): (r: Option<Option<T>>)
    ensures r.Some? <==> i >= |args| || f(args[i]).Some?
    ensures r == Some(None) <==> i >= |args|
    ensures r.Some? && r.value.Some? ==> i < |args| && f(args[i]) == r.value
  {
    if i >= |args| then Some(None)
    else
      var x :- f(args[i]);
      Some(Some(x))
  }
}

=== FILE: wrappers.dfy ===
/** Failure-compatible wrappers shared by every module of the project:
    `Option` for values that may be absent (a missing dictionary key, a
    NULL pointer returned by a generated `Create`) and `Result` for
    operations that raise in the source. */
module Wrappers {

  datatype Option<+T> = None | Some(value: T) {
    predicate IsFailure() {
      None?
    }

    function PropagateFailure<U>(): Option<U>
      requires None?
    {
      None
    }

    function Extract(): T
      requires Some?
    {
      value
    }

    function GetOr(default: T): T {
      match this
      case Some(v) => v
      case None => default
    }
  }

  datatype Result<+T, +E> = Ok(value: T) | Err(error: E) {
    predicate IsFailure() {
      Err?
    }

    function PropagateFailure<U>(): Result<U, E>
      requires Err?
    {
      Err(error)
    }

    function Extract(): T
      requires Ok?
    {
      value
    }

    function ToOption(): Option<T> {
      match this
      case Ok(v) => Some(v)
      case Err(_) => None
    }
  }
}
